=== FILE: README.md ===
# Citation Hunt, modelled in Dafny

Citation Hunt shows readers a random paragraph of a Wikipedia article that
carries a "citation needed" tag, so that they can go and find the missing
source. This project models the repository's decision logic. Its
databases, HTTP calls, parsers and timers are replaced by plain inputs.

- **The browser side**:
  - the rate limiter `throttle`;
  - the search bar's request counter and spinner;
  - the article selector's sorted selection;
  - the custom-intersection wizard and its card-history stack;
  - the PetScan id validator.
- **Snippet extraction**:
  - wikicode is an abstract datatype (`Wikicode`);
  - the per-language strip rules (en, de, ru, fr, ja, sv) and the base rules;
  - the marker-aware clean-up and the usable-length filter;
  - the `_fast_parse` token prefilter;
  - the section walk that absorbs deeper subsections;
  - the two legacy extractors (`scripts/snippet_parser.py`, `gather.py`);
  - the `lxml` tree edits;
  - the length statistics.
- **Configuration layering** (`_inherit`, `get_localized_config`):
  - the language tables and their disjointness;
  - the redirect resolution.
- **Offline scripts**:
  - the categorylinks `VALUES` reader, together with a writer it round-trips with;
  - the category graph edges;
  - MediaWiki section anchors;
  - the `parse_live` worker, its exception limit and its batching;
  - the category assignment;
  - the fixed-snippet computation;
  - the category-tree walk.
- **Retry loops**:
  - the MediaWiki API client with `maxlag` and `Retry-After`, and its continuation;
  - the retrying database connection.
- **The Flask handlers**:
  - Citation Hunt routing and the `from_ts` window;
  - the intersection request validator and its dispatch;
  - the leaderboard;
  - the language-code redirect and the per-request connection cache;
  - the stats padding and the spam filter.
- **Both cron schedules.**

Every operation is a function over immutable data. Event-driven code becomes
a state record with step functions:
- JavaScript timers become events on an integer millisecond clock;
- an Ajax or HTTP response becomes an event or an outcome from a sequence.

The browser's URL parser, SHA-1, regular expressions, `mwparserfromhell`,
SQL queries and `datetime.now` are function parameters. Each contract is
stated against a partner:
- an inverse (SQL writer and reader, percent-encoding and decoding, `mkid` and its hex digits);
- an invariant (a sorted selection, a monotone watermark, a history stack);
- or an independent reference definition (a per-character section anchor, a per-node strip).

The module-level functions of `snippet_parser/snippet_parser.py` (`cleanup_snippet`, `fast_parse`, `extract_snippets` and `extract_sections`) are the older twins of the `core.py` methods. They read the global `cfg` and a `SnippetParser()` built without an argument, and are covered by the same `Cleanup`, `FastParse`, `SnippetExtraction` and `SectionExtraction` members.

Behaviours of the code that are easy to miss, which the model keeps:
- The search bar drops a response only when its counter is strictly below the completed watermark (`static/js/search_bar.js:102`). `SearchBar.Respond` uses `<`, not `<=`.
- In `throttle`, the trailing run reads the input field when it fires. Calls at 0, 50 and 900 ms with an 800 ms window therefore give three requests, not two: the third call falls in the window opened by the trailing run at 800 ms. `Throttle.ThreeRunsAt0And50And900` states this.
- `snippet_parser/fr.py` keeps the stripped first parameter of a citation-needed template, whatever its `showkey`. `fr_test.py` expects the base rule instead, and `FrParser` follows `fr.py`.
- `crontab.py` prints the command twice on every line (see Findings).

## Model

| member | source | states |
|---|---|---|
| ArticleSelector.BuildSearchURL | static/js/article_selector.js:8-14 | The URL is `<lang>/search/article?q=…&max_results=…`: the `q` value sits between the path and the limit, decodes back to exactly the UTF-8 of the trimmed input and holds no `&`, `#` or `=`, so the query cannot leak into other parameters |
| ArticleSelector.MaxResultsParamIsMaxResults | static/js/article_selector.js:12 | The result limit sent is the search bar's `MAX_RESULTS` written in decimal |
| ArticleSelector.DataIsInjective | static/js/article_selector.js:45-48 | `data` keeps the title, the snippets and the page id: two results give the same suggestion only when they are the same result |
| ArticleSelector.NewEntryReadsBack | static/js/article_selector.js:94-102 | The `<li>` built for a suggestion reads back its page id from `data-pageid` and its snippet count from `data-snippets` |
| ArticleSelector.GetSelectedArticles | static/js/article_selector.js:51-54 | One value per entry, in list order; a well-formed entry gives its page id, as `parseInt(_, 10)` reads it |
| ArticleSelector.InsertionPoint | static/js/article_selector.js:76-84 | Under the page's `localeCompare` (any comparison), the loop stops at the first entry whose title compares after the new one (none before it does), or at the end of the list |
| ArticleSelector.InsertSorted | static/js/article_selector.js:73-86 | `insertBefore` puts the entry at the insertion point and keeps the entries before and after it, in order; `null` appends |
| ArticleSelector.InsertSortedAddsEntry | static/js/article_selector.js:85 | Insertion adds the entry and loses none (as a multiset) |
| ArticleSelector.InsertKeepsSorted | static/js/article_selector.js:73-86 | For any comparison obeying the collation laws (sign flips with the arguments, `<= 0` is transitive), a list sorted by it stays sorted after insertion |
| ArticleSelector.SortedAround | static/js/article_selector.js:76-85 | An entry placed after every entry that compares no later and before every one that compares no earlier keeps the list sorted |
| ArticleSelector.CodePointCompareIsCollation | static/js/article_selector.js:78-79 | Code-point order is one comparison obeying the collation laws, so the sortedness results apply to it |
| ArticleSelector.Select | static/js/article_selector.js:88-103 | An already selected page id leaves the list as it is; any other suggestion is inserted at its title's position under the comparison |
| ArticleSelector.SelectAddsEntry | static/js/article_selector.js:91-103 | Selecting a new page id adds exactly its entry |
| ArticleSelector.SelectedAfterSelect | static/js/article_selector.js:88-103 | After `selectArticle` the page id is among `getSelectedArticles()` |
| ArticleSelector.SelectKeepsInvariant | static/js/article_selector.js:88-103 | Under any collation, selection keeps the list well formed, sorted by title and free of duplicate page ids |
| ArticleSelector.InsertKeepsDistinct | static/js/article_selector.js:91-103 | Inserting a well-formed entry with a new page id anywhere keeps the list well formed and free of duplicates |
| ArticleSelector.SnippetCounts | static/js/article_selector.js:64-68 | One parsed `data-snippets` per entry; a well-formed entry gives its snippet count |
| ArticleSelector.SumOrNaN | static/js/article_selector.js:63-68 | The running `+=` is a number exactly when every parsed count is (one `NaN` makes the sum `NaN`) |
| ArticleSelector.SnippetsConcat | static/js/article_selector.js:64-68 | The snippet total of two lists joined is the sum of their totals |
| ArticleSelector.SumOfCounts | static/js/article_selector.js:63-68 | Summing the parsed counts of a well-formed list gives its snippet total |
| ArticleSelector.UpdatePreviewSummary | static/js/article_selector.js:62-71 | The summary counts the entries, and on a well-formed list totals their snippets |
| ArticleSelector.TotalOfWellFormed | static/js/article_selector.js:62-71 | A well-formed list never shows `NaN` snippets |
| ArticleSelector.SelectUpdatesSummary | static/js/article_selector.js:88-108 | Selecting a new article adds one article and its snippet count to the summary |
| ArticleSelector.InsertAddsSnippets | static/js/article_selector.js:94-103 | Inserting an entry anywhere adds its snippet count to the total |
| ArticleSelector.RemoveOnClick | static/js/article_selector.js:111-116 | A click elsewhere changes nothing; a click on a remove button drops exactly that entry, keeps the others in order and refreshes the summary |
| ArticleSelector.RemoveDropsEntry | static/js/article_selector.js:111-116 | Removal drops exactly the clicked entry (as a multiset) |
| ArticleSelector.RemoveKeepsInvariant | static/js/article_selector.js:111-116 | Removal keeps the list well formed, sorted and free of duplicates |
| ArticleSelector.SubsequenceKeepsInvariant | static/js/article_selector.js:113 | Dropping one entry keeps well-formedness, order and distinct page ids |
| ArticleSelector.RemoveUndoesSelect | static/js/article_selector.js:88-116 | Removing an article just selected gives the previous list back |
| ArticleSelector.RemoveEventListeners | static/js/article_selector.js:56-60 | Both of the selector's listeners are gone and Awesomplete is destroyed; foreign listeners are untouched |
| ArticleSelector.RemoveEventListenersIdempotent | static/js/article_selector.js:56-60 | Removing the listeners twice is the same as removing them once |
| SearchBar.ForceSearch | static/js/search_bar.js:94-128 | Each search gets a number one above every earlier one and touches no earlier request; the spinner start is scheduled 100 ms later only for a query of at least `minChars` characters |
| SearchBar.Respond | static/js/search_bar.js:101-125 | A response to a request not in flight changes nothing; otherwise a success at or above the watermark (`counter < xhrCompleted` rejects only older ones) replaces the list and raises the watermark, a stale one changes neither, the dropdown is re-evaluated only when focused, the request is marked done with its spinner timer cleared, and only the latest request stops the spinner, throwing when none was started |
| SearchBar.SpinnerTimerFires | static/js/search_bar.js:75-88 | A void or cleared timer changes nothing; a live one creates the spinner unless one exists, spinning it only when its request is not done |
| SearchBar.ApplyKeepsValid | static/js/search_bar.js:94-128 | Every event keeps the controller's invariant (watermark at most the counter, finished requests have no timer) |
| SearchBar.ExecKeepsValid | static/js/search_bar.js:94-128 | Any sequence of events keeps the invariant |
| SearchBar.WatermarkIsMonotone | static/js/search_bar.js:102-108 | `xhrCompleted` never decreases, whatever the order of events |
| SearchBar.LatestResultsStay | static/js/search_bar.js:99-108 | Once the newest request has completed, no later response (without a new search) can replace its results |
| SearchBar.LatestSuccessWins | static/js/search_bar.js:99-110 | When the most recently issued request succeeds, the list ends up as exactly its results, whatever older responses arrive later |
| SearchBar.NoSpinnerAfterCompletion | static/js/search_bar.js:116-120 | A request that completes before its spinner delay never starts the spinner: its timer is cleared, so firing it is void |
| SearchBar.StartedSpinnerSpins | static/js/search_bar.js:81-86 | In a reachable state a spinner started by a timer always spins: the `DONE` test never fails there |
| SearchBar.FastResponseThrows | static/js/search_bar.js:116-124 | As written, the only request of a session answering before the 100 ms spinner delay reaches `spinner.stop()` with `spinner` null, which throws |
| SearchBar.OnAlwaysGuarded | static/js/search_bar.js:116-124 | The evidently intended `always` callback: it marks the request done, clears its timer and, for the latest request, drops the spinner, without throwing |
| SearchBar.GuardedAgreesUnlessThrown | static/js/search_bar.js:116-124 | The guarded callback gives the same state as the code whenever the code does not throw, and throwing happens only when no spinner exists |
| SearchBar.RemoveEventListeners | static/js/search_bar.js:171-175 | The input, click and highlight listeners are removed and every other listener stays; removing twice is removing once |
| Throttle.Call | static/js/search_bar.js:47-65 | A call runs `func` at once exactly when the window is over (or the clock went backwards), then restarts the window with no timer and nothing saved; otherwise nothing runs, the arguments are remembered and a trailing timer for the end of the window is set unless one is pending or `trailing` is off |
| Throttle.Fire | static/js/search_bar.js:41-46 | A firing timer applies `func` to the saved arguments and restarts the window (at 0 when `leading` is off) with no timer and nothing saved; with no timer nothing happens |
| Throttle.Stamp | static/js/search_bar.js:44-59 | Each run is recorded with the time it happened |
| Throttle.SavedAreLatest | static/js/search_bar.js:51-52 | Whatever is saved is always the argument list of the most recent call |
| Throttle.LastCallArgsCons | static/js/search_bar.js:51-52 | The saved arguments after a trace are those of its last call that did not run |
| Throttle.TimerHasArgs | static/js/search_bar.js:45-62 | A pending trailing timer always has arguments to apply `func` to |
| Throttle.TrailingRunUsesLatestArgs | static/js/search_bar.js:41-46 | A trailing run applies `func` to the latest call's arguments, never to null ones |
| Throttle.FirstCallWithoutLeadingWaits | static/js/search_bar.js:49-62 | With `leading: false` the first call runs nothing: it opens the window at `now` and schedules the trailing run `wait` later |
| Throttle.StepKeepsSpacing | static/js/search_bar.js:41-65 | One event on a timely clock keeps every run at least `wait` after the previous one |
| Throttle.RunsAreSpaced | static/js/search_bar.js:36-65 | With a clock that never goes backwards and timers that never fire early, `func` never runs twice within `wait` milliseconds |
| Throttle.InitialRunsAreSpaced | static/js/search_bar.js:36-39 | From the initial state every timely trace has its runs `wait` apart |
| Throttle.ThreeRunsAt0And50And900 | static/js/search_bar.js:131-132 | With the 800 ms interval, calls at 0, 50 and 900 ms run `func` three times: at 0 with the first query, at 800 with the second and at 1600 with the third |
| CustomCards.ExtractPetScanId | static/js/custom.js:117-129 | For a PetScan URL the id is its `psid` query parameter, otherwise the trimmed input; either way it is returned only when it is a non-empty run of ASCII digits |
| CustomCards.BareIdIsKept | static/js/custom.js:117-129 | A bare numeric id typed into the field is sent as it is |
| CustomCards.SubmitPetScan | static/js/custom.js:99-115 | Nothing is sent exactly when the browser supports form validation and no id was found; otherwise the payload carries the extracted id (null included) |
| CustomCards.DropCr | static/js/custom.js:78 | The optional `\r` of `/\r?\n/` is removed from the end of a line, or the line is kept |
| CustomCards.SplitLines | static/js/custom.js:78 | `split(/\r?\n/)` gives as many lines as splitting at `\n` |
| CustomCards.ImportedTitles | static/js/custom.js:76-79 | One title per line, empty lines included |
| CustomCards.CarriageReturnsVanish | static/js/custom.js:78 | After trimming, `\r\n` and `\n` line ends give the same titles |
| CustomCards.CleanLinesRoundTrip | static/js/custom.js:76-79 | Lines that need no trimming come back as typed: joining the titles with `\n` gives the input |
| CustomCards.TrimAllOfTrimmed | static/js/custom.js:78 | Trimming already trimmed lines changes nothing |
| CustomCards.SubmitTitles | static/js/custom.js:75-81 | The import card always sends a `page_titles` payload, one title per line |
| CustomCards.SubmitSelection | static/js/custom.js:154-169 | Nothing is sent exactly when validation is supported and no article is selected; otherwise the selected page ids are sent |
| Wizard.CardNamed | static/js/custom.js:344-352 | The card found for an id has that id |
| Wizard.CardNamedId | static/js/custom.js:344-352 | Every card is found by its own id, so the card ids are distinct |
| Wizard.EndCard | static/js/custom.js:220-226 | Ending a card changes neither the current card nor the history; ending the progress card aborts and forgets the request in flight |
| Wizard.StartCard | static/js/custom.js:181-218 | Starting the progress card with a request records it as in flight; starting it without arguments queues a `back()`; it throws exactly when the progress card gets a response or the created card gets none (lines 234-236 read `response.page_ids`) |
| Wizard.SwitchTo | static/js/custom.js:278-286 | The current card ends, then the named card starts and becomes current; it throws exactly for an unknown id or a start that throws, and then the current card stays what it was |
| Wizard.SetUpButtons | static/js/custom.js:288-297 | Back is shown iff there is history, submit iff the current card has a `submit`; nothing else changes |
| Wizard.Invoke | static/js/custom.js:304-319 | While the lock is held a call is only queued for a zero-delay timer; a call that returns releases the lock, one that throws leaves it held |
| Wizard.Complete | static/js/custom.js:201-217 | The request is forgotten and nothing throws; on an idle wizard the current card is pushed and the created card (response without error and with `page_ids`) or the failed card becomes current; while the lock is held the advance is only queued |
| Wizard.AdvancePushesCurrent | static/js/custom.js:321-327 | `advanceToCard` pushes the current card on the history, ends it, starts the new one and shows the back button |
| Wizard.LandEmptiesHistory | static/js/custom.js:329-333 | `landAtCard` empties the history and hides the back button |
| Wizard.BackPopsHistory | static/js/custom.js:335-339 | `back()` to a card other than the created one pops the most recent card and switches to it; returning to the progress card queues another `back()` |
| Wizard.BackOnEmptyHistoryThrows | static/js/custom.js:335-339 | `back()` with an empty history throws and leaves the lock held |
| Wizard.BackUndoesAdvance | static/js/custom.js:321-339 | Back after an advance that did not throw, from a card other than the created one, returns to the same card with the same history |
| Wizard.BackToCreatedThrows | static/js/custom.js:234-237 | Going back to the created card throws, since its `start` reads `page_ids` of a response it is not handed; the lock stays held and the current card stays |
| Wizard.BackFromEndSkipsProgress | static/js/custom.js:335-339 | Back from the created card passes through the progress card, whose deferred `back()` lands on the card before it |
| Wizard.StuckLockFreezesCards | static/js/custom.js:304-319 | Once a call has thrown the lock is never released: every later call is only queued, so the cards and the history never change again |
| Wizard.CompletionRoutes | static/js/custom.js:201-217 | Completion on an idle wizard at the progress card clears the request, pushes the progress card, ends it without aborting the finished request and moves to the created or the failed card by the response |
| Wizard.CompletionLog | static/js/custom.js:201-226 | Completion logs exactly the end of the progress card and the start of the next card |
| Wizard.LeavingProgressAborts | static/js/custom.js:220-226 | Leaving the progress card aborts the request in flight |
| Wizard.ButtonsFollowState | static/js/custom.js:288-339 | After any call that returns normally the buttons match the history and the current card |
| Wizard.NullSubmitStays | static/js/custom.js:358-364 | A submit that returns `null` leaves the wizard as it is |
| Wizard.SubmitStartsRequest | static/js/custom.js:358-364 | A submitted payload starts a fresh request on the progress card and pushes the submitting card |
| Wizard.Apply | static/js/custom.js:304-364 | One event: only a submit with a payload from a card that has `submit` starts a request (the counter never goes down), a submit with no such card throws, and a finished request is never left in flight |
| Wikicode.Collapse | snippet_parser/core.py:179 | The text `strip_code()` returns never holds three newlines in a row, and neither starts nor ends with a newline |
| Wikicode.CollapseRuns | snippet_parser/core.py:179 | Runs of newlines are shortened so no three remain in a row, keeping the text's first and last characters when they are not newlines |
| Wikicode.CollapseOfCollapsed | snippet_parser/core.py:179 | Text that is already collapsed comes back unchanged |
| Wikicode.CollapseIdempotent | snippet_parser/core.py:179 | Collapsing twice is collapsing once |
| Wikicode.NameMatches | snippet_parser/core.py:27-28 | Names equal once stripped of white space always match, and matching names agree, once stripped, in length and in everything after the first character |
| Wikicode.NameMatchesSymmetric | snippet_parser/core.py:27-28 | Template-name matching does not depend on which side is the template's name |
| Wikicode.TemplateNames | snippet_parser/core.py:173-174 | `filter_templates()` reaches every template, top-level ones included |
| Wikicode.TemplateNamesIn | snippet_parser/core.py:173-174 | A template node's own name is among the names found in it |
| Wikicode.TagNames | snippet_parser/core.py:171-172 | `filter_tags()` reaches every tag, top-level ones included |
| Wikicode.TagNamesIn | snippet_parser/core.py:171-172 | A tag node's own tag is among the tags found in it |
| Wikicode.Sections | snippet_parser/core.py:154-159 | The lead holds no heading and every later section starts with one, so the assertion in the section loop holds |
| Wikicode.HeadedSections | snippet_parser/core.py:154-159 | Every section cut from text that starts at a heading starts with that heading and holds no other |
| Wikicode.SectionsConcat | snippet_parser/core.py:154-155 | The flat sections together are the page's nodes, in order, with nothing lost or repeated |
| Wikicode.HeadedSectionsConcat | snippet_parser/core.py:154-155 | The headed sections together are the nodes they were cut from |
| Wikicode.SectionsRenderToPage | snippet_parser/core.py:154-155 | The rendered sections joined together give the page's wikitext back |
| SnippetRules.StrippedAll | snippet_parser/core.py:34 | Each parameter's `strip_code()`, in order; the first one that raises makes the whole list raise |
| SnippetRules.Sp | snippet_parser/core.py:31-35 | `sp` gives a single string for one parameter and a list of as many strings as parameters otherwise; it raises when a parameter's strip raises |
| SnippetRules.FirstTwoRaw | snippet_parser/fr.py:8 | The first two parameters as written (keys included), joined by a space |
| SnippetRules.Chars | snippet_parser/ja.py:7 | A string handed to `join` is iterated character by character |
| SnippetRules.JoinCharsEmpty | snippet_parser/ja.py:7 | `''.join` of one parameter's stripped text is that text |
| SnippetRules.PositionalTexts | snippet_parser/core.py:78 | The stripped texts of the parameters written without a key, in order; it raises exactly when one of those raises |
| SnippetRules.NamedParamIgnored | snippet_parser/core.py:77-78 | A parameter written `name=value` (such as `date=`) never reaches the snippet, wherever it sits |
| SnippetRules.BaseStripTemplate | snippet_parser/core.py:67-80 | A citation-needed template becomes its positional parameters' text followed by the marker; any other template disappears |
| SnippetRules.BaseStripTag | snippet_parser/core.py:82-96 | `<ref>` becomes the ref marker, `<dt>` nothing, `<dd>` a colon; other tags are left to the library |
| SnippetRules.BaseStripWikilink | snippet_parser/core.py:98-110 | A link whose title starts with a blacklisted prefix disappears; any other is left to the library |
| SnippetRules.BaseStripHeading | snippet_parser/core.py:112-119 | A heading leaves nothing in the stripped text |
| StripCode.StripAll | snippet_parser/core.py:43-56 | With the rules installed, `strip_code()` gives collapsed text (no triple newline, no newline at either end) or the first exception a rule raises |
| StripCode.ParamViews | snippet_parser/core.py:34 | Each parameter is shown to a rule with its key flag and its wikitext as written |
| EnParser.ConvertText | snippet_parser/en.py:5-6 | `{{convert}}` keeps its first two parameters' stripped texts separated by a space; with a single parameter `join` spaces out its characters |
| EnParser.StripTemplate | snippet_parser/en.py:4-9 | `{{convert}}` keeps its first two parameters, a citation-needed template becomes the bare marker, anything else disappears |
| EnParser.SingleParamIsSpacedOut | snippet_parser/en.py:6 | For a one-parameter `{{convert}}`, every character of the text is followed by a space except the last |
| FrParser.StripTemplate | snippet_parser/fr.py:6-14 | The unit template keeps its first two parameters as written; a citation-needed template keeps the stripped text of its first parameter (named or not) before the marker, or the marker alone without parameters; anything else disappears |
| FrParser.FirstParamEvenIfNamed | snippet_parser/fr.py:11-12 | With `date=mai 2011` first, the French rule keeps the date, where the base rule would keep the positional text |
| JaParser.StripTemplate | snippet_parser/ja.py:5-10 | The interlanguage-link template becomes its first parameter's text and raises `IndexError` without one; a citation-needed template becomes the marker; anything else disappears |
| RuParser.FirstParamText | snippet_parser/ru.py:14-20 | The first parameter's text is kept unless `int()` accepts it (a date part); none without parameters |
| RuParser.StripTemplate | snippet_parser/ru.py:6-23 | A citation-needed template becomes the kept text followed by the marker; other templates follow the base class |
| RuParser.DateParamDropped | snippet_parser/ru.py:8-13 | `{{нет АИ|23|01|2017}}`: a numeric first parameter is dropped, leaving the marker alone |
| RuParser.NumericParamDropped | snippet_parser/ru.py:14-21 | Any first parameter that `int()` accepts is dropped, leaving the marker alone |
| RuParser.LaterParamsIgnored | snippet_parser/ru.py:15-16 | Only the first parameter is read: whatever follows it changes nothing |
| SvParser.StripTemplate | snippet_parser/sv.py:4-9 | A citation-needed template becomes the bare marker and is the only template that does; every other template disappears |
| SvParser.ParamsNeverKept | snippet_parser/sv.py:6-8 | No parameter (date, justification) ever reaches the snippet |
| DeParser.StripTemplate | snippet_parser/de.py:7-19 | A citation-needed template is suppressed (no marker at all); infoboxes, taxoboxes and `Überarbeiten` disappear; any other template is kept as wikitext |
| DeParser.StripTag | snippet_parser/de.py:21-28 | `<ref>` becomes the ref marker; `i`, `b`, `li`, `dt` and `dd` are kept as markup around their stripped contents; other tags disappear |
| DeParser.StripHeading | snippet_parser/de.py:30-38 | Headings of level 1 and 2 vanish; deeper ones become their stripped title in bold followed by a blank line |
| DeParser.ItalicsKeepMarkup | snippet_parser/de.py:24-27 | Italic markup survives around its stripped contents |
| LxmlTree.WithTail | snippet_parser/lxml_utils.py:5-6 | Setting a tail changes nothing else of the element |
| LxmlTree.RemoveElement | snippet_parser/lxml_utils.py:1-10 | The element leaves its parent; the children after it move up one place and the ones before it stay (the one before takes the tail) |
| LxmlTree.InnerAround | snippet_parser/lxml_utils.py:1-10 | The parent's text is what comes before the child, the child itself, its tail and what comes after |
| LxmlTree.RemoveElementKeepsSurroundingText | snippet_parser/lxml_utils.py:1-10 | Removing an element takes exactly its own text out of the parent's text: its tail stays where it was |
| LxmlTree.TailMovedToPrevious | snippet_parser/lxml_utils.py:3-6 | When there is a previous sibling, the tail moves to it and the surrounding text is unchanged |
| LxmlTree.StripSpaceBefore | snippet_parser/lxml_utils.py:12-21 | The text just before the element (the previous sibling's tail, or the parent's text) loses its trailing white space; nothing else changes |
| LengthStats.MergeTwo | snippet_parser/stats.py:9-11 | Adding one parser's counts gives every length of either, with the two counts summed |
| LengthStats.MergeStatsSums | snippet_parser/stats.py:7-12 | The merged statistics hold exactly the lengths some input recorded, each with the sum of its counts; no inputs give an empty result |
| LengthStats.TotalCountSnoc | snippet_parser/stats.py:9-11 | The total for a length grows by the last input's count |
| LengthStats.Threshold | snippet_parser/stats.py:16 | The threshold is the exact product `p * total` divided by 100 and truncated toward zero, and lies between 0 and the total for `0 <= p <= 100` (the source's floating-point product can be one lower; see Left out) |
| LengthStats.Scan | snippet_parser/stats.py:17-21 | The loop stops, if at all, at a position of the sorted lengths |
| LengthStats.ScanFindsFirst | snippet_parser/stats.py:17-21 | The loop stops at the first length whose running count reaches the threshold, or at none when no count does |
| LengthStats.PercentileIsFirstReaching | snippet_parser/stats.py:14-22 | The percentile is the smallest length whose running count reaches the threshold, and 0 when none does or the distribution is empty |
| LengthStats.PercentileZero | snippet_parser/stats.py:16-20 | With `p = 0` a non-empty distribution gives its smallest length |
| LengthStats.PrefixSumMonotone | snippet_parser/stats.py:17-21 | Running counts never decrease along the sorted lengths |
| LengthStats.PercentileRecorded | snippet_parser/stats.py:14-21 | For `0 <= p <= 100` a non-empty distribution gives one of its own lengths |
| Cleanup.SpaceRun | snippet_parser/core.py:24-25 | `\s+` takes the whole run of white space at that point, and no more |
| Cleanup.MarkerLength | snippet_parser/core.py:24-25 | The alternation matches a whole marker at that point |
| Cleanup.DropSpaceBeforeMarkers | snippet_parser/core.py:276 | The first rewrite never lengthens the text |
| Cleanup.DropCommaBeforeParen | snippet_parser/core.py:277 | The comma rewrite never lengthens the text |
| Cleanup.DropEmptyPair | snippet_parser/core.py:278-279 | The empty-pair rewrites never lengthen the text |
| Cleanup.CleanupSnippet | snippet_parser/core.py:275-280 | The cleanup never lengthens the snippet |
| Cleanup.Kept | snippet_parser/core.py:275-280 | The characters outside a class, in order, never outnumber the text's |
| Cleanup.KeptAppend | snippet_parser/core.py:275-280 | Keeping the characters outside a class distributes over concatenation |
| Cleanup.KeptAllInClass | snippet_parser/core.py:275-280 | A text made only of class characters keeps nothing |
| Cleanup.KeptWiden | snippet_parser/core.py:275-280 | Erasing a class and then a wider one is erasing the wider one |
| Cleanup.KeptAgreeWiden | snippet_parser/core.py:275-280 | Two texts that agree outside a class agree outside any wider one |
| Cleanup.DropSpaceDeletesOnlySpace | snippet_parser/core.py:276 | The marker rewrite deletes white space and nothing else |
| Cleanup.SpaceBeforeMarkerDropped | snippet_parser/core.py:276 | White space right before a marker disappears and the marker stays |
| Cleanup.MarkerAtFront | snippet_parser/core.py:24-25 | A marker at the front is matched as a whole |
| Cleanup.SpaceElsewhereKept | snippet_parser/core.py:276 | White space followed by neither a marker nor more space is kept |
| Cleanup.SpaceRunOver | snippet_parser/core.py:24-25 | A run of white space ends where the white space ends |
| Cleanup.DropCommaDeletesOnlyCommaAndSpace | snippet_parser/core.py:277 | The comma rewrite deletes only commas, white space and the parenthesis it replaces by one |
| Cleanup.CommaBeforeParenDropped | snippet_parser/core.py:277 | A comma followed by white space and `)` becomes the `)` |
| Cleanup.DropEmptyPairDeletesOnlyPairAndSpace | snippet_parser/core.py:278-279 | The empty-pair rewrites delete only brackets and white space |
| Cleanup.EmptyPairDropped | snippet_parser/core.py:278-279 | `()` or `[]` followed by one white-space character disappear with it |
| Cleanup.UStripDeletesOnlySpace | snippet_parser/core.py:276 | The strip removes white space from the ends only: what it removes is cleanable and every other character survives |
| Cleanup.LStripKept | snippet_parser/core.py:276 | Stripping the leading white space keeps every cleanable-free character, in order |
| Cleanup.RStripKept | snippet_parser/core.py:276 | Stripping the trailing white space keeps every cleanable-free character, in order |
| Cleanup.CleanupDeletesOnlyCleanable | snippet_parser/core.py:275-280 | The whole cleanup deletes nothing but white space, commas, brackets and parentheses: every other character survives, in order |
| Cleanup.TextLength | snippet_parser/core.py:189-194 | The characters outside markers never outnumber the snippet's |
| Cleanup.CountSkip | snippet_parser/core.py:189-194 | A prefix in which the marker never starts does not change `count` |
| Cleanup.NoRefMarkerInsideCitationNeeded | snippet_parser/core.py:21-22 | The ref marker cannot start inside the citation-needed marker |
| Cleanup.NoCitationNeededInsideRefMarker | snippet_parser/core.py:21-22 | The citation-needed marker cannot start inside the ref marker |
| Cleanup.UsableLengthIsTextLength | snippet_parser/core.py:189-194 | The usable length (length less the markers' share of `count`) is the number of characters outside markers |
| Cleanup.UsableLengthWithoutMarkers | snippet_parser/core.py:189-194 | Without markers the usable length is the length |
| Cleanup.TextLengthWithoutMarkers | snippet_parser/core.py:189-194 | Without markers every character counts |
| FastParse.LowerNames | snippet_parser/core.py:59-60 | The citation-needed names lower-cased, one for one |
| FastParse.NextHeadingStart | snippet_parser/core.py:297-302 | The next section boundary is the first `HeadingStart` at or after the position |
| FastParse.TokenSections | snippet_parser/core.py:297-302 | Each section is non-empty, starts with a `HeadingStart` (the first may be the lead) and holds no other |
| FastParse.TokenSectionsConcat | snippet_parser/core.py:297-302 | The sections put back together are the token stream |
| FastParse.KeptSectionsAll | snippet_parser/core.py:294-309 | When every section holds a citation-needed template nothing is cut |
| FastParse.KeptSectionsNone | snippet_parser/core.py:294-309 | A stream without any citation-needed template reduces to nothing |
| FastParse.KeptSectionsAppend | snippet_parser/core.py:294-309 | Keeping sections distributes over a split of the section list |
| FastParse.TokenSectionsAppend | snippet_parser/core.py:297-302 | Cutting distributes over a boundary that falls before a `HeadingStart` |
| FastParse.NextHeadingStartPrefix | snippet_parser/core.py:297-302 | The boundary search does not look past the next `HeadingStart` |
| FastParse.OneSection | snippet_parser/core.py:297-302 | A stretch with no later `HeadingStart` is one section |
| FastParse.HasPairSnoc | snippet_parser/core.py:306-309 | The flag is the `or` of the `TemplateOpen`-then-name test over consecutive token pairs |
| FastParse.FlushSection | snippet_parser/core.py:298-302 | At a boundary, the finished section is appended when it had a citation-needed template |
| FastParse.ReduceTokens | snippet_parser/core.py:282-309 | The loop keeps exactly the sections, cut at each `HeadingStart` with the sentinel appended, that hold a `TemplateOpen` followed by text naming a citation-needed template |
| FastParse.ParseForSnippets | snippet_parser/core.py:150-153 | The tree is the fast parse, or the full parse when the builder raised |
| SnippetExtraction.Judge | snippet_parser/core.py:165-197 | One paragraph's verdict: a blacklisted tag or template skips it; a kept snippet carries the marker and has a usable length between the bounds; requeued lines hold no newline |
| SnippetExtraction.JudgeKeepsOnlyAcceptable | snippet_parser/core.py:185-197 | Whatever paragraph is judged, a kept snippet is acceptable |
| SnippetExtraction.Drain | snippet_parser/core.py:164-183 | Every snippet the paragraph loop keeps is the kept verdict of some paragraph; an empty queue keeps nothing |
| SnippetExtraction.DrainKeepsOnlyAcceptable | snippet_parser/core.py:164-197 | Every snippet kept from the growing paragraph list is acceptable |
| SnippetExtraction.DrainFuelIrrelevant | snippet_parser/core.py:164-183 | Once the loop has run out its list, more steps change nothing |
| SnippetExtraction.DrainWithoutRequeues | snippet_parser/core.py:164-197 | Without list paragraphs the loop keeps exactly the kept verdicts, in paragraph order |
| SnippetExtraction.DrainStep | snippet_parser/core.py:164-183 | One pass of the loop on a paragraph that does not raise: its kept snippet, if any, comes first and its split lines join the end of the list |
| SnippetExtraction.KeptInOrderStep | snippet_parser/core.py:164-197 | The kept verdicts of a list, in order, are the first paragraph's followed by the rest's |
| SnippetExtraction.DrainPass | snippet_parser/core.py:164-183 | Working through a run of paragraphs that do not raise emits their kept snippets in order and leaves the rest of the list followed by all their split lines, in the order `extend` appended them |
| SnippetExtraction.DrainOkCovers | snippet_parser/core.py:164-183 | A loop that finishes has judged every paragraph of its list within its steps, and none of them raised |
| SnippetExtraction.KeptInOrderAppend | snippet_parser/core.py:164-197 | The kept verdicts of two lists one after the other are those of the first followed by those of the second |
| SnippetExtraction.DrainKeepsVisited | snippet_parser/core.py:163-197 | Completeness: a finished loop returns exactly the kept verdicts of the paragraphs it visits (the section's paragraphs, then the lines they split into, appended in order, and so on), in visiting order |
| SnippetExtraction.SectionsSnippets | snippet_parser/core.py:157-197 | One entry per section, titled after its heading (the lead untitled), whose snippets are exactly what the paragraph loop keeps from that section's blank-line paragraphs; the whole fails exactly when one section's loop fails |
| SnippetExtraction.ExtractSnippets | snippet_parser/core.py:132-198 | One entry per section of the (fast or full) parse, the lead first and untitled, later titles the stripped heading titles, each section's snippets exactly what the paragraph loop keeps from its paragraphs, every snippet acceptable; it fails exactly when some section's loop fails |
| SnippetExtraction.ExtractSnippetsKeepsVisited | snippet_parser/core.py:132-198 | Each section's snippets are exactly the kept verdicts of the paragraphs its loop visits, in visiting order |
| SectionExtraction.Marks | snippet_parser/core.py:230-235 | A section is marked exactly when it holds a citation-needed template |
| SectionExtraction.Levels | snippet_parser/core.py:225 | The lead has no level (infinite); every other section has its heading's level |
| SectionExtraction.GroupEnd | snippet_parser/core.py:240-246 | The consumption stops at the first later section not deeper than the opener, or at the end |
| SectionExtraction.Groups | snippet_parser/core.py:219-246 | The groups are non-empty ranges, the first starting at the given section and the last ending at the end |
| SectionExtraction.GroupsContiguous | snippet_parser/core.py:219-246 | Each group ends where the next starts |
| SectionExtraction.GroupShape | snippet_parser/core.py:228-246 | An unmarked section is a group of one; a marked one absorbs exactly the deeper sections that follow it |
| SectionExtraction.GroupsCover | snippet_parser/core.py:219-246 | Every section lies in some group |
| SectionExtraction.GroupsWithoutCitationNeeded | snippet_parser/core.py:230-235 | Without citation-needed templates every section is a group of one |
| SectionExtraction.SingleGroup | snippet_parser/core.py:233-235 | An unmarked section is a group of one followed by the groups of the rest |
| SectionExtraction.LeadStandsAlone | snippet_parser/core.py:225-242 | The lead (level infinite) absorbs no section |
| SectionExtraction.DropLeading | snippet_parser/core.py:256-260 | `dropwhile` removes exactly the longest prefix of elements that satisfy the test (for `extract_sections`: empty, template or newline-only nodes) |
| SectionExtraction.DropTrailing | snippet_parser/core.py:261-262 | The reversed `dropwhile` removes exactly the longest suffix of elements that satisfy the test |
| SectionExtraction.TrimEdges | snippet_parser/core.py:255-262 | The result is a stretch of the nodes whose ends are neither empty, nor templates, nor newlines only, and everything cut off from either end is empty, a template or newlines only |
| SectionExtraction.ShortSnippetUncut | snippet_parser/core.py:267 | Ten paragraphs or fewer with no blanks at their ends pass through unchanged |
| SectionExtraction.GroupSnippet | snippet_parser/core.py:248-272 | A group yields at most one snippet, never the empty string, and an empty group yields none |
| SectionExtraction.GroupEntries | snippet_parser/core.py:219-272 | One entry per group, titled after its first section; an unmarked group has no snippet |
| SectionExtraction.ExtractSections | snippet_parser/core.py:200-273 | One entry per group of the full parse's sections, the lead first and untitled |
| SectionExtraction.ExtractSectionsWithoutCitationNeeded | snippet_parser/core.py:200-273 | A page without citation-needed templates gives one empty entry per section |
| SectionExtraction.EntriesWithoutCitationNeeded | snippet_parser/core.py:230-235 | Unmarked groups never fail |
| LegacyRules.ScriptsStripTemplate | scripts/snippet_parser.py:26-28 | A template matching `convert` becomes its first two parameters joined by a space; any other template leaves nothing |
| LegacyRules.ScriptsStripTag | scripts/snippet_parser.py:31-34 | A `ref` tag becomes the reference marker; any other tag strips as the library would |
| LegacyRules.ScriptsStripWikilink | scripts/snippet_parser.py:40-43 | A link whose title starts with `File:` leaves nothing; any other link strips as the library would |
| LegacyRules.GatherStripTemplate | gather.py:21-23 | Only a template named exactly `convert` keeps its first two parameters |
| LegacyRules.GatherStripTag | gather.py:26-29 | A `ref` tag leaves nothing; any other tag strips as the library would |
| LegacyExtraction.Marked | scripts/snippet_parser.py:79 | Inserting markers before templates only adds nodes |
| LegacyExtraction.MarkedLength | scripts/snippet_parser.py:70-79 | One marker node is inserted per flagged template |
| LegacyExtraction.MarkedWithoutMarks | scripts/snippet_parser.py:70-79 | With no flag set the paragraph is unchanged |
| LegacyExtraction.UnmarkedMarked | scripts/snippet_parser.py:79 | Removing the inserted markers gives back the paragraph |
| LegacyExtraction.Decide | scripts/snippet_parser.py:70-79 | The loop decides one flag per node and never revisits an earlier one |
| LegacyExtraction.DecideQualifies | scripts/snippet_parser.py:70-79 | A flag is set exactly when the node is a citation-needed template and the stripped length, with the earlier markers already inserted, lies between the bounds |
| LegacyExtraction.Decisions | scripts/snippet_parser.py:70-79 | The same, for the whole paragraph from the start |
| LegacyExtraction.NoCitationNeededNoMarker | scripts/snippet_parser.py:70-79 | A paragraph without `Citation needed` or `cn` templates gets no marker |
| LegacyExtraction.ScriptsParagraph | scripts/snippet_parser.py:67-85 | A paragraph yields a snippet only if the marker survives the strip |
| LegacyExtraction.ScriptsParagraphs | scripts/snippet_parser.py:67-85 | The kept paragraphs are at most as many as the paragraphs, each carrying the marker |
| LegacyExtraction.ScriptsSections | scripts/snippet_parser.py:60-85 | One entry per section, titled after its heading, every snippet carrying the marker |
| LegacyExtraction.ScriptsExtractSnippets | scripts/snippet_parser.py:51-86 | The assertion fails exactly when the sections do not render back to the text; otherwise one entry per section, the lead untitled, every snippet carrying the marker |
| LegacyExtraction.GatherSnippets | gather.py:45-57 | One snippet per flagged template of the paragraph |
| LegacyExtraction.GatherParagraph | gather.py:42-57 | A paragraph with the fixed bounds 140 and 420 yields one snippet per qualifying citation-needed template |
| LegacyExtraction.GatherExtractSnippets | gather.py:38-59 | No paragraphs, no snippets |
| LegacyExtraction.GatherCountsQualifyingTemplates | gather.py:38-59 | The page yields exactly one snippet per template that qualified when its turn came, over all paragraphs |
| Utils.Zip | utils.py:50 | `izip` pairs position by position |
| Utils.PairWithNext | utils.py:39-50 | An empty input raises (the `next` on an exhausted copy); otherwise one pair per element |
| Utils.PairWithNextPairs | utils.py:39-50 | Each element is paired with its successor, the last with the first |
| Utils.PairWithNextChains | utils.py:39-50 | The pairs form a cycle: each pair's second half is the next pair's first |
| Utils.Ichunk | utils.py:52-57 | A negative size raises (`islice`); size zero yields no chunk |
| Utils.IchunkConcat | utils.py:52-57 | For a positive size the chunks put back together are the input |
| Utils.IchunkSizes | utils.py:52-57 | Every chunk is non-empty and all but the last hold exactly `size` elements |
| Utils.LowerHexDigit | utils.py:21 | `hexdigest` writes lower-case digits that read back as the nibble |
| Utils.HexDigest | utils.py:21 | Two digits per byte |
| Utils.HexDigestDecodes | utils.py:21 | Each pair of digits reads back as its byte, high nibble first |
| Utils.Mkid | utils.py:20-21 | The identifier is eight lower-case hexadecimal digits |
| Utils.HexDigestDigit | utils.py:21 | Every digit is a lower-case hexadecimal digit |
| Utils.MkidSpellsDigest | utils.py:20-21 | The identifier spells the first four bytes of the digest |
| Configuration.Inherit | config.py:1338-1347 | The merge fails exactly when a shared key holds a list in the child and a non-list in the base, or a dictionary in the child and a non-dictionary in the base (a base that is a sequence of pairs is left out); otherwise it holds both sets of keys and unshared entries unchanged |
| Configuration.InheritShared | config.py:1341-1346 | On a shared key lists are concatenated base first, dictionaries merged with the child's entries winning, and any other value replaced by the child's |
| Configuration.InheritIdentity | config.py:1338-1347 | An empty base or child changes nothing |
| Configuration.MergeValueAssociative | config.py:1341-1346 | Merging one value is associative where both groupings succeed |
| Configuration.InheritAssociative | config.py:1372-1373 | Reducing the three dictionaries in either grouping gives the same configuration |
| Configuration.Lookup | config.py:1371 | A code is found exactly when the table has it, with one of its dictionaries |
| Configuration.LocalizedConfig | config.py:1367-1375 | An absent code falls back to the environment; an unknown code raises; for a known one the merge of global, base and language fails exactly when a layer clashes, the language already sets `lang_code` or a language lacks its name; otherwise the keys are those of the three dictionaries plus `lang_code` and the names table, `lang_code` is the code, the names table is the codes' names and every other value is the merged one |
| Configuration.LangNames | config.py:1349-1352 | One name per code, its `lang_name`; a dictionary without one raises |
| Configuration.AcceptLanguages | config.py:1354-1357 | One locale list per language |
| Configuration.ElementsSize | config.py:1361-1363 | A list's set is no larger than the list, and as large exactly when it has no repeats |
| Configuration.UnionAllMembers | config.py:1362 | The union holds exactly the members of some list |
| Configuration.UnionSizeIffDisjoint | config.py:1361-1363 | The union is no larger than the summed lengths, and as large exactly when the lists are duplicate-free and pairwise disjoint |
| Configuration.AcceptLanguageCheckIffDisjoint | config.py:1358-1363 | The module-level assertion passes exactly when no locale is claimed twice |
| Configuration.RedirectNames | config.py:1318-1323 | The names after the first colon of the redirect titles that have one |
| Configuration.PageRedirectNames | config.py:1317-1323 | The same over all pages of a response |
| Configuration.ResolveRedirects | config.py:1305-1324 | The result holds exactly the original templates and the names of redirects to them |
| SqlValues.PySlice | scripts/parse_catlinks.py:49 | Python slicing: in-range bounds slice as written; `[1:-1]` drops the first and last characters and is empty below two characters |
| SqlValues.ParseTuple | scripts/parse_catlinks.py:46-49 | A tuple reads as the page id before its first comma, which the text starts with followed by `,'` |
| SqlValues.Turn | scripts/parse_catlinks.py:38-51 | A turn either moves strictly forward to the next `(` or is the last one, which needs the text to end with `);` |
| SqlValues.ParseFrom | scripts/parse_catlinks.py:33-52 | A successful read yields at least one row and the text ends with `);` |
| SqlValues.UnsourcedIds | scripts/extract_unsourced_pageids.py:30-31 | Only page ids of rows in the unsourced-statements category are kept |
| SqlValues.UnsourcedPageIds | scripts/extract_unsourced_pageids.py:12-33 | The filtering reader fails exactly when the plain reader does |
| SqlValues.UnsourcedIdsExact | scripts/extract_unsourced_pageids.py:30-31 | A page id is kept as often as it has rows in the unsourced-statements category |
| SqlSteps.TurnAtLast | scripts/parse_catlinks.py:40-44 | At the last tuple no `),(` is found and the `);` ending the text closes it |
| SqlSteps.ParseLast | scripts/parse_catlinks.py:37-52 | The last tuple reads as its row alone |
| SqlSteps.TurnBeforeNext | scripts/parse_catlinks.py:40-51 | A tuple followed by `),(` ends there and the next turn starts at the following `(` |
| SqlSteps.ParseMore | scripts/parse_catlinks.py:37-52 | A tuple followed by more reads as its row followed by the rest |
| SqlRoundTrip.RowsOf | scripts/parse_catlinks.py:50 | One row per tuple, its page id and category name |
| SqlRoundTrip.ParseTupleText | scripts/parse_catlinks.py:46-49 | A readable tuple's text reads back as its page id and category name |
| SqlRoundTrip.ParseFromWritten | scripts/parse_catlinks.py:33-52 | The reader started at any written run of tuples reads them all back, in order |
| SqlRoundTrip.ParseValuesWritten | scripts/parse_catlinks.py:33-52 | Reading the `VALUES` text written for readable tuples gives back their rows: the round trip |
| CatLinks.FirstInsert | scripts/parse_catlinks.py:59-61 | The header skip stops at the first `INSERT` line, or the last line when there is none |
| CatLinks.RunLength | scripts/parse_catlinks.py:63-65 | The run of `INSERT` lines stops at the first line that is not one |
| CatLinks.ValueStringsFor | scripts/parse_catlinks.py:55-67 | Reading fails only on an empty file, where the loop variable is never bound |
| CatLinks.ValueStrings | scripts/parse_catlinks.py:55-67 | The same for the `categorylinks` statements |
| CatLinks.ValueStringsForRun | scripts/parse_catlinks.py:55-67 | The values are the stripped tails of the first run of lines with the prefix, no earlier line having it |
| CatLinks.ValueStringsRun | scripts/parse_catlinks.py:55-67 | The values are those of the first run of `INSERT` lines |
| CatLinks.NoneBeginNoValues | scripts/parse_catlinks.py:59-65 | Without a line carrying the prefix nothing is read |
| CatLinks.NoInsertNoValues | scripts/parse_catlinks.py:59-65 | A dump without `INSERT` lines gives no values |
| CatLinks.UnsourcedInValues | scripts/parse_catlinks.py:74-88 | The printing run succeeds exactly when every value string reads |
| CatLinks.UnsourcedInValuesMembers | scripts/parse_catlinks.py:84-88 | A page id is printed exactly when some value string holds a row for it in the unsourced-statements category |
| CatLinks.NormalisedName | scripts/parse_catlinks.py:95-96 | A name without the `Category:` prefix fails the assertion; otherwise the prefix goes and spaces become underscores |
| CatLinks.NormalisedNameInverse | scripts/parse_catlinks.py:95-96 | For names without underscores, putting the prefix back and underscores back to spaces gives the name |
| CatLinks.CatIndex | scripts/parse_catlinks.py:92-97 | Building the index fails exactly when some name lacks the prefix |
| CatLinks.CatIndexLastWins | scripts/parse_catlinks.py:97 | Each normalised name maps to the id of the last row bearing it |
| CatLinks.CatIndexKeys | scripts/parse_catlinks.py:92-97 | Every key is the normalised name of some row |
| CatLinks.Edges | scripts/parse_catlinks.py:100-108 | At most one edge per row |
| CatLinks.EdgesOfRows | scripts/parse_catlinks.py:100-108 | An edge is in the graph exactly when some row links its page to a category with that id; rows whose category has no id add nothing |
| SectionAnchor.SectionNameToAnchor | scripts/parse_live.py:58-67 | No `%` survives in an anchor |
| SectionAnchor.Dotted | scripts/parse_live.py:64-66 | Each escaped byte takes three characters |
| SectionAnchor.EscapeAllNotColon | scripts/parse_live.py:64-65 | Bytes other than `:` never produce a `%3A` for the colon fix-up to undo |
| SectionAnchor.DottedIsEscapes | scripts/parse_live.py:64-66 | Turning `%` into `.` over percent escapes gives their dotted form |
| SectionAnchor.AnchorStep | scripts/parse_live.py:58-67 | The anchor is built one heading character at a time |
| SectionAnchor.SectionNameToAnchorPerChar | scripts/parse_live.py:58-67 | The four passes equal the per-character reference: safe characters kept, space to `_`, `:` kept, every other character its UTF-8 bytes as `.XY` |
| SectionAnchor.SafeHeadingUnchanged | scripts/parse_live.py:58-67 | A heading of always-safe characters is its own anchor |
| SectionAnchor.AnchorHasNoSpace | scripts/parse_live.py:61 | No space survives in an anchor |
| ParseLive.Guard | scripts/parse_live.py:182-192 | A call that returns passes its value through; one that raises adds one to the count and is re-raised exactly when the count then exceeds five |
| ParseLive.RunWorker | scripts/parse_live.py:182-192 | One result per task, a value exactly for the tasks that returned |
| ParseLive.ReraisedIff | scripts/parse_live.py:189-191 | A task's exception is re-raised exactly when it raised and the failures so far exceed the limit |
| ParseLive.RaisesIff | scripts/parse_live.py:182-192 | A worker re-raises some exception exactly when it saw more than five in all |
| ParseLive.ExitCode | scripts/parse_live.py:253-258 | The exit code is 0 or 1 |
| ParseLive.ExitCodeFails | scripts/parse_live.py:245-258 | The run returns 1 exactly when some worker process saw more than five exceptions |
| ParseLive.Converted | scripts/parse_live.py:209-213 | Without HTML snippets a snippet is kept as it is; with them it is kept converted exactly when its length lies strictly between the bounds |
| ParseLive.SectionRows | scripts/parse_live.py:209-216 | A section gives at most one row per snippet, each for the page and the section's anchor |
| ParseLive.SnippetRows | scripts/parse_live.py:207-216 | Every snippet row of a page carries its page id |
| ParseLive.SectionRowsMembers | scripts/parse_live.py:209-216 | A row belongs to a section exactly when it is built from one of its kept snippets |
| ParseLive.SnippetRowsMembers | scripts/parse_live.py:207-216 | A row belongs to the page exactly when it comes from a kept snippet of one of its sections |
| ParseLive.SnippetRowShape | scripts/parse_live.py:208-215 | Every row's HTML length is within the bounds, its id is `mkid(title + snippet)` and its section anchor holds no `%` |
| ParseLive.ArticleUrl | scripts/parse_live.py:199 | The article URL is the wiki URL followed by the title with spaces turned into underscores |
| ParseLive.PageRowsOf | scripts/parse_live.py:198-220 | A page gets an entry exactly when it has snippet rows, with its article row and those rows |
| ParseLive.WorkRows | scripts/parse_live.py:195-220 | At most one entry per page, each with snippet rows of that page |
| ParseLive.WorkRowsMembers | scripts/parse_live.py:195-220 | An entry is in the batch exactly when it is some page's |
| ParseLive.BatchesFrom | scripts/parse_live.py:242-243 | Every batch holds between one and `size` ids |
| ParseLive.BatchesFromAreChunks | scripts/parse_live.py:242-243 | Stepping by `size` cuts the same chunks as `ichunk` |
| ParseLive.BatchesPartition | scripts/parse_live.py:238-243 | The batches concatenated are the id list, each of at most 32 ids and exactly 32 but for the last |
| AssignCategories.CategoryName | scripts/assign_categories.py:40-44 | A text is accepted exactly when it is canonical (no `Category:` prefix, no underscore), and kept as it is |
| AssignCategories.DropPrefix | scripts/assign_categories.py:49-50 | One leading prefix removed when present, the text unchanged otherwise |
| AssignCategories.FromWpPage | scripts/assign_categories.py:46-52 | A page title gives a canonical name, and only when it holds no space once the prefix is gone |
| AssignCategories.FromWpCategorylinks | scripts/assign_categories.py:54-59 | A category link gives a canonical name |
| AssignCategories.FromTlProjectIndex | scripts/assign_categories.py:61-66 | A project title gives a canonical name |
| AssignCategories.FromWpPageOk | scripts/assign_categories.py:46-52 | `from_wp_page` succeeds exactly when the title, without its prefix, has no space and no second `Category:` |
| AssignCategories.ConstructorsInvert | scripts/assign_categories.py:34-66 | Each constructor gives back a canonical name from the form its source writes it in |
| AssignCategories.NoneMatch | scripts/assign_categories.py:133-135 | No blacklist expression matches |
| AssignCategories.CategoryIsUsable | scripts/assign_categories.py:129-136 | A category is usable exactly when it is not hidden and no blacklist expression matches it |
| AssignCategories.Filter | scripts/assign_categories.py:197-201 | The kept pairs are exactly those that pass the test |
| AssignCategories.PagesOf | scripts/assign_categories.py:194-201 | The page ids paired with a category |
| AssignCategories.GroupCollects | scripts/assign_categories.py:193-201 | `setdefault(c, []).append(p)` collects each category's pages in pair order, with a key exactly for the categories that occur |
| AssignCategories.GroupSelected | scripts/assign_categories.py:193-201 | The grouping holds, per category, the unsourced project pages followed by the usable linked pages, with a key exactly when there are some |
| AssignCategories.SnippetCountNonNegative | scripts/assign_categories.py:203-208 | With snippet counts that are never negative, a category's summed count is never negative, and a category with any snippet has one of its pages with snippets |
| AssignCategories.AssignKeeps | scripts/assign_categories.py:203-215 | A category is kept exactly when its pages hold at least two snippets, with id `mkid(name)` and its collected pages |
| AssignCategories.AssignRun | scripts/assign_categories.py:125-126 | The run fails on a queried but empty project index (its log line reads `ret[0][0]`), then on an empty set of hidden categories (line 189 calls `next(iter(...))`), and otherwise writes exactly the kept categories |
| AssignCategories.GroupOfTwo | scripts/assign_categories.py:193-201 | Grouping the project pairs followed by the linked pairs collects a category's pages from the first, then from the second |
| AssignCategories.UsableFilter | scripts/assign_categories.py:200-201 | A test on the category alone keeps all or none of its pages |
| FixedSnippets.ClickedSnippets | scripts/compute_fixed_snippets.py:46-51 | Every recorded id is named by the `id` parameter of some click's referrer |
| FixedSnippets.ClickedIsLast | scripts/compute_fixed_snippets.py:46-51 | An id is recorded exactly when some click names it, with the timestamp of the last such click |
| FixedSnippets.LatestClickWins | scripts/compute_fixed_snippets.py:39-51 | With the clicks ordered by time, as the query orders them, an id is recorded with its latest click time |
| FixedSnippets.FixedRowsExact | scripts/compute_fixed_snippets.py:76-82 | A row is inserted exactly for a clicked id in the live database and not in the next one, with its last click time and the language |
| FixedSnippets.LastClickUnique | scripts/compute_fixed_snippets.py:46-51 | An id has one last click |
| CategoryWalk.PageMembers | scripts/print_unsourced_pageids_from_wikipedia.py:19-25 | The printed ids of a level are exactly the `page` members of its categories |
| CategoryWalk.WalkPrintsLevels | scripts/print_unsourced_pageids_from_wikipedia.py:17-37 | The first level's pages come first, and every printed id is a page of some level the walk reached |
| CategoryWalk.WalkStops | scripts/print_unsourced_pageids_from_wikipedia.py:26-29 | A level without subcategories ends the walk with its pages |
| CategoryWalk.WalkFuelMonotone | scripts/print_unsourced_pageids_from_wikipedia.py:18-37 | More steps never change a finished walk |
| CategoryWalk.CycleNeverEnds | scripts/print_unsourced_pageids_from_wikipedia.py:17-37 | With no visited set, a level that leads back to itself never ends |
| MwApi.BuildParams | mwapi.py:19-42 | The caller's parameters win; `format` defaults to `json`, `utf8` to empty and `maxlag` to the option |
| MwApi.QueryDefaults | mwapi.py:85-88 | A query with default options sends the caller's parameters, `json`, `utf8`, `maxlag`, `action=query` and an empty `continue` |
| MwApi.Attempts | mwapi.py:56-83 | The loop posts at most once per remaining attempt |
| MwApi.DoRequest | mwapi.py:53-83 | At most `max_retries_maxlag + 1` posts |
| MwApi.AttemptsDecidedAt | mwapi.py:56-82 | The first response that is neither `Retry-After` nor a matching `maxlag` error decides the result, every earlier attempt having slept |
| MwApi.AttemptsExhausted | mwapi.py:56-83 | When every attempt is retried the call raises `Exhausted maxlag retries!`, sleeping before every attempt but the last |
| MwApi.Decide | mwapi.py:66-82 | A response without error, or with a `maxlag` error that carries an `info`, is returned; any other error code raises with that response; a `maxlag` error without `info` raises on the missing key |
| MwApi.DoRequestDecides | mwapi.py:53-83 | The whole call: the first non-retried response decides, with one sleep per earlier attempt; otherwise it gives up after all attempts |
| MwApi.QueryRequests | mwapi.py:85-94 | The first request is the built parameters, and there are no more requests than responses |
| MwApi.QueryStops | mwapi.py:89-94 | The loop continues only after a response with `continue`, whose entries are merged into the next request; no parameter is ever dropped |
| Chdb.RetryFrom | chdb.py:20-36 | At most five attempts; one reconnection between two, plus the one that raised when a reconnection fails |
| Chdb.ExecuteWithRetry | chdb.py:24-36 | Between one and five attempts |
| Chdb.RetryDecidedAt | chdb.py:26-34 | The first attempt that is not an operational error, or the fifth, decides: its value, its other error, or the last operational error |
| Chdb.ExecuteSucceeds | chdb.py:24-36 | A success after operational errors only gives its value, with one reconnection per failure |
| Chdb.ExecuteGivesUp | chdb.py:30-32 | Five operational errors in a row raise the last one after four reconnections |
| Chdb.ExecuteOtherErrorEscapes | chdb.py:27-30 | Any other error is raised at once |
| Chdb.ExecuteConnectFails | chdb.py:20-34 | A reconnection that raises after an operational error ends the call with that exception: no further attempt is made |
| Chdb.RowsIfAny | chdb.py:39-43 | All rows when the row count is positive, `None` otherwise |
| Chdb.ExecuteSRows | chdb.py:38-44 | The deciding statement's rows come back when it touched some, `None` when it touched none |
| Chdb.UserName | chdb.py:67 | The text before the first `@`, or all of it |
| Chdb.ToolsLabsDbName | chdb.py:65-69 | The name is the user, `__`, the database, `_` and the language |
| Chdb.ToolsLabsDbNameInjective | chdb.py:65-69 | For one user and language, different databases get different names |
| CitationHuntHandler.CategoryById | handlers/citationhunt.py:15-20 | An empty, missing or `all` id is the all-categories choice; any other id is a category exactly when the database knows it, with its title |
| CitationHuntHandler.CategoryByIdNoLookup | handlers/citationhunt.py:16-17 | The special ids never reach the database |
| CitationHuntHandler.FirstRandom | handlers/citationhunt.py:34-36 | Whatever the retry loop finds is one of its attempts' results |
| CitationHuntHandler.FirstRandomIsFirst | handlers/citationhunt.py:34-36 | The loop returns the first attempt that found a snippet, and nothing when all 1000 came back empty |
| CitationHuntHandler.SelectRandomId | handlers/citationhunt.py:22-39 | A snippet of the category, or of the intersection for the all-categories choice, is taken when there is one |
| CitationHuntHandler.SelectRandomFallsBack | handlers/citationhunt.py:29-38 | Otherwise the first random hit is taken, and the assertion fails when none of the attempts hit |
| CitationHuntHandler.NextRandom | handlers/citationhunt.py:43-48 | The next id is one of the three picks |
| CitationHuntHandler.NextRandomFirstDifferent | handlers/citationhunt.py:43-48 | The first pick that differs from the current id is the next id; when all three equal it the current id comes back |
| CitationHuntHandler.SelectNextId | handlers/citationhunt.py:41-60 | In a category or intersection the next id is its link from the current one, none when the current snippet is outside it; for all categories it is a random pick |
| CitationHuntHandler.Intersection | handlers/citationhunt.py:74-75 | `custom` is used only when no `cat` is given |
| CitationHuntHandler.CitationHunt | handlers/citationhunt.py:62-120 | A redirect never carries both a category and an intersection, and a request with an id redirects to that id alone; a rendered page shows the requested snippet, with an intersection only under all categories; a 404 is an unknown id |
| CitationHuntHandler.UnknownCategoryRedirects | handlers/citationhunt.py:77-81 | An unknown category redirects to the same id without category or intersection |
| CitationHuntHandler.UnknownIdNotFound | handlers/citationhunt.py:83-87 | With a valid category an unknown id is a 404 |
| CitationHuntHandler.NoIdRedirects | handlers/citationhunt.py:113-120 | Without an id the page redirects to a chosen id, keeping the category or, for all categories, the intersection |
| CitationHuntHandler.OutsideCategoryRedirects | handlers/citationhunt.py:90-96 | A snippet outside its category is shown again without it |
| CitationHuntHandler.SearchLimit | handlers/citationhunt.py:124-131 | The limit is at most 400, 400 when the argument is missing or not a number, and never above the given number |
| CitationHuntHandler.SearchLimitOfNumber | handlers/citationhunt.py:124-131 | A number written out in decimal is honoured up to 400 |
| CitationHuntHandler.FixedFrom | handlers/citationhunt.py:135-145 | The start lies within a day of now; a start within a day is kept and a missing one is a day ago |
| CitationHuntHandler.FixedFromClamps | handlers/citationhunt.py:144-145 | A start is replaced exactly when it is more than a day from now, and then by a day ago |
| CitationHuntHandler.FixedFromIdempotent | handlers/citationhunt.py:135-145 | Normalising twice changes nothing |
| IntersectionsHandler.ValidateRequest | handlers/intersections.py:13-30 | A body is accepted exactly when it is a dictionary naming a source, its lists are non-empty lists and its `psid` and `pileid` are digit strings |
| IntersectionsHandler.BrokenInputsRejected | handlers/intersections.py:13-30 | The malformed bodies of the application's tests are turned away and a digit `psid` is accepted |
| IntersectionsHandler.Route | handlers/intersections.py:104-111 | `page_ids` first, then `page_titles`, then `psid`, then `pileid` |
| IntersectionsHandler.WithPageIds | handlers/intersections.py:44-49 | No ids, no intersection; otherwise the database creates it |
| IntersectionsHandler.EmptyIdsShortCircuit | handlers/intersections.py:45-46 | The empty list never reaches the database |
| IntersectionsHandler.TitleStrings | handlers/intersections.py:36 | The join works exactly when every title is a string |
| IntersectionsHandler.ResponseIds | handlers/intersections.py:37-39 | The ids gathered are exactly the page keys of the responses that have them |
| IntersectionsHandler.ChunkIds | handlers/intersections.py:35-39 | Resolving the chunks succeeds exactly when every chunk holds only strings |
| IntersectionsHandler.TitleChunksPartition | handlers/intersections.py:35 | The chunks put together are the titles, at most 50 to a chunk and exactly 50 but for the last |
| IntersectionsHandler.ChunksAllStrings | handlers/intersections.py:35-36 | The chunks hold only strings exactly when the titles do |
| IntersectionsHandler.WithPageTitles | handlers/intersections.py:32-42 | Title resolution succeeds exactly when every title is a string |
| IntersectionsHandler.WikiName | handlers/intersections.py:54 | `rstrip('_p')` leaves a prefix of the database name that does not end in `_` or `p` |
| IntersectionsHandler.WikiNameDropsSuffix | handlers/intersections.py:54 | Stripping `_p` also strips the run of `_` and `p` before it |
| IntersectionsHandler.WikiNameOfDatabase | handlers/intersections.py:54 | A wiki name ending in another character comes back intact |
| IntersectionsHandler.OutputLimitDoubles | handlers/intersections.py:58-60 | PetScan is asked for twice the intersection size |
| IntersectionsHandler.PetScanUrl | handlers/intersections.py:56-63 | The PetScan request names the query and asks for results in this wiki |
| IntersectionsHandler.PagePileUrl | handlers/intersections.py:80-82 | The PagePile request is the configured URL, `/api.php?id=`, the pile id exactly as given and `&action=get_data&format=json` |
| IntersectionsHandler.WithPsid | handlers/intersections.py:51-74 | A failed PetScan request gives the empty intersection; otherwise its ids are used |
| IntersectionsHandler.WithPile | handlers/intersections.py:76-94 | A failed request or a pile of another wiki gives the empty intersection; otherwise its titles are resolved |
| IntersectionsHandler.CreateIntersection | handlers/intersections.py:96-114 | An invalid body is answered `Invalid request`; a created intersection carries the configured lifetime; only titles can raise |
| IntersectionsHandler.PageIdsFirst | handlers/intersections.py:104-105 | A body with `page_ids` creates the intersection from them, whatever else it holds |
| IntersectionsHandler.PetScanFailureIsEmpty | handlers/intersections.py:67-73 | A failed PetScan request gives the empty intersection |
| IntersectionsHandler.ForeignPileIsEmpty | handlers/intersections.py:86-93 | A pile from another wiki gives the empty intersection |
| Leaderboard.Occurrences | handlers/leaderboard.py:22 | A user's count is positive exactly when the user occurs |
| Leaderboard.Distinct | handlers/leaderboard.py:22 | The counter's keys: each user once |
| Leaderboard.Tally | handlers/leaderboard.py:22 | One entry per distinct user with its count |
| Leaderboard.InsertDesc | handlers/leaderboard.py:22 | Inserting keeps every entry and adds the new one |
| Leaderboard.SortDesc | handlers/leaderboard.py:22 | Sorting keeps the entries |
| Leaderboard.SortDescRanked | handlers/leaderboard.py:22 | Sorted by non-increasing count |
| Leaderboard.SortDescUnique | handlers/leaderboard.py:22 | Sorting keeps users distinct |
| Leaderboard.Top | handlers/leaderboard.py:22 | `most_common(50)` gives at most 50 entries |
| Leaderboard.TopSound | handlers/leaderboard.py:22 | The top entries are ranked, name distinct users and carry each user's exact count |
| Leaderboard.TopCovers | handlers/leaderboard.py:22 | A user missing from the top entries counts no more than the last one listed, which happens only when 50 are listed |
| Leaderboard.Board | handlers/leaderboard.py:16-22 | At most 50 entries, none without fixed revisions |
| Leaderboard.BoardRanks | handlers/leaderboard.py:17-22 | The board lists distinct users with their exact counts by non-increasing count, and a user left out had no more than the last listed |
| Leaderboard.EmptyBoard | handlers/leaderboard.py:17-19 | Without fixed revisions the users are never looked up |
| CommonHandler.ValidateLangCode | handlers/common.py:32-44 | A known code runs the handler; any other redirects to the English page followed by the request path unless it is `/` |
| CommonHandler.RedirectKeepsPath | handlers/common.py:36-42 | The redirect never consults the handler and what follows the English URL is exactly the path |
| CommonHandler.FaviconRedirect | handlers/common.py:36-42 | An unknown code at `/favicon.ico` lands on `/en/favicon.ico` |
| CommonHandler.GetDb | handlers/common.py:10-16 | The connection is cached under the code; it is opened exactly when the code was missing, and other entries are kept |
| CommonHandler.GetDbs | handlers/common.py:10-16 | Over a request each code is opened at most once, exactly the codes not cached before, and every call for a code returns its cached connection |
| CommonHandler.SameCodeSameConnection | handlers/common.py:10-16 | Two calls for the same code return the same connection |
| CommonHandler.GetStatsDb | handlers/common.py:26-30 | The cached connection is returned; one is opened exactly when none was cached |
| CommonHandler.GetStatsDbs | handlers/common.py:26-30 | Over a request at most one connection is opened, and every call returns it |
| StatsHandler.SearchAll | handlers/stats.py:30-32 | The scan finds a match exactly when some pattern matches |
| StatsHandler.IsSpam | handlers/stats.py:26-32 | Spam exactly when a crawler pattern matches the user agent or a spam pattern the referrer, a missing one read as empty |
| StatsHandler.MissingIsEmpty | handlers/stats.py:27-29 | A missing header and an empty one are judged alike |
| StatsHandler.NoneIfEmpty | handlers/stats.py:36 | `referrer or None` is never the empty string and reads the same |
| StatsHandler.LogRequest | handlers/stats.py:34-51 | The response comes back unchanged; a row is logged exactly when the request is not spam, with the status, the URL, the referrer (never empty) and the prefetch flag from either header |
| StatsHandler.LastValue | handlers/stats.py:59-62 | `dict(pairs)` holds a key exactly when some pair has it |
| StatsHandler.Find | handlers/stats.py:59-62 | A sorted series holds a key exactly when some entry has it |
| StatsHandler.FindAt | handlers/stats.py:59-62 | In a sorted series every entry is the one found for its key |
| StatsHandler.Upsert | handlers/stats.py:59-62 | Setting a key keeps the series sorted, changes that key and leaves the others |
| StatsHandler.Build | handlers/stats.py:59-62 | The later pair for a date wins, and dates without pairs keep their value |
| StatsHandler.Defaults | handlers/stats.py:60-61 | One default entry per day, for the date `d` days ago |
| StatsHandler.DefaultsValue | handlers/stats.py:60-61 | A date gets the default exactly when it is one of the last `days` days |
| StatsHandler.Pad | handlers/stats.py:53-62 | The padded series is sorted by date |
| StatsHandler.PadEntries | handlers/stats.py:53-62 | A date is present exactly when it is one of the last `days` days or a data date, with the data's last value for it or else the default |
| Crontab.Hour | crontab.py:26-32 | The hour of the `i`-th language is `4 * (i % 6)`, below 24 |
| Crontab.FirstDay | crontab.py:26-32 | The first day of the `i`-th language is `1 + i / 6` |
| Crontab.EverySixLanguagesWrap | crontab.py:26-32 | Six languages fill a day and the seventh wraps to the next |
| Crontab.SlotsDistinct | crontab.py:26-32 | Every language has its own starting slot |
| Crontab.SharedRunsIff | crontab.py:14-32 | Two languages (fewer than 186) run at the same hour of some day exactly when their positions agree modulo 24 |
| Crontab.Command | crontab.py:18-24 | The command ends with the update script and the language code |
| Crontab.Spec | crontab.py:29-30 | The spec is the time fields followed by the command |
| Crontab.PrintedLine | crontab.py:31 | The printed line is the spec, a space and the command again |
| Crontab.PrintedLineRepeatsCommand | crontab.py:29-31 | After the time fields the printed line holds the command twice |
| Crontab.Line | crontab.py:29-31 | The intended line starts with the time fields |
| Crontab.LineRunsCommand | crontab.py:29-30 | The intended line runs exactly the command after its time fields |
| K8sCrontab.JobName | k8s/crontab.py:65 | `lc.replace('_', '-')`: no underscore left, other characters kept |
| K8sCrontab.JobNameInjective | k8s/crontab.py:65 | Codes without `-` get distinct names |
| K8sCrontab.Jobs | k8s/crontab.py:62-67 | One job per language, with its code as argument, the schedule of its position and a `citationhunt-update-` name without underscores |
| K8sCrontab.JobsDistinct | k8s/crontab.py:62-67 | Distinct codes without `-` get distinct names, and every job starts in its own slot and has its own schedule string |
| K8sCrontab.ScheduleInjective | k8s/crontab.py:62-67 | Two positions with the same schedule string are the same position: the hour and the first day read back from the text |
| K8sCrontab.ScheduleFields | k8s/crontab.py:66 | After `0 ` the schedule is the hour's digits, a space, the first day's digits, `-` and `31/4 * *` |
| K8sCrontab.SplitOn | k8s/crontab.py:66 | Text cut at its first separator determines both parts |
| Decimal.PyInt | handlers/citationhunt.py:125 | `int()` of a text needs something besides white space to succeed |
| Decimal.PyIntOfString | handlers/citationhunt.py:125 | `int(str(i)) == i` for every integer |
| Decimal.JsParseInt | static/js/article_selector.js:53 | `parseInt` gives a number only when the text holds a digit |
| Decimal.JsParseIntOfString | static/js/article_selector.js:53 | `parseInt` reads back the decimal writing of any natural number |
| PercentEncoding.DecodeEncode | scripts/parse_live.py:64 | Percent-decoding undoes the encoding for any safe set: the result is exactly the UTF-8 bytes of the text |
| PercentEncoding.EncodeURIComponent | static/js/article_selector.js:11 | `encodeURIComponent` decodes back to the UTF-8 bytes of its input, and its output never holds `&`, `#` or `=` |
| PercentEncoding.Quote | scripts/parse_live.py:64 | `urllib.quote(..., safe='')` decodes back to the UTF-8 bytes of its input |
| Strings.Split | snippet_parser/core.py:164 | `split` gives at least one piece and no piece holds the separator |
| Strings.JoinSplit | snippet_parser/core.py:164 | Joining the pieces with the separator gives back the text |
| Strings.Lower | snippet_parser/core.py:59-60 | Lower-casing works character by character |
| Wikicode.NextHeading | snippet_parser/core.py:154-155 | A flat section runs up to the next heading node |
| Wikicode.RenderFlatten | scripts/snippet_parser.py:58 | Rendering concatenated node lists is joining their renderings |

## Left out

- Network, database and file I/O: SQL queries and cursors, the MediaWiki HTTP session, PetScan and PagePile requests, `query_pageids` and `to_html`, and dump reading are function parameters or outcome sequences. Table creation and the update, install and intersection-refresh scripts are not part of this model. IntersectionsHandler.WithPageTitles and IntersectionsHandler.CreateIntersection take `create` and the title query as total functions, so a `MediaWikiAPIError` from `cfg.wikipedia.query` (`handlers/intersections.py:37`) or a database error from `create_intersection` (`:47`) is not an outcome of the model.
- Concurrency: the worker and process pools are not modelled. `parse_live` workers are modelled one at a time, with the exit code computed from every worker's count. JavaScript timers are events on an integer clock.
- Clocks and sleeps: `time.sleep` becomes a recorded sleep, `Date.now()` becomes a positive integer, and `datetime.now` becomes the input `now` (seconds) or `dateOf` (a date string). `float(Retry-After)` becomes the header's text.
- Floating point: `percentile` takes an integer `p`. Its threshold is the exact `p * total / 100` truncated toward zero, and an empty distribution gives 0 instead of 0.0.
- `mwparserfromhell`:
  - parsing, tokenising and tree building are parameters;
  - `strip_code`'s newline collapsing and its table of visible tags are parameters of `StripCode`;
  - `Wikicode` covers text, templates, tags, wikilinks and headings only.
- Regular expressions are predicates: the category blacklist, the crawler and spam lists, the `maxlag` message (`lagOf`) and `Überarbeiten`.
- SHA-1 in `mkid` is a parameter, so only the hex formatting and the eight-character cut are modelled. Python 2's encoding of the text before hashing is not modelled.
- Awesomplete, spin.js and jQuery: only the values the code passes to them or reads from them are modelled. Spinner geometry, scrolling and the DOM are left out.
- Flask and templating: `render_template`, `lang_dir`, debug mode, `log_time`, the `stats` view and its SQL, and `chstrings` are left out. `url_for` is the input `enUrl`, and `flask.g` is an explicit map or option threaded through calls.
- `snippet_parser/it.py` is not part of this model. The module imports, but its `bandiera` and `citazione` handlers are declared without `self`, so calling either as a method raises `TypeError`.
- The XML-dump pipelines, `category_filter.js`, `theme.js`, `fixed.js`, `shortcuts.js`, `translation_wizard.js`, `stats.js`, `lang_selector.js` and the sketches and CLI scripts are not part of this model. They are I/O glue or DOM wiring.
- Strings.Lower: only ASCII letters are lowered. Non-ASCII names in the configuration are compared as they are.
- Decimal.PyInt: accepts ASCII digits and ASCII white space only. `handlers/citationhunt.py` runs on Python 3, whose `int()` also accepts `_` between digits, digits of other scripts and Unicode white space. `fixed`'s `float()` of `from_ts` is reduced to an integer number of seconds.
- IntersectionsHandler.ValidateRequest: `isdigit()` is taken over ASCII digits. JSON numbers are integers, and a non-list `pages` in a PetScan or PagePile reply reads as no pages.
- SnippetExtraction.Drain: the paragraph loop carries a fuel bound. The source's loop ends on its own; the model reports running out of fuel, and `DrainFuelIrrelevant` shows that more fuel changes no finished run.
- CategoryWalk.Walk: the walk keeps no visited set, so a category cycle never ends (`CycleNeverEnds`). The model bounds it with fuel. The script starts from `cfg.citation_needed_category` (`scripts/print_unsourced_pageids_from_wikipedia.py:17`), which is not a configuration key, so reading it raises `AttributeError`; the model takes the starting category as a parameter.
- LegacyExtraction.ScriptsParagraph, LegacyExtraction.DecideQualifies, LegacyExtraction.GatherParagraph, LegacyExtraction.GatherCountsQualifyingTemplates: the legacy extractors look at top-level citation-needed templates only. The source's `filter_templates` also finds nested ones.
- LengthStats.Percentile: takes the distribution's lengths in ascending order as an argument, instead of sorting the keys itself.
- LxmlTree.RemoveElement: an element is addressed through its parent, so removing an element without a parent is not modelled.
- SqlRoundTrip.ParseValuesWritten: the round trip holds for tuples without `)`, without a `,` in the page id and without a quote in the category name, whose name is not a lone `,`. The hand-written reader misreads the others.
- Crontab.SharedRunsIff: stated for the first 186 languages, which covers every configured language. Beyond that, the first day passes the 31st and the month-day field no longer runs every four days.
- K8sCrontab.Jobs: the caller passes the language codes already sorted. Only the job name, the schedule and the language argument of each `CronJob` manifest are modelled.
- Leaderboard.BoardRanks: the order among users with equal counts is not stated. The `ndays` window and the page are left out.
- AssignCategories.GroupSelected: the pairs arrive already normalised to category names. The script's own `print` calls are left out.
- ParseLive.WorkRowsMembers: `list(set(...))` in the worker is a sequence without duplicates in some order, so row order is not stated.
- `get_page_contents` in `mwapi.py` is left out: it only gathers page text from `query`'s responses. `parse` is modelled by its request parameters alone.
- CommonHandler.GetDbs: a cached connection that is `None` is treated as absent.
- RuParser.StripTemplate, JaParser.StripTemplate: `ru.py:16` and `ja.py:7` call `self.sp`, but the parser objects have no `sp` attribute (`sp` is a module-level function of `core.py`), so as written those branches raise `AttributeError`. The model applies the module-level `sp`, which is evidently what was meant.
- CommonHandler.ValidateLangCode, the cron schedule: `handlers/common.py:36` and `crontab.py:27` read `config.lang_code_to_config`, which `config.py` does not define (it has `_LANG_CODE_TO_CONFIG`), so as written both raise `AttributeError`. The model reads the language table that `config.py` does define.
- Wikicode.NameMatches: the first character is upper-cased only for ASCII, Latin-1 and basic Cyrillic letters. Letters of other scripts (Greek, Latin Extended, Armenian and others) are compared as written, where Python's `upper()` would change them.
- CatLinks.EdgesOfRows: under Python 2, `sqlite3` gives the category names back as `unicode` while the dump reader yields byte strings. For a non-ASCII name (such as `Pokémon`) the two never compare equal, so such a row gets no edge. The model compares names as text and so promises an edge there.
- MwApi.BuildParams: `_dict_key_to_property` (`mwapi.py:33-39`) installs `maxlag` and `max_retries_maxlag` as properties on the class, bound to the dictionaries of the instance created last. Setting them through one instance therefore changes every instance. The model keeps the options per instance.
- ParseLive.ExitCode, ParseLive.ExitCodeFails: the `--timeout` path (`scripts/parse_live.py:248-252`) is not modelled. After `pool.terminate()` the pending result is never filled in, so what `result.get()` then does depends on the multiprocessing library. The exit code is stated for runs whose workers all finish.
- ParseLive.Converted, ParseLive.SectionRows, ParseLive.SnippetRows, ParseLive.SectionRowsMembers, ParseLive.SnippetRowsMembers, ParseLive.SnippetRowShape, ParseLive.PageRowsOf, ParseLive.WorkRows, ParseLive.WorkRowsMembers: `scripts/parse_live.py:202` and `:210` read `cfg.html_snippet`, which `config.py` does not define. `Config` is a plain `SimpleNamespace` (`config.py:1326`), so as written every page raises `AttributeError`. `with_max_exceptions` swallows the first five, re-raises the sixth, and no row is ever built. The model takes the setting as a parameter (`Settings.html`), which is evidently what was meant, and states the rows that a defined setting would give.
- MwApi.Attempts, MwApi.DoRequest, MwApi.AttemptsDecidedAt, MwApi.AttemptsExhausted, MwApi.DoRequestDecides: a delay is recorded as its text, and sleeping never fails. In the source, `float(...)` (`mwapi.py:60`, `:73`) raises `ValueError` for a delay that is not a number. Examples are a `Retry-After` given as an HTTP date, and a `maxlag` match such as `1.2.3` or `-` that the `[0-9.-]+` pattern admits. `time.sleep` (`:64`, `:77`) raises `ValueError` for a negative delay. That exception escapes `_do_request`, an outcome the model does not have, so the runs stated match the source only when every delay that is slept on is a non-negative number.
- Configuration.Inherit, Configuration.InheritShared, Configuration.LocalizedConfig: `dict(ret[k], **v)` (`config.py:1345`) also accepts, as the base of a dictionary, any sequence of pairs: an empty list, an empty string, or a list of two-element lists or two-character strings. The model reports such a base as a kind mismatch. Accepting it would also break associativity: a dictionary, then `""`, then a dictionary merges differently depending on grouping.
- LengthStats.Threshold, LengthStats.PercentileIsFirstReaching: `int(p / 100. * total)` (`snippet_parser/stats.py:16`) is computed in binary floating point, and the product can fall just below a whole number. For `p = 29` and `total = 100` it is 28.999…, so the source's threshold is 28, where the model's exact threshold is 29. For `{1: 28, 2: 72}` the source's `percentile` then returns 1 where the model returns 2. The model's threshold can thus be one higher than the source's, and its percentile a later length.
- SnippetRules.BaseStripWikilink, FastParse.LowerNames, FastParse.ParseForSnippets, SnippetExtraction.Judge, SnippetExtraction.SectionsSnippets, SnippetExtraction.ExtractSnippets, SnippetExtraction.ExtractSnippetsKeepsVisited, SectionExtraction.ExtractSections: two attribute errors in the parser are repaired.
  - `config.py` defines none of `tags_blacklist`, `templates_blacklist` or `wikilink_prefix_blacklist`, and `Config` is a plain `SimpleNamespace` (`config.py:1326`). As written, every paragraph holding a tag or a template raises `AttributeError` at `snippet_parser/core.py:171`/`:173` (and `snippet_parser/snippet_parser.py:124`/`:126`), and every wikilink strip raises at `core.py:107` and `base.py:102`. The model takes the three lists as fields of `ParserConfig`.
  - `core.py:60` reads `self.cfg.citation_needed_templates`, but `__init__` only sets `self._cfg` (`core.py:41`). As written, constructing any parser built on `core.py` through `create_snippet_parser` (`core.py:317-325`) raises before anything runs. The model reads `_cfg`, which is evidently what was meant.
- Output a script writes before it fails is not modelled. A failure is an error result for the whole call.

## Findings

| source | as written | input that shows it | evidently intended | confidence | as-written member | corrected member |
|---|---|---|---|---|---|---|
| crontab.py:31 | The line printed is `spec + ' ' + command`, but `spec` already ends with `command`. After the time fields the cron entry runs the command, then the whole command again as extra arguments. The update script's argument parser accepts one positional language code, so every scheduled run stops there. | `i = 0`, `lc = "en"`: the line is the time fields, then `Command("en") + " " + Command("en")` | Print `spec` alone, so that cron runs the command once | high (not executed) | Crontab.PrintedLineRepeatsCommand | Crontab.LineRunsCommand |
| static/js/search_bar.js:121-123 | The completion callback calls `spinner.stop()` whenever the request is the latest one, with no check that a spinner exists. A response that arrives within 100 ms, or a search shorter than `minChars`, never created one, so the call throws. | A search whose response arrives at 50 ms: the spinner timer has not fired yet and the spinner is `null` | Stop and reset the spinner only when one exists | high (not executed) | SearchBar.FastResponseThrows | SearchBar.GuardedAgreesUnlessThrown |

=== FILE: article_selector.dfy ===
/** The article picker of static/js/article_selector.js: search results
    become Awesomplete suggestions, a chosen suggestion becomes a list entry
    inserted in title order, and a click on an entry's remove button drops
    it. An entry is the `<li>` element, whose attributes hold text. */
module ArticleSelector {
  import opened Wrappers
  import opened Strings
  import Decimal
  import LexOrder
  import PercentEncoding
  import SearchBar

  const SearchPath := "/search/article?q="
  const MaxResultsParam := "&max_results=400"

  /** `buildSearchURL(q)`: the query is the trimmed input, percent-encoded;
      the result limit is `MAX_RESULTS`. */
  function BuildSearchURL(langCode: string, q: string): (r: string)
    ensures |r| >= |langCode + SearchPath| + |MaxResultsParam|
    ensures StartsWith(r, langCode + SearchPath) && EndsWith(r, MaxResultsParam)
    ensures var query := r[|langCode + SearchPath|..|r| - |MaxResultsParam|];
            PercentEncoding.Decode(query) == Some(PercentEncoding.Utf8String(JsTrim(q)))
            && forall i :: 0 <= i < |query| ==> query[i] != '&' && query[i] != '#' && query[i] != '='
  {
    var query := PercentEncoding.EncodeURIComponent(JsTrim(q));
    Framed(langCode + SearchPath, query, MaxResultsParam);
    langCode + SearchPath + query + MaxResultsParam
  }

  /** The result limit in the URL is the search bar's `MAX_RESULTS`. */
  lemma MaxResultsParamIsMaxResults()
    ensures MaxResultsParam == "&max_results=" + Decimal.NatToString(SearchBar.MaxResults)
  {
  }

  /** What Awesomplete displays and matches (`label`, here `caption`) and what it hands to
      the selection handler (`value`). */
  datatype Label = Label(title: string, snippets: seq<string>)
  datatype Suggestion = Suggestion(caption: Label, value: nat)

  /** `data(item)`: the label carries the title and snippets, the value the
      page id. */
  function Data(item: SearchBar.Item): (r: Suggestion) {
    Suggestion(Label(item.title, item.snippets), item.pageId)
  }

  /** `data` loses nothing: distinct results give distinct suggestions. */
  lemma DataIsInjective(a: SearchBar.Item, b: SearchBar.Item)
    ensures Data(a) == Data(b) <==> a == b
  {
  }

  /** A list entry: the title span's text and the `data-pageid` and
      `data-snippets` attributes. */
  datatype Entry = Entry(title: string, pageIdAttr: string, snippetsAttr: string)

  /** The `<li>` that `selectArticle` builds. `setAttribute` stores numbers
      as their decimal text. */
  function NewEntry(s: Suggestion): Entry {
    Entry(s.caption.title, Decimal.NatToString(s.value), Decimal.NatToString(|s.caption.snippets|))
  }

  /** An entry whose attributes hold decimal numbers, as every entry built
      by `NewEntry` does. */
  predicate WellFormed(e: Entry) {
    IsDigits(e.pageIdAttr) && IsDigits(e.snippetsAttr)
  }

  predicate AllWellFormed(sel: seq<Entry>) {
    forall i :: 0 <= i < |sel| ==> WellFormed(sel[i])
  }

  function PageId(e: Entry): nat
    requires WellFormed(e)
  {
    Decimal.DigitsValue(e.pageIdAttr)
  }

  function SnippetCount(e: Entry): nat
    requires WellFormed(e)
  {
    Decimal.DigitsValue(e.snippetsAttr)
  }

  lemma NewEntryReadsBack(s: Suggestion)
    ensures WellFormed(NewEntry(s))
    ensures PageId(NewEntry(s)) == s.value && SnippetCount(NewEntry(s)) == |s.caption.snippets|
  {
    Decimal.DigitsOfNat(s.value);
    Decimal.DigitsOfNat(|s.caption.snippets|);
  }

  /** `getSelectedArticles()`: each entry's `data-pageid` through
      `parseInt(_, 10)`, in list order; `None` stands for `NaN`. */
  function GetSelectedArticles(sel: seq<Entry>): (r: seq<Option<int>>)
    ensures |r| == |sel|
    ensures forall i :: 0 <= i < |sel| && WellFormed(sel[i]) ==> r[i] == Some(PageId(sel[i]) as int)
  {
    if sel == [] then []
    else
      Decimal.JsParseIntOfDigits(sel[0].pageIdAttr);
      [Decimal.JsParseInt(sel[0].pageIdAttr)] + GetSelectedArticles(sel[1..])
  }

  /** No page id is selected twice. */
  predicate DistinctIds(sel: seq<Entry>)
    requires AllWellFormed(sel)
  {
    forall i, j :: 0 <= i < j < |sel| ==> PageId(sel[i]) != PageId(sel[j])
  }

  /** `a.localeCompare(b, langTag)`: negative, zero or positive. The collation
      behind it is a parameter; these are the laws every collation obeys:
      the sign flips when the arguments swap, and "sorts no later than" is
      transitive. */
  ghost predicate Collation(cmp: (string, string) -> int) {
    (forall a, b :: cmp(a, b) < 0 <==> cmp(b, a) > 0)
    && (forall a, b, c :: cmp(a, b) <= 0 && cmp(b, c) <= 0 ==> cmp(a, c) <= 0)
  }

  /** Code-point order, one collation among many. */
  function CodePointCompare(a: string, b: string): int {
    if LexOrder.Less(a, b) then -1 else if a == b then 0 else 1
  }

  /** Code-point order obeys the collation laws. */
  lemma CodePointCompareIsCollation()
    ensures Collation(CodePointCompare)
  {
    forall a, b ensures CodePointCompare(a, b) < 0 <==> CodePointCompare(b, a) > 0 {
      LexOrder.LessTotal(a, b);
      if LexOrder.Less(a, b) {
        LexOrder.LessAsymmetric(a, b);
      }
    }
    forall a, b, c | CodePointCompare(a, b) <= 0 && CodePointCompare(b, c) <= 0
      ensures CodePointCompare(a, c) <= 0
    {
      assert LexOrder.LessEq(a, b) && LexOrder.LessEq(b, c);
      LexOrder.LessEqTransitive(a, b, c);
    }
  }

  /** Entries appear in non-decreasing title order under `cmp`. */
  predicate Sorted(sel: seq<Entry>, cmp: (string, string) -> int) {
    forall i, j :: 0 <= i < j < |sel| ==> cmp(sel[i].title, sel[j].title) <= 0
  }

  /** The loop of `insertSelectedArticleSorted`: the index of the first entry
      the new title compares below, or the end of the list. */
  function InsertionPoint(sel: seq<Entry>, title: string, cmp: (string, string) -> int): (i: nat)
    ensures i <= |sel|
    ensures forall j :: 0 <= j < i ==> cmp(title, sel[j].title) >= 0
    ensures i < |sel| ==> cmp(title, sel[i].title) < 0
  {
    if sel == [] then 0
    else if cmp(title, sel[0].title) < 0 then 0
    else 1 + InsertionPoint(sel[1..], title, cmp)
  }

  /** `insertSelectedArticleSorted(li)`: `insertBefore` the entry found, or
      append. */
  function InsertSorted(sel: seq<Entry>, e: Entry, cmp: (string, string) -> int): (r: seq<Entry>)
    ensures |r| == |sel| + 1
    ensures var i := InsertionPoint(sel, e.title, cmp);
            r[i] == e && r[..i] == sel[..i] && r[i + 1..] == sel[i..]
  {
    var i := InsertionPoint(sel, e.title, cmp);
    sel[..i] + [e] + sel[i..]
  }

  /** Insertion adds the entry and loses none. */
  lemma InsertSortedAddsEntry(sel: seq<Entry>, e: Entry, cmp: (string, string) -> int)
    ensures multiset(InsertSorted(sel, e, cmp)) == multiset(sel) + multiset{e}
  {
    var i := InsertionPoint(sel, e.title, cmp);
    assert sel == sel[..i] + sel[i..];
    assert InsertSorted(sel, e, cmp) == sel[..i] + [e] + sel[i..];
  }

  /** Insertion keeps a list sorted under any collation. */
  lemma InsertKeepsSorted(sel: seq<Entry>, e: Entry, cmp: (string, string) -> int)
    requires Collation(cmp) && Sorted(sel, cmp)
    ensures Sorted(InsertSorted(sel, e, cmp), cmp)
  {
    var i := InsertionPoint(sel, e.title, cmp);
    forall j | 0 <= j < i ensures cmp(sel[j].title, e.title) <= 0 {
      Flip(cmp, e.title, sel[j].title);
    }
    forall j | i <= j < |sel| ensures cmp(e.title, sel[j].title) <= 0 {
      if j > i {
        Trans(cmp, e.title, sel[i].title, sel[j].title);
      }
    }
    SortedAround(sel, e, cmp, i);
  }

  /** A title that sorts no earlier than the entries before position `i` and
      no later than those from `i` on keeps the list sorted there. */
  lemma SortedAround(sel: seq<Entry>, e: Entry, cmp: (string, string) -> int, i: nat)
    requires i <= |sel| && Sorted(sel, cmp)
    requires forall j :: 0 <= j < i ==> cmp(sel[j].title, e.title) <= 0
    requires forall j :: i <= j < |sel| ==> cmp(e.title, sel[j].title) <= 0
    ensures Sorted(sel[..i] + [e] + sel[i..], cmp)
  {
    var r := sel[..i] + [e] + sel[i..];
    assert forall k :: 0 <= k < |r| ==> r[k] == if k < i then sel[k] else if k == i then e else sel[k - 1];
  }

  lemma Flip(cmp: (string, string) -> int, a: string, b: string)
    requires Collation(cmp) && cmp(a, b) >= 0
    ensures cmp(b, a) <= 0
  {
  }

  lemma Trans(cmp: (string, string) -> int, a: string, b: string, c: string)
    requires Collation(cmp) && cmp(a, b) <= 0 && cmp(b, c) <= 0
    ensures cmp(a, c) <= 0
  {
  }

  /** `selectArticle`: an already selected page id changes nothing; any
      other suggestion is inserted in title order. */
  function Select(sel: seq<Entry>, s: Suggestion, cmp: (string, string) -> int): (r: seq<Entry>)
    ensures Some(s.value as int) in GetSelectedArticles(sel) ==> r == sel
    ensures Some(s.value as int) !in GetSelectedArticles(sel) ==>
              var i := InsertionPoint(sel, s.caption.title, cmp);
              |r| == |sel| + 1 && r[i] == NewEntry(s) && r[..i] == sel[..i] && r[i + 1..] == sel[i..]
  {
    if Some(s.value as int) in GetSelectedArticles(sel) then sel
    else InsertSorted(sel, NewEntry(s), cmp)
  }

  /** Selecting a new page id adds exactly its entry. */
  lemma SelectAddsEntry(sel: seq<Entry>, s: Suggestion, cmp: (string, string) -> int)
    requires Some(s.value as int) !in GetSelectedArticles(sel)
    ensures multiset(Select(sel, s, cmp)) == multiset(sel) + multiset{NewEntry(s)}
  {
    InsertSortedAddsEntry(sel, NewEntry(s), cmp);
  }

  /** After `selectArticle` the page id is among the selected ones. */
  lemma SelectedAfterSelect(sel: seq<Entry>, s: Suggestion, cmp: (string, string) -> int)
    ensures Some(s.value as int) in GetSelectedArticles(Select(sel, s, cmp))
  {
    if Some(s.value as int) !in GetSelectedArticles(sel) {
      var r := InsertSorted(sel, NewEntry(s), cmp);
      var i := InsertionPoint(sel, s.caption.title, cmp);
      NewEntryReadsBack(s);
      assert GetSelectedArticles(r)[i] == Some(s.value as int);
    }
  }

  /** Selection keeps the list well formed, sorted under the collation and
      free of duplicate page ids. */
  lemma SelectKeepsInvariant(sel: seq<Entry>, s: Suggestion, cmp: (string, string) -> int)
    requires Collation(cmp)
    requires AllWellFormed(sel) && Sorted(sel, cmp) && DistinctIds(sel)
    ensures var r := Select(sel, s, cmp); AllWellFormed(r) && Sorted(r, cmp) && DistinctIds(r)
  {
    if Some(s.value as int) !in GetSelectedArticles(sel) {
      var e := NewEntry(s);
      var i := InsertionPoint(sel, e.title, cmp);
      NewEntryReadsBack(s);
      InsertKeepsSorted(sel, e, cmp);
      forall k | 0 <= k < |sel| ensures PageId(sel[k]) != PageId(e) {
        assert GetSelectedArticles(sel)[k] == Some(PageId(sel[k]) as int);
      }
      InsertKeepsDistinct(sel, e, i);
    }
  }

  /** Inserting a well-formed entry whose page id is new keeps the list well
      formed and free of duplicates. */
  lemma InsertKeepsDistinct(sel: seq<Entry>, e: Entry, i: nat)
    requires i <= |sel| && AllWellFormed(sel) && WellFormed(e) && DistinctIds(sel)
    requires forall k :: 0 <= k < |sel| ==> PageId(sel[k]) != PageId(e)
    ensures AllWellFormed(sel[..i] + [e] + sel[i..]) && DistinctIds(sel[..i] + [e] + sel[i..])
  {
    var r := sel[..i] + [e] + sel[i..];
    assert forall k :: 0 <= k < |r| ==> r[k] == if k < i then sel[k] else if k == i then e else sel[k - 1];
  }

  /** `parseInt(_, 10)` of each entry's `data-snippets`. */
  function SnippetCounts(sel: seq<Entry>): (r: seq<Option<int>>)
    ensures |r| == |sel|
    ensures forall i :: 0 <= i < |sel| && WellFormed(sel[i]) ==> r[i] == Some(SnippetCount(sel[i]) as int)
  {
    if sel == [] then []
    else
      Decimal.JsParseIntOfDigits(sel[0].snippetsAttr);
      [Decimal.JsParseInt(sel[0].snippetsAttr)] + SnippetCounts(sel[1..])
  }

  /** JavaScript `+` over numbers that may be `NaN` (`None`): one `NaN`
      makes the sum `NaN`. */
  function SumOrNaN(xs: seq<Option<int>>): (r: Option<int>)
    ensures r.Some? <==> forall i :: 0 <= i < |xs| ==> xs[i].Some?
  {
    if xs == [] then Some(0)
    else
      var tail := SumOrNaN(xs[1..]);
      assert forall i :: 1 <= i < |xs| ==> xs[i] == xs[1..][i - 1];
      if xs[0].Some? && tail.Some? then Some(xs[0].value + tail.value) else None
  }

  /** The sum of the snippet counts of a well-formed list. */
  function Snippets(sel: seq<Entry>): nat
    requires AllWellFormed(sel)
  {
    if sel == [] then 0 else SnippetCount(sel[0]) + Snippets(sel[1..])
  }

  lemma {:induction false} SnippetsConcat(a: seq<Entry>, b: seq<Entry>)
    requires AllWellFormed(a) && AllWellFormed(b)
    ensures AllWellFormed(a + b) && Snippets(a + b) == Snippets(a) + Snippets(b)
  {
    if a != [] {
      SnippetsConcat(a[1..], b);
      assert forall k :: 0 <= k < |a + b| ==> (a + b)[k] == if k < |a| then a[k] else b[k - |a|];
      assert (a + b)[1..] == a[1..] + b;
      assert (a + b)[0] == a[0];
      assert Snippets(a + b) == SnippetCount(a[0]) + Snippets(a[1..] + b);
    } else {
      assert a + b == b;
    }
  }

  /** Summing the parsed counts of a well-formed list gives its snippet
      total. */
  lemma {:induction false} SumOfCounts(xs: seq<Option<int>>, sel: seq<Entry>)
    requires AllWellFormed(sel) && |xs| == |sel|
    requires forall i :: 0 <= i < |sel| ==> xs[i] == Some(SnippetCount(sel[i]) as int)
    ensures SumOrNaN(xs) == Some(Snippets(sel) as int)
  {
    if sel != [] {
      SumOfCounts(xs[1..], sel[1..]);
    }
  }

  datatype Summary = Summary(articles: nat, snippets: Option<int>)

  /** `updatePreviewSummary()`: the number of entries and the total of their
      snippet counts. */
  function UpdatePreviewSummary(sel: seq<Entry>): (r: Summary)
    ensures r.articles == |sel|
    ensures AllWellFormed(sel) ==> r.snippets == Some(Snippets(sel) as int)
  {
    TotalOfWellFormed(sel);
    Summary(|sel|, SumOrNaN(SnippetCounts(sel)))
  }

  lemma TotalOfWellFormed(sel: seq<Entry>)
    ensures AllWellFormed(sel) ==> SumOrNaN(SnippetCounts(sel)) == Some(Snippets(sel) as int)
  {
    if AllWellFormed(sel) {
      SumOfCounts(SnippetCounts(sel), sel);
    }
  }

  /** Selecting a new article adds one entry and its snippets to the
      summary. */
  lemma SelectUpdatesSummary(sel: seq<Entry>, s: Suggestion, cmp: (string, string) -> int)
    requires AllWellFormed(sel)
    requires Some(s.value as int) !in GetSelectedArticles(sel)
    ensures var r := Select(sel, s, cmp);
            AllWellFormed(r) && Snippets(r) == Snippets(sel) + |s.caption.snippets|
            && UpdatePreviewSummary(r).articles == UpdatePreviewSummary(sel).articles + 1
  {
    var e := NewEntry(s);
    var i := InsertionPoint(sel, e.title, cmp);
    assert Select(sel, s, cmp) == sel[..i] + ([e] + sel[i..]);
    NewEntryReadsBack(s);
    InsertAddsSnippets(sel, e, i);
  }

  lemma InsertAddsSnippets(sel: seq<Entry>, e: Entry, i: nat)
    requires i <= |sel| && AllWellFormed(sel) && WellFormed(e)
    ensures AllWellFormed(sel[..i] + ([e] + sel[i..]))
    ensures Snippets(sel[..i] + ([e] + sel[i..])) == Snippets(sel) + SnippetCount(e)
  {
    assert sel == sel[..i] + sel[i..];
    SnippetsConcat(sel[..i], sel[i..]);
    SnippetsConcat([e], sel[i..]);
    assert Snippets([e]) == SnippetCount(e);
    SnippetsConcat(sel[..i], [e] + sel[i..]);
  }

  /** A click in the list: on the remove button of entry `index`, or
      anywhere else. */
  datatype Click = OnRemoveButton(index: nat) | Elsewhere

  /** `removeArticleOnPreviewClick(evt)`: a click on a remove button removes
      that button's entry and recomputes the summary; other clicks do
      nothing. */
  function RemoveOnClick(sel: seq<Entry>, c: Click): (r: (seq<Entry>, Option<Summary>))
    requires c.OnRemoveButton? ==> c.index < |sel|
    ensures c.Elsewhere? ==> r == (sel, None)
    ensures c.OnRemoveButton? ==>
              |r.0| == |sel| - 1
              && r.0[..c.index] == sel[..c.index] && r.0[c.index..] == sel[c.index + 1..]
              && r.1 == Some(UpdatePreviewSummary(r.0))
  {
    match c
    case Elsewhere => (sel, None)
    case OnRemoveButton(i) =>
      var rest := sel[..i] + sel[i + 1..];
      (rest, Some(UpdatePreviewSummary(rest)))
  }

  /** A removal drops exactly the clicked entry. */
  lemma RemoveDropsEntry(sel: seq<Entry>, i: nat)
    requires i < |sel|
    ensures multiset(RemoveOnClick(sel, OnRemoveButton(i)).0) == multiset(sel) - multiset{sel[i]}
  {
    assert sel == sel[..i] + [sel[i]] + sel[i + 1..];
    assert RemoveOnClick(sel, OnRemoveButton(i)).0 == sel[..i] + sel[i + 1..];
  }

  /** Removal keeps the order of the other entries, so the list stays
      sorted and free of duplicates. */
  lemma RemoveKeepsInvariant(sel: seq<Entry>, i: nat, cmp: (string, string) -> int)
    requires i < |sel|
    requires AllWellFormed(sel) && Sorted(sel, cmp) && DistinctIds(sel)
    ensures var r := RemoveOnClick(sel, OnRemoveButton(i)).0;
            AllWellFormed(r) && Sorted(r, cmp) && DistinctIds(r)
  {
    var r := RemoveOnClick(sel, OnRemoveButton(i)).0;
    assert r == sel[..i] + sel[i + 1..];
    SubsequenceKeepsInvariant(sel, sel[..i] + sel[i + 1..], i, cmp);
  }

  /** Dropping the entry at `i` keeps well-formedness, order and
      distinctness. */
  lemma SubsequenceKeepsInvariant(sel: seq<Entry>, r: seq<Entry>, i: nat, cmp: (string, string) -> int)
    requires i < |sel| && r == sel[..i] + sel[i + 1..]
    requires AllWellFormed(sel) && Sorted(sel, cmp) && DistinctIds(sel)
    ensures AllWellFormed(r) && Sorted(r, cmp) && DistinctIds(r)
  {
    assert forall k :: 0 <= k < |r| ==> r[k] == sel[if k < i then k else k + 1];
  }

  /** Removing an article just selected gives the list back. */
  lemma RemoveUndoesSelect(sel: seq<Entry>, s: Suggestion, cmp: (string, string) -> int)
    requires Some(s.value as int) !in GetSelectedArticles(sel)
    ensures var i := InsertionPoint(sel, s.caption.title, cmp);
            RemoveOnClick(Select(sel, s, cmp), OnRemoveButton(i)).0 == sel
  {
    var e := NewEntry(s);
    var i := InsertionPoint(sel, e.title, cmp);
    var r := sel[..i] + [e] + sel[i..];
    assert Select(sel, s, cmp) == InsertSorted(sel, e, cmp) == r;
    assert RemoveOnClick(r, OnRemoveButton(i)).0 == r[..i] + r[i + 1..];
    DeleteInserted(sel, e, i);
  }

  /** Deleting what was just inserted at `i` gives the sequence back. */
  lemma DeleteInserted<T>(s: seq<T>, x: T, i: nat)
    requires i <= |s|
    ensures var r := s[..i] + [x] + s[i..]; r[..i] + r[i + 1..] == s
  {
    var r := s[..i] + [x] + s[i..];
    assert r[..i] == s[..i] && r[i + 1..] == s[i..];
    assert s == s[..i] + s[i..];
  }

  /** Listeners the selector installs, and any other. */
  datatype Listener = SelectArticle | RemoveArticleOnPreviewClick | Foreign(name: string)

  /** The selector's part of the page: its listeners and whether the search
      bar's Awesomplete instance is still alive. */
  datatype Wiring = Wiring(listeners: set<Listener>, awesompleteAlive: bool)

  /** `removeEventListeners`: both handlers are removed and Awesomplete is
      destroyed; other listeners stay. */
  function RemoveEventListeners(w: Wiring): (r: Wiring)
    ensures SelectArticle !in r.listeners && RemoveArticleOnPreviewClick !in r.listeners
    ensures forall l: Listener :: l.Foreign? ==> (l in r.listeners <==> l in w.listeners)
    ensures !r.awesompleteAlive
  {
    Wiring(w.listeners - {SelectArticle, RemoveArticleOnPreviewClick}, false)
  }

  /** Removing twice is removing once. */
  lemma RemoveEventListenersIdempotent(w: Wiring)
    ensures RemoveEventListeners(RemoveEventListeners(w)) == RemoveEventListeners(w)
  {
  }
}

=== FILE: assign_categories.dfy ===
/** `scripts/assign_categories.py`: the canonical category name, the test
    that keeps hidden and blacklisted categories out, and the grouping of
    unsourced pages by category that keeps categories with at least two
    snippets. The database queries are inputs: the pairs they return, the
    hidden names and the per-page snippet counts. */
module AssignCategories {
  import opened Wrappers
  import opened Strings
  import opened PercentEncoding
  import opened Utils
  import CatLinks

  /** A failed `assert` in the `CategoryName` constructor. */
  datatype NameError = AssertionFailed

  /** The prefix `from_tl_projectindex` drops. */
  const WikipediaPrefix: string := "Wikipedia:"

  /** The canonical form: no `Category:` prefix and no underscores. */
  predicate IsCategoryName(s: string) {
    !StartsWith(s, CatLinks.CategoryPrefix) && '_' !in s
  }

  /** `CategoryName(ustr)`: the text itself when it is canonical. */
  function CategoryName(s: string): (r: Result<string, NameError>)
    ensures r.Ok? <==> IsCategoryName(s)
    ensures r.Ok? ==> r.value == s
  {
    if StartsWith(s, CatLinks.CategoryPrefix) || '_' in s then Err(AssertionFailed) else Ok(s)
  }

  /** One leading `prefix` removed, if it is there. */
  function DropPrefix(s: string, prefix: string): (r: string)
    ensures StartsWith(s, prefix) ==> prefix + r == s
    ensures !StartsWith(s, prefix) ==> r == s
  {
    if StartsWith(s, prefix) then s[|prefix|..] else s
  }

  /** `from_wp_page`: a page title with an optional `Category:`; it may not
      hold spaces, and its underscores become spaces. */
  function FromWpPage(s: string): (r: Result<string, NameError>)
    ensures r.Ok? ==> IsCategoryName(r.value)
    ensures r.Ok? ==> ' ' !in DropPrefix(s, CatLinks.CategoryPrefix)
  {
    var t := DropPrefix(s, CatLinks.CategoryPrefix);
    if ' ' in t then Err(AssertionFailed) else CategoryName(ReplaceChar(t, '_', ' '))
  }

  /** `from_wp_categorylinks`: the same, spaces allowed. */
  function FromWpCategorylinks(s: string): (r: Result<string, NameError>)
    ensures r.Ok? ==> IsCategoryName(r.value)
  {
    CategoryName(ReplaceChar(DropPrefix(s, CatLinks.CategoryPrefix), '_', ' '))
  }

  /** `from_tl_projectindex`: a project title with an optional `Wikipedia:`. */
  function FromTlProjectIndex(s: string): (r: Result<string, NameError>)
    ensures r.Ok? ==> IsCategoryName(r.value)
  {
    CategoryName(ReplaceChar(DropPrefix(s, WikipediaPrefix), '_', ' '))
  }

  /** Replacing characters the prefix does not hold neither makes nor
      breaks the prefix. */
  lemma ReplaceCharPrefix(t: string, prefix: string, a: char, b: char)
    requires a !in prefix && b !in prefix
    ensures StartsWith(ReplaceChar(t, a, b), prefix) <==> StartsWith(t, prefix)
  {
    var u := ReplaceChar(t, a, b);
    if StartsWith(t, prefix) {
      assert forall i :: 0 <= i < |prefix| ==> u[i] == t[i] && t[i] == prefix[i];
      assert u[..|prefix|] == prefix;
    }
    if StartsWith(u, prefix) {
      assert forall i :: 0 <= i < |prefix| ==> u[i] == prefix[i] && u[i] == t[i];
      assert t[..|prefix|] == prefix;
    }
  }

  /** Where `b` does not occur, turning `a` into `b` and back is the identity. */
  lemma ReplaceCharBack(n: string, a: char, b: char)
    requires b !in n
    ensures ReplaceChar(ReplaceChar(n, a, b), b, a) == n
  {
    var r := ReplaceChar(ReplaceChar(n, a, b), b, a);
    assert forall i :: 0 <= i < |n| ==> r[i] == n[i];
  }

  /** `from_wp_page` succeeds exactly when, once the prefix is dropped, the
      title has no space and does not start with a second `Category:`. */
  lemma FromWpPageOk(s: string)
    ensures FromWpPage(s).Ok?
      <==> ' ' !in DropPrefix(s, CatLinks.CategoryPrefix)
           && !StartsWith(DropPrefix(s, CatLinks.CategoryPrefix), CatLinks.CategoryPrefix)
  {
    var t := DropPrefix(s, CatLinks.CategoryPrefix);
    ReplaceCharPrefix(t, CatLinks.CategoryPrefix, '_', ' ');
  }

  /** A category's title as the wiki writes it: `Category:` and underscores
      for spaces. */
  function WpTitle(n: string): string {
    CatLinks.CategoryPrefix + ReplaceChar(n, ' ', '_')
  }

  /** Each constructor gives back the canonical name from the form its
      source writes it in. */
  lemma ConstructorsInvert(n: string)
    requires IsCategoryName(n)
    ensures FromWpPage(WpTitle(n)) == Ok(n)
    ensures FromWpCategorylinks(WpTitle(n)) == Ok(n)
    ensures FromTlProjectIndex(WikipediaPrefix + ReplaceChar(n, ' ', '_')) == Ok(n)
  {
    var u := ReplaceChar(n, ' ', '_');
    assert (CatLinks.CategoryPrefix + u)[..|CatLinks.CategoryPrefix|] == CatLinks.CategoryPrefix;
    assert (CatLinks.CategoryPrefix + u)[|CatLinks.CategoryPrefix|..] == u;
    assert (WikipediaPrefix + u)[..|WikipediaPrefix|] == WikipediaPrefix;
    assert (WikipediaPrefix + u)[|WikipediaPrefix|..] == u;
    ReplaceCharBack(n, ' ', '_');
    assert forall i :: 0 <= i < |u| ==> u[i] != ' ';
  }

  /** No regular expression of the list matches. */
  function NoneMatch(blacklist: seq<string -> bool>, name: string): (r: bool)
    ensures r <==> forall k :: 0 <= k < |blacklist| ==> !blacklist[k](name)
  {
    if blacklist == [] then true
    else if blacklist[0](name) then false
    else
      var rest := NoneMatch(blacklist[1..], name);
      assert forall k :: 1 <= k < |blacklist| ==> blacklist[k] == blacklist[1..][k - 1];
      rest
  }

  /** `category_is_usable`: false for a hidden category or one some
      blacklist expression (`re.search`, given as a predicate) matches. */
  function CategoryIsUsable(hidden: set<string>, blacklist: seq<string -> bool>, name: string): (r: bool)
    ensures r <==> name !in hidden && forall k :: 0 <= k < |blacklist| ==> !blacklist[k](name)
  {
    if name in hidden then false else NoneMatch(blacklist, name)
  }

  /** The pairs that pass `keep`, in order. */
  function Filter(xs: seq<(string, int)>, keep: ((string, int)) -> bool): (r: seq<(string, int)>)
    ensures |r| <= |xs|
    ensures forall x :: x in r <==> x in xs && keep(x)
  {
    if xs == [] then []
    else
      var rest := Filter(xs[1..], keep);
      assert forall x :: x in xs <==> x == xs[0] || x in xs[1..];
      if keep(xs[0]) then [xs[0]] + rest else rest
  }

  /** The page ids paired with `c`, in order. */
  function PagesOf(pairs: seq<(string, int)>, c: string): (r: seq<int>)
    ensures |r| <= |pairs|
    ensures forall p :: p in r <==> (c, p) in pairs
  {
    if pairs == [] then []
    else
      var rest := PagesOf(pairs[1..], c);
      assert forall x :: x in pairs <==> x == pairs[0] || x in pairs[1..];
      if pairs[0].0 == c then [pairs[0].1] + rest else rest
  }

  lemma {:induction false} PagesOfAppend(a: seq<(string, int)>, b: seq<(string, int)>, c: string)
    ensures PagesOf(a + b, c) == PagesOf(a, c) + PagesOf(b, c)
  {
    if a != [] {
      assert (a + b)[1..] == a[1..] + b;
      PagesOfAppend(a[1..], b, c);
    } else {
      assert a + b == b;
    }
  }

  /** `d.get(c, [])`. */
  function Get(m: map<string, seq<int>>, c: string): seq<int> {
    if c in m then m[c] else []
  }

  /** `category_to_page_ids.setdefault(c, []).append(p)` for each pair. */
  function Group(pairs: seq<(string, int)>, m: map<string, seq<int>>): map<string, seq<int>> {
    if pairs == [] then m
    else
      var c := pairs[0].0;
      Group(pairs[1..], m[c := Get(m, c) + [pairs[0].1]])
  }

  /** Grouping appends to each category its pages in the order of the
      pairs, and adds a key exactly for the categories that occur. */
  lemma {:induction false} GroupCollects(pairs: seq<(string, int)>, m: map<string, seq<int>>, c: string)
    ensures Get(Group(pairs, m), c) == Get(m, c) + PagesOf(pairs, c)
    ensures c in Group(pairs, m) <==> c in m || PagesOf(pairs, c) != []
  {
    if pairs != [] {
      var m' := m[pairs[0].0 := Get(m, pairs[0].0) + [pairs[0].1]];
      GroupCollects(pairs[1..], m', c);
      if pairs[0].0 == c {
        assert Get(m', c) + PagesOf(pairs[1..], c) == Get(m, c) + ([pairs[0].1] + PagesOf(pairs[1..], c));
      } else {
        assert Get(m', c) == Get(m, c);
      }
    }
  }

  /** `sum(counts.get(p, 0) for p in pages)`. */
  function SnippetCount(counts: map<int, int>, pages: seq<int>): int {
    if pages == [] then 0
    else (if pages[0] in counts then counts[pages[0]] else 0) + SnippetCount(counts, pages[1..])
  }

  /** With counts that are never negative, a category's snippet count is
      never negative, and a category with any snippet has a page of its own
      that has snippets. */
  lemma {:induction false} SnippetCountNonNegative(counts: map<int, int>, pages: seq<int>)
    requires forall p :: p in counts ==> counts[p] >= 0
    ensures SnippetCount(counts, pages) >= 0
    ensures SnippetCount(counts, pages) > 0 ==> exists p :: p in pages && p in counts && counts[p] > 0
  {
    if pages != [] {
      SnippetCountNonNegative(counts, pages[1..]);
      if SnippetCount(counts, pages) > 0 && !(pages[0] in counts && counts[pages[0]] > 0) {
        var p :| p in pages[1..] && p in counts && counts[p] > 0;
        assert p in pages;
      } else if pages[0] in counts && counts[pages[0]] > 0 {
        var p := pages[0];
        assert p in pages && p in counts && counts[p] > 0;
      }
    }
  }

  lemma {:induction false} SnippetCountAppend(counts: map<int, int>, a: seq<int>, b: seq<int>)
    ensures SnippetCount(counts, a + b) == SnippetCount(counts, a) + SnippetCount(counts, b)
  {
    if a != [] {
      assert (a + b)[1..] == a[1..] + b;
      SnippetCountAppend(counts, a[1..], b);
    } else {
      assert a + b == b;
    }
  }

  /** The inputs: the unsourced page ids, the project index pairs (empty
      outside the English wiki on Toolforge), the categorylinks pairs of
      those pages, the hidden categories, the blacklist and the snippet
      count of each page. */
  datatype Inputs = Inputs(
    unsourced: set<int>,
    projectindex: seq<(string, int)>,
    links: seq<(string, int)>,
    hidden: set<string>,
    blacklist: seq<string -> bool>,
    counts: map<int, int>)

  /** The pairs that reach the grouping: project index pairs of unsourced
      pages, then categorylinks pairs of usable categories. */
  function SelectedPairs(i: Inputs): seq<(string, int)> {
    Filter(i.projectindex, (x: (string, int)) => x.1 in i.unsourced)
      + Filter(i.links, (x: (string, int)) => CategoryIsUsable(i.hidden, i.blacklist, x.0))
  }

  /** The categories written to the database, by name: each with its id
      `mkid(name)` and its page ids. */
  function Assign(sha1: seq<Byte> -> seq<Byte>, i: Inputs): map<string, (string, seq<int>)> {
    var groups := Group(SelectedPairs(i), map[]);
    map c | c in groups && SnippetCount(i.counts, groups[c]) >= 2 :: (Mkid(sha1, c), groups[c])
  }

  /** The exceptions the script raises before it writes anything: the
      project index, when it is queried (on Toolforge for the English
      Wikipedia) and has no rows, fails its log line's `ret[0][0]`; an empty
      set of hidden categories fails its log line's `next(iter(...))`. */
  datatype AssignError = EmptyProjectIndex | NoHiddenCategories

  /** `assign_categories()`, from loading the inputs to the rows written:
      the project index is loaded (and logged) first, the hidden categories
      next. */
  function AssignRun(sha1: seq<Byte> -> seq<Byte>, i: Inputs, indexQueried: bool): (r: Result<map<string, (string, seq<int>)>, AssignError>)
    ensures r == Err(EmptyProjectIndex) <==> indexQueried && i.projectindex == []
    ensures r == Err(NoHiddenCategories) <==> !(indexQueried && i.projectindex == []) && i.hidden == {}
    ensures r.Ok? ==> r.value == Assign(sha1, i)
  {
    if indexQueried && i.projectindex == [] then Err(EmptyProjectIndex)
    else if i.hidden == {} then Err(NoHiddenCategories)
    else Ok(Assign(sha1, i))
  }

  /** The pages a category collects: its project-index pages of unsourced
      pages, followed, when it is usable, by its categorylinks pages. */
  function CollectedPages(i: Inputs, c: string): seq<int> {
    PagesOf(Filter(i.projectindex, (x: (string, int)) => x.1 in i.unsourced), c)
      + (if CategoryIsUsable(i.hidden, i.blacklist, c) then PagesOf(i.links, c) else [])
  }

  lemma GroupSelected(i: Inputs, c: string)
    ensures Get(Group(SelectedPairs(i), map[]), c) == CollectedPages(i, c)
    ensures c in Group(SelectedPairs(i), map[]) <==> CollectedPages(i, c) != []
  {
    var inU := (x: (string, int)) => x.1 in i.unsourced;
    var usable := (x: (string, int)) => CategoryIsUsable(i.hidden, i.blacklist, x.0);
    var a := Filter(i.projectindex, inU);
    var b := Filter(i.links, usable);
    assert SelectedPairs(i) == a + b;
    GroupOfTwo(a, b, c);
    UsableFilter(i.links, usable, c);
    assert usable((c, 0)) == CategoryIsUsable(i.hidden, i.blacklist, c);
  }

  /** Grouping two runs of pairs from scratch collects a category's pages
      of the first run, then those of the second. */
  lemma GroupOfTwo(a: seq<(string, int)>, b: seq<(string, int)>, c: string)
    ensures Get(Group(a + b, map[]), c) == PagesOf(a, c) + PagesOf(b, c)
    ensures c in Group(a + b, map[]) <==> PagesOf(a, c) + PagesOf(b, c) != []
  {
    GroupCollects(a + b, map[], c);
    PagesOfAppend(a, b, c);
    assert Get(map[], c) == [];
  }

  /** A category is kept exactly when it collects pages whose snippets
      number at least two; it is stored with `mkid` of its name and those
      pages. */
  lemma AssignKeeps(sha1: seq<Byte> -> seq<Byte>, i: Inputs, c: string)
    ensures c in Assign(sha1, i) <==> CollectedPages(i, c) != [] && SnippetCount(i.counts, CollectedPages(i, c)) >= 2
    ensures c in Assign(sha1, i) ==> Assign(sha1, i)[c] == (Mkid(sha1, c), CollectedPages(i, c))
  {
    GroupSelected(i, c);
  }

  /** Filtering pairs by a test on the category alone keeps all or none of
      a category's pages. */
  lemma {:induction false} UsableFilter(links: seq<(string, int)>, keep: ((string, int)) -> bool, c: string)
    requires forall p: int, q: int :: keep((c, p)) == keep((c, q))
    ensures PagesOf(Filter(links, keep), c) == if keep((c, 0)) then PagesOf(links, c) else []
  {
    if links != [] {
      UsableFilter(links[1..], keep, c);
      if links[0].0 == c {
        assert links[0] == (c, links[0].1);
      }
    }
  }
}

=== FILE: category_walk.dfy ===
/** `scripts/print_unsourced_pageids_from_wikipedia.py`: a breadth-first
    walk down the category tree from the citation-needed category, printing
    the pages of each level. The `categorylinks` and `page` tables are
    inputs; the walk keeps no set of visited categories, so the model bounds
    it with fuel. */
module CategoryWalk {
  import opened Wrappers

  /** A `categorylinks` row: the member's page id, its type (`page`,
      `subcat` or `file`) and the category it belongs to. */
  datatype Link = Link(from: int, kind: string, to: string)

  /** Why the walk ends without a result: a frontier with no titles makes
      the `WHERE ()` query invalid; the fuel bound is the model's own. */
  datatype WalkError = EmptyQuery | OutOfFuel

  /** The page members of the frontier's categories, in table order. */
  function PageMembers(links: seq<Link>, cats: set<string>): (r: seq<int>)
    ensures forall id :: id in r <==> exists k :: 0 <= k < |links| && links[k] == Link(id, "page", links[k].to) && links[k].to in cats
  {
    if links == [] then []
    else
      var rest := PageMembers(links[1..], cats);
      assert forall k :: 1 <= k < |links| ==> links[k] == links[1..][k - 1];
      if links[0].kind == "page" && links[0].to in cats then [links[0].from] + rest else rest
  }

  /** The ids of the frontier's subcategories. */
  function Subcats(links: seq<Link>, cats: set<string>): set<int> {
    set k | 0 <= k < |links| && links[k].kind == "subcat" && links[k].to in cats :: links[k].from
  }

  /** The next frontier: the titles of those subcategories. */
  function NextFrontier(titles: map<int, string>, subs: set<int>): set<string> {
    set id | id in subs && id in titles :: titles[id]
  }

  /** The loop from frontier `cats`: print its pages, stop when it has no
      subcategories, otherwise carry on from their titles. */
  function Walk(links: seq<Link>, titles: map<int, string>, cats: set<string>, fuel: nat): (r: Result<seq<int>, WalkError>)
    decreases fuel
  {
    if cats == {} then Err(EmptyQuery)
    else if fuel == 0 then Err(OutOfFuel)
    else
      var pages := PageMembers(links, cats);
      var subs := Subcats(links, cats);
      if subs == {} then Ok(pages)
      else
        match Walk(links, titles, NextFrontier(titles, subs), fuel - 1)
        case Ok(rest) => Ok(pages + rest)
        case Err(e) => Err(e)
  }

  /** The frontier after `k` rounds. */
  function Frontier(links: seq<Link>, titles: map<int, string>, cats: set<string>, k: nat): set<string>
    decreases k
  {
    if k == 0 then cats else Frontier(links, titles, NextFrontier(titles, Subcats(links, cats)), k - 1)
  }

  /** `id` is a page member of one of `cats`. */
  predicate PageIn(links: seq<Link>, id: int, cats: set<string>) {
    exists k :: 0 <= k < |links| && links[k] == Link(id, "page", links[k].to) && links[k].to in cats
  }

  /** Every printed id is a page member of a category of some level the
      walk reached, and the first level's pages come first. */
  lemma {:induction false} WalkPrintsLevels(links: seq<Link>, titles: map<int, string>, cats: set<string>, fuel: nat, id: int)
    requires Walk(links, titles, cats, fuel).Ok?
    ensures PageMembers(links, cats) <= Walk(links, titles, cats, fuel).value
    ensures id in Walk(links, titles, cats, fuel).value ==> exists k :: 0 <= k < fuel && PageIn(links, id, Frontier(links, titles, cats, k))
    decreases fuel
  {
    var out := Walk(links, titles, cats, fuel).value;
    var pages := PageMembers(links, cats);
    var subs := Subcats(links, cats);
    if id in pages {
      assert PageIn(links, id, Frontier(links, titles, cats, 0));
    }
    if subs != {} {
      var next := NextFrontier(titles, subs);
      var rest := Walk(links, titles, next, fuel - 1).value;
      assert out == pages + rest;
      if id in rest {
        WalkPrintsLevels(links, titles, next, fuel - 1, id);
        var k :| 0 <= k < fuel - 1 && PageIn(links, id, Frontier(links, titles, next, k));
        assert Frontier(links, titles, cats, k + 1) == Frontier(links, titles, next, k);
      }
    }
  }

  /** A level without subcategories ends the walk with its pages. */
  lemma WalkStops(links: seq<Link>, titles: map<int, string>, cats: set<string>, fuel: nat)
    requires cats != {} && fuel > 0 && Subcats(links, cats) == {}
    ensures Walk(links, titles, cats, fuel) == Ok(PageMembers(links, cats))
  {
  }

  /** More fuel never changes a finished walk: the bound only cuts off
      walks that would go on longer. */
  lemma {:induction false} WalkFuelMonotone(links: seq<Link>, titles: map<int, string>, cats: set<string>, fuel: nat)
    requires Walk(links, titles, cats, fuel).Ok?
    ensures Walk(links, titles, cats, fuel + 1) == Walk(links, titles, cats, fuel)
    decreases fuel
  {
    var subs := Subcats(links, cats);
    if subs != {} {
      WalkFuelMonotone(links, titles, NextFrontier(titles, subs), fuel - 1);
    }
  }

  /** Without a visited set, a category that is its own subcategory keeps
      the walk going for ever: no amount of fuel finishes it. */
  lemma {:induction false} CycleNeverEnds(links: seq<Link>, titles: map<int, string>, cats: set<string>, fuel: nat)
    requires cats != {} && Subcats(links, cats) != {}
    requires NextFrontier(titles, Subcats(links, cats)) == cats
    ensures Walk(links, titles, cats, fuel) == Err(OutOfFuel)
    decreases fuel
  {
    if fuel > 0 {
      CycleNeverEnds(links, titles, cats, fuel - 1);
    }
  }
}

=== FILE: catlinks.dfy ===
/** The drivers around the `categorylinks` reader: which lines of the dump
    are read (`parse_sql_catlinks` in `scripts/parse_catlinks.py` and
    `scripts/extract_unsourced_pageids.py`), the page ids printed for the
    unsourced-statements category, and the edges of the category graph that
    `build_category_graph` pickles. */
module CatLinks {
  import opened Wrappers
  import opened Strings
  import opened SqlValues

  /** `INSERT_STMT_BEGIN`. */
  const InsertBegin: string := "INSERT INTO `categorylinks` VALUES"

  predicate IsInsert(line: string) {
    StartsWith(line, InsertBegin)
  }

  /** Why the dump yields nothing to read: an empty file leaves the loop
      variable `line` unbound when the second loop reads it. */
  datatype DumpError = NoLines

  /** Where the second loop starts: the first line beginning with `begin`,
      or the last line when there is none (the first loop then runs to the
      end and leaves `line` on it). */
  function FirstInsert(lines: seq<string>, begin: string): (i: nat)
    requires lines != []
    ensures i < |lines|
    ensures forall j :: 0 <= j < i ==> !StartsWith(lines[j], begin)
    ensures StartsWith(lines[i], begin) || i == |lines| - 1
  {
    if StartsWith(lines[0], begin) || |lines| == 1 then 0
    else
      var i := 1 + FirstInsert(lines[1..], begin);
      assert forall j :: 1 <= j < i ==> lines[j] == lines[1..][j - 1];
      i
  }

  /** The length of the run of lines beginning with `begin` from `i` on. */
  function RunLength(lines: seq<string>, i: nat, begin: string): (n: nat)
    requires i <= |lines|
    ensures i + n <= |lines|
    ensures forall j :: i <= j < i + n ==> StartsWith(lines[j], begin)
    ensures i + n == |lines| || !StartsWith(lines[i + n], begin)
    decreases |lines| - i
  {
    if i == |lines| || !StartsWith(lines[i], begin) then 0
    else 1 + RunLength(lines, i + 1, begin)
  }

  /** `s[n:]`, one character at a time. */
  function After(s: string, n: nat): (r: string)
    ensures |r| == if n <= |s| then |s| - n else 0
  {
    if n == 0 || s == [] then s else After(s[1..], n - 1)
  }

  /** `After` is the slice from `n` on. */
  lemma {:induction false} AfterIsSlice(s: string, n: nat)
    requires n <= |s|
    ensures After(s, n) == s[n..]
  {
    if n > 0 {
      AfterIsSlice(s[1..], n - 1);
      assert s[1..][n - 1..] == s[n..];
    }
  }

  /** A line of the run without `begin`, stripped:
      `line[len(begin):].strip()`. */
  function ValueOf(line: string, begin: string): string
    requires StartsWith(line, begin)
  {
    Strip(After(line, |begin|))
  }

  /** `gen_value_strings` for statements beginning with `begin`. */
  function ValueStringsFor(lines: seq<string>, begin: string): (r: Result<seq<string>, DumpError>)
    ensures r.Err? <==> lines == []
  {
    if lines == [] then Err(NoLines)
    else
      var i := FirstInsert(lines, begin);
      var n := RunLength(lines, i, begin);
      Ok(seq(n, k requires 0 <= k < n => ValueOf(lines[i + k], begin)))
  }

  /** `gen_value_strings(filename)` over the lines of the dump. */
  function ValueStrings(lines: seq<string>): (r: Result<seq<string>, DumpError>)
    ensures r.Err? <==> lines == []
  {
    ValueStringsFor(lines, InsertBegin)
  }

  /** `r` is what the run of lines beginning with `begin` from `i` on
      holds, and that run is maximal. */
  predicate RunAt(lines: seq<string>, begin: string, i: nat, r: seq<string>) {
    i + |r| <= |lines|
    && (forall k :: 0 <= k < |r| ==> StartsWith(lines[i + k], begin) && r[k] == ValueOf(lines[i + k], begin))
    && (i + |r| == |lines| || !StartsWith(lines[i + |r|], begin))
  }

  lemma ValueStringsForRun(lines: seq<string>, begin: string)
    requires lines != []
    ensures exists i: nat :: (RunAt(lines, begin, i, ValueStringsFor(lines, begin).value)
                              && forall j :: 0 <= j < i ==> !StartsWith(lines[j], begin))
  {
    var i := FirstInsert(lines, begin);
    var n := RunLength(lines, i, begin);
    var r := ValueStringsFor(lines, begin).value;
    assert r == seq(n, k requires 0 <= k < n => ValueOf(lines[i + k], begin));
    RunAtOf(lines, begin, i, n, r);
  }

  /** The values of the `n` lines from `i` on, all beginning with `begin`
      and followed by one that does not, form a maximal run. */
  lemma RunAtOf(lines: seq<string>, begin: string, i: nat, n: nat, r: seq<string>)
    requires i + n <= |lines| && forall j :: i <= j < i + n ==> StartsWith(lines[j], begin)
    requires i + n == |lines| || !StartsWith(lines[i + n], begin)
    requires |r| == n && forall k :: 0 <= k < n ==> r[k] == ValueOf(lines[i + k], begin)
    ensures RunAt(lines, begin, i, r)
  {
  }

  /** The value strings are those of the maximal run of `INSERT` lines that
      begins at the first `INSERT` line; reading stops at the first other
      line after it. */
  lemma ValueStringsRun(lines: seq<string>)
    requires lines != []
    ensures exists i: nat :: (RunAt(lines, InsertBegin, i, ValueStrings(lines).value)
                              && forall j :: 0 <= j < i ==> !IsInsert(lines[j]))
  {
    ValueStringsForRun(lines, InsertBegin);
    var i: nat :| RunAt(lines, InsertBegin, i, ValueStrings(lines).value)
                  && forall j :: 0 <= j < i ==> !StartsWith(lines[j], InsertBegin);
    var r := ValueStrings(lines).value;
    assert RunAt(lines, InsertBegin, i, r);
    assert i + |r| <= |lines|;
    assert forall j :: 0 <= j < i ==> !IsInsert(lines[j]);
  }

  lemma NoneBeginNoValues(lines: seq<string>, begin: string)
    requires lines != [] && forall j :: 0 <= j < |lines| ==> !StartsWith(lines[j], begin)
    ensures ValueStringsFor(lines, begin) == Ok([])
  {
    var i := FirstInsert(lines, begin);
    assert !StartsWith(lines[i], begin);
    assert RunLength(lines, i, begin) == 0;
    assert |ValueStringsFor(lines, begin).value| == 0;
  }

  /** A dump without `INSERT` lines gives no values. */
  lemma NoInsertNoValues(lines: seq<string>)
    requires lines != [] && forall j :: 0 <= j < |lines| ==> !IsInsert(lines[j])
    ensures ValueStrings(lines) == Ok([])
  {
    NoneBeginNoValues(lines, InsertBegin);
  }

  /** The page ids the unsourced-statements run prints for a list of value
      strings, in order; the first reader failure stops it. */
  function UnsourcedInValues(vs: seq<string>): (r: Result<seq<string>, SqlError>)
    ensures r.Ok? <==> forall k :: 0 <= k < |vs| ==> ParseValues(vs[k]).Ok?
  {
    if vs == [] then Ok([])
    else
      match UnsourcedPageIds(vs[0])
      case Err(e) => Err(e)
      case Ok(ids) =>
        var rest := UnsourcedInValues(vs[1..]);
        assert forall k :: 1 <= k < |vs| ==> vs[k] == vs[1..][k - 1];
        if rest.Err? then rest else Ok(ids + rest.value)
  }

  /** A page id is printed exactly when some value string has a row for it
      in the unsourced-statements category. */
  lemma {:induction false} UnsourcedInValuesMembers(vs: seq<string>, pageid: string)
    requires UnsourcedInValues(vs).Ok?
    ensures pageid in UnsourcedInValues(vs).value <==>
      exists k :: 0 <= k < |vs| && Row(pageid, UnsourcedCategory) in ParseValues(vs[k]).value
  {
    if vs != [] {
      var rows := ParseValues(vs[0]).value;
      UnsourcedInValuesMembers(vs[1..], pageid);
      UnsourcedIdsExact(rows, pageid);
      assert pageid in UnsourcedIds(rows) <==> Row(pageid, UnsourcedCategory) in rows by {
        assert pageid in multiset(UnsourcedIds(rows)) <==> Row(pageid, UnsourcedCategory) in multiset(rows);
      }
      if exists k :: 0 <= k < |vs| && Row(pageid, UnsourcedCategory) in ParseValues(vs[k]).value {
        var k :| 0 <= k < |vs| && Row(pageid, UnsourcedCategory) in ParseValues(vs[k]).value;
        if k > 0 {
          assert vs[1..][k - 1] == vs[k];
        }
      }
      if exists k :: 0 <= k < |vs| - 1 && Row(pageid, UnsourcedCategory) in ParseValues(vs[1..][k]).value {
        var k :| 0 <= k < |vs| - 1 && Row(pageid, UnsourcedCategory) in ParseValues(vs[1..][k]).value;
        assert vs[k + 1] == vs[1..][k];
      }
    }
  }

  /** The prefix `cat` names carry in the database. */
  const CategoryPrefix: string := "Category:"

  /** The name normalisation of `build_category_graph`: the `Category:`
      prefix must be there and is dropped, and spaces become underscores,
      as in `categorylinks`. */
  function NormalisedName(name: string): (r: Result<string, SqlError>)
    ensures r.Ok? <==> StartsWith(name, CategoryPrefix)
    ensures r.Err? ==> r.error == AssertionFailed
    ensures r.Ok? ==> |r.value| == |name| - |CategoryPrefix| && forall i :: 0 <= i < |r.value| ==> r.value[i] != ' '
  {
    if StartsWith(name, CategoryPrefix) then Ok(ReplaceChar(name[|CategoryPrefix|..], ' ', '_'))
    else Err(AssertionFailed)
  }

  /** For a name without underscores the normalisation is undone by putting
      the prefix back and turning underscores into spaces. */
  lemma NormalisedNameInverse(name: string)
    requires StartsWith(name, CategoryPrefix)
    requires forall i :: 0 <= i < |name| ==> name[i] != '_'
    ensures CategoryPrefix + ReplaceChar(NormalisedName(name).value, '_', ' ') == name
  {
    var rest := name[|CategoryPrefix|..];
    assert ReplaceChar(ReplaceChar(rest, ' ', '_'), '_', ' ') == rest;
    assert name == name[..|CategoryPrefix|] + rest;
  }

  /** `catnames_to_ids`: every `(id, name)` of the `cat` table under its
      normalised name, a later row replacing an earlier one with the same
      name; a name without the prefix fails the `assert`. */
  function CatIndex(cats: seq<(int, string)>): (r: Result<map<string, int>, SqlError>)
    ensures r.Ok? <==> forall k :: 0 <= k < |cats| ==> StartsWith(cats[k].1, CategoryPrefix)
  {
    if cats == [] then Ok(map[])
    else
      var init := cats[..|cats| - 1];
      var last := cats[|cats| - 1];
      assert forall k :: 0 <= k < |init| ==> init[k] == cats[k];
      match CatIndex(init)
      case Err(e) => Err(e)
      case Ok(m) =>
        match NormalisedName(last.1)
        case Err(e) => Err(e)
        case Ok(n) => Ok(m[n := last.0])
  }

  /** The index holds exactly the normalised names, each with the id of the
      last row bearing it. */
  lemma {:induction false} CatIndexLastWins(cats: seq<(int, string)>, k: nat)
    requires CatIndex(cats).Ok? && k < |cats|
    requires forall j :: k < j < |cats| ==> NormalisedName(cats[j].1) != NormalisedName(cats[k].1)
    ensures NormalisedName(cats[k].1).value in CatIndex(cats).value
    ensures CatIndex(cats).value[NormalisedName(cats[k].1).value] == cats[k].0
  {
    var init := cats[..|cats| - 1];
    assert forall j :: 0 <= j < |init| ==> init[j] == cats[j];
    if k < |cats| - 1 {
      CatIndexLastWins(init, k);
    }
  }

  /** Every key of the index is the normalised name of some row. */
  lemma {:induction false} CatIndexKeys(cats: seq<(int, string)>, n: string)
    requires CatIndex(cats).Ok? && n in CatIndex(cats).value
    ensures exists k :: 0 <= k < |cats| && NormalisedName(cats[k].1) == Ok(n)
  {
    var init := cats[..|cats| - 1];
    assert forall j :: 0 <= j < |init| ==> init[j] == cats[j];
    if NormalisedName(cats[|cats| - 1].1) != Ok(n) {
      CatIndexKeys(init, n);
      var k :| 0 <= k < |init| && NormalisedName(init[k].1) == Ok(n);
      assert NormalisedName(cats[k].1) == Ok(n);
    }
  }

  /** The edges `row_callback` adds, page id to category id, in row order;
      a row whose category has no id adds nothing. */
  function Edges(rows: seq<Row>, index: map<string, int>): (r: seq<(string, int)>)
    ensures |r| <= |rows|
  {
    if rows == [] then []
    else
      var rest := Edges(rows[1..], index);
      if rows[0].catname in index then [(rows[0].pageid, index[rows[0].catname])] + rest else rest
  }

  /** An edge is in the graph exactly when some row links its page to a
      category with that id. */
  lemma {:induction false} EdgesOfRows(rows: seq<Row>, index: map<string, int>, e: (string, int))
    ensures e in Edges(rows, index) <==>
      exists k :: 0 <= k < |rows| && rows[k].catname in index && e == (rows[k].pageid, index[rows[k].catname])
  {
    if rows != [] {
      EdgesOfRows(rows[1..], index, e);
      if exists k :: 0 <= k < |rows| && rows[k].catname in index && e == (rows[k].pageid, index[rows[k].catname]) {
        var k :| 0 <= k < |rows| && rows[k].catname in index && e == (rows[k].pageid, index[rows[k].catname]);
        if k > 0 {
          assert rows[1..][k - 1] == rows[k];
        }
      }
      if exists k :: 0 <= k < |rows| - 1 && rows[1..][k].catname in index && e == (rows[1..][k].pageid, index[rows[1..][k].catname]) {
        var k :| 0 <= k < |rows| - 1 && rows[1..][k].catname in index && e == (rows[1..][k].pageid, index[rows[1..][k].catname]);
        assert rows[k + 1] == rows[1..][k];
      }
    }
  }
}

=== FILE: chdb.dfy ===
/** `chdb.py`: the retry loop of `RetryingConnection.execute_with_retry`,
    its `execute_with_retry_s` use, and the Toolforge database name. What
    each attempt of the operations does is given by its attempt number. */
module Chdb {
  import opened Wrappers
  import opened Strings

  /** `max_retries` in `execute_with_retry`. */
  const MaxAttempts: nat := 5

  /** What one attempt of the operations did: returned a value, raised
      `MySQLdb.OperationalError` (and, when that is retried, whether the
      reconnection `_do_connect()` succeeds), or raised something else. */
  datatype Attempt<T> = Success(value: T) | OperationalError | OperationalErrorConnectFails | OtherError

  /** Either kind of operational error. */
  predicate Operational<T>(a: Attempt<T>) {
    a.OperationalError? || a.OperationalErrorConnectFails?
  }

  /** How the call ends: the first returned value, the exception that
      escaped the operations, or the one `_do_connect()` raised. */
  datatype DbOutcome<T> = Done(value: T) | Raised(operational: bool) | ConnectFailed

  /** The call: its outcome, and how many attempts and reconnections it
      made. */
  datatype DbRun<T> = DbRun(outcome: DbOutcome<T>, attempts: nat, reconnects: nat)

  /** The loop from attempt `retry` on: an operational error reconnects and
      tries again, except on the last attempt, where it propagates; any
      other exception propagates at once, and so does one raised while
      reconnecting. */
  function RetryFrom<T>(attempt: nat -> Attempt<T>, retry: nat): (run: DbRun<T>)
    requires retry < MaxAttempts
    ensures 1 <= run.attempts <= MaxAttempts - retry
    ensures run.reconnects == if run.outcome.ConnectFailed? then run.attempts else run.attempts - 1
    decreases MaxAttempts - retry
  {
    match attempt(retry)
    case Success(v) => DbRun(Done(v), 1, 0)
    case OtherError => DbRun(Raised(false), 1, 0)
    case OperationalErrorConnectFails =>
      if retry == MaxAttempts - 1 then DbRun(Raised(true), 1, 0) else DbRun(ConnectFailed, 1, 1)
    case OperationalError =>
      if retry == MaxAttempts - 1 then DbRun(Raised(true), 1, 0)
      else
        var rest := RetryFrom(attempt, retry + 1);
        DbRun(rest.outcome, rest.attempts + 1, rest.reconnects + 1)
  }

  /** `execute_with_retry(operations)`. */
  function ExecuteWithRetry<T>(attempt: nat -> Attempt<T>): (run: DbRun<T>)
    ensures 1 <= run.attempts <= MaxAttempts
  {
    RetryFrom(attempt, 0)
  }

  /** The first attempt that does not raise an operational error decides
      the call: its value is returned, or its exception escapes, after
      `d` reconnections; five operational errors in a row let the fifth
      escape. */
  lemma {:induction false} RetryDecidedAt<T>(attempt: nat -> Attempt<T>, retry: nat, d: nat)
    requires retry <= d < MaxAttempts
    requires forall a :: retry <= a < d ==> attempt(a).OperationalError?
    requires !attempt(d).OperationalError? || d == MaxAttempts - 1
    ensures RetryFrom(attempt, retry).attempts == d - retry + 1
    ensures attempt(d).Success? ==> RetryFrom(attempt, retry).outcome == Done(attempt(d).value)
    ensures attempt(d).OtherError? ==> RetryFrom(attempt, retry).outcome == Raised(false)
    ensures Operational(attempt(d)) && d == MaxAttempts - 1 ==> RetryFrom(attempt, retry).outcome == Raised(true)
    ensures attempt(d).OperationalErrorConnectFails? && d < MaxAttempts - 1 ==> RetryFrom(attempt, retry).outcome == ConnectFailed
    decreases d - retry
  {
    if retry < d {
      RetryDecidedAt(attempt, retry + 1, d);
    }
  }

  /** An attempt among the first five that succeeds after nothing but
      operational errors gives the call's value. */
  lemma ExecuteSucceeds<T>(attempt: nat -> Attempt<T>, d: nat)
    requires d < MaxAttempts && attempt(d).Success?
    requires forall a :: 0 <= a < d ==> attempt(a).OperationalError?
    ensures ExecuteWithRetry(attempt) == DbRun(Done(attempt(d).value), d + 1, d)
  {
    RetryDecidedAt(attempt, 0, d);
  }

  /** Five operational errors in a row make the call raise the last one
      after four reconnections. */
  lemma ExecuteGivesUp<T>(attempt: nat -> Attempt<T>)
    requires forall a :: 0 <= a < MaxAttempts ==> attempt(a).OperationalError?
    ensures ExecuteWithRetry(attempt) == DbRun(Raised(true), MaxAttempts, MaxAttempts - 1)
  {
    RetryDecidedAt(attempt, 0, MaxAttempts - 1);
  }

  /** A reconnection that raises ends the call with its exception. */
  lemma ExecuteConnectFails<T>(attempt: nat -> Attempt<T>, d: nat)
    requires d < MaxAttempts - 1 && attempt(d).OperationalErrorConnectFails?
    requires forall a :: 0 <= a < d ==> attempt(a).OperationalError?
    ensures ExecuteWithRetry(attempt) == DbRun(ConnectFailed, d + 1, d + 1)
  {
    RetryDecidedAt(attempt, 0, d);
  }

  /** An error other than an operational one is never retried. */
  lemma ExecuteOtherErrorEscapes<T>(attempt: nat -> Attempt<T>, d: nat)
    requires d < MaxAttempts && attempt(d).OtherError?
    requires forall a :: 0 <= a < d ==> attempt(a).OperationalError?
    ensures ExecuteWithRetry(attempt) == DbRun(Raised(false), d + 1, d)
  {
    RetryDecidedAt(attempt, 0, d);
  }

  /** What the statement of `execute_with_retry_s` did: its row count and
      its rows. */
  datatype Executed<R> = Executed(rowcount: int, rows: seq<R>)

  /** The `operations` of `execute_with_retry_s`: all rows when the row
      count is positive, `None` otherwise. */
  function RowsIfAny<R>(e: Executed<R>): (r: Option<seq<R>>)
    ensures r.Some? <==> e.rowcount > 0
    ensures r.Some? ==> r.value == e.rows
  {
    if e.rowcount > 0 then Some(e.rows) else None
  }

  /** Each attempt of `execute_with_retry_s`, seen through `operations`. */
  function Fetched<R>(attempt: nat -> Attempt<Executed<R>>): nat -> Attempt<Option<seq<R>>> {
    (a: nat) =>
      match attempt(a)
      case Success(e) => Success(RowsIfAny(e))
      case OperationalError => OperationalError
      case OperationalErrorConnectFails => OperationalErrorConnectFails
      case OtherError => OtherError
  }

  /** `execute_with_retry_s(sql, *args)`. */
  function ExecuteWithRetryS<R>(attempt: nat -> Attempt<Executed<R>>): DbRun<Option<seq<R>>> {
    ExecuteWithRetry(Fetched(attempt))
  }

  /** The rows come back when the deciding statement touched some rows,
      `None` when it touched none. */
  lemma ExecuteSRows<R>(attempt: nat -> Attempt<Executed<R>>, d: nat)
    requires d < MaxAttempts && attempt(d).Success?
    requires forall a :: 0 <= a < d ==> attempt(a).OperationalError?
    ensures attempt(d).value.rowcount > 0 ==> ExecuteWithRetryS(attempt).outcome == Done(Some(attempt(d).value.rows))
    ensures attempt(d).value.rowcount <= 0 ==> ExecuteWithRetryS(attempt).outcome == Done(None)
  {
    ExecuteSucceeds(Fetched(attempt), d);
  }

  /** `SUBSTRING_INDEX(USER(), '@', 1)`: the text before the first `@`,
      or all of it. */
  function UserName(user: string): (r: string)
    ensures '@' !in r
    ensures StartsWith(user, r)
    ensures |r| < |user| ==> user[|r|] == '@'
  {
    if user == [] then []
    else if user[0] == '@' then []
    else
      var rest := UserName(user[1..]);
      assert ([user[0]] + rest)[..|rest| + 1] == [user[0]] + user[1..][..|rest|];
      assert user == [user[0]] + user[1..];
      [user[0]] + rest
  }

  /** `_make_tools_labs_dbname`: `user__database_lang`. */
  function ToolsLabsDbName(user: string, database: string, lang: string): (r: string)
    ensures StartsWith(r, user + "__") && EndsWith(r, "_" + lang)
    ensures |r| == |user| + |database| + |lang| + 3
  {
    var r := user + "__" + database + "_" + lang;
    assert r[..|user| + 2] == user + "__";
    assert r[|r| - |lang| - 1..] == "_" + lang;
    r
  }

  /** For one user and one language, different databases get different
      names. */
  lemma ToolsLabsDbNameInjective(user: string, d1: string, d2: string, lang: string)
    requires ToolsLabsDbName(user, d1, lang) == ToolsLabsDbName(user, d2, lang)
    ensures d1 == d2
  {
    var n := ToolsLabsDbName(user, d1, lang);
    assert |d1| == |d2|;
    assert n[|user| + 2..|user| + 2 + |d1|] == d1;
    assert ToolsLabsDbName(user, d2, lang)[|user| + 2..|user| + 2 + |d2|] == d2;
  }
}

=== FILE: cleanup.dfy ===
/** `_cleanup_snippet` (and the module-level `cleanup_snippet` of the older
    snippet parser): four regular-expression rewrites and a strip, each
    modelled as the left-to-right scan `re.sub` performs, and the usable
    length that discounts the markers. */
module Cleanup {
  import opened Strings
  import opened SnippetRules

  /** The number of `\s` characters that start `s`. */
  function SpaceRun(s: string): (k: nat)
    ensures k <= |s|
    ensures forall i :: 0 <= i < k ==> IsSpace(s[i])
    ensures k == |s| || !IsSpace(s[k])
  {
    if s == [] || !IsSpace(s[0]) then 0 else 1 + SpaceRun(s[1..])
  }

  /** `s` starts with one of the two markers. */
  predicate AtMarker(s: string, cn: string, ref: string) {
    StartsWith(s, cn) || StartsWith(s, ref)
  }

  /** The length of the marker `s` starts with (the alternation tries the
      citation-needed marker first). */
  function MarkerLength(s: string, cn: string, ref: string): (m: nat)
    requires cn != [] && ref != [] && AtMarker(s, cn, ref)
    ensures 0 < m <= |s| && AtMarker(s[..m], cn, ref)
  {
    if StartsWith(s, cn) then |cn| else |ref|
  }

  /** `re.sub('\s+(' + cn + '|' + ref + ')', r'\1', s)`: a run of white space
      is deleted when a marker follows it; the scan resumes after the
      marker. */
  function DropSpaceBeforeMarkers(s: string, cn: string, ref: string): (r: string)
    requires cn != [] && ref != []
    ensures |r| <= |s|
    decreases |s|
  {
    if s == [] then []
    else if IsSpace(s[0]) then
      var k := SpaceRun(s);
      var rest := s[k..];
      if AtMarker(rest, cn, ref) then
        var m := MarkerLength(rest, cn, ref);
        rest[..m] + DropSpaceBeforeMarkers(rest[m..], cn, ref)
      else s[..k] + DropSpaceBeforeMarkers(rest, cn, ref)
    else [s[0]] + DropSpaceBeforeMarkers(s[1..], cn, ref)
  }

  /** `re.sub(',\s+\)', ')', s)`. */
  function DropCommaBeforeParen(s: string): (r: string)
    ensures |r| <= |s|
    decreases |s|
  {
    if s == [] then []
    else if s[0] == ',' && 1 + SpaceRun(s[1..]) < |s| && SpaceRun(s[1..]) > 0 && s[1 + SpaceRun(s[1..])] == ')' then
      ")" + DropCommaBeforeParen(s[2 + SpaceRun(s[1..])..])
    else [s[0]] + DropCommaBeforeParen(s[1..])
  }

  /** `re.sub('\(\)\s', '', s)` for `open`, `close` = `(`, `)` and
      `re.sub('\[\]\s', '', s)` for `[`, `]`. */
  function DropEmptyPair(s: string, open: char, close: char): (r: string)
    ensures |r| <= |s|
    decreases |s|
  {
    if |s| >= 3 && s[0] == open && s[1] == close && IsSpace(s[2]) then DropEmptyPair(s[3..], open, close)
    else if s == [] then []
    else [s[0]] + DropEmptyPair(s[1..], open, close)
  }

  /** `_cleanup_snippet(snippet)`. */
  function CleanupSnippet(s: string): (r: string)
    ensures |r| <= |s|
  {
    var a := UStrip(DropSpaceBeforeMarkers(s, CitationNeededMarker, RefMarker));
    DropEmptyPair(DropEmptyPair(DropCommaBeforeParen(a), '(', ')'), '[', ']')
  }

  /** The character classes the rewrites delete from. */
  datatype CharClass = Spaces | CommaOrSpace | PairOrSpace | Cleanable

  predicate InClass(c: char, k: CharClass) {
    match k
    case Spaces => IsSpace(c)
    case CommaOrSpace => c == ',' || c == ')' || IsSpace(c)
    case PairOrSpace => c == '(' || c == ')' || c == '[' || c == ']' || IsSpace(c)
    case Cleanable => c == ',' || c == '(' || c == ')' || c == '[' || c == ']' || IsUnicodeSpace(c)
  }

  /** The characters of `s` outside the class, in order. */
  function Kept(s: string, k: CharClass): (r: string)
    ensures |r| <= |s|
  {
    if s == [] then [] else (if InClass(s[0], k) then [] else [s[0]]) + Kept(s[1..], k)
  }

  lemma {:induction false} KeptAppend(a: string, b: string, k: CharClass)
    ensures Kept(a + b, k) == Kept(a, k) + Kept(b, k)
  {
    if a != [] {
      var h := if InClass(a[0], k) then [] else [a[0]];
      assert (a + b)[0] == a[0] && (a + b)[1..] == a[1..] + b;
      assert Kept(a + b, k) == h + Kept(a[1..] + b, k);
      KeptAppend(a[1..], b, k);
      assert Kept(a, k) == h + Kept(a[1..], k);
    } else {
      assert a + b == b;
    }
  }

  lemma {:induction false} KeptAllInClass(a: string, k: CharClass)
    requires forall i :: 0 <= i < |a| ==> InClass(a[i], k)
    ensures Kept(a, k) == []
  {
    if a != [] {
      KeptAllInClass(a[1..], k);
    }
  }

  /** Erasing a class and then a wider one is erasing the wider one. */
  lemma {:induction false} KeptWiden(s: string, k1: CharClass, k2: CharClass)
    requires forall c :: InClass(c, k1) ==> InClass(c, k2)
    ensures Kept(Kept(s, k1), k2) == Kept(s, k2)
  {
    if s != [] {
      KeptWiden(s[1..], k1, k2);
      KeptAppend(if InClass(s[0], k1) then [] else [s[0]], Kept(s[1..], k1), k2);
    }
  }

  /** Two texts that agree outside a class agree outside any wider class. */
  lemma KeptAgreeWiden(r: string, s: string, k1: CharClass, k2: CharClass)
    requires forall c :: InClass(c, k1) ==> InClass(c, k2)
    requires Kept(r, k1) == Kept(s, k1)
    ensures Kept(r, k2) == Kept(s, k2)
  {
    KeptWiden(r, k1, k2);
    KeptWiden(s, k1, k2);
  }

  /** The marker rewrite deletes white space only. */
  lemma {:induction false} DropSpaceDeletesOnlySpace(s: string, cn: string, ref: string)
    requires cn != [] && ref != []
    ensures Kept(DropSpaceBeforeMarkers(s, cn, ref), Spaces) == Kept(s, Spaces)
    decreases |s|
  {
    if s == [] {
    } else if IsSpace(s[0]) {
      var k := SpaceRun(s);
      var rest := s[k..];
      assert s == s[..k] + rest;
      KeptAppend(s[..k], rest, Spaces);
      KeptAllInClass(s[..k], Spaces);
      if AtMarker(rest, cn, ref) {
        var m := MarkerLength(rest, cn, ref);
        DropSpaceDeletesOnlySpace(rest[m..], cn, ref);
        assert rest == rest[..m] + rest[m..];
        KeptAppend(rest[..m], rest[m..], Spaces);
        KeptAppend(rest[..m], DropSpaceBeforeMarkers(rest[m..], cn, ref), Spaces);
      } else {
        DropSpaceDeletesOnlySpace(rest, cn, ref);
        KeptAppend(s[..k], DropSpaceBeforeMarkers(rest, cn, ref), Spaces);
      }
    } else {
      DropSpaceDeletesOnlySpace(s[1..], cn, ref);
      KeptAppend([s[0]], DropSpaceBeforeMarkers(s[1..], cn, ref), Spaces);
    }
  }

  /** A run of white space right before a marker disappears. The markers
      differ in their first character, so the one that follows is the one
      the alternation picks. */
  lemma SpaceBeforeMarkerDropped(w: string, marker: string, rest: string, cn: string, ref: string)
    requires cn != [] && ref != [] && cn[0] != ref[0]
    requires w != [] && forall i :: 0 <= i < |w| ==> IsSpace(w[i])
    requires marker == cn || marker == ref
    requires !IsSpace(marker[0])
    ensures DropSpaceBeforeMarkers(w + marker + rest, cn, ref) == marker + DropSpaceBeforeMarkers(rest, cn, ref)
  {
    var t := marker + rest;
    var s := w + t;
    assert w + marker + rest == s;
    assert t[0] == marker[0] && s[0] == w[0];
    SpaceRunOver(w, t);
    assert s[|w|..] == t;
    MarkerAtFront(marker, rest, cn, ref);
    assert DropSpaceBeforeMarkers(s, cn, ref) == t[..|marker|] + DropSpaceBeforeMarkers(t[|marker|..], cn, ref);
  }

  lemma MarkerAtFront(marker: string, rest: string, cn: string, ref: string)
    requires cn != [] && ref != [] && cn[0] != ref[0]
    requires marker == cn || marker == ref
    ensures AtMarker(marker + rest, cn, ref) && MarkerLength(marker + rest, cn, ref) == |marker|
    ensures (marker + rest)[..|marker|] == marker && (marker + rest)[|marker|..] == rest
  {
    var t := marker + rest;
    assert t[..|marker|] == marker;
    if marker == ref {
      assert t[0] == ref[0];
      assert !StartsWith(t, cn);
    }
  }

  /** A run of white space followed by neither a marker nor more space is
      kept. */
  lemma SpaceElsewhereKept(w: string, rest: string, cn: string, ref: string)
    requires cn != [] && ref != []
    requires w != [] && forall i :: 0 <= i < |w| ==> IsSpace(w[i])
    requires rest == [] || !IsSpace(rest[0])
    requires !AtMarker(rest, cn, ref)
    ensures DropSpaceBeforeMarkers(w + rest, cn, ref) == w + DropSpaceBeforeMarkers(rest, cn, ref)
  {
    SpaceRunOver(w, rest);
    assert (w + rest)[|w|..] == rest;
    assert (w + rest)[..|w|] == w;
  }

  lemma {:induction false} SpaceRunOver(w: string, rest: string)
    requires forall i :: 0 <= i < |w| ==> IsSpace(w[i])
    requires rest == [] || !IsSpace(rest[0])
    ensures SpaceRun(w + rest) == |w|
  {
    if w != [] {
      assert (w + rest)[1..] == w[1..] + rest;
      SpaceRunOver(w[1..], rest);
    } else {
      assert w + rest == rest;
    }
  }

  /** The comma rewrite deletes only commas, white space and the extra
      closing parenthesis it is measured against (one `)` in, one out). */
  lemma {:induction false} DropCommaDeletesOnlyCommaAndSpace(s: string)
    ensures Kept(DropCommaBeforeParen(s), CommaOrSpace) == Kept(s, CommaOrSpace)
    decreases |s|
  {
    if s == [] {
    } else if s[0] == ',' && 1 + SpaceRun(s[1..]) < |s| && SpaceRun(s[1..]) > 0 && s[1 + SpaceRun(s[1..])] == ')' {
      var k := SpaceRun(s[1..]);
      DropCommaDeletesOnlyCommaAndSpace(s[2 + k..]);
      assert s == s[..2 + k] + s[2 + k..];
      KeptAppend(s[..2 + k], s[2 + k..], CommaOrSpace);
      assert forall i :: 1 <= i < 1 + k ==> s[i] == s[1..][i - 1];
      KeptAllInClass(s[..2 + k], CommaOrSpace);
      KeptAppend(")", DropCommaBeforeParen(s[2 + k..]), CommaOrSpace);
    } else {
      DropCommaDeletesOnlyCommaAndSpace(s[1..]);
      KeptAppend([s[0]], DropCommaBeforeParen(s[1..]), CommaOrSpace);
    }
  }

  /** A comma followed by white space and `)` becomes the `)`. */
  lemma CommaBeforeParenDropped(w: string, rest: string)
    requires w != [] && forall i :: 0 <= i < |w| ==> IsSpace(w[i])
    ensures DropCommaBeforeParen("," + w + ")" + rest) == ")" + DropCommaBeforeParen(rest)
  {
    var s := "," + w + ")" + rest;
    assert s[1..] == w + (")" + rest);
    SpaceRunOver(w, ")" + rest);
    assert s[2 + |w|..] == rest;
  }

  /** The empty-pair rewrites delete only brackets and white space. */
  lemma {:induction false} DropEmptyPairDeletesOnlyPairAndSpace(s: string, open: char, close: char)
    requires (open == '(' && close == ')') || (open == '[' && close == ']')
    ensures Kept(DropEmptyPair(s, open, close), PairOrSpace) == Kept(s, PairOrSpace)
    decreases |s|
  {
    if |s| >= 3 && s[0] == open && s[1] == close && IsSpace(s[2]) {
      DropEmptyPairDeletesOnlyPairAndSpace(s[3..], open, close);
      assert s == s[..3] + s[3..];
      KeptAppend(s[..3], s[3..], PairOrSpace);
      KeptAllInClass(s[..3], PairOrSpace);
    } else if s != [] {
      DropEmptyPairDeletesOnlyPairAndSpace(s[1..], open, close);
      KeptAppend([s[0]], DropEmptyPair(s[1..], open, close), PairOrSpace);
    }
  }

  /** `()`/`[]` followed by one white-space character disappear with it. */
  lemma EmptyPairDropped(open: char, close: char, c: char, rest: string)
    requires IsSpace(c)
    ensures DropEmptyPair([open, close, c] + rest, open, close) == DropEmptyPair(rest, open, close)
  {
    assert ([open, close, c] + rest)[3..] == rest;
  }

  /** Stripping removes Unicode white space from the ends only. */
  lemma UStripDeletesOnlySpace(s: string)
    ensures Kept(UStrip(s), Cleanable) == Kept(s, Cleanable)
  {
    var l := LStripBy(s, IsUnicodeSpace);
    LStripKept(s);
    RStripKept(l);
  }

  /** Unicode white space is among the characters the cleanup may delete. */
  lemma UnicodeSpaceCleanable(c: char)
    requires IsUnicodeSpace(c)
    ensures InClass(c, Cleanable)
  {
  }

  /** The left strip deletes nothing the cleanup keeps. */
  lemma {:induction false} LStripKept(s: string)
    ensures Kept(LStripBy(s, IsUnicodeSpace), Cleanable) == Kept(s, Cleanable)
  {
    if s != [] && IsUnicodeSpace(s[0]) {
      assert LStripBy(s, IsUnicodeSpace) == LStripBy(s[1..], IsUnicodeSpace);
      UnicodeSpaceCleanable(s[0]);
      assert Kept(s, Cleanable) == Kept(s[1..], Cleanable);
      LStripKept(s[1..]);
    }
  }

  /** The right strip deletes nothing the cleanup keeps. */
  lemma {:induction false} RStripKept(s: string)
    ensures Kept(RStripBy(s, IsUnicodeSpace), Cleanable) == Kept(s, Cleanable)
  {
    if s != [] && IsUnicodeSpace(s[|s| - 1]) {
      var init, last := s[..|s| - 1], s[|s| - 1];
      assert RStripBy(s, IsUnicodeSpace) == RStripBy(init, IsUnicodeSpace);
      UnicodeSpaceCleanable(last);
      assert s == init + [last];
      KeptAppend(init, [last], Cleanable);
      assert Kept([last], Cleanable) == [];
      RStripKept(init);
    }
  }

  /** The whole cleanup deletes nothing but white space, commas, brackets
      and parentheses: every other character survives, in order. */
  lemma CleanupDeletesOnlyCleanable(s: string)
    ensures Kept(CleanupSnippet(s), Cleanable) == Kept(s, Cleanable)
  {
    var a := DropSpaceBeforeMarkers(s, CitationNeededMarker, RefMarker);
    DropSpaceDeletesOnlySpace(s, CitationNeededMarker, RefMarker);
    KeptAgreeWiden(a, s, Spaces, Cleanable);
    var b := UStrip(a);
    UStripDeletesOnlySpace(a);
    var c := DropCommaBeforeParen(b);
    DropCommaDeletesOnlyCommaAndSpace(b);
    KeptAgreeWiden(c, b, CommaOrSpace, Cleanable);
    var d := DropEmptyPair(c, '(', ')');
    DropEmptyPairDeletesOnlyPairAndSpace(c, '(', ')');
    KeptAgreeWiden(d, c, PairOrSpace, Cleanable);
    var e := DropEmptyPair(d, '[', ']');
    DropEmptyPairDeletesOnlyPairAndSpace(d, '[', ']');
    KeptAgreeWiden(e, d, PairOrSpace, Cleanable);
  }

  /** The length of a snippet less the length of every marker in it, as the
      snippet extractor computes it. */
  function UsableLength(s: string): int {
    |s| - |CitationNeededMarker| * Count(s, CitationNeededMarker) - |RefMarker| * Count(s, RefMarker)
  }

  /** The number of characters that are not part of a marker, scanning left
      to right. */
  function TextLength(s: string): (n: nat)
    ensures n <= |s|
    decreases |s|
  {
    if StartsWith(s, CitationNeededMarker) then TextLength(s[|CitationNeededMarker|..])
    else if StartsWith(s, RefMarker) then TextLength(s[|RefMarker|..])
    else if s == [] then 0
    else 1 + TextLength(s[1..])
  }

  /** Skipping a prefix in which `pat` never starts leaves its count alone. */
  lemma {:induction false} CountSkip(s: string, pat: string, j: nat)
    requires |pat| > 0 && j <= |s|
    requires forall i :: 0 <= i < j ==> !StartsWith(s[i..], pat)
    ensures Count(s, pat) == Count(s[j..], pat)
    decreases j
  {
    if j > 0 {
      assert !StartsWith(s[0..], pat);
      assert s[0..] == s;
      assert s != [];
      forall i | 0 <= i < j - 1
        ensures !StartsWith(s[1..][i..], pat)
      {
        assert s[1..][i..] == s[i + 1..];
      }
      CountSkip(s[1..], pat, j - 1);
      assert s[1..][j - 1..] == s[j..];
    }
  }

  /** No reference marker starts inside a citation-needed marker. */
  lemma NoRefMarkerInsideCitationNeeded(s: string, i: nat)
    requires StartsWith(s, CitationNeededMarker) && i < |CitationNeededMarker|
    ensures !StartsWith(s[i..], RefMarker)
  {
    var cn := CitationNeededMarker;
    assert s[i] == cn[i];
    if i == 16 {
      assert s[i + 1] == '6';
      assert s[i..][1] != RefMarker[1];
    } else {
      assert cn[i] != 'e';
      assert s[i..][0] != RefMarker[0];
    }
  }

  /** No citation-needed marker starts inside a reference marker: the
      reference marker has no `7`. */
  lemma NoCitationNeededInsideRefMarker(s: string, i: nat)
    requires StartsWith(s, RefMarker) && i < |RefMarker|
    ensures !StartsWith(s[i..], CitationNeededMarker)
  {
    assert s[i] == RefMarker[i];
    assert RefMarker[i] != '7';
    assert s[i..][0] != CitationNeededMarker[0];
  }

  /** The two markers never overlap each other, so the usable length is
      exactly the number of characters outside markers: never negative and
      never more than the length. */
  lemma {:induction false} UsableLengthIsTextLength(s: string)
    ensures UsableLength(s) == TextLength(s)
    decreases |s|
  {
    var cn := CitationNeededMarker;
    var ref := RefMarker;
    assert |cn| == 24 && |ref| == 23;
    if StartsWith(s, cn) {
      forall i | 0 <= i < |cn|
        ensures !StartsWith(s[i..], ref)
      {
        NoRefMarkerInsideCitationNeeded(s, i);
      }
      var t := s[24..];
      CountSkip(s, ref, 24);
      assert Count(s, cn) == 1 + Count(t, cn);
      assert TextLength(s) == TextLength(t);
      UsableLengthIsTextLength(t);
      assert UsableLength(s) == |t| - 24 * Count(t, cn) - 23 * Count(t, ref);
    } else if StartsWith(s, ref) {
      forall i | 0 <= i < |ref|
        ensures !StartsWith(s[i..], cn)
      {
        NoCitationNeededInsideRefMarker(s, i);
      }
      var t := s[23..];
      CountSkip(s, cn, 23);
      assert Count(s, ref) == 1 + Count(t, ref);
      assert TextLength(s) == TextLength(t);
      UsableLengthIsTextLength(t);
      assert UsableLength(s) == |t| - 24 * Count(t, cn) - 23 * Count(t, ref);
    } else if s != [] {
      var t := s[1..];
      assert Count(s, cn) == Count(t, cn) && Count(s, ref) == Count(t, ref);
      UsableLengthIsTextLength(t);
      assert UsableLength(s) == 1 + UsableLength(t);
    }
  }

  /** Without markers the usable length is the length. */
  lemma {:induction false} UsableLengthWithoutMarkers(s: string)
    requires !Contains(s, CitationNeededMarker) && !Contains(s, RefMarker)
    ensures UsableLength(s) == |s|
    decreases |s|
  {
    UsableLengthIsTextLength(s);
    TextLengthWithoutMarkers(s);
  }

  lemma {:induction false} TextLengthWithoutMarkers(s: string)
    requires !Contains(s, CitationNeededMarker) && !Contains(s, RefMarker)
    ensures TextLength(s) == |s|
    decreases |s|
  {
    if s != [] {
      assert !OccursAt(s, CitationNeededMarker, 0) && !OccursAt(s, RefMarker, 0);
      forall j | 0 <= j <= |s[1..]| && OccursAt(s[1..], CitationNeededMarker, j)
        ensures false
      {
        assert OccursAt(s, CitationNeededMarker, j + 1);
      }
      forall j | 0 <= j <= |s[1..]| && OccursAt(s[1..], RefMarker, j)
        ensures false
      {
        assert OccursAt(s, RefMarker, j + 1);
      }
      TextLengthWithoutMarkers(s[1..]);
    }
  }
}

=== FILE: config.dfy ===
/** The configuration layering of `config.py`: a language's configuration
    is the global, base and language-specific dictionaries folded together
    with `_inherit`, plus the tables derived from the per-language
    dictionaries and the template-redirect resolution. */
module Configuration {
  import opened Wrappers
  import opened Strings

  /** A configuration value: a scalar (flags, numbers, strings, `None`, and
      the opaque objects such as durations, which inherit like scalars), a
      list, or a dictionary with string keys. */
  datatype Value =
    | Flag(b: bool)
    | Number(n: int)
    | Str(s: string)
    | Null
    | List(items: seq<Value>)
    | Dict(entries: map<string, Value>)

  type Config = map<string, Value>

  /** Why building a configuration fails: a list or dictionary inherited
      onto a value of another kind (`TypeError` in `_inherit`), an unknown
      language code (`KeyError`), or a derived key that clashes with one of
      the dictionary's own keys (`TypeError` from the keyword arguments). */
  datatype ConfigError = KindMismatch | UnknownLanguage | MissingLanguageName | DuplicateKeyword

  /** How one shared key inherits: a list is appended to the base list, a
      dictionary is laid over the base dictionary, anything else replaces
      the base value. */
  function MergeValue(b: Value, c: Value): Option<Value> {
    match c
    case List(items) => if b.List? then Some(List(b.items + items)) else None
    case Dict(entries) => if b.Dict? then Some(Dict(b.entries + entries)) else None
    case _ => Some(c)
  }

  /** Some key of both dictionaries holds values that cannot be merged. */
  predicate Clashes(base: Config, child: Config) {
    exists k :: k in child && k in base && MergeValue(base[k], child[k]).None?
  }

  /** `_inherit(base, child)`. */
  function Inherit(base: Config, child: Config): (r: Result<Config, ConfigError>)
    ensures r.Err? <==> Clashes(base, child)
    ensures r.Err? ==> r.error == KindMismatch
    ensures r.Ok? ==> r.value.Keys == base.Keys + child.Keys
    ensures r.Ok? ==> forall k :: k in base && k !in child ==> r.value[k] == base[k]
    ensures r.Ok? ==> forall k :: k in child && k !in base ==> r.value[k] == child[k]
  {
    if Clashes(base, child) then Err(KindMismatch)
    else
      Ok(map k | k in base.Keys + child.Keys ::
        if k in child && k in base then MergeValue(base[k], child[k]).value
        else if k in child then child[k]
        else base[k])
  }

  /** For a key both sides hold: lists concatenate base first with nothing
      removed, dictionaries merge with the child's entries winning, and any
      other child value overrides the base one. */
  lemma InheritShared(base: Config, child: Config, k: string)
    requires Inherit(base, child).Ok? && k in base && k in child
    ensures child[k].List? ==> base[k].List? && Inherit(base, child).value[k] == List(base[k].items + child[k].items)
    ensures child[k].Dict? ==> (base[k].Dict? && Inherit(base, child).value[k].Dict?
      && Inherit(base, child).value[k].entries.Keys == base[k].entries.Keys + child[k].entries.Keys
      && (forall e :: e in child[k].entries ==> Inherit(base, child).value[k].entries[e] == child[k].entries[e])
      && (forall e :: e in base[k].entries && e !in child[k].entries ==> Inherit(base, child).value[k].entries[e] == base[k].entries[e]))
    ensures !child[k].List? && !child[k].Dict? ==> Inherit(base, child).value[k] == child[k]
  {
    assert !MergeValue(base[k], child[k]).None?;
  }

  /** Inheriting from or onto an empty dictionary changes nothing. */
  lemma InheritIdentity(c: Config)
    ensures Inherit(map[], c) == Ok(c)
    ensures Inherit(c, map[]) == Ok(c)
  {
    assert Inherit(map[], c).value == c;
    assert Inherit(c, map[]).value == c;
  }

  /** Merging values is associative where both groupings succeed. */
  lemma MergeValueAssociative(a: Value, b: Value, c: Value)
    requires MergeValue(a, b).Some? && MergeValue(b, c).Some?
    requires MergeValue(MergeValue(a, b).value, c).Some? && MergeValue(a, MergeValue(b, c).value).Some?
    ensures MergeValue(MergeValue(a, b).value, c) == MergeValue(a, MergeValue(b, c).value)
  {
    match c
    case List(_) =>
      assert b.List? && a.List?;
      assert a.items + b.items + c.items == a.items + (b.items + c.items);
    case Dict(_) =>
      assert b.Dict? && a.Dict?;
      assert a.entries + b.entries + c.entries == a.entries + (b.entries + c.entries);
    case _ =>
  }

  /** Folding the three layers left to right, as `reduce` does, gives the
      same configuration as layering the language onto the base first,
      whenever both orders succeed. */
  lemma InheritAssociative(a: Config, b: Config, c: Config)
    requires Inherit(a, b).Ok? && Inherit(b, c).Ok?
    requires Inherit(Inherit(a, b).value, c).Ok? && Inherit(a, Inherit(b, c).value).Ok?
    ensures Inherit(Inherit(a, b).value, c) == Inherit(a, Inherit(b, c).value)
  {
    var ab := Inherit(a, b).value;
    var bc := Inherit(b, c).value;
    var left := Inherit(ab, c).value;
    var right := Inherit(a, bc).value;
    forall k | k in left
      ensures k in right && left[k] == right[k]
    {
      if k in a && k in b && k in c {
        assert MergeValue(a[k], b[k]).Some? && MergeValue(b[k], c[k]).Some?;
        assert MergeValue(ab[k], c[k]).Some? && MergeValue(a[k], bc[k]).Some?;
        MergeValueAssociative(a[k], b[k], c[k]);
      }
    }
    assert left == right;
  }

  /** The per-language dictionaries, in the order the source lists them. */
  type LangTable = seq<(string, Config)>

  predicate HasCode(table: LangTable, code: string) {
    exists i :: 0 <= i < |table| && table[i].0 == code
  }

  /** The dictionary of a language code, the last entry for it winning. */
  function Lookup(table: LangTable, code: string): (r: Option<Config>)
    ensures r.Some? <==> HasCode(table, code)
    ensures r.Some? ==> exists i :: 0 <= i < |table| && table[i] == (code, r.value)
  {
    if table == [] then None
    else if table[|table| - 1].0 == code then Some(table[|table| - 1].1)
    else
      var r := Lookup(table[..|table| - 1], code);
      assert forall i :: 0 <= i < |table| - 1 ==> table[..|table| - 1][i] == table[i];
      r
  }

  /** The language code asked for: the argument, else `CH_LANG`. */
  function EffectiveCode(langCode: Option<string>, envLang: Option<string>): Option<string> {
    if langCode.Some? then langCode else envLang
  }

  /** `get_localized_config(lang_code)`: the code (or, when none is given,
      the `CH_LANG` environment variable) selects the language dictionary;
      the global, base and language layers are folded left to right and the
      code is added under `lang_code`, together with the code-to-name
      table. */
  function LocalizedConfig(global: Config, base: Config, table: LangTable, langCode: Option<string>, envLang: Option<string>): (r: Result<Config, ConfigError>)
    ensures r == Err(UnknownLanguage) <==>
      EffectiveCode(langCode, envLang).None? || !HasCode(table, EffectiveCode(langCode, envLang).value)
    ensures r.Ok? ==> (EffectiveCode(langCode, envLang).Some? && HasCode(table, EffectiveCode(langCode, envLang).value)
      && r.value.Keys == global.Keys + base.Keys + Lookup(table, EffectiveCode(langCode, envLang).value).value.Keys
                         + {"lang_code", "lang_codes_to_lang_names"}
      && r.value["lang_code"] == Str(EffectiveCode(langCode, envLang).value))
    ensures var code := EffectiveCode(langCode, envLang);
            code.Some? && HasCode(table, code.value) ==>
              var lang := Lookup(table, code.value).value;
              var gb := Inherit(global, base);
              (r.Err? <==> gb.Err? || Inherit(gb.value, lang).Err? || "lang_code" in Inherit(gb.value, lang).value
                           || LangNames(table).Err?)
              && (r.Err? ==> r.error != UnknownLanguage)
              && (r.Ok? ==>
                    r.value["lang_codes_to_lang_names"] == Dict(LangNames(table).value)
                    && forall k :: k in r.value && k != "lang_code" && k != "lang_codes_to_lang_names" ==>
                         r.value[k] == Inherit(gb.value, lang).value[k])
  {
    var code := EffectiveCode(langCode, envLang);
    if code.None? || !HasCode(table, code.value) then Err(UnknownLanguage)
    else
      var lang := Lookup(table, code.value).value;
      match Inherit(global, base)
      case Err(e) => Err(e)
      case Ok(gb) =>
        match Inherit(gb, lang)
        case Err(e) => Err(e)
        case Ok(merged) =>
          if "lang_code" in merged then Err(DuplicateKeyword)
          else
            match LangNames(table)
            case Err(e) => Err(e)
            case Ok(names) => Ok(merged["lang_code" := Str(code.value)]["lang_codes_to_lang_names" := Dict(names)])
  }

  /** `LANG_CODES_TO_LANG_NAMES`: each code's `lang_name`; a dictionary
      without one raises. */
  function LangNames(table: LangTable): (r: Result<map<string, Value>, ConfigError>)
    ensures r.Ok? ==> forall code :: code in r.value <==> HasCode(table, code)
    ensures r.Ok? ==> forall code :: code in r.value ==>
      "lang_name" in Lookup(table, code).value && Lookup(table, code).value["lang_name"] == r.value[code]
    ensures r.Err? <==> exists i :: 0 <= i < |table| && "lang_name" !in table[i].1
    ensures r.Err? ==> r.error == MissingLanguageName
  {
    if table == [] then Ok(map[])
    else
      var init := table[..|table| - 1];
      var (code, cfg) := table[|table| - 1];
      assert forall i :: 0 <= i < |init| ==> init[i] == table[i];
      match LangNames(init)
      case Err(e) => Err(e)
      case Ok(names) => if "lang_name" in cfg then Ok(names[code := cfg["lang_name"]]) else Err(MissingLanguageName)
  }

  /** The elements of a list value. */
  function Elements(l: seq<Value>): set<Value> {
    set x | x in l
  }

  /** `LANG_CODES_TO_ACCEPT_LANGUAGE`, in table order: each language's
      `accept_language` items, none when absent. */
  function AcceptLanguages(table: LangTable): (r: seq<seq<Value>>)
    ensures |r| == |table|
  {
    if table == [] then []
    else
      var cfg := table[0].1;
      var items := if "accept_language" in cfg && cfg["accept_language"].List? then cfg["accept_language"].items else [];
      [items] + AcceptLanguages(table[1..])
  }

  function UnionAll(ls: seq<seq<Value>>): set<Value> {
    if ls == [] then {} else UnionAll(ls[..|ls| - 1]) + Elements(ls[|ls| - 1])
  }

  function SumOfLengths(ls: seq<seq<Value>>): nat {
    if ls == [] then 0 else SumOfLengths(ls[..|ls| - 1]) + |ls[|ls| - 1]|
  }

  /** The module-level assertion: the union of all lists is as large as
      their lengths added up. */
  predicate AcceptLanguageCheck(table: LangTable) {
    |UnionAll(AcceptLanguages(table))| == SumOfLengths(AcceptLanguages(table))
  }

  predicate NoRepeats(l: seq<Value>) {
    forall i, j :: 0 <= i < j < |l| ==> l[i] != l[j]
  }

  /** No locale is listed twice, neither within one language nor across
      two. */
  predicate Disjoint(ls: seq<seq<Value>>) {
    (forall i :: 0 <= i < |ls| ==> NoRepeats(ls[i]))
    && (forall i, j, x :: 0 <= i < j < |ls| && x in ls[i] ==> x !in ls[j])
  }

  lemma {:induction false} ElementsSize(l: seq<Value>)
    ensures |Elements(l)| <= |l|
    ensures |Elements(l)| == |l| <==> NoRepeats(l)
  {
    if l != [] {
      var rest := l[1..];
      ElementsSize(rest);
      assert Elements(l) == {l[0]} + Elements(rest);
      if l[0] in Elements(rest) {
        var j :| 0 <= j < |rest| && rest[j] == l[0];
        assert l[0] == l[j + 1];
      } else {
        if NoRepeats(rest) {
          forall i, j | 0 <= i < j < |l|
            ensures l[i] != l[j]
          {
            if i == 0 {
              assert l[j] == rest[j - 1];
            } else {
              assert l[i] == rest[i - 1] && l[j] == rest[j - 1];
            }
          }
        }
        if NoRepeats(l) {
          forall i, j | 0 <= i < j < |rest|
            ensures rest[i] != rest[j]
          {
            assert rest[i] == l[i + 1] && rest[j] == l[j + 1];
          }
        }
      }
    }
  }

  lemma {:induction false} UnionAllMembers(ls: seq<seq<Value>>, x: Value)
    ensures x in UnionAll(ls) <==> exists i :: 0 <= i < |ls| && x in ls[i]
  {
    if ls != [] {
      var init := ls[..|ls| - 1];
      UnionAllMembers(init, x);
      if x in UnionAll(init) {
        var i :| 0 <= i < |init| && x in init[i];
        assert ls[i] == init[i];
      }
      if exists i :: 0 <= i < |ls| && x in ls[i] {
        var i :| 0 <= i < |ls| && x in ls[i];
        if i < |init| {
          assert init[i] == ls[i];
        }
      }
    }
  }

  /** The assertion holds exactly when the lists are duplicate-free and
      pairwise disjoint, which is what lets a locale name one language. */
  lemma {:induction false} UnionSizeIffDisjoint(ls: seq<seq<Value>>)
    ensures |UnionAll(ls)| <= SumOfLengths(ls)
    ensures |UnionAll(ls)| == SumOfLengths(ls) <==> Disjoint(ls)
  {
    if ls != [] {
      var init := ls[..|ls| - 1];
      var last := ls[|ls| - 1];
      var a := UnionAll(init);
      var b := Elements(last);
      UnionSizeIffDisjoint(init);
      ElementsSize(last);
      assert |a + b| + |a * b| == |a| + |b|;
      assert UnionAll(ls) == a + b && SumOfLengths(ls) == SumOfLengths(init) + |last|;
      assert ls == init + [last];
      DisjointSnoc(init, last);
      SeparateIffEmpty(init, last);
    }
  }

  /** The last list shares nothing with the union of the others exactly
      when no earlier list shares an element with it. */
  lemma SeparateIffEmpty(init: seq<seq<Value>>, last: seq<Value>)
    ensures UnionAll(init) * Elements(last) == {} <==>
      forall i, x :: 0 <= i < |init| && x in init[i] ==> x !in last
  {
    if UnionAll(init) * Elements(last) == {} {
      forall i, x | 0 <= i < |init| && x in init[i]
        ensures x !in last
      {
        UnionAllMembers(init, x);
        assert x in UnionAll(init);
        assert x !in UnionAll(init) * Elements(last);
      }
    }
    if forall i, x :: 0 <= i < |init| && x in init[i] ==> x !in last {
      forall x | x in UnionAll(init)
        ensures x !in Elements(last)
      {
        UnionAllMembers(init, x);
      }
    }
  }

  /** Disjointness of a non-empty sequence of lists, split at its last
      list. */
  lemma DisjointSnoc(init: seq<seq<Value>>, last: seq<Value>)
    ensures Disjoint(init + [last]) <==>
      Disjoint(init) && NoRepeats(last) && forall i, x :: 0 <= i < |init| && x in init[i] ==> x !in last
  {
    var ls := init + [last];
    assert forall i :: 0 <= i < |init| ==> ls[i] == init[i];
    assert ls[|init|] == last;
  }

  /** The module-level assertion passes exactly when no locale is claimed
      twice. */
  lemma AcceptLanguageCheckIffDisjoint(table: LangTable)
    ensures AcceptLanguageCheck(table) <==> Disjoint(AcceptLanguages(table))
  {
    UnionSizeIffDisjoint(AcceptLanguages(table));
  }

  /** A redirect as the wiki API reports it. */
  datatype Redirect = Redirect(title: string)

  /** One page of a redirects query, with its redirects (none when the
      response has no `redirects` entry). */
  datatype RedirectPage = RedirectPage(redirects: seq<Redirect>)

  /** The part of a title after its first `:`. */
  function AfterColon(title: string): string
    requires Contains(title, ":")
  {
    var i := Find(title, ":").value;
    title[i + 1..]
  }

  /** The template a redirect title names, if it names one. */
  predicate NamesTemplate(responses: seq<seq<RedirectPage>>, t: string) {
    exists i, j, k :: 0 <= i < |responses| && 0 <= j < |responses[i]| && 0 <= k < |responses[i][j].redirects|
      && Contains(responses[i][j].redirects[k].title, ":") && AfterColon(responses[i][j].redirects[k].title) == t
  }

  function RedirectNames(rs: seq<Redirect>): (r: set<string>)
    ensures forall t :: t in r <==> exists k :: 0 <= k < |rs| && Contains(rs[k].title, ":") && AfterColon(rs[k].title) == t
  {
    if rs == [] then {}
    else
      var here: set<string> := if Contains(rs[0].title, ":") then {AfterColon(rs[0].title)} else {};
      var rest := RedirectNames(rs[1..]);
      assert forall k :: 1 <= k < |rs| ==> rs[k] == rs[1..][k - 1];
      here + rest
  }

  function PageRedirectNames(pages: seq<RedirectPage>): (r: set<string>)
    ensures forall t :: t in r <==> exists j, k :: (0 <= j < |pages| && 0 <= k < |pages[j].redirects|
      && Contains(pages[j].redirects[k].title, ":") && AfterColon(pages[j].redirects[k].title) == t)
  {
    if pages == [] then {}
    else
      var rest := PageRedirectNames(pages[1..]);
      assert forall j :: 1 <= j < |pages| ==> pages[j] == pages[1..][j - 1];
      RedirectNames(pages[0].redirects) + rest
  }

  /** `_resolve_redirects_to_templates(wikipedia, templates)` over the pages
      of the query's responses: the templates plus the name after the first
      `:` of every redirect title that has one. */
  function ResolveRedirects(templates: seq<string>, responses: seq<seq<RedirectPage>>): (r: set<string>)
    ensures forall t :: t in r <==> t in templates || NamesTemplate(responses, t)
  {
    if responses == [] then set t | t in templates
    else
      var rest := ResolveRedirects(templates, responses[1..]);
      assert forall i :: 1 <= i < |responses| ==> responses[i] == responses[1..][i - 1];
      PageRedirectNames(responses[0]) + rest
  }
}

=== FILE: crontab.dfy ===
/** `crontab.py`: the schedule of database updates on the old job grid.
    The `i`-th language in sorted order starts `4 * i` hours into the month
    cycle: at hour `(4 * i) % 24` of day `1 + (4 * i) / 24`, then every
    four days. The arithmetic is shared with the Kubernetes variant. */
module Crontab {
  import opened Strings
  import Decimal

  /** `freq`: days between two runs for one language. */
  const Freq: nat := 4

  /** `duration`: hours between the starts of consecutive languages. */
  const Duration: nat := 4

  /** `h` for the `i`-th language. */
  function Offset(i: nat): nat {
    Duration * i
  }

  /** `h % 24`: the hour of every run. */
  function Hour(i: nat): (hour: nat)
    ensures hour < 24 && hour % Duration == 0
    ensures hour == Duration * (i % 6)
  {
    var a := i / 6;
    var b := i % 6;
    assert Offset(i) == 24 * a + Duration * b;
    Offset(i) % 24
  }

  /** `1 + h / 24`: the first day of the month with a run. */
  function FirstDay(i: nat): (dom: nat)
    ensures dom == 1 + i / 6
  {
    var a := i / 6;
    var b := i % 6;
    assert Offset(i) == 24 * a + Duration * b;
    1 + Offset(i) / 24
  }

  /** Six languages fill a day; the seventh wraps to hour 0 of the next. */
  lemma EverySixLanguagesWrap(i: nat)
    ensures Hour(i + 6) == Hour(i) && FirstDay(i + 6) == FirstDay(i) + 1
  {
  }

  /** Every language has its own starting slot. */
  lemma SlotsDistinct(i: nat, j: nat)
    requires Hour(i) == Hour(j) && FirstDay(i) == FirstDay(j)
    ensures i == j
  {
    assert i == 6 * (i / 6) + i % 6;
    assert j == 6 * (j / 6) + j % 6;
  }

  /** The days of a month on which the `i`-th language runs: from its first
      day, every `Freq` days, up to the 31st. */
  predicate RunsOn(i: nat, day: int) {
    FirstDay(i) <= day <= 31 && (day - FirstDay(i)) % Freq == 0
  }

  /** The position modulo 24 is the hour slot and the day phase. */
  lemma PositionMod24(i: nat)
    ensures i % 24 == 6 * ((i / 6) % 4) + i % 6
  {
    var a, b := i / 6, i % 6;
    assert i == 24 * (a / 4) + (6 * (a % 4) + b);
  }

  /** Two numbers a multiple of 4 below the same day agree modulo 4. */
  lemma SamePhase(x: int, y: int, day: int)
    requires (day - x) % 4 == 0 && (day - y) % 4 == 0
    ensures x % 4 == y % 4
  {
    assert day - x == 4 * ((day - x) / 4);
    assert day - y == 4 * ((day - y) / 4);
  }

  /** Numbers that agree modulo 4 differ by a multiple of 4. */
  lemma PhaseDifference(x: int, y: int)
    requires x % 4 == y % 4
    ensures (x - y) % 4 == 0 && (y - x) % 4 == 0
  {
    assert x == 4 * (x / 4) + x % 4;
    assert y == 4 * (y / 4) + y % 4;
    assert x - y == 4 * (x / 4 - y / 4);
  }

  /** Writing a number below 24 as `6 * p + q` with `q < 6` is unique. */
  lemma SlotUnique(p: int, q: int, p2: int, q2: int)
    requires 0 <= q < 6 && 0 <= q2 < 6 && 6 * p + q == 6 * p2 + q2
    ensures p == p2 && q == q2
  {
  }

  /** Languages whose positions agree modulo 24 meet: same hour, and the
      later first day is a run day of both. */
  lemma CongruentRunTogether(i: nat, j: nat)
    requires i < 186 && j < 186 && i % 24 == j % 24
    ensures Hour(i) == Hour(j)
    ensures RunsOn(i, if FirstDay(i) >= FirstDay(j) then FirstDay(i) else FirstDay(j))
    ensures RunsOn(j, if FirstDay(i) >= FirstDay(j) then FirstDay(i) else FirstDay(j))
  {
    PositionMod24(i);
    PositionMod24(j);
    SlotUnique((i / 6) % 4, i % 6, (j / 6) % 4, j % 6);
    PhaseDifference(i / 6, j / 6);
  }

  /** Languages that run at the same hour on a common day agree modulo 24. */
  lemma SharedRunCongruent(i: nat, j: nat, day: int)
    requires Hour(i) == Hour(j) && RunsOn(i, day) && RunsOn(j, day)
    ensures i % 24 == j % 24
  {
    PositionMod24(i);
    PositionMod24(j);
    SamePhase(FirstDay(i), FirstDay(j), day);
    assert (i / 6) % 4 == (j / 6) % 4 by {
      assert FirstDay(i) == 1 + i / 6 && FirstDay(j) == 1 + j / 6;
      PhaseDifference(1 + i / 6, 1 + j / 6);
      DifferenceToPhase(i / 6, j / 6);
    }
  }

  /** Numbers that differ by a multiple of 4 agree modulo 4. */
  lemma DifferenceToPhase(x: int, y: int)
    requires (x - y) % 4 == 0
    ensures x % 4 == y % 4
  {
    SamePhase(x, y, x);
  }

  /** Two languages run at the same hour of some day exactly when their
      positions agree modulo 24: with 6 hours a day and 4 phases of the
      four-day cycle there are 24 slots, and the 25th language shares the
      first one's. */
  lemma SharedRunsIff(i: nat, j: nat)
    requires i < 186 && j < 186
    ensures (Hour(i) == Hour(j) && exists day :: RunsOn(i, day) && RunsOn(j, day)) <==> i % 24 == j % 24
  {
    if i % 24 == j % 24 {
      CongruentRunTogether(i, j);
    }
    if Hour(i) == Hour(j) && exists day :: RunsOn(i, day) && RunsOn(j, day) {
      var day :| RunsOn(i, day) && RunsOn(j, day);
      SharedRunCongruent(i, j, day);
    }
  }

  /** The argument list of the update script for language `lc`. */
  function ScriptCall(lc: string): string {
    "/data/project/citationhunt/citationhunt/scripts/update_db_tools_labs.py " + lc
  }

  /** The job's command for language `lc`: `jsub` running the update script
      with the language code as its only argument. */
  function Command(lc: string): (c: string)
    ensures EndsWith(c, ScriptCall(lc))
  {
    var head := "/usr/bin/jsub -mem 10g -N citationhunt_update_" + lc + " -once -l release=trusty "
      + "/data/project/citationhunt/www/python/venv/bin/python2 ";
    AppendEnds(head, ScriptCall(lc));
    head + ScriptCall(lc)
  }

  /** The five time fields of the `i`-th language's line, with the space
      before the command. */
  function TimeFields(i: nat): string {
    "0 " + Decimal.IntToString(Hour(i)) + " " + Decimal.IntToString(FirstDay(i)) + "/"
      + Decimal.IntToString(Freq) + " * * "
  }

  /** `spec_template.format(...)`: the time fields followed by the command. */
  function Spec(i: nat, lc: string): (spec: string)
    ensures StartsWith(spec, TimeFields(i)) && EndsWith(spec, Command(lc))
  {
    AppendEnds(TimeFields(i), Command(lc));
    TimeFields(i) + Command(lc)
  }

  /** The printed line as written, `spec + ' ' + command`. */
  function PrintedLine(i: nat, lc: string): (line: string)
    ensures StartsWith(line, Spec(i, lc)) && EndsWith(line, " " + Command(lc))
  {
    AppendEnds(Spec(i, lc), " " + Command(lc));
    Spec(i, lc) + (" " + Command(lc))
  }

  /** As written, the cron entry does not run the command: after the time
      fields comes the command, a space and the command again, so the
      update script receives every word of the command as extra arguments
      after the language code, which its single-argument parser rejects. */
  lemma PrintedLineRepeatsCommand(i: nat, lc: string)
    ensures PrintedLine(i, lc)[|TimeFields(i)|..] == Command(lc) + " " + Command(lc)
    ensures PrintedLine(i, lc)[|TimeFields(i)|..] != Command(lc)
  {
    var tf, c := TimeFields(i), Command(lc);
    assert PrintedLine(i, lc) == (tf + c) + (" " + c);
    Regroup(tf, c, " " + c);
    Regroup(c, " ", c);
    DropFront(tf, c + " " + c);
    assert |c + " " + c| > |c|;
  }

  lemma DropFront(a: string, b: string)
    ensures (a + b)[|a|..] == b
  {
  }

  lemma Regroup(a: string, b: string, c: string)
    ensures (a + b) + c == a + (b + c)
  {
  }

  /** The line as intended: the time fields and the command, once. */
  function Line(i: nat, lc: string): (line: string)
    ensures StartsWith(line, TimeFields(i))
  {
    Spec(i, lc)
  }

  /** The intended entry runs exactly the command after its time fields,
      and the command ends with the script and the language code. */
  lemma LineRunsCommand(i: nat, lc: string)
    ensures Line(i, lc)[|TimeFields(i)|..] == Command(lc)
    ensures EndsWith(Line(i, lc), ScriptCall(lc))
  {
    var tf, c := TimeFields(i), Command(lc);
    assert Line(i, lc) == tf + c;
    DropFront(tf, c);
    DropBack(tf, c, |ScriptCall(lc)|);
  }

  lemma DropBack(a: string, b: string, n: nat)
    requires n <= |b|
    ensures (a + b)[|a + b| - n..] == b[|b| - n..]
  {
  }
}

=== FILE: custom_cards.dfy ===
/** What the input cards of static/js/custom.js send when their form is
    submitted: the request payload, or nothing when the browser's form
    validation rejects the input. The browser's URL parser is a parameter:
    the caller supplies the host name it finds in the input and the value
    of its `psid` query parameter. */
module CustomCards {
  import opened Wrappers
  import opened Strings

  const PetScanHost := "petscan.wmflabs.org"

  /** The JSON body of a creation request. */
  datatype Payload =
    | PageTitles(titles: seq<string>)
    | Psid(psid: Option<string>)
    | PageIds(ids: seq<Option<int>>)

  /** `extractPetScanID(input)`: a PetScan URL contributes its `psid` query
      parameter, anything else its trimmed text; the candidate is accepted
      only if it is a non-empty run of ASCII digits. */
  function ExtractPetScanId(input: string, host: string, psidParam: Option<string>): (r: Option<string>)
    ensures r.Some? ==> IsDigits(r.value)
    ensures host != PetScanHost ==> (r.Some? <==> IsDigits(JsTrim(input))) && (r.Some? ==> r.value == JsTrim(input))
    ensures host == PetScanHost ==> (r.Some? <==> psidParam.Some? && IsDigits(psidParam.value)) && (r.Some? ==> r == psidParam)
  {
    var psid := if host == PetScanHost then psidParam else Some(JsTrim(input));
    if psid.Some? && IsDigits(psid.value) then psid else None
  }

  /** A bare id typed into the field is sent as it is. */
  lemma BareIdIsKept(input: string, host: string, psidParam: Option<string>)
    requires IsDigits(input) && host != PetScanHost
    ensures ExtractPetScanId(input, host, psidParam) == Some(input)
  {
    assert !IsJsSpace(input[0]) && !IsJsSpace(input[|input| - 1]);
    assert LStripBy(input, IsJsSpace) == input;
    assert RStripBy(input, IsJsSpace) == input;
  }

  /** The PetScan card's `submit`: with form validation available an
      invalid id blocks the request (`null`); without it the request goes
      out with `psid: null`. */
  function SubmitPetScan(input: string, host: string, psidParam: Option<string>, hasValidity: bool): (r: Option<Payload>)
    ensures r.None? <==> hasValidity && ExtractPetScanId(input, host, psidParam).None?
    ensures r.Some? ==> r.value == Psid(ExtractPetScanId(input, host, psidParam))
  {
    var psid := ExtractPetScanId(input, host, psidParam);
    if hasValidity && psid.None? then None else Some(Psid(psid))
  }

  /** Drops one `\r` at the end of a line. */
  function DropCr(line: string): (r: string)
    ensures r == line || (r + "\r" == line)
  {
    if |line| > 0 && line[|line| - 1] == '\r' then line[..|line| - 1] else line
  }

  /** `s.split(/\r?\n/)`: the pieces between line breaks, where a break is
      `\n` together with one `\r` right before it. */
  function SplitLines(s: string): (r: seq<string>)
    ensures |r| == |Split(s, "\n")|
  {
    var parts := Split(s, "\n");
    seq(|parts|, i requires 0 <= i < |parts| => if i < |parts| - 1 then DropCr(parts[i]) else parts[i])
  }

  /** `trim()` of every line. */
  function TrimAll(lines: seq<string>): (r: seq<string>)
    ensures |r| == |lines|
    ensures forall i :: 0 <= i < |lines| ==> r[i] == JsTrim(lines[i])
  {
    seq(|lines|, i requires 0 <= i < |lines| => JsTrim(lines[i]))
  }

  /** The titles the import card sends: one per line, trimmed, with empty
      lines kept. */
  function ImportedTitles(raw: string): (r: seq<string>)
    ensures |r| == |Split(raw, "\n")|
  {
    TrimAll(SplitLines(raw))
  }

  /** The `\r?` of the line-break pattern makes no difference after
      trimming: the titles are the trimmed pieces between `\n`s. */
  lemma CarriageReturnsVanish(raw: string)
    ensures ImportedTitles(raw) == TrimAll(Split(raw, "\n"))
  {
    var parts := Split(raw, "\n");
    var lines := SplitLines(raw);
    forall i | 0 <= i < |parts|
      ensures JsTrim(lines[i]) == JsTrim(parts[i])
    {
      if i < |parts| - 1 && DropCr(parts[i]) != parts[i] {
        StripByIgnoresTrailing(DropCr(parts[i]), '\r', IsJsSpace);
      }
    }
  }

  /** Lines that need no trimming come back as they were typed, so the
      joined titles are the input. */
  lemma CleanLinesRoundTrip(raw: string)
    requires forall i :: 0 <= i < |Split(raw, "\n")| ==> JsTrim(Split(raw, "\n")[i]) == Split(raw, "\n")[i]
    ensures Join("\n", ImportedTitles(raw)) == raw
  {
    CarriageReturnsVanish(raw);
    TrimAllOfTrimmed(Split(raw, "\n"));
    JoinSplit(raw, "\n");
  }

  lemma TrimAllOfTrimmed(lines: seq<string>)
    requires forall i :: 0 <= i < |lines| ==> JsTrim(lines[i]) == lines[i]
    ensures TrimAll(lines) == lines
  {
  }

  /** The title-import card's `submit`: always sends the titles. */
  function SubmitTitles(raw: string): (r: Option<Payload>)
    ensures r.Some? && r.value.PageTitles?
    ensures |r.value.titles| == |Split(raw, "\n")|
  {
    Some(PageTitles(ImportedTitles(raw)))
  }

  /** The article-selection card's `submit`: with form validation an empty
      selection blocks the request; otherwise the selected page ids are
      sent. */
  function SubmitSelection(pageIds: seq<Option<int>>, hasValidity: bool): (r: Option<Payload>)
    ensures r.None? <==> hasValidity && pageIds == []
    ensures r.Some? ==> r.value == PageIds(pageIds)
  {
    if hasValidity && |pageIds| == 0 then None else Some(PageIds(pageIds))
  }
}

=== FILE: de_parser.dfy ===
/** The German snippet parser (`snippet_parser/de.py`): it keeps most
    templates and some formatting tags as wikitext, suppresses the
    citation-needed templates, and renders deep headings as bold text. */
module DeParser {
  import opened Wrappers
  import opened Strings
  import opened Wikicode
  import opened SnippetRules

  /** "Überarbeiten". */
  const Revise := "\U{00DC}berarbeiten"

  /** Templates dropped without trace: infoboxes, taxoboxes and the
      revision notice. */
  predicate IsDropped(name: string) {
    Contains(Lower(name), "infobox") || Contains(Lower(name), "taxobox") || NameMatches(name, Revise)
  }

  function StripTemplate(cfg: ParserConfig, t: TemplateView): (r: Replacement)
    ensures IsCitationNeeded(cfg, t.name) ==> r == Ok(None)
    ensures !IsCitationNeeded(cfg, t.name) && IsDropped(t.name) ==> r == Ok(Some(""))
    ensures !IsCitationNeeded(cfg, t.name) && !IsDropped(t.name) ==> r == Ok(Some(t.raw))
  {
    if IsCitationNeeded(cfg, t.name) then Ok(None)
    else if Contains(Lower(t.name), "infobox") || Contains(Lower(t.name), "taxobox") then Ok(Some(""))
    else if NameMatches(t.name, Revise) then Ok(Some(""))
    else Ok(Some(t.raw))
  }

  /** The formatting tags kept around their stripped contents. */
  predicate IsKeptTag(tag: string) {
    tag == "i" || tag == "b" || tag == "li" || tag == "dt" || tag == "dd"
  }

  /** `strip_tag`: a kept tag is written back with its contents replaced by
      the library's strip of them (nothing when that gives `None`). */
  function StripTag(t: TagView): (r: Replacement)
    ensures t.tag == "ref" ==> r == Ok(Some(RefMarker))
    ensures IsKeptTag(t.tag) ==> (r.Ok? <==> t.delegate.Ok?)
    ensures IsKeptTag(t.tag) && r.Ok? ==>
      r.value == Some(RenderTag(t.tag, t.markup, t.selfClosing, t.delegate.value.GetOr("")))
    ensures t.tag != "ref" && !IsKeptTag(t.tag) ==> r == Ok(Some(""))
  {
    if t.tag == "ref" then Ok(Some(RefMarker))
    else if IsKeptTag(t.tag) then
      match t.delegate
      case Err(e) => Err(e)
      case Ok(contents) => Ok(Some(RenderTag(t.tag, t.markup, t.selfClosing, contents.GetOr(""))))
    else Ok(Some(""))
  }

  /** `strip_heading`: headings of level 1 and 2 vanish as in the base
      class; deeper ones become their bold title and a blank line. */
  function StripHeading(level: nat, title: string): (r: Replacement)
    ensures level <= 2 ==> r == Ok(None)
    ensures level > 2 ==> r.Ok? && r.value.Some? && |r.value.value| == |UStrip(title)| + 8
    ensures level > 2 ==> StartsWith(r.value.value, "'''") && EndsWith(r.value.value, "'''\n\n")
    ensures level > 2 ==> r.value.value[3..|r.value.value| - 5] == UStrip(title)
  {
    if level <= 2 then BaseStripHeading(level, title)
    else Ok(Some("'''" + UStrip(title) + "'''\n\n"))
  }

  /** Italic markup survives with its contents stripped (the `''x''` of
      the tests). */
  lemma ItalicsKeepMarkup(t: TagView, inner: string)
    requires t.tag == "i" && t.markup == Some("''") && !t.selfClosing && t.delegate == Ok(Some(inner))
    ensures StripTag(t) == Ok(Some("''" + inner + "''"))
  {
  }
}

=== FILE: decimal.dfy ===
/** Decimal text for integers: the `str(n)` / `String(n)` rendering and the
    two parsers the program uses on it, Python's `int(s)` and JavaScript's
    `parseInt(s, 10)`. */
module Decimal {
  import opened Wrappers
  import opened Strings

  function DigitChar(d: nat): char
    requires d < 10
  {
    ('0' as int + d) as char
  }

  function DigitValue(c: char): nat
    requires IsAsciiDigit(c)
  {
    c as int - '0' as int
  }

  /** `str(n)` for a natural number: no sign, no leading zeros. */
  function NatToString(n: nat): (r: string)
    ensures IsDigits(r)
    ensures r[0] == '0' ==> n == 0
    decreases n
  {
    if n < 10 then [DigitChar(n)] else NatToString(n / 10) + [DigitChar(n % 10)]
  }

  /** `str(i)` for any integer. */
  function IntToString(i: int): string {
    if i < 0 then "-" + NatToString(-i) else NatToString(i)
  }

  /** The value of a string of decimal digits. */
  function DigitsValue(s: string): nat
    requires forall k :: 0 <= k < |s| ==> IsAsciiDigit(s[k])
  {
    if s == [] then 0 else DigitsValue(s[..|s| - 1]) * 10 + DigitValue(s[|s| - 1])
  }

  lemma {:induction false} DigitsOfNat(n: nat)
    ensures DigitsValue(NatToString(n)) == n
    decreases n
  {
    var r := NatToString(n);
    if n >= 10 {
      DigitsOfNat(n / 10);
      assert r[..|r| - 1] == NatToString(n / 10);
    }
  }

  /** Python's `int(s)` on text: surrounding whitespace, an optional sign and
      at least one ASCII digit; anything else raises `ValueError` (`None`). */
  function PyInt(s: string): (r: Option<int>)
    ensures r.Some? ==> |Strip(s)| > 0
  {
    var t := Strip(s);
    if |t| > 0 && (t[0] == '-' || t[0] == '+') then
      if IsDigits(t[1..]) then Some(if t[0] == '-' then 0 - DigitsValue(t[1..]) as int else DigitsValue(t[1..]))
      else None
    else if IsDigits(t) then Some(DigitsValue(t))
    else None
  }

  /** `int(str(i)) == i`. */
  lemma PyIntOfString(i: int)
    ensures PyInt(IntToString(i)) == Some(i)
  {
    var s := IntToString(i);
    var digits := NatToString(if i < 0 then -i else i);
    DigitsOfNat(if i < 0 then -i else i);
    assert s[|s| - 1] == digits[|digits| - 1];
    StripByKeeps(s, IsSpace);
    if i < 0 {
      assert s[1..] == digits;
    }
  }

  /** The longest prefix of decimal digits. */
  function LeadingDigits(s: string): (r: string)
    ensures StartsWith(s, r)
    ensures forall k :: 0 <= k < |r| ==> IsAsciiDigit(r[k])
    ensures |r| == |s| || !IsAsciiDigit(s[|r|])
  {
    if s == [] || !IsAsciiDigit(s[0]) then [] else [s[0]] + LeadingDigits(s[1..])
  }

  /** JavaScript's `parseInt(s, 10)`: leading white space, an optional sign,
      then the longest run of digits; `None` stands for `NaN`. */
  function JsParseInt(s: string): (r: Option<int>)
    ensures r.Some? ==> exists k :: 0 <= k < |s| && IsAsciiDigit(s[k])
  {
    var t := LStripBy(s, IsJsSpace);
    var sign := if |t| > 0 && t[0] == '-' then -1 else 1;
    var body := if |t| > 0 && (t[0] == '-' || t[0] == '+') then t[1..] else t;
    var d := LeadingDigits(body);
    if d == [] then None
    else
      assert IsAsciiDigit(s[|s| - |t| + (|t| - |body|)]);
      Some(sign * DigitsValue(d))
  }

  /** `parseInt` reads a string of digits as its decimal value. */
  lemma JsParseIntOfDigits(s: string)
    ensures IsDigits(s) ==> JsParseInt(s) == Some(DigitsValue(s))
  {
    if IsDigits(s) {
      assert !IsJsSpace(s[0]);
      assert LStripBy(s, IsJsSpace) == s;
      assert LeadingDigits(s) == s by {
        LeadingDigitsOfDigits(s);
      }
    }
  }

  /** `parseInt(String(n), 10) === n`. */
  lemma JsParseIntOfString(n: nat)
    ensures JsParseInt(NatToString(n)) == Some(n)
  {
    DigitsOfNat(n);
    JsParseIntOfDigits(NatToString(n));
  }

  lemma {:induction false} LeadingDigitsOfDigits(s: string)
    requires forall k :: 0 <= k < |s| ==> IsAsciiDigit(s[k])
    ensures LeadingDigits(s) == s
  {
    if s != [] {
      LeadingDigitsOfDigits(s[1..]);
    }
  }
}

=== FILE: en_parser.dfy ===
/** The English snippet parser (`snippet_parser/en.py`, on the older base
    class): `{{convert}}` keeps its first two parameters, a citation-needed
    template becomes the bare marker, every other template disappears. */
module EnParser {
  import opened Wrappers
  import opened Strings
  import opened Wikicode
  import opened SnippetRules

  /** `' '.join(sp(template.params[:2]))`. */
  function ConvertText(ps: seq<ParamView>): (r: Result<string, StripError>)
    ensures |ps| == 0 ==> r == Ok("")
    ensures |ps| == 1 && ps[0].stripped.Ok? ==> r == Ok(Join(" ", Chars(ps[0].stripped.value)))
    ensures |ps| >= 2 && ps[0].stripped.Ok? && ps[1].stripped.Ok? ==>
      r == Ok(ps[0].stripped.value + " " + ps[1].stripped.value)
  {
    var first := if |ps| <= 2 then ps else ps[..2];
    match Sp(first)
    case Err(e) => Err(e)
    case Ok(v) =>
      if |first| == 2 then
        var a := first[0].stripped.value;
        var b := first[1].stripped.value;
        assert v.values == [a, b];
        JoinTwo(" ", a, b);
        Ok(JoinSp(" ", v))
      else Ok(JoinSp(" ", v))
  }

  function StripTemplate(cfg: ParserConfig, t: TemplateView): (r: Replacement)
    ensures NameMatches(t.name, "convert") && |t.params| == 0 ==> r == Ok(Some(""))
    ensures NameMatches(t.name, "convert") && |t.params| == 1 && t.params[0].stripped.Ok? ==>
      r == Ok(Some(Join(" ", Chars(t.params[0].stripped.value))))
    ensures NameMatches(t.name, "convert") && |t.params| >= 2 && t.params[0].stripped.Ok? && t.params[1].stripped.Ok? ==>
      r == Ok(Some(t.params[0].stripped.value + " " + t.params[1].stripped.value))
    ensures !NameMatches(t.name, "convert") && IsCitationNeeded(cfg, t.name) ==> r == Ok(Some(CitationNeededMarker))
    ensures !NameMatches(t.name, "convert") && !IsCitationNeeded(cfg, t.name) ==> r == Ok(Some(""))
  {
    if NameMatches(t.name, "convert") then
      match ConvertText(t.params)
      case Err(e) => Err(e)
      case Ok(s) => Ok(Some(s))
    else if IsCitationNeeded(cfg, t.name) then Ok(Some(CitationNeededMarker))
    else Ok(Some(""))
  }

  /** With a single parameter `sp` hands `join` a string, so `{{convert|5}}`
      reads "5" but `{{convert|12 km}}` reads "1 2   k m": the characters
      are spaced out. */
  lemma {:induction false} SingleParamIsSpacedOut(s: string)
    requires s != []
    ensures |Join(" ", Chars(s))| == 2 * |s| - 1
    ensures forall i :: 0 <= i < |s| ==> Join(" ", Chars(s))[2 * i] == s[i]
    ensures forall i :: 0 <= i < |s| - 1 ==> Join(" ", Chars(s))[2 * i + 1] == ' '
  {
    if |s| > 1 {
      SingleParamIsSpacedOut(s[1..]);
      assert Chars(s)[1..] == Chars(s[1..]);
      var tail := Join(" ", Chars(s[1..]));
      assert Join(" ", Chars(s)) == [s[0]] + " " + tail;
      forall i | 1 <= i < |s|
        ensures Join(" ", Chars(s))[2 * i] == s[i]
      {
        assert Join(" ", Chars(s))[2 * i] == tail[2 * (i - 1)];
      }
      forall i | 1 <= i < |s| - 1
        ensures Join(" ", Chars(s))[2 * i + 1] == ' '
      {
        assert Join(" ", Chars(s))[2 * i + 1] == tail[2 * (i - 1) + 1];
      }
    }
  }
}

=== FILE: extract_sections.dfy ===
/** `extract_sections` of `snippet_parser/core.py` (and of the module-level
    twin in `snippet_parser/snippet_parser.py`): a section that carries a
    citation-needed template takes the deeper subsections that follow it
    along; the group is stripped, re-parsed, trimmed of edge templates and
    blank nodes, cleaned up and cut to ten paragraphs. */
module SectionExtraction {
  import opened Wrappers
  import opened Strings
  import opened Wikicode
  import opened SnippetRules
  import opened StripCode
  import opened Cleanup
  import opened FastParse
  import opened SnippetExtraction

  /** Some template in the section, at any depth, is a citation-needed one. */
  predicate NeedsCitations(cfg: ParserConfig, sec: seq<Node>) {
    exists n :: n in TemplateNames(sec) && MatchesAny(n, cfg.citationNeededTemplates)
  }

  /** Which sections carry a citation-needed template. */
  function Marks(cfg: ParserConfig, secs: seq<seq<Node>>): (m: seq<bool>)
    ensures |m| == |secs|
    ensures forall k :: 0 <= k < |secs| ==> m[k] == NeedsCitations(cfg, secs[k])
  {
    if secs == [] then [] else [NeedsCitations(cfg, secs[0])] + Marks(cfg, secs[1..])
  }

  /** The heading level of section `i`; `None` stands for the lead's
      infinite level. */
  function SectionLevel(sec: seq<Node>, i: nat): Option<nat> {
    if i == 0 || sec == [] || !sec[0].Heading? then None else Some(sec[0].level)
  }

  function Levels(secs: seq<seq<Node>>): (lv: seq<Option<nat>>)
    ensures |lv| == |secs|
    ensures forall k :: 0 <= k < |secs| ==> lv[k] == SectionLevel(secs[k], k)
  {
    seq(|secs|, k requires 0 <= k < |secs| => SectionLevel(secs[k], k))
  }

  /** A level strictly deeper than `level`; nothing is deeper than the
      lead's infinite level. */
  predicate Deeper(sub: Option<nat>, level: Option<nat>) {
    level.Some? && sub.Some? && sub.value > level.value
  }

  /** The first section at or after `from` that is not deeper than `level`,
      or the number of sections. */
  function GroupEnd(levels: seq<Option<nat>>, from: nat, level: Option<nat>): (j: nat)
    requires from <= |levels|
    ensures from <= j <= |levels|
    ensures forall k :: from <= k < j ==> Deeper(levels[k], level)
    ensures j < |levels| ==> !Deeper(levels[j], level)
    decreases |levels| - from
  {
    if from == |levels| || !Deeper(levels[from], level) then from else GroupEnd(levels, from + 1, level)
  }

  /** The groups the outer loop walks, as `(start, end)` index pairs: a
      section without a citation-needed template is a group of its own; one
      with it absorbs the following strictly deeper sections. */
  function Groups(marks: seq<bool>, levels: seq<Option<nat>>, i: nat): (gs: seq<(nat, nat)>)
    requires |marks| == |levels| && i <= |levels|
    ensures i == |levels| <==> gs == []
    ensures gs != [] ==> gs[0].0 == i && gs[|gs| - 1].1 == |levels|
    ensures forall k :: 0 <= k < |gs| ==> i <= gs[k].0 < gs[k].1 <= |levels|
    decreases |levels| - i
  {
    if i == |levels| then []
    else
      var j := if marks[i] then GroupEnd(levels, i + 1, levels[i]) else i + 1;
      [(i, j)] + Groups(marks, levels, j)
  }

  /** Each group ends where the next one starts. */
  lemma {:induction false} GroupsContiguous(marks: seq<bool>, levels: seq<Option<nat>>, i: nat, k: nat)
    requires |marks| == |levels| && i <= |levels|
    requires k + 1 < |Groups(marks, levels, i)|
    ensures Groups(marks, levels, i)[k].1 == Groups(marks, levels, i)[k + 1].0
    decreases |levels| - i
  {
    var j := Groups(marks, levels, i)[0].1;
    var rest := Groups(marks, levels, j);
    assert Groups(marks, levels, i) == [(i, j)] + rest;
    if k > 0 {
      GroupsContiguous(marks, levels, j, k - 1);
    }
  }

  /** The shape of group `k`: a section without a citation-needed template
      stands alone; one with it absorbs exactly the strictly deeper sections
      that follow it, up to the first one that is not deeper. */
  lemma {:induction false} GroupShape(marks: seq<bool>, levels: seq<Option<nat>>, i: nat, k: nat)
    requires |marks| == |levels| && i <= |levels|
    requires k < |Groups(marks, levels, i)|
    ensures !marks[Groups(marks, levels, i)[k].0] ==> Groups(marks, levels, i)[k].1 == Groups(marks, levels, i)[k].0 + 1
    ensures forall m :: Groups(marks, levels, i)[k].0 < m < Groups(marks, levels, i)[k].1 ==>
      Deeper(levels[m], levels[Groups(marks, levels, i)[k].0])
    ensures marks[Groups(marks, levels, i)[k].0] && Groups(marks, levels, i)[k].1 < |levels| ==>
      !Deeper(levels[Groups(marks, levels, i)[k].1], levels[Groups(marks, levels, i)[k].0])
    decreases |levels| - i
  {
    var gs := Groups(marks, levels, i);
    var j := if marks[i] then GroupEnd(levels, i + 1, levels[i]) else i + 1;
    FirstGroup(marks, levels, i);
    if k > 0 {
      GroupShape(marks, levels, j, k - 1);
      assert gs[k] == Groups(marks, levels, j)[k - 1];
    }
  }

  /** The first group from `i` on, and the groups after it. */
  lemma FirstGroup(marks: seq<bool>, levels: seq<Option<nat>>, i: nat)
    requires |marks| == |levels| && i < |levels|
    ensures var j := if marks[i] then GroupEnd(levels, i + 1, levels[i]) else i + 1;
      Groups(marks, levels, i) == [(i, j)] + Groups(marks, levels, j)
  {
  }

  /** Every section starts a group or lies inside one. */
  lemma {:induction false} GroupsCover(marks: seq<bool>, levels: seq<Option<nat>>, i: nat, m: nat)
    requires |marks| == |levels| && i <= m < |levels|
    ensures exists k :: 0 <= k < |Groups(marks, levels, i)| && Groups(marks, levels, i)[k].0 <= m < Groups(marks, levels, i)[k].1
    decreases |levels| - i
  {
    var gs := Groups(marks, levels, i);
    if m >= gs[0].1 {
      GroupsCover(marks, levels, gs[0].1, m);
      var rest := Groups(marks, levels, gs[0].1);
      assert gs == [gs[0]] + rest;
      var k :| 0 <= k < |rest| && rest[k].0 <= m < rest[k].1;
      assert gs[k + 1] == rest[k];
    } else {
      assert gs[0].0 <= m < gs[0].1;
    }
  }

  /** The groups are the single sections `i`, `i + 1`, ... in order. */
  predicate Singles(gs: seq<(nat, nat)>, i: nat) {
    forall k :: 0 <= k < |gs| ==> gs[k] == (i + k, i + k + 1)
  }

  /** Without any citation-needed template every section is its own
      group. */
  lemma {:induction false} GroupsWithoutCitationNeeded(marks: seq<bool>, levels: seq<Option<nat>>, i: nat)
    requires |marks| == |levels| && i <= |levels|
    requires forall k :: i <= k < |marks| ==> !marks[k]
    ensures |Groups(marks, levels, i)| == |levels| - i
    ensures Singles(Groups(marks, levels, i), i)
    decreases |levels| - i
  {
    if i < |levels| {
      GroupsWithoutCitationNeeded(marks, levels, i + 1);
      SingleGroup(marks, levels, i);
      ConsSingles(Groups(marks, levels, i), Groups(marks, levels, i + 1), i);
    }
  }

  /** Singletons from `i + 1` on, with `(i, i + 1)` in front, are singletons
      from `i` on. */
  lemma ConsSingles(gs: seq<(nat, nat)>, rest: seq<(nat, nat)>, i: nat)
    requires gs == [(i, i + 1)] + rest && Singles(rest, i + 1)
    ensures Singles(gs, i)
  {
    forall k | 0 <= k < |gs|
      ensures gs[k] == (i + k, i + k + 1)
    {
      if k > 0 {
        assert gs[k] == rest[k - 1];
      }
    }
  }

  /** A section without a citation-needed template is a group of one. */
  lemma SingleGroup(marks: seq<bool>, levels: seq<Option<nat>>, i: nat)
    requires |marks| == |levels| && i < |levels| && !marks[i]
    ensures Groups(marks, levels, i) == [(i, i + 1)] + Groups(marks, levels, i + 1)
  {
  }

  /** The lead never absorbs anything. */
  lemma LeadStandsAlone(cfg: ParserConfig, secs: seq<seq<Node>>)
    requires |secs| > 0
    ensures Groups(Marks(cfg, secs), Levels(secs), 0)[0] == (0, 1)
  {
    var levels := Levels(secs);
    assert levels[0] == None;
    if 1 < |secs| {
      assert !Deeper(levels[1], levels[0]);
    }
  }

  /** The nodes `strip_code` leaves at the edges that `extract_sections`
      drops: empty nodes, templates, and nodes of newlines only. */
  predicate EmptyOrTemplate(n: Node) {
    Render(n) == "" || n.Template? || AllNewlines(Render(n))
  }

  /** Every character is a newline. */
  predicate AllNewlines(s: string) {
    s == [] || (s[0] == '\n' && AllNewlines(s[1..]))
  }

  /** `dropwhile(cut, xs)`: the longest prefix of elements satisfying
      `cut` removed. */
  function DropLeading<T>(xs: seq<T>, cut: T -> bool): (r: seq<T>)
    ensures |r| <= |xs| && r == xs[|xs| - |r|..]
    ensures forall k :: 0 <= k < |xs| - |r| ==> cut(xs[k])
    ensures r == [] || !cut(r[0])
  {
    if xs == [] || !cut(xs[0]) then xs else DropLeading(xs[1..], cut)
  }

  /** The same from the other end (`dropwhile` over the reversed list). */
  function DropTrailing<T>(xs: seq<T>, cut: T -> bool): (r: seq<T>)
    ensures |r| <= |xs| && r == xs[..|r|]
    ensures forall k :: |r| <= k < |xs| ==> cut(xs[k])
    ensures r == [] || !cut(r[|r| - 1])
  {
    if xs == [] || !cut(xs[|xs| - 1]) then xs else DropTrailing(xs[..|xs| - 1], cut)
  }

  /** `r` is the stretch `xs[a..b]`, and every element before `a` and from
      `b` on satisfies `cut`. */
  ghost predicate TrimmedAt<T>(xs: seq<T>, r: seq<T>, a: int, b: int, cut: T -> bool) {
    0 <= a <= b <= |xs| && r == xs[a..b]
    && (forall k :: 0 <= k < a ==> cut(xs[k]))
    && (forall k :: b <= k < |xs| ==> cut(xs[k]))
  }

  /** Both passes: the longest stretch whose ends do not satisfy `cut`. */
  function TrimBy<T>(xs: seq<T>, cut: T -> bool): (r: seq<T>)
    ensures exists a, b :: TrimmedAt(xs, r, a, b, cut)
    ensures r == [] || (!cut(r[0]) && !cut(r[|r| - 1]))
  {
    var l := DropLeading(xs, cut);
    var t := DropTrailing(l, cut);
    TrimWitness(xs, cut, l, t, |xs| - |l|);
    t
  }

  /** The stretch `TrimBy` keeps starts at `a` and ends at `a + |t|`. */
  lemma TrimWitness<T>(xs: seq<T>, cut: T -> bool, l: seq<T>, t: seq<T>, a: nat)
    requires a <= |xs| && l == xs[a..] && |t| <= |l| && t == l[..|t|]
    requires forall k :: 0 <= k < a ==> cut(xs[k])
    requires forall k :: |t| <= k < |l| ==> cut(l[k])
    ensures TrimmedAt(xs, t, a, a + |t|, cut)
  {
    forall k | a + |t| <= k < |xs|
      ensures cut(xs[k])
    {
      assert xs[k] == l[k - a];
    }
  }

  /** The two `dropwhile` passes of `extract_sections`: the longest stretch
      of the nodes whose ends are neither empty, nor templates, nor
      newlines only. */
  function TrimEdges(ns: seq<Node>): (r: seq<Node>)
    ensures exists a, b :: TrimmedAt(ns, r, a, b, EmptyOrTemplate)
    ensures r == [] || (!EmptyOrTemplate(r[0]) && !EmptyOrTemplate(r[|r| - 1]))
  {
    TrimBy(ns, EmptyOrTemplate)
  }

  predicate IsBlank(c: char) {
    c == ' '
  }

  /** `[p.strip(' ') for p in ...]`. */
  function StripBlanksEach(ps: seq<string>): (r: seq<string>)
    ensures |r| == |ps|
    ensures forall k :: 0 <= k < |ps| ==> r[k] == StripBy(ps[k], IsBlank)
  {
    seq(|ps|, k requires 0 <= k < |ps| => StripBy(ps[k], IsBlank))
  }

  /** `'\n\n'.join(p.strip(' ') for p in snippet.split('\n\n')[:10])`. */
  function FirstParagraphs(s: string): string {
    var ps := Split(s, "\n\n");
    Join("\n\n", StripBlanksEach(if |ps| <= 10 then ps else ps[..10]))
  }

  /** A snippet of at most ten paragraphs, none with blanks at its ends,
      passes through the cut unchanged. */
  lemma ShortSnippetUncut(s: string)
    requires |Split(s, "\n\n")| <= 10
    requires forall k :: 0 <= k < |Split(s, "\n\n")| ==> StripBy(Split(s, "\n\n")[k], IsBlank) == Split(s, "\n\n")[k]
    ensures FirstParagraphs(s) == s
  {
    var ps := Split(s, "\n\n");
    assert StripBlanksEach(ps) == ps;
    JoinSplit(s, "\n\n");
  }

  /** The snippet of one group, if it is not empty. */
  function GroupSnippet(lib: Library, p: Parser, nodes: seq<Node>): (r: Result<seq<string>, StripError>)
    ensures r.Ok? ==> |r.value| <= 1 && forall k :: 0 <= k < |r.value| ==> r.value[k] != ""
    ensures nodes == [] ==> r == Ok([])
  {
    if nodes == [] then Ok([])
    else
      match StripAll(p, nodes)
      case Err(e) => Err(e)
      case Ok(text) => Ok(NonEmpty(GroupText(lib, text)))
  }

  /** `if snippet: snippets.append(snippet)`. */
  function NonEmpty(s: string): (r: seq<string>)
    ensures |r| <= 1 && forall k :: 0 <= k < |r| ==> r[k] != ""
    ensures s != "" ==> r == [s]
  {
    if s == "" then [] else [s]
  }

  /** The stripped text of a group re-parsed, trimmed at its edges,
      cleaned up and cut to ten paragraphs. */
  function GroupText(lib: Library, text: string): string {
    FirstParagraphs(CleanupSnippet(RenderAll(TrimEdges(lib.parse(text)))))
  }

  /** One entry per group, titled after the group's first section; only a
      group opened by a citation-needed section can hold a snippet. */
  function GroupEntries(lib: Library, p: Parser, secs: seq<seq<Node>>, marks: seq<bool>, gs: seq<(nat, nat)>): (r: Result<seq<SectionSnippets>, StripError>)
    requires |marks| == |secs|
    requires forall k :: 0 <= k < |gs| ==> gs[k].0 < gs[k].1 <= |secs|
    ensures r.Ok? ==> |r.value| == |gs|
    ensures r.Ok? ==> forall k :: 0 <= k < |gs| ==> r.value[k].title == SectionTitle(secs[gs[k].0], gs[k].0)
    ensures r.Ok? ==> forall k :: 0 <= k < |gs| ==> |r.value[k].snippets| <= 1
    ensures r.Ok? ==> forall k :: 0 <= k < |gs| && !marks[gs[k].0] ==> r.value[k].snippets == []
  {
    if gs == [] then Ok([])
    else
      var (s, e) := gs[0];
      var snippets := if marks[s] then GroupSnippet(lib, p, Flatten(secs[s..e])) else Ok([]);
      match snippets
      case Err(err) => Err(err)
      case Ok(found) =>
        match GroupEntries(lib, p, secs, marks, gs[1..])
        case Err(err) => Err(err)
        case Ok(rest) =>
          assert forall k :: 1 <= k < |gs| ==> gs[k] == gs[1..][k - 1];
          Ok([SectionSnippets(SectionTitle(secs[s], s), found)] + rest)
  }

  /** `extract_sections(wikitext)`: one entry per group of the full parse's
      sections, the lead's first. */
  function ExtractSections(lib: Library, p: Parser, text: string): (r: Result<seq<SectionSnippets>, StripError>)
    ensures r.Ok? ==> |r.value| == |Groups(Marks(p.cfg, Sections(lib.parse(text))), Levels(Sections(lib.parse(text))), 0)|
    ensures r.Ok? ==> |r.value| >= 1 && r.value[0].title == ""
  {
    var secs := Sections(lib.parse(text));
    var marks := Marks(p.cfg, secs);
    GroupEntries(lib, p, secs, marks, Groups(marks, Levels(secs), 0))
  }

  /** A page without citation-needed templates yields one empty entry per
      section. */
  lemma ExtractSectionsWithoutCitationNeeded(lib: Library, p: Parser, text: string)
    requires forall k :: 0 <= k < |Sections(lib.parse(text))| ==> !NeedsCitations(p.cfg, Sections(lib.parse(text))[k])
    ensures ExtractSections(lib, p, text).Ok?
    ensures |ExtractSections(lib, p, text).value| == |Sections(lib.parse(text))|
    ensures forall k :: 0 <= k < |Sections(lib.parse(text))| ==> ExtractSections(lib, p, text).value[k].snippets == []
  {
    var secs := Sections(lib.parse(text));
    var marks := Marks(p.cfg, secs);
    GroupsWithoutCitationNeeded(marks, Levels(secs), 0);
    EntriesWithoutCitationNeeded(lib, p, secs, marks, Groups(marks, Levels(secs), 0));
  }

  lemma {:induction false} EntriesWithoutCitationNeeded(lib: Library, p: Parser, secs: seq<seq<Node>>, marks: seq<bool>, gs: seq<(nat, nat)>)
    requires |marks| == |secs|
    requires forall k :: 0 <= k < |gs| ==> gs[k].0 < gs[k].1 <= |secs|
    requires forall k :: 0 <= k < |gs| ==> !marks[gs[k].0]
    ensures GroupEntries(lib, p, secs, marks, gs).Ok?
  {
    if gs != [] {
      EntriesWithoutCitationNeeded(lib, p, secs, marks, gs[1..]);
    }
  }
}

=== FILE: extract_snippets.dfy ===
/** `extract_snippets` of `snippet_parser/core.py` (and of the module-level
    twin in `snippet_parser/snippet_parser.py`): the page is split into
    sections, each section into paragraphs, and every paragraph is judged on
    its own; a paragraph that still spans several lines after stripping has
    its lines appended to the work list. */
module SnippetExtraction {
  import opened Wrappers
  import opened Strings
  import opened Wikicode
  import opened SnippetRules
  import opened StripCode
  import opened Cleanup
  import opened FastParse

  /** A section title with the snippets found in it. */
  datatype SectionSnippets = SectionSnippets(title: string, snippets: seq<string>)

  /** Why an extraction produced no result: a rule raised, or the work list
      did not drain within the given number of steps. */
  datatype ExtractError = Raised(error: StripError) | OutOfFuel

  /** What happens to one paragraph. */
  datatype Verdict = Skipped | Requeued(lines: seq<string>) | Kept(snippet: string)

  /** A blacklisted tag name or a template matching a blacklisted name occurs
      anywhere in the paragraph. */
  predicate Blacklisted(cfg: ParserConfig, ns: seq<Node>) {
    (exists t :: t in TagNames(ns) && t in cfg.tagsBlacklist)
    || (exists n :: n in TemplateNames(ns) && MatchesAny(n, cfg.templatesBlacklist))
  }

  /** The conditions a snippet has to meet to be kept. */
  predicate Acceptable(s: string, minlen: int, maxlen: int) {
    !Contains(s, "\n") && Contains(s, CitationNeededMarker) && minlen <= UsableLength(s) <= maxlen
  }

  /** The body of the paragraph loop. */
  function Judge(lib: Library, p: Parser, minlen: int, maxlen: int, paragraph: string): (r: Result<Verdict, StripError>)
    ensures r.Ok? && r.value.Kept? ==> Acceptable(r.value.snippet, minlen, maxlen)
    ensures r.Ok? && r.value.Requeued? ==> forall k :: 0 <= k < |r.value.lines| ==> !Contains(r.value.lines[k], "\n")
    ensures Blacklisted(p.cfg, lib.parse(paragraph)) ==> r == Ok(Skipped)
  {
    var ns := lib.parse(paragraph);
    if Blacklisted(p.cfg, ns) then Ok(Skipped)
    else
      match StripAll(p, ns)
      case Err(e) => Err(e)
      case Ok(stripped) =>
        var s := CleanupSnippet(stripped);
        if Contains(s, "\n") then Ok(Requeued(Split(s, "\n")))
        else if !Contains(s, CitationNeededMarker) then Ok(Skipped)
        else if UsableLength(s) > maxlen || UsableLength(s) < minlen then Ok(Skipped)
        else Ok(Kept(s))
  }

  /** The verdict function of a parser and length bounds. */
  function JudgeWith(lib: Library, p: Parser, minlen: int, maxlen: int): string -> Result<Verdict, StripError> {
    (paragraph: string) => Judge(lib, p, minlen, maxlen, paragraph)
  }

  /** Every snippet the verdict function keeps is acceptable. */
  ghost predicate KeepsOnlyAcceptable(judge: string -> Result<Verdict, StripError>, minlen: int, maxlen: int) {
    forall s :: judge(s).Ok? && judge(s).value.Kept? ==> Acceptable(judge(s).value.snippet, minlen, maxlen)
  }

  lemma JudgeKeepsOnlyAcceptable(lib: Library, p: Parser, minlen: int, maxlen: int)
    ensures KeepsOnlyAcceptable(JudgeWith(lib, p, minlen, maxlen), minlen, maxlen)
  {
    forall s | JudgeWith(lib, p, minlen, maxlen)(s).Ok? && JudgeWith(lib, p, minlen, maxlen)(s).value.Kept?
      ensures Acceptable(JudgeWith(lib, p, minlen, maxlen)(s).value.snippet, minlen, maxlen)
    {
      assert JudgeWith(lib, p, minlen, maxlen)(s) == Judge(lib, p, minlen, maxlen, s);
    }
  }

  /** The paragraph loop over a list it extends while iterating: requeued
      lines join the end of the queue and are judged after everything
      before them. `fuel` bounds the number of paragraphs judged. */
  function Drain(judge: string -> Result<Verdict, StripError>, queue: seq<string>, fuel: nat): (r: Result<seq<string>, ExtractError>)
    ensures r.Ok? ==> forall k :: 0 <= k < |r.value| ==> exists s :: judge(s) == Ok(Kept(r.value[k]))
    ensures queue == [] ==> r == Ok([])
    decreases fuel
  {
    if queue == [] then Ok([])
    else if fuel == 0 then Err(OutOfFuel)
    else
      match judge(queue[0])
      case Err(e) => Err(Raised(e))
      case Ok(v) =>
        var next := if v.Requeued? then queue[1..] + v.lines else queue[1..];
        match Drain(judge, next, fuel - 1)
        case Err(e) => Err(e)
        case Ok(rest) => Ok(if v.Kept? then [v.snippet] + rest else rest)
  }

  /** The snippets the loop keeps meet the verdict function's guarantee. */
  lemma DrainKeepsOnlyAcceptable(judge: string -> Result<Verdict, StripError>, queue: seq<string>, fuel: nat, minlen: int, maxlen: int)
    requires KeepsOnlyAcceptable(judge, minlen, maxlen)
    requires Drain(judge, queue, fuel).Ok?
    ensures forall k :: 0 <= k < |Drain(judge, queue, fuel).value| ==> Acceptable(Drain(judge, queue, fuel).value[k], minlen, maxlen)
  {
    var r := Drain(judge, queue, fuel).value;
    forall k | 0 <= k < |r|
      ensures Acceptable(r[k], minlen, maxlen)
    {
      var s :| judge(s) == Ok(Kept(r[k]));
    }
  }

  /** Fuel only decides whether the loop gets to finish: once it has, more
      fuel changes nothing. */
  lemma {:induction false} DrainFuelIrrelevant(judge: string -> Result<Verdict, StripError>, queue: seq<string>, fuel: nat, more: nat)
    requires Drain(judge, queue, fuel).Ok?
    requires more >= fuel
    ensures Drain(judge, queue, more) == Drain(judge, queue, fuel)
    decreases fuel
  {
    if queue != [] {
      match judge(queue[0])
      case Err(e) =>
      case Ok(v) =>
        var next := if v.Requeued? then queue[1..] + v.lines else queue[1..];
        DrainFuelIrrelevant(judge, next, fuel - 1, more - 1);
    }
  }

  /** The snippets a queue yields when no paragraph in it is requeued:
      the kept verdicts, in order. */
  function KeptInOrder(judge: string -> Result<Verdict, StripError>, queue: seq<string>): Result<seq<string>, StripError> {
    if queue == [] then Ok([])
    else
      match judge(queue[0])
      case Err(e) => Err(e)
      case Ok(v) =>
        match KeptInOrder(judge, queue[1..])
        case Err(e) => Err(e)
        case Ok(rest) => Ok(if v.Kept? then [v.snippet] + rest else rest)
  }

  predicate NoneRequeued(judge: string -> Result<Verdict, StripError>, queue: seq<string>) {
    forall k :: 0 <= k < |queue| ==> !(judge(queue[k]).Ok? && judge(queue[k]).value.Requeued?)
  }

  /** Without requeued paragraphs, one step per paragraph suffices and the
      loop keeps exactly the kept verdicts, in order. */
  lemma {:induction false} DrainWithoutRequeues(judge: string -> Result<Verdict, StripError>, queue: seq<string>)
    requires NoneRequeued(judge, queue)
    requires KeptInOrder(judge, queue).Ok?
    ensures Drain(judge, queue, |queue|) == Ok(KeptInOrder(judge, queue).value)
  {
    if queue != [] {
      assert !(judge(queue[0]).Ok? && judge(queue[0]).value.Requeued?);
      forall k | 0 <= k < |queue[1..]|
        ensures !(judge(queue[1..][k]).Ok? && judge(queue[1..][k]).value.Requeued?)
      {
        assert queue[1..][k] == queue[k + 1];
      }
      DrainWithoutRequeues(judge, queue[1..]);
    }
  }

  /** The lines requeued by the paragraphs of `queue`, in order: what
      `paragraphs.extend(...)` appends while they are judged. */
  function Requeues(judge: string -> Result<Verdict, StripError>, queue: seq<string>): seq<string> {
    if queue == [] then []
    else
      var v := judge(queue[0]);
      (if v.Ok? && v.value.Requeued? then v.value.lines else []) + Requeues(judge, queue[1..])
  }

  /** The reference order of the paragraphs the loop visits within `fuel`
      steps: the queue, then the lines its paragraphs requeued, then the
      lines those requeued, and so on. */
  function Visited(judge: string -> Result<Verdict, StripError>, queue: seq<string>, fuel: nat): seq<string>
    decreases fuel
  {
    if queue == [] then []
    else if fuel < |queue| then queue[..fuel]
    else queue + Visited(judge, Requeues(judge, queue), fuel - |queue|)
  }

  /** `Ok(ks + v)` for `Ok(v)`; errors pass through. */
  function Prepend(ks: seq<string>, r: Result<seq<string>, ExtractError>): Result<seq<string>, ExtractError> {
    match r
    case Err(e) => Err(e)
    case Ok(v) => Ok(ks + v)
  }

  /** The snippet a verdict keeps, if any, and the lines it requeues. */
  function KeptOf(v: Verdict): seq<string> {
    if v.Kept? then [v.snippet] else []
  }

  function LinesOf(v: Verdict): seq<string> {
    if v.Requeued? then v.lines else []
  }

  /** One step of the loop on a paragraph that judges without raising. */
  lemma DrainStep(judge: string -> Result<Verdict, StripError>, queue: seq<string>, fuel: nat)
    requires queue != [] && fuel > 0 && judge(queue[0]).Ok?
    ensures Drain(judge, queue, fuel) == Prepend(KeptOf(judge(queue[0]).value), Drain(judge, queue[1..] + LinesOf(judge(queue[0]).value), fuel - 1))
  {
    var v := judge(queue[0]).value;
    if !v.Requeued? {
      assert queue[1..] + LinesOf(v) == queue[1..];
    }
    var rest := Drain(judge, queue[1..] + LinesOf(v), fuel - 1);
    if rest.Ok? && !v.Kept? {
      assert KeptOf(v) + rest.value == rest.value;
    }
  }

  /** One step of the reference: a paragraph's kept snippet, then the rest's. */
  lemma KeptInOrderStep(judge: string -> Result<Verdict, StripError>, queue: seq<string>)
    requires queue != [] && KeptInOrder(judge, queue).Ok?
    ensures judge(queue[0]).Ok? && KeptInOrder(judge, queue[1..]).Ok?
    ensures KeptInOrder(judge, queue).value == KeptOf(judge(queue[0]).value) + KeptInOrder(judge, queue[1..]).value
  {
  }

  /** The converse step: a first paragraph that judges without raising,
      followed by a rest whose verdicts keep in order. */
  lemma KeptInOrderCons(judge: string -> Result<Verdict, StripError>, queue: seq<string>)
    requires queue != [] && judge(queue[0]).Ok? && KeptInOrder(judge, queue[1..]).Ok?
    ensures KeptInOrder(judge, queue) == Ok(KeptOf(judge(queue[0]).value) + KeptInOrder(judge, queue[1..]).value)
  {
    var v := judge(queue[0]).value;
    if !v.Kept? {
      assert KeptOf(v) + KeptInOrder(judge, queue[1..]).value == KeptInOrder(judge, queue[1..]).value;
    }
  }

  lemma PrependNothing(r: Result<seq<string>, ExtractError>)
    ensures Prepend([], r) == r
  {
    if r.Ok? {
      assert [] + r.value == r.value;
    }
  }

  lemma PrependTwice(x: seq<string>, y: seq<string>, r: Result<seq<string>, ExtractError>)
    ensures Prepend(x, Prepend(y, r)) == Prepend(x + y, r)
  {
    if r.Ok? {
      assert x + (y + r.value) == (x + y) + r.value;
    }
  }

  lemma ConsOfConcat<T>(a: seq<T>, b: seq<T>)
    requires a != []
    ensures a + b != [] && (a + b)[0] == a[0] && (a + b)[1..] == a[1..] + b
  {
  }

  lemma ConcatAssoc<T>(x: seq<T>, y: seq<T>, z: seq<T>)
    ensures (x + y) + z == x + (y + z)
  {
  }

  /** The lines requeued by a queue are its first paragraph's, then the rest's. */
  lemma RequeuesStep(judge: string -> Result<Verdict, StripError>, queue: seq<string>)
    requires queue != [] && judge(queue[0]).Ok?
    ensures Requeues(judge, queue) == LinesOf(judge(queue[0]).value) + Requeues(judge, queue[1..])
  {
  }

  /** Judging a run of paragraphs that all judge without raising: their kept
      snippets come first, in order, and their requeued lines join the end of
      the queue. */
  lemma {:induction false} DrainPass(judge: string -> Result<Verdict, StripError>, a: seq<string>, b: seq<string>, fuel: nat)
    requires fuel >= |a| && KeptInOrder(judge, a).Ok?
    ensures Drain(judge, a + b, fuel) == Prepend(KeptInOrder(judge, a).value, Drain(judge, b + Requeues(judge, a), fuel - |a|))
  {
    if a == [] {
      assert a + b == b;
      assert b + Requeues(judge, a) == b;
      PrependNothing(Drain(judge, b, fuel));
    } else {
      KeptInOrderStep(judge, a);
      var v := judge(a[0]).value;
      ConsOfConcat(a, b);
      ConcatAssoc(a[1..], b, LinesOf(v));
      DrainStep(judge, a + b, fuel);
      DrainPass(judge, a[1..], b + LinesOf(v), fuel - 1);
      RequeuesStep(judge, a);
      ConcatAssoc(b, LinesOf(v), Requeues(judge, a[1..]));
      PrependTwice(KeptOf(v), KeptInOrder(judge, a[1..]).value, Drain(judge, b + Requeues(judge, a), fuel - |a|));
    }
  }

  /** A loop that finishes has judged every paragraph of its queue within
      its steps, none of them raising. */
  lemma {:induction false} DrainOkCovers(judge: string -> Result<Verdict, StripError>, a: seq<string>, b: seq<string>, fuel: nat)
    requires Drain(judge, a + b, fuel).Ok?
    ensures fuel >= |a| && KeptInOrder(judge, a).Ok?
  {
    if a != [] {
      var v := judge(a[0]).value;
      var lines := if v.Requeued? then v.lines else [];
      assert (a + b)[0] == a[0];
      assert (a + b)[1..] == a[1..] + b;
      var next := if v.Requeued? then (a + b)[1..] + v.lines else (a + b)[1..];
      assert next == a[1..] + (b + lines);
      DrainOkCovers(judge, a[1..], b + lines, fuel - 1);
    }
  }

  /** Keeping verdicts in order distributes over a split of the paragraphs. */
  lemma {:induction false} KeptInOrderAppend(judge: string -> Result<Verdict, StripError>, a: seq<string>, b: seq<string>)
    requires KeptInOrder(judge, a).Ok? && KeptInOrder(judge, b).Ok?
    ensures KeptInOrder(judge, a + b) == Ok(KeptInOrder(judge, a).value + KeptInOrder(judge, b).value)
  {
    if a == [] {
      assert a + b == b;
      assert KeptInOrder(judge, a).value + KeptInOrder(judge, b).value == KeptInOrder(judge, b).value;
    } else {
      KeptInOrderStep(judge, a);
      ConsOfConcat(a, b);
      KeptInOrderAppend(judge, a[1..], b);
      KeptInOrderCons(judge, a + b);
      ConcatAssoc(KeptOf(judge(a[0]).value), KeptInOrder(judge, a[1..]).value, KeptInOrder(judge, b).value);
    }
  }

  /** Completeness of the loop: when it finishes, it returns exactly the kept
      verdicts of the paragraphs it visits (the queue, then the requeued
      lines in the order they were appended), in that order. */
  lemma {:induction false} DrainKeepsVisited(judge: string -> Result<Verdict, StripError>, queue: seq<string>, fuel: nat)
    requires Drain(judge, queue, fuel).Ok?
    ensures KeptInOrder(judge, Visited(judge, queue, fuel)).Ok?
    ensures KeptInOrder(judge, Visited(judge, queue, fuel)).value == Drain(judge, queue, fuel).value
    decreases fuel
  {
    if queue != [] {
      assert queue + [] == queue;
      DrainOkCovers(judge, queue, [], fuel);
      DrainPass(judge, queue, [], fuel);
      var rs := Requeues(judge, queue);
      assert [] + rs == rs;
      DrainKeepsVisited(judge, rs, fuel - |queue|);
      KeptInOrderAppend(judge, queue, Visited(judge, rs, fuel - |queue|));
    }
  }

  /** The title of section `i`: empty for the lead, else the heading's title
      stripped of white space. */
  function SectionTitle(sec: seq<Node>, i: nat): string {
    if i == 0 || sec == [] || !sec[0].Heading? then "" else UStrip(sec[0].title)
  }

  /** The paragraphs of a section: its rendered text split at blank lines. */
  function Paragraphs(sec: seq<Node>): seq<string> {
    Split(RenderAll(sec), "\n\n")
  }

  /** One entry per section, in order, holding what the loop keeps from that
      section's paragraphs; the first section whose loop fails fails all. */
  function SectionsSnippets(lib: Library, p: Parser, minlen: int, maxlen: int, secs: seq<seq<Node>>, first: nat, fuel: nat): (r: Result<seq<SectionSnippets>, ExtractError>)
    ensures r.Ok? <==> forall k :: 0 <= k < |secs| ==> Drain(JudgeWith(lib, p, minlen, maxlen), Paragraphs(secs[k]), fuel).Ok?
    ensures r.Ok? ==> |r.value| == |secs|
    ensures r.Ok? ==> forall k :: 0 <= k < |secs| ==> r.value[k].snippets == Drain(JudgeWith(lib, p, minlen, maxlen), Paragraphs(secs[k]), fuel).value
    ensures r.Ok? ==> forall k :: 0 <= k < |secs| ==> r.value[k].title == SectionTitle(secs[k], first + k)
    ensures r.Ok? ==> forall k, j :: 0 <= k < |secs| && 0 <= j < |r.value[k].snippets| ==> Acceptable(r.value[k].snippets[j], minlen, maxlen)
  {
    if secs == [] then Ok([])
    else
      var judge := JudgeWith(lib, p, minlen, maxlen);
      match Drain(judge, Paragraphs(secs[0]), fuel)
      case Err(e) => Err(e)
      case Ok(snippets) =>
        JudgeKeepsOnlyAcceptable(lib, p, minlen, maxlen);
        DrainKeepsOnlyAcceptable(judge, Paragraphs(secs[0]), fuel, minlen, maxlen);
        match SectionsSnippets(lib, p, minlen, maxlen, secs[1..], first + 1, fuel)
        case Err(e) => Err(e)
        case Ok(rest) => Ok([SectionSnippets(SectionTitle(secs[0], first), snippets)] + rest)
  }

  /** `extract_snippets(wikitext, minlen, maxlen)`: one `[title, snippets]`
      entry per section of the (fast or full) parse, the lead first with an
      empty title; every snippet holds the marker, spans one line and has a
      usable length within the bounds. */
  function ExtractSnippets(lib: Library, p: Parser, text: string, minlen: int, maxlen: int, fuel: nat): (r: Result<seq<SectionSnippets>, ExtractError>)
    ensures r.Ok? ==> |r.value| == |Sections(ParseForSnippets(lib, p.cfg.citationNeededTemplates, text))|
    ensures r.Ok? ==> |r.value| >= 1 && r.value[0].title == ""
    ensures r.Ok? ==> forall k :: 1 <= k < |r.value| ==>
      r.value[k].title == UStrip(Sections(ParseForSnippets(lib, p.cfg.citationNeededTemplates, text))[k][0].title)
    ensures r.Ok? ==> forall k, j :: 0 <= k < |r.value| && 0 <= j < |r.value[k].snippets| ==> Acceptable(r.value[k].snippets[j], minlen, maxlen)
    ensures var secs := Sections(ParseForSnippets(lib, p.cfg.citationNeededTemplates, text));
      r.Ok? <==> forall k :: 0 <= k < |secs| ==> Drain(JudgeWith(lib, p, minlen, maxlen), Paragraphs(secs[k]), fuel).Ok?
    ensures var secs := Sections(ParseForSnippets(lib, p.cfg.citationNeededTemplates, text));
      r.Ok? ==> forall k :: 0 <= k < |secs| ==> r.value[k].snippets == Drain(JudgeWith(lib, p, minlen, maxlen), Paragraphs(secs[k]), fuel).value
  {
    var secs := Sections(ParseForSnippets(lib, p.cfg.citationNeededTemplates, text));
    SectionsSnippets(lib, p, minlen, maxlen, secs, 0, fuel)
  }

  /** Completeness of extraction: each section's snippets are exactly the
      kept verdicts of the paragraphs its loop visits, in visiting order. */
  lemma ExtractSnippetsKeepsVisited(lib: Library, p: Parser, text: string, minlen: int, maxlen: int, fuel: nat, k: nat)
    requires ExtractSnippets(lib, p, text, minlen, maxlen, fuel).Ok?
    requires k < |ExtractSnippets(lib, p, text, minlen, maxlen, fuel).value|
    ensures var judge := JudgeWith(lib, p, minlen, maxlen);
      var secs := Sections(ParseForSnippets(lib, p.cfg.citationNeededTemplates, text));
      k < |secs| && KeptInOrder(judge, Visited(judge, Paragraphs(secs[k]), fuel)).Ok? &&
      ExtractSnippets(lib, p, text, minlen, maxlen, fuel).value[k].snippets == KeptInOrder(judge, Visited(judge, Paragraphs(secs[k]), fuel)).value
  {
    var judge := JudgeWith(lib, p, minlen, maxlen);
    var secs := Sections(ParseForSnippets(lib, p.cfg.citationNeededTemplates, text));
    DrainKeepsVisited(judge, Paragraphs(secs[k]), fuel);
  }
}

=== FILE: fast_parse.dfy ===
/** `_fast_parse` (and the module-level `fast_parse` of the older snippet
    parser): the library's token stream is cut into sections at every
    `HeadingStart`, only the sections in which a template opens with a
    citation-needed name are kept, and the library builds a tree from what
    is left. The tokenizer, the tree builder and the full parser are the
    library's and appear here as parameters. */
module FastParse {
  import opened Wrappers
  import opened Strings
  import opened Wikicode

  /** The token kinds the prefilter distinguishes; every other token is
      `OtherToken`. */
  datatype Token = HeadingStart | TemplateOpen | TextToken(text: string) | OtherToken

  /** The library entry points the extractor calls: the full parser, the
      tokenizer, and the tree builder (`None` when it raises `ParserError`). */
  datatype Library = Library(
    parse: string -> seq<Node>,
    tokenize: string -> seq<Token>,
    build: seq<Token> -> Option<seq<Node>>)

  /** `[t.lower() for t in cfg.citation_needed_templates]`. */
  function LowerNames(names: seq<string>): (r: seq<string>)
    ensures |r| == |names|
    ensures forall i :: 0 <= i < |names| ==> r[i] == Lower(names[i])
  {
    if names == [] then [] else [Lower(names[0])] + LowerNames(names[1..])
  }

  /** A template opening followed by text that contains a lower-cased
      citation-needed name. */
  predicate CitationNeededPair(t1: Token, t2: Token, lowerNames: seq<string>) {
    t1.TemplateOpen? && t2.TextToken? && exists k :: 0 <= k < |lowerNames| && Contains(Lower(t2.text), lowerNames[k])
  }

  predicate HasCitationNeededPair(sec: seq<Token>, lowerNames: seq<string>) {
    exists k :: 0 <= k < |sec| - 1 && CitationNeededPair(sec[k], sec[k + 1], lowerNames)
  }

  /** The first `HeadingStart` at or after `from`, or the length. */
  function NextHeadingStart(ts: seq<Token>, from: nat): (j: nat)
    requires from <= |ts|
    ensures from <= j <= |ts|
    ensures j < |ts| ==> ts[j].HeadingStart?
    ensures forall k :: from <= k < j ==> !ts[k].HeadingStart?
    decreases |ts| - from
  {
    if from == |ts| || ts[from].HeadingStart? then from else NextHeadingStart(ts, from + 1)
  }

  /** The token stream cut before every `HeadingStart` except one in first
      position: non-empty sections, each after the first opening with a
      `HeadingStart` and holding no other. */
  function TokenSections(ts: seq<Token>): (r: seq<seq<Token>>)
    ensures forall i :: 0 <= i < |r| ==> r[i] != [] && forall k :: 1 <= k < |r[i]| ==> !r[i][k].HeadingStart?
    ensures forall i :: 1 <= i < |r| ==> r[i][0].HeadingStart?
    decreases |ts|
  {
    if ts == [] then []
    else
      var j := NextHeadingStart(ts, 1);
      [ts[..j]] + TokenSections(ts[j..])
  }

  /** The sections holding a citation-needed pair, concatenated in order. */
  function KeptSections(ss: seq<seq<Token>>, lowerNames: seq<string>): seq<Token> {
    if ss == [] then []
    else (if HasCitationNeededPair(ss[0], lowerNames) then ss[0] else []) + KeptSections(ss[1..], lowerNames)
  }

  /** The reduced token stream, as a definition. */
  function Reduced(ts: seq<Token>, lowerNames: seq<string>): seq<Token> {
    KeptSections(TokenSections(ts), lowerNames)
  }

  /** The sections put back together are the stream. */
  lemma {:induction false} TokenSectionsConcat(ts: seq<Token>)
    ensures Flatten(TokenSections(ts)) == ts
    decreases |ts|
  {
    if ts != [] {
      var j := NextHeadingStart(ts, 1);
      TokenSectionsConcat(ts[j..]);
      var rest := TokenSections(ts[j..]);
      assert TokenSections(ts) == [ts[..j]] + rest;
      assert ([ts[..j]] + rest)[1..] == rest;
      assert Flatten([ts[..j]] + rest) == ts[..j] + Flatten(rest);
      assert ts[..j] + ts[j..] == ts;
    }
  }

  /** When every section holds a citation-needed pair nothing is cut. */
  lemma {:induction false} KeptSectionsAll(ss: seq<seq<Token>>, lowerNames: seq<string>)
    requires forall i :: 0 <= i < |ss| ==> HasCitationNeededPair(ss[i], lowerNames)
    ensures KeptSections(ss, lowerNames) == Flatten(ss)
  {
    if ss != [] {
      KeptSectionsAll(ss[1..], lowerNames);
    }
  }

  /** A stream without any citation-needed pair reduces to nothing. */
  lemma {:induction false} KeptSectionsNone(ss: seq<seq<Token>>, lowerNames: seq<string>)
    requires forall i :: 0 <= i < |ss| ==> !HasCitationNeededPair(ss[i], lowerNames)
    ensures KeptSections(ss, lowerNames) == []
  {
    if ss != [] {
      KeptSectionsNone(ss[1..], lowerNames);
    }
  }

  lemma {:induction false} KeptSectionsAppend(x: seq<seq<Token>>, y: seq<seq<Token>>, lowerNames: seq<string>)
    ensures KeptSections(x + y, lowerNames) == KeptSections(x, lowerNames) + KeptSections(y, lowerNames)
  {
    if x == [] {
      assert x + y == y;
    } else {
      assert (x + y)[1..] == x[1..] + y;
      KeptSectionsAppend(x[1..], y, lowerNames);
    }
  }

  /** Cutting distributes over a boundary that falls before a
      `HeadingStart`. */
  lemma {:induction false} TokenSectionsAppend(a: seq<Token>, b: seq<Token>)
    requires a == [] || b == [] || b[0].HeadingStart?
    ensures TokenSections(a + b) == TokenSections(a) + TokenSections(b)
    decreases |a|
  {
    if a == [] {
      assert a + b == b;
    } else if b == [] {
      assert a + b == a;
    } else {
      var j := NextHeadingStart(a, 1);
      var ab := a + b;
      if j < |a| {
        assert NextHeadingStart(ab, 1) == j by {
          NextHeadingStartPrefix(a, b, 1);
        }
        assert ab[..j] == a[..j];
        assert ab[j..] == a[j..] + b;
        TokenSectionsAppend(a[j..], b);
      } else {
        assert NextHeadingStart(ab, 1) == |a| by {
          NextHeadingStartPrefix(a, b, 1);
        }
        assert ab[..|a|] == a && ab[|a|..] == b;
        assert a[..j] == a && a[j..] == [];
        assert TokenSections(a) == [a] + TokenSections([]);
        assert TokenSections(ab) == [a] + TokenSections(b);
      }
    }
  }

  lemma {:induction false} NextHeadingStartPrefix(a: seq<Token>, b: seq<Token>, from: nat)
    requires from <= |a| && (b == [] || b[0].HeadingStart?)
    ensures NextHeadingStart(a + b, from) == NextHeadingStart(a, from)
    decreases |a| - from
  {
    if from < |a| && !a[from].HeadingStart? {
      assert (a + b)[from] == a[from];
      NextHeadingStartPrefix(a, b, from + 1);
    } else if from == |a| && b != [] {
      assert (a + b)[from] == b[0];
    }
  }

  /** A stretch with no `HeadingStart` after its first token is one
      section. */
  lemma OneSection(s: seq<Token>)
    requires s != [] && forall k :: 1 <= k < |s| ==> !s[k].HeadingStart?
    ensures TokenSections(s) == [s]
  {
    assert NextHeadingStart(s, 1) == |s|;
    assert s[..|s|] == s && s[|s|..] == [];
    assert TokenSections(s) == [s] + TokenSections([]);
  }

  lemma HasPairSnoc(s: seq<Token>, x: Token, lowerNames: seq<string>)
    requires s != []
    ensures HasCitationNeededPair(s + [x], lowerNames) <==>
      HasCitationNeededPair(s, lowerNames) || CitationNeededPair(s[|s| - 1], x, lowerNames)
  {
    var t := s + [x];
    var n := |s|;
    assert t[n - 1] == s[n - 1] && t[n] == x;
    if HasCitationNeededPair(t, lowerNames) {
      var k :| 0 <= k < |t| - 1 && CitationNeededPair(t[k], t[k + 1], lowerNames);
      if k < n - 1 {
        assert t[k] == s[k] && t[k + 1] == s[k + 1];
        assert HasCitationNeededPair(s, lowerNames);
      }
    }
    if HasCitationNeededPair(s, lowerNames) {
      var k :| 0 <= k < n - 1 && CitationNeededPair(s[k], s[k + 1], lowerNames);
      assert t[k] == s[k] && t[k + 1] == s[k + 1];
      assert HasCitationNeededPair(t, lowerNames);
    }
    if CitationNeededPair(s[n - 1], x, lowerNames) {
      assert CitationNeededPair(t[n - 1], t[n], lowerNames);
      assert HasCitationNeededPair(t, lowerNames);
    }
  }

  /** Flushing the section `tokens[prev..j]` that ends before a
      `HeadingStart` (or at the end) extends the reduced prefix by it exactly
      when it holds a citation-needed pair. */
  lemma FlushSection(tokens: seq<Token>, prev: nat, j: nat, lowerNames: seq<string>)
    requires prev < j <= |tokens|
    requires prev == 0 || tokens[prev].HeadingStart?
    requires forall k :: prev < k < j ==> !tokens[k].HeadingStart?
    ensures Reduced(tokens[..j], lowerNames) ==
      Reduced(tokens[..prev], lowerNames) + (if HasCitationNeededPair(tokens[prev..j], lowerNames) then tokens[prev..j] else [])
  {
    var sec := tokens[prev..j];
    assert tokens[..j] == tokens[..prev] + sec;
    assert sec[0] == tokens[prev];
    TokenSectionsAppend(tokens[..prev], sec);
    assert forall k :: 1 <= k < |sec| ==> sec[k] == tokens[prev + k];
    OneSection(sec);
    KeptSectionsAppend(TokenSections(tokens[..prev]), [sec], lowerNames);
    KeptOne(sec, lowerNames);
  }

  lemma KeptOne(sec: seq<Token>, lowerNames: seq<string>)
    ensures KeptSections([sec], lowerNames) == if HasCitationNeededPair(sec, lowerNames) then sec else []
  {
    assert KeptSections([sec], lowerNames) == (if HasCitationNeededPair(sec, lowerNames) then sec else []) + KeptSections([], lowerNames);
  }

  /** The loop of `_fast_parse`: walks the stream with a `HeadingStart`
      sentinel appended, and at every `HeadingStart` flushes the section
      that ends there if it held a citation-needed pair. */
  method ReduceTokens(tokens: seq<Token>, lowerNames: seq<string>) returns (reduced: seq<Token>)
    ensures reduced == Reduced(tokens, lowerNames)
  {
    var ts := tokens + [HeadingStart];
    assert forall k :: 0 <= k < |tokens| ==> ts[k] == tokens[k];
    reduced := [];
    var prev := 0;
    var found := false;
    var i := 0;
    while i < |ts| - 1
      invariant 0 <= prev <= i <= |tokens|
      invariant prev == 0 || ts[prev].HeadingStart?
      invariant forall k :: prev < k <= i ==> !ts[k].HeadingStart?
      invariant reduced == Reduced(tokens[..prev], lowerNames)
      invariant found == HasCitationNeededPair(ts[prev..i + 1], lowerNames)
    {
      if ts[i + 1].HeadingStart? {
        ReduceFlush(tokens, ts, lowerNames, prev, i);
        if found {
          reduced := reduced + ts[prev..i + 1];
        }
        prev := i + 1;
        found := false;
      } else {
        ReduceScan(ts, lowerNames, prev, i);
      }
      found := found || CitationNeededPair(ts[i], ts[i + 1], lowerNames);
      i := i + 1;
    }
    assert ts[|tokens|].HeadingStart?;
    assert tokens[..prev] == tokens;
  }

  /** The loop at a `HeadingStart`: the section that ends there is flushed,
      and the next one starts without a pair. */
  lemma ReduceFlush(tokens: seq<Token>, ts: seq<Token>, lowerNames: seq<string>, prev: nat, i: nat)
    requires ts == tokens + [HeadingStart] && prev <= i < |tokens|
    requires prev == 0 || ts[prev].HeadingStart?
    requires forall k :: prev < k <= i ==> !ts[k].HeadingStart?
    requires ts[i + 1].HeadingStart?
    ensures Reduced(tokens[..i + 1], lowerNames) ==
      Reduced(tokens[..prev], lowerNames) + (if HasCitationNeededPair(ts[prev..i + 1], lowerNames) then ts[prev..i + 1] else [])
    ensures !CitationNeededPair(ts[i], ts[i + 1], lowerNames) && !HasCitationNeededPair(ts[i + 1..i + 2], lowerNames)
  {
    assert ts[prev..i + 1] == tokens[prev..i + 1];
    assert forall k :: prev <= k <= i ==> tokens[k] == ts[k];
    FlushSection(tokens, prev, i + 1, lowerNames);
  }

  /** The loop past any other token: the pair ending at it is added to
      the section's. */
  lemma ReduceScan(ts: seq<Token>, lowerNames: seq<string>, prev: nat, i: nat)
    requires prev <= i && i + 1 < |ts|
    ensures HasCitationNeededPair(ts[prev..i + 2], lowerNames) <==>
      HasCitationNeededPair(ts[prev..i + 1], lowerNames) || CitationNeededPair(ts[i], ts[i + 1], lowerNames)
  {
    HasPairSnoc(ts[prev..i + 1], ts[i + 1], lowerNames);
    assert ts[prev..i + 2] == ts[prev..i + 1] + [ts[i + 1]];
  }

  /** `_fast_parse(wikitext)`: the tree of the reduced stream, or `None` when
      the builder rejects it. */
  function FastParse(lib: Library, citationNeededTemplates: seq<string>, text: string): Option<seq<Node>> {
    lib.build(Reduced(lib.tokenize(text), LowerNames(citationNeededTemplates)))
  }

  /** The tree `extract_snippets` works on: the fast parse, or the full parse
      when that fails. */
  function ParseForSnippets(lib: Library, citationNeededTemplates: seq<string>, text: string): (r: seq<Node>)
    ensures FastParse(lib, citationNeededTemplates, text).None? ==> r == lib.parse(text)
    ensures FastParse(lib, citationNeededTemplates, text).Some? ==> r == FastParse(lib, citationNeededTemplates, text).value
  {
    match FastParse(lib, citationNeededTemplates, text)
    case Some(ns) => ns
    case None => lib.parse(text)
  }
}

=== FILE: fixed_snippets.dfy ===
/** `scripts/compute_fixed_snippets.py`: a snippet counts as fixed when it
    was clicked (redirected to its article) while the live database was
    current and is gone from the next database. Reading the referrer's `id`
    query parameter is a parameter of the model. */
module FixedSnippets {
  import opened Wrappers

  /** A logged redirect: its timestamp and its referrer URL. */
  datatype Click = Click(ts: int, referrer: string)

  /** `load_snippet_clicks_between`: for each click in order, the first
      `id` query parameter of its referrer (`idOf`, `None` when absent) is
      mapped to the click's timestamp, so a later click overwrites an
      earlier one. */
  function ClickedSnippets(clicks: seq<Click>, idOf: string -> Option<string>): (m: map<string, int>)
    ensures forall id :: id in m ==> exists k :: 0 <= k < |clicks| && idOf(clicks[k].referrer) == Some(id)
  {
    if clicks == [] then map[]
    else
      var n := |clicks| - 1;
      var m := ClickedSnippets(clicks[..n], idOf);
      assert forall k :: 0 <= k < n ==> clicks[..n][k] == clicks[k];
      match idOf(clicks[n].referrer)
      case Some(id) => m[id := clicks[n].ts]
      case None => m
  }

  /** `clicks[k]` is the last click whose referrer names `id`. */
  predicate LastClickAt(clicks: seq<Click>, idOf: string -> Option<string>, id: string, k: nat) {
    k < |clicks| && idOf(clicks[k].referrer) == Some(id)
    && forall j :: k < j < |clicks| ==> idOf(clicks[j].referrer) != Some(id)
  }

  /** Every clicked id is recorded with the timestamp of its last click,
      and ids no click names are absent. */
  lemma {:induction false} ClickedIsLast(clicks: seq<Click>, idOf: string -> Option<string>, id: string)
    ensures id in ClickedSnippets(clicks, idOf) <==> exists k :: 0 <= k < |clicks| && idOf(clicks[k].referrer) == Some(id)
    ensures id in ClickedSnippets(clicks, idOf)
      ==> exists k: nat :: LastClickAt(clicks, idOf, id, k) && ClickedSnippets(clicks, idOf)[id] == clicks[k].ts
  {
    if clicks != [] {
      var n := |clicks| - 1;
      var pre := clicks[..n];
      ClickedIsLast(pre, idOf, id);
      assert forall k :: 0 <= k < n ==> pre[k] == clicks[k];
      if idOf(clicks[n].referrer) == Some(id) {
        assert LastClickAt(clicks, idOf, id, n);
      } else if id in ClickedSnippets(pre, idOf) {
        var k: nat :| LastClickAt(pre, idOf, id, k) && ClickedSnippets(pre, idOf)[id] == pre[k].ts;
        assert LastClickAt(clicks, idOf, id, k);
      }
    }
  }

  /** With the clicks ordered by timestamp, as the query orders them, an
      id is recorded with its latest click time. */
  lemma LatestClickWins(clicks: seq<Click>, idOf: string -> Option<string>, id: string, j: nat)
    requires forall a, b :: 0 <= a < b < |clicks| ==> clicks[a].ts <= clicks[b].ts
    requires j < |clicks| && idOf(clicks[j].referrer) == Some(id)
    ensures id in ClickedSnippets(clicks, idOf) && ClickedSnippets(clicks, idOf)[id] >= clicks[j].ts
  {
    ClickedIsLast(clicks, idOf, id);
    var k: nat :| LastClickAt(clicks, idOf, id, k) && ClickedSnippets(clicks, idOf)[id] == clicks[k].ts;
    assert j <= k;
  }

  /** The rows inserted into `fixed`: `(ts, id, lang)` for every clicked id
      that the live database has and the new one does not. */
  function FixedRows(clicked: map<string, int>, live: set<string>, scratch: set<string>, lang: string): set<(int, string, string)> {
    var gone := live - scratch;
    set id | id in clicked && id in gone :: (clicked[id], id, lang)
  }

  /** A row is inserted exactly for an id that disappeared and was clicked,
      with the time of its last click. */
  lemma FixedRowsExact(clicks: seq<Click>, idOf: string -> Option<string>, live: set<string>, scratch: set<string>,
                       lang: string, row: (int, string, string))
    ensures row in FixedRows(ClickedSnippets(clicks, idOf), live, scratch, lang)
      <==> row.2 == lang && row.1 in live && row.1 !in scratch
           && exists k: nat :: LastClickAt(clicks, idOf, row.1, k) && row.0 == clicks[k].ts
  {
    var m := ClickedSnippets(clicks, idOf);
    ClickedIsLast(clicks, idOf, row.1);
    if exists k: nat :: LastClickAt(clicks, idOf, row.1, k) && row.0 == clicks[k].ts {
      var k: nat :| LastClickAt(clicks, idOf, row.1, k) && row.0 == clicks[k].ts;
      assert row.1 in m;
      var k': nat :| LastClickAt(clicks, idOf, row.1, k') && m[row.1] == clicks[k'].ts;
      LastClickUnique(clicks, idOf, row.1, k, k');
    }
  }

  lemma LastClickUnique(clicks: seq<Click>, idOf: string -> Option<string>, id: string, k: nat, k': nat)
    requires LastClickAt(clicks, idOf, id, k) && LastClickAt(clicks, idOf, id, k')
    ensures k == k'
  {
  }
}

=== FILE: fr_parser.dfy ===
/** The French snippet parser (`snippet_parser/fr.py`, on the older base
    class). */
module FrParser {
  import opened Wrappers
  import opened Strings
  import opened Wikicode
  import opened SnippetRules

  /** The name the unit template is matched against: "unité" as it reads
      after its UTF-8 bytes went through a Mac Roman decoding ("unit√©"),
      so real `{{unité}}` templates do not match it. */
  const MisencodedUnit := "unit\U{221A}\U{00A9}"

  function StripTemplate(cfg: ParserConfig, t: TemplateView): (r: Replacement)
    ensures NameMatches(t.name, MisencodedUnit) ==> r == Ok(Some(FirstTwoRaw(t.params)))
    ensures !NameMatches(t.name, MisencodedUnit) && IsCitationNeeded(cfg, t.name) && t.params == [] ==>
      r == Ok(Some(CitationNeededMarker))
    ensures !NameMatches(t.name, MisencodedUnit) && IsCitationNeeded(cfg, t.name) && t.params != [] ==>
      (r.Ok? <==> t.params[0].stripped.Ok?)
      && (r.Ok? ==> r.value == Some(t.params[0].stripped.value + CitationNeededMarker))
    ensures !NameMatches(t.name, MisencodedUnit) && !IsCitationNeeded(cfg, t.name) ==> r == Ok(Some(""))
  {
    if NameMatches(t.name, MisencodedUnit) then Ok(Some(FirstTwoRaw(t.params)))
    else if IsCitationNeeded(cfg, t.name) then
      if t.params == [] then Ok(Some(CitationNeededMarker))
      else
        match t.params[0].stripped
        case Err(e) => Err(e)
        case Ok(s) => Ok(Some(s + CitationNeededMarker))
    else Ok(Some(""))
  }

  /** `{{refnec|date=mai 2011|1693}}`: the first parameter is taken whatever
      its key, so the date is kept and the text is lost, where the base
      class would keep "1693". */
  lemma FirstParamEvenIfNamed(cfg: ParserConfig, t: TemplateView)
    requires !NameMatches(t.name, MisencodedUnit) && IsCitationNeeded(cfg, t.name)
    requires t.params == [ParamView("date=mai 2011", true, Ok("mai 2011")), ParamView("1693", false, Ok("1693"))]
    ensures StripTemplate(cfg, t) == Ok(Some("mai 2011" + CitationNeededMarker))
    ensures BaseStripTemplate(cfg, t) == Ok(Some("1693" + CitationNeededMarker))
  {
    var text := ParamView("1693", false, Ok("1693"));
    assert PositionalTexts([text]) == Ok("1693") by {
      assert [text][1..] == [];
      assert "1693" + "" == "1693";
    }
    assert t.params[1..] == [text];
    assert PositionalTexts(t.params) == PositionalTexts([text]);
  }
}

=== FILE: handlers_citationhunt.dfy ===
/** `handlers/citationhunt.py`: how the main page picks a category, a
    snippet and the next snippet, and the two small JSON/text endpoints.
    The database queries are functions given to the model; the rendered
    page is reduced to the values the handler passes to its template. */
module CitationHuntHandler {
  import opened Wrappers
  import Decimal

  /** The category a request is browsing: every snippet (`CATEGORY_ALL`,
      compared by identity in the source) or one row of `categories`. */
  datatype Choice = All | Cat(id: string, title: string)

  /** The only exception the handler lets escape: a failed `assert`. */
  datatype Failure = AssertionFailed

  /** `cat_id` needs no lookup: absent, empty or `all`. */
  predicate MeansAll(catId: Option<string>) {
    catId == None || catId == Some("") || catId == Some("all")
  }

  /** `get_category_by_id`: `title` is the `categories` lookup by id.
      `None` is an unknown id. */
  function CategoryById(title: string -> Option<string>, catId: Option<string>): (r: Option<Choice>)
    ensures MeansAll(catId) ==> r == Some(All)
    ensures !MeansAll(catId) ==> (r.None? <==> title(catId.value).None?)
    ensures r.Some? && r.value.Cat? ==> catId == Some(r.value.id) && title(r.value.id) == Some(r.value.title)
  {
    if MeansAll(catId) then Some(All)
    else match title(catId.value)
      case None => None
      case Some(t) => Some(Cat(catId.value, t))
  }

  /** The three special ids never reach the database: any two lookups give
      the same answer. */
  lemma CategoryByIdNoLookup(t1: string -> Option<string>, t2: string -> Option<string>, catId: Option<string>)
    requires MeansAll(catId)
    ensures CategoryById(t1, catId) == CategoryById(t2, catId)
  {
  }

  /** The snippet queries: a random snippet of a category, of an
      intersection, and the `retry`-th attempt at a random snippet of all
      (`None` for an empty result). */
  datatype Queries = Queries(
    inCategory: string -> Option<string>,
    inIntersection: string -> Option<string>,
    random: nat -> Option<string>)

  /** `range(1000)` in `select_random_id`. */
  const RandomRetries: nat := 1000

  /** The retry loop over random snippets from attempt `retry` on. */
  function FirstRandom(random: nat -> Option<string>, retry: nat): (r: Option<string>)
    requires retry <= RandomRetries
    ensures r.Some? ==> exists k :: retry <= k < RandomRetries && random(k) == r
    decreases RandomRetries - retry
  {
    if retry == RandomRetries then None
    else if random(retry).Some? then random(retry)
    else FirstRandom(random, retry + 1)
  }

  /** The loop returns the first attempt that found a snippet, and nothing
      when all of them came back empty. */
  lemma {:induction false} FirstRandomIsFirst(random: nat -> Option<string>, retry: nat, d: nat)
    requires retry <= d <= RandomRetries
    requires forall k :: retry <= k < d ==> random(k).None?
    ensures d < RandomRetries && random(d).Some? ==> FirstRandom(random, retry) == random(d)
    ensures d == RandomRetries ==> FirstRandom(random, retry) == None
    decreases d - retry
  {
    if retry < d {
      FirstRandomIsFirst(random, retry + 1, d);
    }
  }

  /** `select_random_id(category, intersection)`: a snippet of the category
      or intersection; when that query is empty, or there is neither, a
      random snippet of all; the final `assert` fails when none was found. */
  function SelectRandomId(q: Queries, c: Choice, inter: string): (r: Result<string, Failure>)
    ensures c.Cat? && q.inCategory(c.id).Some? ==> r == Ok(q.inCategory(c.id).value)
    ensures c.All? && inter != "" && q.inIntersection(inter).Some? ==> r == Ok(q.inIntersection(inter).value)
  {
    var first :=
      if c.Cat? then q.inCategory(c.id)
      else if inter != "" then q.inIntersection(inter)
      else None;
    var ret := if first.None? then FirstRandom(q.random, 0) else first;
    if ret.None? then Err(AssertionFailed) else Ok(ret.value)
  }

  /** Without a category or intersection hit, the id is the first of the
      1000 random attempts that found one; when all came back empty the
      handler fails its assertion. */
  lemma SelectRandomFallsBack(q: Queries, c: Choice, inter: string)
    requires (c.Cat? && q.inCategory(c.id).None?)
          || (c.All? && (inter == "" || q.inIntersection(inter).None?))
    ensures forall d :: ((0 <= d < RandomRetries && q.random(d).Some? && (forall k :: 0 <= k < d ==> q.random(k).None?))
      ==> SelectRandomId(q, c, inter) == Ok(q.random(d).value))
    ensures (forall k :: 0 <= k < RandomRetries ==> q.random(k).None?) ==> SelectRandomId(q, c, inter) == Err(AssertionFailed)
  {
    forall d | 0 <= d < RandomRetries && q.random(d).Some? && (forall k :: 0 <= k < d ==> q.random(k).None?)
      ensures SelectRandomId(q, c, inter) == Ok(q.random(d).value)
    {
      FirstRandomIsFirst(q.random, 0, d);
    }
    if forall k :: 0 <= k < RandomRetries ==> q.random(k).None? {
      FirstRandomIsFirst(q.random, 0, RandomRetries);
    }
  }

  /** `range(3)` in `select_next_id`. */
  const NextPicks: nat := 3

  /** The loop over random picks from pick `i` on: the first one that
      differs from `curr`, or the last. `pick(i)` is the `i`-th call of
      `select_random_id`. */
  function NextRandom(pick: nat -> Result<string, Failure>, curr: string, i: nat): (r: Result<string, Failure>)
    requires i < NextPicks
    ensures exists k :: i <= k < NextPicks && pick(k) == r
    decreases NextPicks - i
  {
    match pick(i)
    case Err(e) => Err(e)
    case Ok(id) => if id != curr || i == NextPicks - 1 then Ok(id) else NextRandom(pick, curr, i + 1)
  }

  /** The first pick that differs from the current id is the next id, and
      when all three equal it the current id comes back. */
  lemma {:induction false} NextRandomFirstDifferent(pick: nat -> Result<string, Failure>, curr: string, i: nat)
    requires i < NextPicks
    requires forall k :: i <= k < NextPicks ==> pick(k).Ok?
    ensures forall d :: ((i <= d < NextPicks && pick(d).value != curr && (forall k :: i <= k < d ==> pick(k).value == curr))
      ==> NextRandom(pick, curr, i) == pick(d))
    ensures (forall k :: i <= k < NextPicks ==> pick(k) == Ok(curr)) ==> NextRandom(pick, curr, i) == Ok(curr)
    decreases NextPicks - i
  {
    if i < NextPicks - 1 {
      NextRandomFirstDifferent(pick, curr, i + 1);
    }
  }

  /** The `snippets_links` lookups: the id after `curr` in a category, and
      in an intersection; `None` when `curr` is not a member. */
  datatype Links = Links(nextInCategory: (string, string) -> Option<string>, nextInIntersection: (string, string) -> Option<string>)

  /** `select_next_id(curr_id, category, intersection)`: `Ok(None)` when
      the current snippet is outside the category or intersection. */
  function SelectNextId(pick: nat -> Result<string, Failure>, links: Links, curr: string, c: Choice, inter: string): (r: Result<Option<string>, Failure>)
    ensures c.Cat? ==> r == Ok(links.nextInCategory(curr, c.id))
    ensures c.All? && inter != "" ==> r == Ok(links.nextInIntersection(curr, inter))
    ensures c.All? && inter == "" ==> r.Err? || r.value.Some?
  {
    if c.All? && inter == "" then
      match NextRandom(pick, curr, 0)
      case Ok(id) => Ok(Some(id))
      case Err(e) => Err(e)
    else if c.Cat? then Ok(links.nextInCategory(curr, c.id))
    else Ok(links.nextInIntersection(curr, inter))
  }

  /** What `query_snippet_by_id` returns for a known id. */
  datatype SnippetInfo = SnippetInfo(snippet: string, section: string, articleUrl: string, articleTitle: string)

  /** Everything the page handler reads from the databases. */
  datatype Db = Db(
    categoryTitle: string -> Option<string>,
    snippet: string -> Option<SnippetInfo>,
    queries: Queries,
    links: Links)

  /** The query arguments `id`, `cat` and `custom` (absent is `None`). */
  datatype Args = Args(id: Option<string>, cat: Option<string>, custom: Option<string>)

  /** How the page handler answers: a redirect to itself with the given
      arguments (`None` ones are left out of the URL), a 404, the page of a
      snippet with the category, intersection and next id it shows, or an
      escaping exception. */
  datatype Page =
    | Redirect(id: Option<string>, cat: Option<string>, custom: Option<string>)
    | NotFound
    | Render(snippetId: string, info: SnippetInfo, category: Choice, currentCustom: string, next: string)
    | Raised(failure: Failure)

  /** The intersection the request asks for: `custom`, dropped when `cat`
      is given too. */
  function Intersection(a: Args): (inter: string)
    ensures a.cat.Some? && a.cat.value != "" ==> inter == ""
    ensures (a.cat.None? || a.cat.value == "") && a.custom.Some? ==> inter == a.custom.value
  {
    var inter := a.custom.GetOr("");
    if inter != "" && a.cat.Some? && a.cat.value != "" then "" else inter
  }

  /** `citation_hunt(lang_code)` for a known language; `pick(i)` is the
      `i`-th random pick of `select_next_id`. */
  function CitationHunt(db: Db, pick: nat -> Result<string, Failure>, a: Args): (p: Page)
    ensures p.Redirect? ==> p.cat.None? || p.custom.None?
    ensures p.Redirect? && a.id.Some? ==> p == Redirect(a.id, None, None)
    ensures p.Render? ==> a.id == Some(p.snippetId) && db.snippet(p.snippetId) == Some(p.info)
    ensures p.Render? && p.currentCustom != "" ==> p.category.All?
    ensures p.NotFound? ==> a.id.Some? && db.snippet(a.id.value).None?
  {
    var inter := Intersection(a);
    match CategoryById(db.categoryTitle, a.cat)
    case None => Redirect(a.id, None, None)
    case Some(c) =>
      if a.id.Some? then
        match db.snippet(a.id.value)
        case None => NotFound
        case Some(info) =>
          match SelectNextId(pick, db.links, a.id.value, c, inter)
          case Err(e) => Raised(e)
          case Ok(None) => Redirect(a.id, None, None)
          case Ok(Some(next)) => Render(a.id.value, info, c, inter, next)
      else
        match SelectRandomId(db.queries, c, inter)
        case Err(e) => Raised(e)
        case Ok(id) =>
          if c.Cat? then Redirect(Some(id), Some(c.id), None)
          else if inter != "" then Redirect(Some(id), None, Some(inter))
          else Redirect(Some(id), None, None)
  }

  /** An unknown category sends the browser back to the same snippet (or
      to none) without any category or intersection. */
  lemma UnknownCategoryRedirects(db: Db, pick: nat -> Result<string, Failure>, a: Args)
    requires !MeansAll(a.cat) && db.categoryTitle(a.cat.value).None?
    ensures CitationHunt(db, pick, a) == Redirect(a.id, None, None)
  {
  }

  /** With a valid category, an unknown snippet id is a 404. */
  lemma UnknownIdNotFound(db: Db, pick: nat -> Result<string, Failure>, a: Args)
    requires CategoryById(db.categoryTitle, a.cat).Some?
    requires a.id.Some? && db.snippet(a.id.value).None?
    ensures CitationHunt(db, pick, a) == NotFound
  {
  }

  /** Without an id the handler redirects to a random snippet, keeping the
      category when there is one and otherwise the intersection; any `cat`
      argument, even `all`, drops the intersection. */
  lemma NoIdRedirects(db: Db, pick: nat -> Result<string, Failure>, a: Args)
    requires a.id.None?
    requires CategoryById(db.categoryTitle, a.cat).Some?
    requires SelectRandomId(db.queries, CategoryById(db.categoryTitle, a.cat).value, Intersection(a)).Ok?
    ensures CitationHunt(db, pick, a).Redirect? && CitationHunt(db, pick, a).id.Some?
    ensures CategoryById(db.categoryTitle, a.cat).value.Cat?
      ==> CitationHunt(db, pick, a).cat == a.cat && CitationHunt(db, pick, a).custom.None?
    ensures (a.cat.None? || a.cat == Some("")) && a.custom.Some? && a.custom.value != ""
      ==> CitationHunt(db, pick, a).cat.None? && CitationHunt(db, pick, a).custom == a.custom
  {
  }

  /** A snippet outside its category or intersection is shown again
      without them. */
  lemma OutsideCategoryRedirects(db: Db, pick: nat -> Result<string, Failure>, a: Args)
    requires CategoryById(db.categoryTitle, a.cat).Some? && CategoryById(db.categoryTitle, a.cat).value.Cat?
    requires a.id.Some? && db.snippet(a.id.value).Some?
    requires db.links.nextInCategory(a.id.value, CategoryById(db.categoryTitle, a.cat).value.id).None?
    ensures CitationHunt(db, pick, a) == Redirect(a.id, None, None)
  {
  }

  /** The cap `search_category` puts on `max_results`. */
  const MaxSearchResults: int := 400

  /** `min(int(max_results), 400)`, with a missing or unparsable argument
      read as infinity. A negative number passes through unchanged. */
  function SearchLimit(maxResults: Option<string>): (n: int)
    ensures n <= MaxSearchResults
    ensures (maxResults.None? || Decimal.PyInt(maxResults.value).None?) ==> n == MaxSearchResults
    ensures maxResults.Some? && Decimal.PyInt(maxResults.value).Some? ==> n <= Decimal.PyInt(maxResults.value).value
  {
    if maxResults.None? then MaxSearchResults
    else match Decimal.PyInt(maxResults.value)
      case None => MaxSearchResults
      case Some(m) => if m < MaxSearchResults then m else MaxSearchResults
  }

  /** A limit written out in decimal is honoured up to the cap. */
  lemma SearchLimitOfNumber(m: int)
    ensures m <= MaxSearchResults ==> SearchLimit(Some(Decimal.IntToString(m))) == m
    ensures m > MaxSearchResults ==> SearchLimit(Some(Decimal.IntToString(m))) == MaxSearchResults
  {
    Decimal.PyIntOfString(m);
  }

  /** `timedelta(hours = 24)` in seconds. */
  const MaxDelta: int := 24 * 3600

  /** The start of the window `fixed` counts from, in seconds: the parsed
      `from_ts` (`None` when it was missing or unparsable) unless it lies
      more than a day from `now`, in which case a day before `now`. */
  function FixedFrom(now: int, fromTs: Option<int>): (t: int)
    ensures -MaxDelta <= now - t <= MaxDelta
    ensures fromTs.Some? && -MaxDelta <= now - fromTs.value <= MaxDelta ==> t == fromTs.value
    ensures fromTs.None? ==> t == now - MaxDelta
  {
    if fromTs.None? || now - fromTs.value > MaxDelta || fromTs.value - now > MaxDelta then now - MaxDelta
    else fromTs.value
  }

  /** A timestamp outside the day around `now`, in either direction, is
      replaced by one a day ago: the window never starts in the future by
      more than a day, nor further back. */
  lemma FixedFromClamps(now: int, ts: int)
    ensures (now - ts > MaxDelta || ts - now > MaxDelta) <==> FixedFrom(now, Some(ts)) != ts
    ensures FixedFrom(now, Some(ts)) != ts ==> FixedFrom(now, Some(ts)) == now - MaxDelta
  {
  }

  /** Normalising twice changes nothing. */
  lemma FixedFromIdempotent(now: int, fromTs: Option<int>)
    ensures FixedFrom(now, Some(FixedFrom(now, fromTs))) == FixedFrom(now, fromTs)
  {
  }
}

=== FILE: handlers_common.dfy ===
/** `handlers/common.py`: the language-code guard every page handler is
    wrapped in, and the per-request cache of database connections. The
    Flask request and `flask.g` become explicit inputs and outputs: the
    guard receives the URL `url_for` builds for the English page and the
    request path, and the cache is a map threaded from call to call. */
module CommonHandler {
  import opened Wrappers
  import opened Strings
  import Configuration

  /** What a guarded handler answers: the handler's own response, or a
      redirect to `location`. */
  datatype Reply<R> = Handled(response: R) | Redirect(location: string)

  /** `validate_lang_code(handler)` called with `langCode`: a code with a
      configuration runs the handler; any other code redirects to the
      English page (`enUrl`, which already carries the request's query
      arguments), with the request path appended unless it is `/`. */
  function ValidateLangCode<R>(table: Configuration.LangTable, handler: string -> R,
                               langCode: string, enUrl: string, path: string): (reply: Reply<R>)
    ensures reply.Handled? <==> Configuration.HasCode(table, langCode)
    ensures reply.Handled? ==> reply.response == handler(langCode)
    ensures reply.Redirect? ==> StartsWith(reply.location, enUrl) && EndsWith(reply.location, if path == "/" then "" else path)
  {
    if !Configuration.HasCode(table, langCode) then
      var location := if path != "/" then enUrl + path else enUrl;
      assert location == enUrl + (if path == "/" then "" else path);
      AppendEnds(enUrl, if path == "/" then "" else path);
      Redirect(location)
    else
      Handled(handler(langCode))
  }

  /** The redirect loses nothing: what follows the English URL in the
      location is exactly the request path, or nothing for `/`; and the
      handler is never consulted for an unknown code. */
  lemma RedirectKeepsPath<R>(table: Configuration.LangTable, h1: string -> R, h2: string -> R,
                             langCode: string, enUrl: string, path: string)
    requires !Configuration.HasCode(table, langCode)
    ensures ValidateLangCode(table, h1, langCode, enUrl, path) == ValidateLangCode(table, h2, langCode, enUrl, path)
    ensures var reply := ValidateLangCode(table, h1, langCode, enUrl, path);
      reply.Redirect? && reply.location[|enUrl|..] == (if path == "/" then "" else path)
  {
    var reply := ValidateLangCode(table, h1, langCode, enUrl, path);
    assert reply.location == enUrl + (if path == "/" then "" else path);
  }

  /** An unknown code at `/favicon.ico` lands on `/en/favicon.ico`. */
  lemma FaviconRedirect<R>(table: Configuration.LangTable, handler: string -> R, langCode: string, prefix: string)
    requires !Configuration.HasCode(table, langCode)
    ensures ValidateLangCode(table, handler, langCode, prefix + "/en", "/favicon.ico")
         == Redirect(prefix + "/en/favicon.ico")
  {
    assert prefix + "/en" + "/favicon.ico" == prefix + "/en/favicon.ico";
  }

  /** `get_db(lang_code)` against the request's cache `cache`, with
      `init` standing for `chdb.init_db`: the connection, the cache after
      the call, and whether a connection was opened. */
  function GetDb<C>(cache: map<string, C>, langCode: string, init: string -> C): (res: (C, map<string, C>, bool))
    ensures langCode in res.1 && res.1[langCode] == res.0
    ensures res.2 <==> langCode !in cache
    ensures res.1.Keys == cache.Keys + {langCode}
    ensures forall l :: l in cache ==> res.1[l] == cache[l]
    ensures res.2 ==> res.0 == init(langCode)
  {
    if langCode in cache then (cache[langCode], cache, false)
    else
      var db := init(langCode);
      (db, cache[langCode := db], true)
  }

  /** No code is listed twice. */
  predicate NoDuplicates(s: seq<string>) {
    forall i, j :: 0 <= i < j < |s| ==> s[i] != s[j]
  }

  lemma ConsNoDuplicates(x: string, s: seq<string>)
    requires NoDuplicates(s) && x !in s
    ensures NoDuplicates([x] + s)
  {
    var r := [x] + s;
    forall i, j | 0 <= i < j < |r|
      ensures r[i] != r[j]
    {
      assert r[j] == s[j - 1];
      if i > 0 {
        assert r[i] == s[i - 1];
      }
    }
  }

  /** What successive `get_db` calls promise: one connection per call,
      the cached one for its code; the cache grows by exactly the codes
      asked for and keeps its entries; the codes opened, each once, are
      exactly those not cached before, each holding a fresh connection. */
  ghost predicate GetDbsSpec<C>(cache: map<string, C>, langCodes: seq<string>, init: string -> C,
                                res: (seq<C>, map<string, C>, seq<string>)) {
    |res.0| == |langCodes|
    && res.1.Keys == cache.Keys + (set l | l in langCodes)
    && (forall l :: l in cache ==> res.1[l] == cache[l])
    && (forall i :: 0 <= i < |langCodes| ==> langCodes[i] in res.1 && res.0[i] == res.1[langCodes[i]])
    && (forall l :: l in res.2 <==> l in langCodes && l !in cache)
    && (forall l :: l in res.2 ==> l in res.1 && res.1[l] == init(l))
    && NoDuplicates(res.2)
  }

  /** Successive `get_db` calls within one request: the connections
      returned, the final cache, and the codes for which a connection was
      opened, in order. */
  function GetDbs<C>(cache: map<string, C>, langCodes: seq<string>, init: string -> C): (res: (seq<C>, map<string, C>, seq<string>))
    ensures GetDbsSpec(cache, langCodes, init, res)
    decreases |langCodes|
  {
    if langCodes == [] then ([], cache, [])
    else
      var (db, c1, isNew) := GetDb(cache, langCodes[0], init);
      var rest := GetDbs(c1, langCodes[1..], init);
      var res := ([db] + rest.0, rest.1, if isNew then [langCodes[0]] + rest.2 else rest.2);
      GetDbsCons(cache, langCodes, init, rest, res);
      res
  }

  /** One `get_db` call in front of the calls for the other codes. */
  lemma GetDbsCons<C>(cache: map<string, C>, langCodes: seq<string>, init: string -> C,
                      rest: (seq<C>, map<string, C>, seq<string>), res: (seq<C>, map<string, C>, seq<string>))
    requires langCodes != []
    requires GetDbsSpec(GetDb(cache, langCodes[0], init).1, langCodes[1..], init, rest)
    requires var (db, c1, isNew) := GetDb(cache, langCodes[0], init);
      res == ([db] + rest.0, rest.1, if isNew then [langCodes[0]] + rest.2 else rest.2)
    ensures GetDbsSpec(cache, langCodes, init, res)
  {
    var (db, c1, isNew) := GetDb(cache, langCodes[0], init);
    var x := langCodes[0];
    assert forall l :: l in langCodes <==> l == x || l in langCodes[1..];
    assert (set l | l in langCodes) == {x} + (set l | l in langCodes[1..]);
    assert forall i :: 1 <= i < |langCodes| ==> res.0[i] == rest.0[i - 1] && langCodes[i] == langCodes[1..][i - 1];
    assert x !in rest.2;
    ConsNoDuplicates(x, rest.2);
  }

  /** Every call for the same code returns the same connection. */
  lemma SameCodeSameConnection<C>(cache: map<string, C>, langCodes: seq<string>, init: string -> C, i: nat, j: nat)
    requires i < |langCodes| && j < |langCodes| && langCodes[i] == langCodes[j]
    ensures GetDbs(cache, langCodes, init).0[i] == GetDbs(cache, langCodes, init).0[j]
  {
  }

  /** `get_stats_db()` against the request's cached connection `cached`,
      with `init` standing for `chdb.init_stats_db()`: the connection, the
      cache after the call, and whether a connection was opened. */
  function GetStatsDb<C>(cached: Option<C>, init: C): (res: (C, Option<C>, bool))
    ensures res.1 == Some(res.0)
    ensures res.2 <==> cached.None?
    ensures cached.Some? ==> res.0 == cached.value
  {
    match cached
    case Some(db) => (db, cached, false)
    case None => (init, Some(init), true)
  }

  /** `n` successive `get_stats_db()` calls: the connections returned, the
      final cache and the number of connections opened. */
  function GetStatsDbs<C>(cached: Option<C>, init: C, n: nat): (res: (seq<C>, Option<C>, nat))
    ensures |res.0| == n
    ensures res.2 <= 1
    ensures n > 0 ==> res.1.Some? && forall i :: 0 <= i < n ==> res.0[i] == res.1.value
    ensures res.2 == 1 <==> n > 0 && cached.None?
    ensures cached.Some? ==> res.1 == cached
    decreases n
  {
    if n == 0 then ([], cached, 0)
    else
      var (db, c1, isNew) := GetStatsDb(cached, init);
      var (dbs, c2, k) := GetStatsDbs(c1, init, n - 1);
      ([db] + dbs, c2, (if isNew then 1 else 0) + k)
  }
}

=== FILE: handlers_intersections.dfy ===
/** `handlers/intersections.py`: creating an intersection (a custom set of
    articles) from page ids, page titles, a PetScan query or a PagePile.
    The request body is a JSON value; the database, the MediaWiki API and
    the two HTTP services are functions given to the model, the services
    answering `None` whenever the request or the decoding of the reply
    raised. */
module IntersectionsHandler {
  import opened Wrappers
  import opened Strings
  import Decimal
  import Utils

  /** A decoded JSON value (numbers are integers here). */
  datatype Json = JNull | JBool(b: bool) | JNum(n: int) | JStr(s: string) | JList(items: seq<Json>) | JDict(fields: map<string, Json>)

  /** `PAGE_TITLES_PER_API_REQUEST`. */
  const TitlesPerRequest: int := 50

  /** The keys of which a request needs at least one. */
  predicate HasSource(m: map<string, Json>) {
    "page_ids" in m || "page_titles" in m || "psid" in m || "pileid" in m
  }

  /** A key that must hold a non-empty list when present. */
  predicate ListOk(m: map<string, Json>, k: string) {
    k in m ==> m[k].JList? && m[k].items != []
  }

  /** A key that must hold a string of digits when present. */
  predicate DigitsOk(m: map<string, Json>, k: string) {
    k in m ==> m[k].JStr? && IsDigits(m[k].s)
  }

  /** Why a request is turned away. */
  datatype Invalid = InvalidRequest

  /** `get_json()` followed by `validate_request_json`: the body (`None`
      when it is not JSON) must be an object naming at least one source,
      with the list-valued sources non-empty lists and the id-valued ones
      strings of digits. */
  function ValidateRequest(body: Option<Json>): (r: Result<map<string, Json>, Invalid>)
    ensures r.Ok? <==> (body.Some? && body.value.JDict? && HasSource(body.value.fields)
                        && ListOk(body.value.fields, "page_ids") && ListOk(body.value.fields, "page_titles")
                        && DigitsOk(body.value.fields, "psid") && DigitsOk(body.value.fields, "pileid"))
    ensures r.Ok? ==> r.value == body.value.fields
  {
    if body.None? || !body.value.JDict? then Err(InvalidRequest)
    else
      var m := body.value.fields;
      if !HasSource(m) then Err(InvalidRequest)
      else if !ListOk(m, "page_ids") || !ListOk(m, "page_titles") then Err(InvalidRequest)
      else if !DigitsOk(m, "psid") then Err(InvalidRequest)
      else if !DigitsOk(m, "pileid") then Err(InvalidRequest)
      else Ok(m)
  }

  /** The malformed bodies the application's tests post are all turned
      away. */
  lemma BrokenInputsRejected()
    ensures ValidateRequest(Some(JStr(""))).Err?
    ensures ValidateRequest(Some(JDict(map["page_ids" := JStr("")]))).Err?
    ensures ValidateRequest(Some(JDict(map["page_titles" := JStr("")]))).Err?
    ensures ValidateRequest(Some(JDict(map["petscan_id" := JStr("")]))).Err?
    ensures ValidateRequest(Some(JDict(map["page_ids" := JList([])]))).Err?
    ensures ValidateRequest(Some(JDict(map["page_titles" := JList([])]))).Err?
    ensures ValidateRequest(Some(JDict(map["psid" := JList([])]))).Err?
    ensures ValidateRequest(Some(JDict(map["psid" := JStr("invalid")]))).Err?
    ensures ValidateRequest(Some(JDict(map["psid" := JStr("123456")]))).Ok?
  {
    assert !IsAsciiDigit("invalid"[0]);
  }

  /** Where the pages of an intersection come from. */
  datatype Source = ByIds(ids: seq<Json>) | ByTitles(titles: seq<Json>) | ByPsid(psid: string) | ByPile(pileid: string)

  /** The branch `create_intersection` takes for a valid request. */
  function Route(m: map<string, Json>): (s: Source)
    requires HasSource(m)
    requires ListOk(m, "page_ids") && ListOk(m, "page_titles") && DigitsOk(m, "psid") && DigitsOk(m, "pileid")
    ensures s.ByIds? <==> "page_ids" in m
    ensures s.ByTitles? <==> "page_ids" !in m && "page_titles" in m
    ensures s.ByPsid? <==> "page_ids" !in m && "page_titles" !in m && "psid" in m
    ensures s.ByPile? <==> "page_ids" !in m && "page_titles" !in m && "psid" !in m
  {
    if "page_ids" in m then ByIds(m["page_ids"].items)
    else if "page_titles" in m then ByTitles(m["page_titles"].items)
    else if "psid" in m then ByPsid(m["psid"].s)
    else ByPile(m["pileid"].s)
  }

  /** The settings the handler reads: `database`, the two service URLs,
      `intersection_max_size` and `intersection_expiration_days`. */
  datatype Cfg = Cfg(database: string, petscanUrl: string, pagepileUrl: string, maxSize: int, expirationDays: int)

  /** The outside world: `database.create_intersection`, the `query`
      responses for a `titles` parameter (each with the keys of its
      `query.pages`, or `None` when it has none), and the ids PetScan and
      the wiki and titles PagePile return for a URL. */
  datatype Env = Env(
    create: seq<Json> -> (string, seq<Json>),
    titleQuery: string -> seq<Option<seq<string>>>,
    petscan: string -> Option<seq<Json>>,
    pagepile: string -> Option<(string, seq<Json>)>)

  /** `intersect_with_page_ids`: no ids, no intersection. */
  function WithPageIds(env: Env, ids: seq<Json>): (r: (string, seq<Json>))
    ensures ids == [] ==> r == ("", [])
    ensures ids != [] ==> r == env.create(ids)
  {
    if ids == [] then ("", []) else env.create(ids)
  }

  /** The empty list never reaches the database: any two databases give
      the same answer. */
  lemma EmptyIdsShortCircuit(e1: Env, e2: Env)
    ensures WithPageIds(e1, []) == WithPageIds(e2, []) == ("", [])
  {
  }

  /** The titles as strings, or `None` when one is not a string (the
      `'|'.join` then raises `TypeError`). */
  function TitleStrings(items: seq<Json>): (r: Option<seq<string>>)
    ensures r.Some? <==> forall k :: 0 <= k < |items| ==> items[k].JStr?
    ensures r.Some? ==> |r.value| == |items| && forall k :: 0 <= k < |items| ==> r.value[k] == items[k].s
  {
    if items == [] then Some([])
    else if !items[0].JStr? then None
    else match TitleStrings(items[1..])
      case None => None
      case Some(rest) => Some([items[0].s] + rest)
  }

  /** Page ids as JSON strings. */
  function Wrap(ids: seq<string>): (r: seq<Json>)
    ensures |r| == |ids| && forall k :: 0 <= k < |ids| ==> r[k] == JStr(ids[k])
  {
    if ids == [] then [] else [JStr(ids[0])] + Wrap(ids[1..])
  }

  /** The page ids of a sequence of `query` responses, in order. */
  function ResponseIds(rs: seq<Option<seq<string>>>): (r: seq<Json>)
    ensures forall k :: 0 <= k < |r| ==> r[k].JStr?
    ensures forall id :: JStr(id) in r <==> exists j :: 0 <= j < |rs| && rs[j].Some? && id in rs[j].value
  {
    if rs == [] then []
    else
      var rest := ResponseIds(rs[1..]);
      assert forall j :: 1 <= j < |rs| ==> rs[j] == rs[1..][j - 1];
      var here := if rs[0].Some? then Wrap(rs[0].value) else [];
      assert forall id :: JStr(id) in here <==> rs[0].Some? && id in rs[0].value by {
        forall id | rs[0].Some? && id in rs[0].value
          ensures JStr(id) in here
        {
          var k :| 0 <= k < |rs[0].value| && rs[0].value[k] == id;
          assert here[k] == JStr(id);
        }
      }
      here + rest
  }

  /** The ids found for the title chunks in order, or `None` when a chunk
      holds something other than a string. */
  function ChunkIds(env: Env, chunks: seq<seq<Json>>): (r: Option<seq<Json>>)
    ensures r.Some? <==> forall c :: 0 <= c < |chunks| ==> TitleStrings(chunks[c]).Some?
  {
    if chunks == [] then Some([])
    else match TitleStrings(chunks[0])
      case None => None
      case Some(ts) =>
        assert forall c :: 1 <= c < |chunks| ==> chunks[c] == chunks[1..][c - 1];
        match ChunkIds(env, chunks[1..])
        case None => None
        case Some(rest) => Some(ResponseIds(env.titleQuery(Join("|", ts))) + rest)
  }

  /** The title chunks of at most fifty titles `ichunk` cuts. */
  function TitleChunks(titles: seq<Json>): seq<seq<Json>> {
    Utils.IchunkConcat(titles, TitlesPerRequest);
    Utils.Ichunk(titles, TitlesPerRequest).value
  }

  /** Titles are resolved fifty at a time: the chunks are non-empty, hold
      at most fifty titles, all but the last exactly fifty, and together
      are the titles in order. */
  lemma TitleChunksPartition(titles: seq<Json>, k: nat)
    requires k < |TitleChunks(titles)|
    ensures Utils.Concat(TitleChunks(titles)) == titles
    ensures 0 < |TitleChunks(titles)[k]| <= TitlesPerRequest
    ensures k < |TitleChunks(titles)| - 1 ==> |TitleChunks(titles)[k]| == TitlesPerRequest
  {
    Utils.IchunkConcat(titles, TitlesPerRequest);
    Utils.IchunkSizes(titles, TitlesPerRequest, k);
    IchunkAtMost(titles, TitlesPerRequest, k);
  }

  lemma {:induction false} IchunkAtMost<T>(xs: seq<T>, size: int, k: nat)
    requires size > 0 && Utils.Ichunk(xs, size).Ok? && k < |Utils.Ichunk(xs, size).value|
    ensures |Utils.Ichunk(xs, size).value[k]| <= size
    decreases |xs|
  {
    var n := Utils.Min(size, |xs|);
    assert Utils.Ichunk(xs, size).value == [xs[..n]] + Utils.Ichunk(xs[n..], size).value;
    if k > 0 {
      IchunkAtMost(xs[n..], size, k - 1);
    }
  }

  /** The chunks hold only strings exactly when their concatenation
      does. */
  lemma {:induction false} ChunksAllStrings(chunks: seq<seq<Json>>)
    ensures (forall c :: 0 <= c < |chunks| ==> TitleStrings(chunks[c]).Some?)
      <==> (forall k :: 0 <= k < |Utils.Concat(chunks)| ==> Utils.Concat(chunks)[k].JStr?)
  {
    if chunks != [] {
      var rest := chunks[1..];
      ChunksAllStrings(rest);
      var all := Utils.Concat(chunks);
      var first := chunks[0];
      assert all == first + Utils.Concat(rest);
      if forall c :: 0 <= c < |chunks| ==> TitleStrings(chunks[c]).Some? {
        assert TitleStrings(first).Some?;
        forall c | 0 <= c < |rest|
          ensures TitleStrings(rest[c]).Some?
        {
          assert rest[c] == chunks[c + 1];
        }
        forall k | 0 <= k < |all|
          ensures all[k].JStr?
        {
          if k < |first| {
            assert all[k] == first[k];
          } else {
            assert all[k] == Utils.Concat(rest)[k - |first|];
          }
        }
      }
      if forall k :: 0 <= k < |all| ==> all[k].JStr? {
        forall k | 0 <= k < |first|
          ensures first[k].JStr?
        {
          assert all[k] == first[k];
        }
        forall k | 0 <= k < |Utils.Concat(rest)|
          ensures Utils.Concat(rest)[k].JStr?
        {
          assert all[k + |first|] == Utils.Concat(rest)[k];
        }
        forall c | 0 <= c < |chunks|
          ensures TitleStrings(chunks[c]).Some?
        {
          if c > 0 {
            assert chunks[c] == rest[c - 1];
          }
        }
      }
    }
  }

  /** `intersect_with_page_titles`: the ids of the titles, resolved chunk
      by chunk; `None` when a title is not a string. */
  function WithPageTitles(env: Env, titles: seq<Json>): (r: Option<(string, seq<Json>)>)
    ensures r.Some? <==> forall k :: 0 <= k < |titles| ==> titles[k].JStr?
  {
    var chunks := TitleChunks(titles);
    Utils.IchunkConcat(titles, TitlesPerRequest);
    ChunksAllStrings(chunks);
    match ChunkIds(env, chunks)
    case None => None
    case Some(ids) => if ids == [] then Some(("", [])) else Some(WithPageIds(env, ids))
  }

  /** The characters `rstrip('_p')` removes. */
  predicate UnderscoreOrP(c: char) {
    c == '_' || c == 'p'
  }

  /** `cfg.database.rstrip('_p')`: the database name without its trailing
      run of `_` and `p` characters, meant to turn `eswiki_p` into the wiki
      name `eswiki`. */
  function WikiName(database: string): (w: string)
    ensures StartsWith(database, w)
    ensures w == [] || !UnderscoreOrP(w[|w| - 1])
  {
    RStripBy(database, UnderscoreOrP)
  }

  /** The `_p` suffix is removed together with whatever run of `_` and `p`
      precedes it, so the name is the same as without the suffix. */
  lemma WikiNameDropsSuffix(w: string)
    ensures WikiName(w + "_p") == WikiName(w)
  {
    var s := w + "_p";
    assert s[..|s| - 1] == w + "_";
    assert (w + "_")[..|w|] == w;
  }

  /** A database name whose wiki name ends in another character maps back
      to that wiki name. */
  lemma WikiNameOfDatabase(w: string)
    requires w != [] && !UnderscoreOrP(w[|w| - 1])
    ensures WikiName(w + "_p") == w
  {
    WikiNameDropsSuffix(w);
  }

  /** `str(cfg.intersection_max_size * 2)`. */
  function OutputLimit(cfg: Cfg): string {
    Decimal.IntToString(cfg.maxSize * 2)
  }

  /** PetScan is asked for twice the intersection size, so that enough of
      its pages are in the database. */
  lemma OutputLimitDoubles(cfg: Cfg)
    ensures Decimal.PyInt(OutputLimit(cfg)) == Some(2 * cfg.maxSize)
    ensures cfg.maxSize > 0 ==> Decimal.PyInt(OutputLimit(cfg)).value > cfg.maxSize
  {
    Decimal.PyIntOfString(cfg.maxSize * 2);
  }

  /** The PetScan request for `psid`, asking for results in this wiki. */
  function PetScanUrl(cfg: Cfg, psid: string): (u: string)
    ensures StartsWith(u, cfg.petscanUrl + "?format=json&psid=" + psid + "&output_limit=")
    ensures EndsWith(u, "&common_wiki=other&common_wiki_other=" + WikiName(cfg.database))
  {
    var head := cfg.petscanUrl + "?format=json&psid=" + psid + "&output_limit=";
    var tail := "&common_wiki=other&common_wiki_other=" + WikiName(cfg.database);
    var u := head + OutputLimit(cfg) + tail;
    assert u[..|head|] == head;
    assert u[|u| - |tail|..] == tail;
    u
  }

  /** `intersect_with_psid`: PetScan's page ids, none when the request
      failed. */
  function WithPsid(cfg: Cfg, env: Env, psid: string): (r: (string, seq<Json>))
    ensures env.petscan(PetScanUrl(cfg, psid)).None? ==> r == ("", [])
    ensures env.petscan(PetScanUrl(cfg, psid)).Some? ==> r == WithPageIds(env, env.petscan(PetScanUrl(cfg, psid)).value)
  {
    var ids := env.petscan(PetScanUrl(cfg, psid)).GetOr([]);
    if ids == [] then ("", []) else WithPageIds(env, ids)
  }

  /** The PagePile request for `pileid`. */
  function PagePileUrl(cfg: Cfg, pileid: string): (u: string)
    ensures |u| == |cfg.pagepileUrl + "/api.php?id="| + |pileid| + |"&action=get_data&format=json"|
    ensures StartsWith(u, cfg.pagepileUrl + "/api.php?id=") && EndsWith(u, "&action=get_data&format=json")
    ensures u[|cfg.pagepileUrl + "/api.php?id="|..|u| - |"&action=get_data&format=json"|] == pileid
  {
    Framed(cfg.pagepileUrl + "/api.php?id=", pileid, "&action=get_data&format=json");
    cfg.pagepileUrl + "/api.php?id=" + pileid + "&action=get_data&format=json"
  }

  /** `intersect_with_pileid`: the pile's titles, used only when the pile
      belongs to this wiki. */
  function WithPile(cfg: Cfg, env: Env, pileid: string): (r: Option<(string, seq<Json>)>)
    ensures (env.pagepile(PagePileUrl(cfg, pileid)).None? || env.pagepile(PagePileUrl(cfg, pileid)).value.0 != WikiName(cfg.database))
      ==> r == Some(("", []))
    ensures (env.pagepile(PagePileUrl(cfg, pileid)).Some? && env.pagepile(PagePileUrl(cfg, pileid)).value.0 == WikiName(cfg.database)
             && env.pagepile(PagePileUrl(cfg, pileid)).value.1 != [])
      ==> r == WithPageTitles(env, env.pagepile(PagePileUrl(cfg, pileid)).value.1)
  {
    var titles :=
      match env.pagepile(PagePileUrl(cfg, pileid))
      case None => []
      case Some((wiki, pages)) => if wiki == WikiName(cfg.database) then pages else [];
    if titles == [] then Some(("", [])) else WithPageTitles(env, titles)
  }

  /** The handler's JSON answer: an error, the intersection's id, pages
      and lifetime, or an escaping `TypeError` (a title that is not a
      string). */
  datatype Reply = Error(message: string) | Created(id: string, pageIds: seq<Json>, ttlDays: int) | Raised

  /** `create_intersection(lang_code)` for a known language. */
  function CreateIntersection(cfg: Cfg, env: Env, body: Option<Json>): (r: Reply)
    ensures r.Error? <==> ValidateRequest(body).Err?
    ensures r.Error? ==> r.message == "Invalid request"
    ensures r.Created? ==> r.ttlDays == cfg.expirationDays
    ensures r.Raised? ==> "page_ids" !in body.value.fields && ("page_titles" in body.value.fields || "pileid" in body.value.fields)
  {
    match ValidateRequest(body)
    case Err(_) => Error("Invalid request")
    case Ok(m) =>
      var found: Option<(string, seq<Json>)> :=
        match Route(m)
        case ByIds(ids) => Some(WithPageIds(env, ids))
        case ByTitles(titles) => WithPageTitles(env, titles)
        case ByPsid(psid) => Some(WithPsid(cfg, env, psid))
        case ByPile(pileid) => WithPile(cfg, env, pileid);
      match found
      case None => Raised
      case Some((id, ids)) => Created(id, ids, cfg.expirationDays)
  }

  /** Page ids take priority: with `page_ids` in the request, neither the
      MediaWiki API nor PetScan nor PagePile is consulted, whatever else the
      request names. */
  lemma PageIdsFirst(cfg: Cfg, e1: Env, e2: Env, body: Option<Json>)
    requires ValidateRequest(body).Ok? && "page_ids" in body.value.fields
    requires e1.create == e2.create
    ensures CreateIntersection(cfg, e1, body) == CreateIntersection(cfg, e2, body)
    ensures CreateIntersection(cfg, e1, body) == Created(e1.create(body.value.fields["page_ids"].items).0,
                                                         e1.create(body.value.fields["page_ids"].items).1, cfg.expirationDays)
  {
  }

  /** A PetScan request that fails gives the empty intersection, without
      touching the database. */
  lemma PetScanFailureIsEmpty(cfg: Cfg, env: Env, psid: string)
    requires IsDigits(psid) && env.petscan(PetScanUrl(cfg, psid)).None?
    ensures CreateIntersection(cfg, env, Some(JDict(map["psid" := JStr(psid)]))) == Created("", [], cfg.expirationDays)
  {
  }

  /** A pile from another wiki gives the empty intersection. */
  lemma ForeignPileIsEmpty(cfg: Cfg, env: Env, pileid: string)
    requires IsDigits(pileid)
    requires env.pagepile(PagePileUrl(cfg, pileid)).Some? && env.pagepile(PagePileUrl(cfg, pileid)).value.0 != WikiName(cfg.database)
    ensures CreateIntersection(cfg, env, Some(JDict(map["pileid" := JStr(pileid)]))) == Created("", [], cfg.expirationDays)
  {
  }
}

=== FILE: handlers_stats.dfy ===
/** `handlers/stats.py`: telling crawlers and referrer spam apart from real
    visits before a request is logged, and padding a per-day series so it
    covers every recent day. The compiled regular expressions are given as
    predicates (`search` finds a match), and the clock as `dateOf(d)`, the
    `%Y-%m-%d` string of the day `d` days ago. */
module StatsHandler {
  import opened Wrappers
  import LexOrder

  /** `x or ''`: an absent or empty header reads as the empty string. */
  function OrEmpty(x: Option<string>): string {
    x.GetOr("")
  }

  /** Whether one of `patterns` is found in `s`. */
  predicate AnyMatch(patterns: seq<string -> bool>, s: string)
  {
    exists k :: 0 <= k < |patterns| && patterns[k](s)
  }

  /** `any(...)` over the patterns, scanning from the first. */
  function SearchAll(patterns: seq<string -> bool>, s: string): (found: bool)
    ensures found <==> AnyMatch(patterns, s)
  {
    if patterns == [] then false
    else if patterns[0](s) then true
    else
      var rest := SearchAll(patterns[1..], s);
      assert forall k :: 1 <= k < |patterns| ==> patterns[k] == patterns[1..][k - 1];
      rest
  }

  /** `is_spam(user_agent, referrer)`: some crawler pattern is found in the
      user agent, or some spam pattern in the referrer. */
  function IsSpam(userAgent: Option<string>, referrer: Option<string>,
                  crawlers: seq<string -> bool>, spammers: seq<string -> bool>): (spam: bool)
    ensures spam <==> AnyMatch(crawlers, OrEmpty(userAgent)) || AnyMatch(spammers, OrEmpty(referrer))
  {
    SearchAll(crawlers, OrEmpty(userAgent)) || SearchAll(spammers, OrEmpty(referrer))
  }

  /** A missing header and an empty one are judged alike. */
  lemma MissingIsEmpty(userAgent: Option<string>, referrer: Option<string>,
                       crawlers: seq<string -> bool>, spammers: seq<string -> bool>)
    ensures IsSpam(None, referrer, crawlers, spammers) == IsSpam(Some(""), referrer, crawlers, spammers)
    ensures IsSpam(userAgent, None, crawlers, spammers) == IsSpam(userAgent, Some(""), crawlers, spammers)
  {
  }

  /** What `log_request` reads from the request. */
  datatype Request = Request(
    userAgent: Option<string>, referrer: Option<string>, langCode: Option<string>,
    id: Option<string>, cat: Option<string>, url: string,
    purpose: Option<string>, xMoz: Option<string>)

  /** A row of the `requests` table, less the timestamp. */
  datatype Row = Row(
    langCode: Option<string>, id: Option<string>, cat: Option<string>, url: string,
    prefetch: bool, statusCode: int, referrer: Option<string>)

  /** `referrer or None`. */
  function NoneIfEmpty(x: Option<string>): (r: Option<string>)
    ensures r != Some("")
    ensures OrEmpty(r) == OrEmpty(x)
  {
    if x == Some("") then None else x
  }

  /** `log_request(response)`: the response comes back untouched; the row
      inserted, if any, is the second component. */
  function LogRequest<R>(req: Request, response: R, statusCode: int,
                         crawlers: seq<string -> bool>, spammers: seq<string -> bool>): (res: (R, Option<Row>))
    ensures res.0 == response
    ensures res.1.None? <==> IsSpam(req.userAgent, req.referrer, crawlers, spammers)
    ensures res.1.Some? ==> res.1.value.referrer != Some("") && OrEmpty(res.1.value.referrer) == OrEmpty(req.referrer)
    ensures res.1.Some? ==> (res.1.value.prefetch <==> req.purpose == Some("prefetch") || req.xMoz == Some("prefetch"))
    ensures res.1.Some? ==> res.1.value.statusCode == statusCode && res.1.value.url == req.url
  {
    var referrer := NoneIfEmpty(req.referrer);
    if IsSpam(req.userAgent, referrer, crawlers, spammers) then (response, None)
    else
      var prefetch := req.purpose == Some("prefetch") || req.xMoz == Some("prefetch");
      (response, Some(Row(req.langCode, req.id, req.cat, req.url, prefetch, statusCode, referrer)))
  }

  /** A day's entry in a series: the date string and its value. */
  type Point<V> = (string, V)

  /** The value `dict(pairs)` holds for `key`: the last pair's with that key. */
  function LastValue<V>(pairs: seq<Point<V>>, key: string): (r: Option<V>)
    ensures r.Some? <==> exists j :: 0 <= j < |pairs| && pairs[j].0 == key
  {
    if pairs == [] then None
    else if pairs[|pairs| - 1].0 == key then Some(pairs[|pairs| - 1].1)
    else
      var pre := pairs[..|pairs| - 1];
      assert forall j :: 0 <= j < |pre| ==> pre[j] == pairs[j];
      LastValue(pre, key)
  }

  /** Dates strictly increase along the series. */
  predicate Sorted<V>(s: seq<Point<V>>) {
    forall i, j :: 0 <= i < j < |s| ==> LexOrder.Less(s[i].0, s[j].0)
  }

  /** The value a sorted series holds for `key`. */
  function Find<V>(s: seq<Point<V>>, key: string): (r: Option<V>)
    ensures r.Some? <==> exists i :: 0 <= i < |s| && s[i].0 == key
  {
    if s == [] then None
    else if s[0].0 == key then Some(s[0].1)
    else
      var rest := Find(s[1..], key);
      assert forall i :: 1 <= i < |s| ==> s[i] == s[1..][i - 1];
      rest
  }

  /** In a sorted series every entry is the one `Find` returns. */
  lemma {:induction false} FindAt<V>(s: seq<Point<V>>, i: nat)
    requires Sorted(s) && i < |s|
    ensures Find(s, s[i].0) == Some(s[i].1)
  {
    if i > 0 {
      LexOrder.LessIrreflexive(s[0].0);
      assert s[0].0 != s[i].0;
      assert Sorted(s[1..]);
      assert s[1..][i - 1] == s[i];
      FindAt(s[1..], i - 1);
    }
  }

  /** Sets `key` to `v` in a sorted series, keeping it sorted. */
  function Upsert<V>(s: seq<Point<V>>, key: string, v: V): (r: seq<Point<V>>)
    requires Sorted(s)
    ensures Sorted(r)
    ensures forall x :: Find(r, x) == if x == key then Some(v) else Find(s, x)
  {
    if s == [] then [(key, v)]
    else if s[0].0 == key then
      var r := [(key, v)] + s[1..];
      UpsertHeadSorted(s, key, v);
      r
    else if LexOrder.Less(key, s[0].0) then
      var r := [(key, v)] + s;
      InsertHeadSorted(s, key, v);
      r
    else
      LexOrder.LessTotal(key, s[0].0);
      assert Sorted(s[1..]);
      var rest := Upsert(s[1..], key, v);
      ConsSorted(s, key, v, rest);
      [s[0]] + rest
  }

  /** Replacing the first entry's value keeps the series sorted. */
  lemma UpsertHeadSorted<V>(s: seq<Point<V>>, key: string, v: V)
    requires Sorted(s) && s != [] && s[0].0 == key
    ensures var r := [(key, v)] + s[1..];
      Sorted(r) && forall x :: Find(r, x) == if x == key then Some(v) else Find(s, x)
  {
    var r := [(key, v)] + s[1..];
    assert r[1..] == s[1..];
    forall i, j | 0 <= i < j < |r|
      ensures LexOrder.Less(r[i].0, r[j].0)
    {
      assert r[i].0 == s[i].0 && r[j].0 == s[j].0;
    }
  }

  /** A key below the first entry's goes in front. */
  lemma InsertHeadSorted<V>(s: seq<Point<V>>, key: string, v: V)
    requires Sorted(s) && s != [] && LexOrder.Less(key, s[0].0)
    ensures var r := [(key, v)] + s;
      Sorted(r) && forall x :: Find(r, x) == if x == key then Some(v) else Find(s, x)
  {
    var r := [(key, v)] + s;
    assert r[1..] == s;
    forall i, j | 0 <= i < j < |r|
      ensures LexOrder.Less(r[i].0, r[j].0)
    {
      if i == 0 {
        if j > 1 {
          LexOrder.LessTransitive(key, s[0].0, s[j - 1].0);
        }
      } else {
        assert r[i] == s[i - 1] && r[j] == s[j - 1];
      }
    }
  }

  /** A key above the first entry's goes after it. */
  lemma ConsSorted<V>(s: seq<Point<V>>, key: string, v: V, rest: seq<Point<V>>)
    requires Sorted(s) && s != [] && LexOrder.Less(s[0].0, key)
    requires Sorted(rest)
    requires forall x :: Find(rest, x) == if x == key then Some(v) else Find(s[1..], x)
    ensures var r := [s[0]] + rest;
      Sorted(r) && forall x :: Find(r, x) == if x == key then Some(v) else Find(s, x)
  {
    var r := [s[0]] + rest;
    assert r[1..] == rest;
    forall i | 0 <= i < |rest|
      ensures LexOrder.Less(s[0].0, rest[i].0)
    {
      HeadBelowRest(s, key, v, rest, i);
    }
    forall i, j | 0 <= i < j < |r|
      ensures LexOrder.Less(r[i].0, r[j].0)
    {
      if i == 0 {
        assert r[j] == rest[j - 1];
      } else {
        assert r[i] == rest[i - 1] && r[j] == rest[j - 1];
      }
    }
    LexOrder.LessIrreflexive(s[0].0);
  }

  /** Every key of `rest` lies above the first entry's. */
  lemma HeadBelowRest<V>(s: seq<Point<V>>, key: string, v: V, rest: seq<Point<V>>, i: nat)
    requires Sorted(s) && s != [] && LexOrder.Less(s[0].0, key)
    requires forall x :: Find(rest, x) == if x == key then Some(v) else Find(s[1..], x)
    requires i < |rest|
    ensures LexOrder.Less(s[0].0, rest[i].0)
  {
    var x := rest[i].0;
    assert Find(rest, x).Some?;
    if x != key {
      assert Find(s[1..], x).Some?;
      var j :| 0 <= j < |s[1..]| && s[1..][j].0 == x;
      assert s[j + 1] == s[1..][j];
    }
  }

  /** `dict(pairs)` on top of `s`, as a sorted series: the pairs are
      stored in order, so a later pair for a date replaces an earlier one. */
  function Build<V>(s: seq<Point<V>>, pairs: seq<Point<V>>): (r: seq<Point<V>>)
    requires Sorted(s)
    ensures Sorted(r)
    ensures forall x :: Find(r, x) == if LastValue(pairs, x).Some? then LastValue(pairs, x) else Find(s, x)
  {
    if pairs == [] then s
    else
      var pre := pairs[..|pairs| - 1];
      var last := pairs[|pairs| - 1];
      Upsert(Build(s, pre), last.0, last.1)
  }

  /** The default entries, `(date of d days ago, default)` for `d < days`. */
  function Defaults<V>(days: nat, default: V, dateOf: nat -> string): (r: seq<Point<V>>)
    ensures |r| == days
    ensures forall d :: 0 <= d < days ==> r[d] == (dateOf(d), default)
  {
    seq(days, d requires 0 <= d < days => (dateOf(d), default))
  }

  /** A date gets the default from the default entries exactly when it is
      one of the last `days` days. */
  lemma {:induction false} DefaultsValue<V>(days: nat, default: V, dateOf: nat -> string, x: string)
    ensures LastValue(Defaults(days, default, dateOf), x).Some? <==> exists d :: 0 <= d < days && dateOf(d) == x
    ensures LastValue(Defaults(days, default, dateOf), x).Some? ==> LastValue(Defaults(days, default, dateOf), x) == Some(default)
  {
    DefaultsConstant(Defaults(days, default, dateOf), default, x);
    var ds := Defaults(days, default, dateOf);
    if exists d :: 0 <= d < days && dateOf(d) == x {
      var d :| 0 <= d < days && dateOf(d) == x;
      assert ds[d].0 == x;
    }
  }

  /** In pairs that all hold `default`, the last value for any key is it. */
  lemma {:induction false} DefaultsConstant<V>(pairs: seq<Point<V>>, default: V, x: string)
    requires forall j :: 0 <= j < |pairs| ==> pairs[j].1 == default
    ensures LastValue(pairs, x).Some? ==> LastValue(pairs, x) == Some(default)
  {
    if pairs != [] && pairs[|pairs| - 1].0 != x {
      DefaultsConstant(pairs[..|pairs| - 1], default, x);
    }
  }

  /** `pad(data, days, default)`: the default for each of the last `days`
      days, overridden by `data`, as `(date, value)` items sorted by date. */
  function Pad<V>(data: seq<Point<V>>, days: nat, default: V, dateOf: nat -> string): (r: seq<Point<V>>)
    ensures Sorted(r)
  {
    Build(Build([], Defaults(days, default, dateOf)), data)
  }

  /** The padded series has an entry for each of the last `days` days and
      each date of `data`, and no other; a date of `data` keeps the value
      its last occurrence there gives it, and every other date has the
      default. */
  lemma PadEntries<V>(data: seq<Point<V>>, days: nat, default: V, dateOf: nat -> string, x: string)
    ensures var r := Pad(data, days, default, dateOf);
      (exists i :: 0 <= i < |r| && r[i].0 == x)
      <==> ((exists d :: 0 <= d < days && dateOf(d) == x) || (exists j :: 0 <= j < |data| && data[j].0 == x))
    ensures var r := Pad(data, days, default, dateOf);
      forall i :: 0 <= i < |r| && r[i].0 == x ==> r[i].1 == LastValue(data, x).GetOr(default)
  {
    var r := Pad(data, days, default, dateOf);
    DefaultsValue(days, default, dateOf, x);
    assert Find(r, x) == if LastValue(data, x).Some? then LastValue(data, x) else LastValue(Defaults(days, default, dateOf), x);
    forall i | 0 <= i < |r| && r[i].0 == x
      ensures r[i].1 == LastValue(data, x).GetOr(default)
    {
      FindAt(r, i);
    }
  }
}

=== FILE: ja_parser.dfy ===
/** The Japanese snippet parser (`snippet_parser/ja.py`). */
module JaParser {
  import opened Wrappers
  import opened Strings
  import opened Wikicode
  import opened SnippetRules

  /** "仮リンク", the template linking to an article that exists only in
      another language. */
  const InterlanguageLink := "\U{4EEE}\U{30EA}\U{30F3}\U{30AF}"

  /** An interlanguage link keeps its first parameter's text, and raises
      `IndexError` when it has none; a citation-needed template becomes the
      bare marker; anything else disappears. */
  function StripTemplate(cfg: ParserConfig, t: TemplateView): (r: Replacement)
    ensures NameMatches(t.name, InterlanguageLink) && t.params == [] ==> r == Err(IndexError)
    ensures NameMatches(t.name, InterlanguageLink) && t.params != [] ==>
      (r.Ok? <==> t.params[0].stripped.Ok?) && (r.Ok? ==> r.value == Some(t.params[0].stripped.value))
    ensures !NameMatches(t.name, InterlanguageLink) && IsCitationNeeded(cfg, t.name) ==> r == Ok(Some(CitationNeededMarker))
    ensures !NameMatches(t.name, InterlanguageLink) && !IsCitationNeeded(cfg, t.name) ==> r == Ok(Some(""))
  {
    if NameMatches(t.name, InterlanguageLink) then
      if t.params == [] then Err(IndexError)
      else
        match Sp([t.params[0]])
        case Err(e) => Err(e)
        case Ok(v) =>
          JoinCharsEmpty(v.value);
          Ok(Some(JoinSp("", v)))
    else if IsCitationNeeded(cfg, t.name) then Ok(Some(CitationNeededMarker))
    else Ok(Some(""))
  }
}

=== FILE: k8s_crontab.dfy ===
/** `k8s/crontab.py`: one Kubernetes `CronJob` per language, on the same
    slots as the old grid (hour `(4 * i) % 24`, first day `1 + (4 * i) / 24`,
    every four days). Only the fields that vary between jobs are modelled:
    the name, the schedule and the language argument. */
module K8sCrontab {
  import opened Strings
  import Decimal
  import Crontab

  /** The varying parts of a `CronJob` manifest. */
  datatype CronJob = CronJob(name: string, schedule: string, langArg: string)

  const NamePrefix: string := "citationhunt-update-"

  /** `lc.replace('_', '-')`. */
  function JobName(lc: string): (name: string)
    ensures |name| == |lc| && '_' !in name
    ensures forall k :: 0 <= k < |lc| && lc[k] != '_' ==> name[k] == lc[k]
  {
    ReplaceChar(lc, '_', '-')
  }

  /** Codes without `-` keep distinct job names; `zh_hant` and `zh-hant`
      would not. */
  lemma JobNameInjective(a: string, b: string)
    requires '-' !in a && '-' !in b
    requires JobName(a) == JobName(b)
    ensures a == b
  {
    assert |a| == |b|;
    forall k | 0 <= k < |a|
      ensures a[k] == b[k]
    {
      assert JobName(a)[k] == JobName(b)[k];
      assert a[k] in a && b[k] in b;
    }
  }

  /** The `schedule` of the `i`-th language: `0 {h} {dom}-31/{freq} * *`. */
  function Schedule(i: nat): string {
    "0 " + Decimal.IntToString(Crontab.Hour(i)) + " " + Decimal.IntToString(Crontab.FirstDay(i)) + "-31/"
      + Decimal.IntToString(Crontab.Freq) + " * *"
  }

  /** The jobs for the sorted language codes. */
  function Jobs(langs: seq<string>): (jobs: seq<CronJob>)
    ensures |jobs| == |langs|
    ensures forall i :: 0 <= i < |langs| ==> jobs[i].langArg == langs[i] && jobs[i].schedule == Schedule(i)
    ensures forall i :: 0 <= i < |langs| ==> StartsWith(jobs[i].name, NamePrefix) && '_' !in jobs[i].name
  {
    assert '_' !in NamePrefix;
    NamesHavePrefix(langs);
    seq(|langs|, i requires 0 <= i < |langs| => CronJob(NamePrefix + JobName(langs[i]), Schedule(i), langs[i]))
  }

  /** Distinct codes without `-` get distinct job names, and every job
      starts in its own slot, with its own schedule string. */
  lemma JobsDistinct(langs: seq<string>, i: nat, j: nat)
    requires i < j < |langs|
    requires langs[i] != langs[j] && '-' !in langs[i] && '-' !in langs[j]
    ensures Jobs(langs)[i].name != Jobs(langs)[j].name
    ensures Crontab.Hour(i) != Crontab.Hour(j) || Crontab.FirstDay(i) != Crontab.FirstDay(j)
    ensures Jobs(langs)[i].schedule != Jobs(langs)[j].schedule
  {
    if Schedule(i) == Schedule(j) {
      ScheduleInjective(i, j);
    }
    var ni, nj := Jobs(langs)[i].name, Jobs(langs)[j].name;
    if ni == nj {
      assert ni[|NamePrefix|..] == JobName(langs[i]);
      assert nj[|NamePrefix|..] == JobName(langs[j]);
      JobNameInjective(langs[i], langs[j]);
    }
    if Crontab.Hour(i) == Crontab.Hour(j) && Crontab.FirstDay(i) == Crontab.FirstDay(j) {
      Crontab.SlotsDistinct(i, j);
    }
  }

  /** Distinct positions get distinct schedule strings: the hour and the
      first day can be read back from the text, and together they fix the
      position. */
  lemma ScheduleInjective(i: nat, j: nat)
    requires Schedule(i) == Schedule(j)
    ensures i == j
  {
    var hi, di := ScheduleFields(i);
    var hj, dj := ScheduleFields(j);
    SplitOn(hi, di + "-" + Tail, hj, dj + "-" + Tail, ' ');
    SplitOn(di, Tail, dj, Tail, '-');
    Decimal.DigitsOfNat(Crontab.Hour(i));
    Decimal.DigitsOfNat(Crontab.Hour(j));
    Decimal.DigitsOfNat(Crontab.FirstDay(i));
    Decimal.DigitsOfNat(Crontab.FirstDay(j));
    Crontab.SlotsDistinct(i, j);
  }

  const Tail: string := "31/4 * *"

  /** The schedule after its leading `0 `: the hour's digits, a space, the
      first day's digits, a `-` and the fixed rest. */
  lemma ScheduleFields(i: nat) returns (h: string, d: string)
    ensures h == Decimal.NatToString(Crontab.Hour(i)) && d == Decimal.NatToString(Crontab.FirstDay(i))
    ensures Schedule(i)[2..] == h + " " + (d + "-" + Tail)
    ensures NoChar(h, ' ') && NoChar(d, '-')
  {
    h, d := Decimal.NatToString(Crontab.Hour(i)), Decimal.NatToString(Crontab.FirstDay(i));
    assert Decimal.IntToString(Crontab.Freq) == "4";
    var s := Schedule(i);
    assert s == "0 " + (h + " " + (d + "-" + Tail));
  }

  predicate NoChar(s: string, c: char) {
    forall k :: 0 <= k < |s| ==> s[k] != c
  }

  /** The index of the first `sep`, or the length when there is none. */
  function SepIndex(s: string, sep: char): (n: nat)
    ensures n <= |s|
  {
    if s == [] || s[0] == sep then 0 else 1 + SepIndex(s[1..], sep)
  }

  lemma {:induction false} SepIndexAfter(a: string, b: string, sep: char)
    requires NoChar(a, sep)
    ensures SepIndex(a + [sep] + b, sep) == |a|
  {
    if a != [] {
      assert (a + [sep] + b)[1..] == a[1..] + [sep] + b;
      SepIndexAfter(a[1..], b, sep);
    }
  }

  /** Text cut at the first separator: the parts before it are equal, and so
      are the parts after it. */
  lemma SplitOn(a: string, b: string, c: string, d: string, sep: char)
    requires NoChar(a, sep) && NoChar(c, sep) && a + [sep] + b == c + [sep] + d
    ensures a == c && b == d
  {
    var s := a + [sep] + b;
    SepIndexAfter(a, b, sep);
    SepIndexAfter(c, d, sep);
    assert a == s[..|a|] && c == s[..|c|];
    assert b == s[|a| + 1..] && d == s[|c| + 1..];
  }

  lemma NamesHavePrefix(langs: seq<string>)
    ensures forall i :: 0 <= i < |langs| ==> StartsWith(NamePrefix + JobName(langs[i]), NamePrefix)
  {
    forall i | 0 <= i < |langs|
      ensures StartsWith(NamePrefix + JobName(langs[i]), NamePrefix)
    {
      AppendEnds(NamePrefix, JobName(langs[i]));
    }
  }
}

=== FILE: leaderboard.dfy ===
/** `handlers/leaderboard.py`: the users who fixed the most snippets, as
    `collections.Counter(users).most_common(50)`. The fixed revisions and
    their users come from the database, given to the model as inputs. */
module Leaderboard {
  /** `most_common(50)`. */
  const MaxEntries: nat := 50

  /** A `LeaderboardEntry`: a user and how many of the revisions are theirs. */
  type Entry = (string, nat)

  /** How often `u` occurs in `users`. */
  function Occurrences(users: seq<string>, u: string): (n: nat)
    ensures n > 0 <==> u in users
    ensures n <= |users|
  {
    if users == [] then 0
    else
      var pre := users[..|users| - 1];
      assert users == pre + [users[|users| - 1]];
      Occurrences(pre, u) + (if users[|users| - 1] == u then 1 else 0)
  }

  /** The users in order of first occurrence, each once: the key order of
      the `Counter`. */
  function Distinct(users: seq<string>): (d: seq<string>)
    ensures forall u :: u in d <==> u in users
    ensures forall i, j :: 0 <= i < j < |d| ==> d[i] != d[j]
  {
    if users == [] then []
    else
      var pre := users[..|users| - 1];
      var last := users[|users| - 1];
      assert users == pre + [last];
      var d := Distinct(pre);
      if last in d then d else d + [last]
  }

  /** The `Counter`'s items: each distinct user with its count. */
  function Tally(users: seq<string>): (t: seq<Entry>)
    ensures |t| == |Distinct(users)|
    ensures forall k :: 0 <= k < |t| ==> t[k] == (Distinct(users)[k], Occurrences(users, Distinct(users)[k]))
  {
    var d := Distinct(users);
    seq(|d|, k requires 0 <= k < |d| => (d[k], Occurrences(users, d[k])))
  }

  /** Counts never increase along the sequence. */
  predicate Ranked(s: seq<Entry>) {
    forall i, j :: 0 <= i < j < |s| ==> s[i].1 >= s[j].1
  }

  /** No user appears twice. */
  predicate UniqueUsers(s: seq<Entry>) {
    forall i, j :: 0 <= i < j < |s| ==> s[i].0 != s[j].0
  }

  /** Inserts `e` after every entry whose count is at least its own, so
      equal counts keep their order. */
  function InsertDesc(s: seq<Entry>, e: Entry): (r: seq<Entry>)
    ensures |r| == |s| + 1
    ensures forall x :: x in r <==> x in s || x == e
  {
    if s == [] then [e]
    else if s[0].1 >= e.1 then [s[0]] + InsertDesc(s[1..], e)
    else [e] + s
  }

  /** An entry whose count bounds a ranked sequence can go in front. */
  lemma ConsRanked(h: Entry, t: seq<Entry>)
    requires Ranked(t) && forall k :: 0 <= k < |t| ==> t[k].1 <= h.1
    ensures Ranked([h] + t)
  {
    var r := [h] + t;
    forall i, j | 0 <= i < j < |r|
      ensures r[i].1 >= r[j].1
    {
      assert r[j] == t[j - 1];
      if i > 0 {
        assert r[i] == t[i - 1];
      }
    }
  }

  /** A user absent from a sequence of unique users can go in front. */
  lemma ConsUnique(h: Entry, t: seq<Entry>)
    requires UniqueUsers(t) && forall k :: 0 <= k < |t| ==> t[k].0 != h.0
    ensures UniqueUsers([h] + t)
  {
    var r := [h] + t;
    forall i, j | 0 <= i < j < |r|
      ensures r[i].0 != r[j].0
    {
      assert r[j] == t[j - 1];
      if i > 0 {
        assert r[i] == t[i - 1];
      }
    }
  }

  /** Each entry of an insertion is the inserted one or one of the tail's. */
  lemma InsertDescFrom(s: seq<Entry>, e: Entry, k: nat)
    requires s != [] && k < |InsertDesc(s[1..], e)|
    ensures InsertDesc(s[1..], e)[k] == e || exists m :: 1 <= m < |s| && s[m] == InsertDesc(s[1..], e)[k]
  {
    var x := InsertDesc(s[1..], e)[k];
    assert x in InsertDesc(s[1..], e);
    if x != e {
      var m :| 0 <= m < |s[1..]| && s[1..][m] == x;
      assert s[m + 1] == x;
    }
  }

  lemma {:induction false} InsertDescRanked(s: seq<Entry>, e: Entry)
    requires Ranked(s)
    ensures Ranked(InsertDesc(s, e))
  {
    if s == [] {
    } else if s[0].1 >= e.1 {
      InsertDescRanked(s[1..], e);
      var r' := InsertDesc(s[1..], e);
      forall k | 0 <= k < |r'|
        ensures r'[k].1 <= s[0].1
      {
        InsertDescFrom(s, e, k);
      }
      ConsRanked(s[0], r');
    } else {
      ConsRanked(e, s);
    }
  }

  lemma {:induction false} InsertDescUnique(s: seq<Entry>, e: Entry)
    requires UniqueUsers(s)
    requires forall k :: 0 <= k < |s| ==> s[k].0 != e.0
    ensures UniqueUsers(InsertDesc(s, e))
  {
    if s == [] {
    } else if s[0].1 >= e.1 {
      InsertDescUnique(s[1..], e);
      var r' := InsertDesc(s[1..], e);
      forall k | 0 <= k < |r'|
        ensures r'[k].0 != s[0].0
      {
        InsertDescFrom(s, e, k);
      }
      ConsUnique(s[0], r');
    } else {
      ConsUnique(e, s);
    }
  }

  /** `sorted(items, key=count, reverse=True)`: a stable insertion sort
      by non-increasing count. */
  function SortDesc(xs: seq<Entry>): (r: seq<Entry>)
    ensures |r| == |xs|
    ensures forall x :: x in r <==> x in xs
  {
    if xs == [] then []
    else
      var pre := xs[..|xs| - 1];
      assert xs == pre + [xs[|xs| - 1]];
      InsertDesc(SortDesc(pre), xs[|xs| - 1])
  }

  lemma {:induction false} SortDescRanked(xs: seq<Entry>)
    ensures Ranked(SortDesc(xs))
  {
    if xs != [] {
      SortDescRanked(xs[..|xs| - 1]);
      InsertDescRanked(SortDesc(xs[..|xs| - 1]), xs[|xs| - 1]);
    }
  }

  lemma {:induction false} SortDescUnique(xs: seq<Entry>)
    requires UniqueUsers(xs)
    ensures UniqueUsers(SortDesc(xs))
  {
    if xs != [] {
      var pre := xs[..|xs| - 1];
      var last := xs[|xs| - 1];
      SortDescUnique(pre);
      var s := SortDesc(pre);
      forall k | 0 <= k < |s|
        ensures s[k].0 != last.0
      {
        assert s[k] in s;
        var j :| 0 <= j < |pre| && pre[j] == s[k];
        assert xs[j] == pre[j];
      }
      InsertDescUnique(s, last);
    }
  }

  /** `most_common(50)` of the users' `Counter`. */
  function Top(users: seq<string>): (r: seq<Entry>)
    ensures |r| <= MaxEntries
  {
    var s := SortDesc(Tally(users));
    if |s| <= MaxEntries then s else s[..MaxEntries]
  }

  /** The leaderboard for the fixed revisions `revIds`; `usersOf` is the
      query for their users, made only when there are revisions. */
  function Board(revIds: seq<int>, usersOf: seq<int> -> seq<string>): (r: seq<Entry>)
    ensures |r| <= MaxEntries
    ensures revIds == [] ==> r == []
  {
    if revIds == [] then [] else Top(usersOf(revIds))
  }

  /** The board lists distinct users of the fixed revisions, each with the
      number of revisions that are theirs, by non-increasing count; a user
      left out had no more revisions than the last one listed. */
  lemma BoardRanks(revIds: seq<int>, usersOf: seq<int> -> seq<string>)
    ensures var r := Board(revIds, usersOf);
      Ranked(r) && UniqueUsers(r)
      && (forall k :: 0 <= k < |r| ==> r[k].0 in usersOf(revIds) && r[k].1 == Occurrences(usersOf(revIds), r[k].0))
    ensures var r := Board(revIds, usersOf);
      revIds != [] ==> forall u :: u in usersOf(revIds) ==>
        (exists k :: 0 <= k < |r| && r[k].0 == u)
        || (|r| == MaxEntries && Occurrences(usersOf(revIds), u) <= r[MaxEntries - 1].1)
  {
    if revIds != [] {
      var users := usersOf(revIds);
      TopSound(users);
      forall u | u in users
        ensures (exists k :: 0 <= k < |Top(users)| && Top(users)[k].0 == u)
             || (|Top(users)| == MaxEntries && Occurrences(users, u) <= Top(users)[MaxEntries - 1].1)
      {
        TopCovers(users, u);
      }
    }
  }

  /** The top entries are ranked, unique, and carry each user's count. */
  lemma TopSound(users: seq<string>)
    ensures var r := Top(users);
      Ranked(r) && UniqueUsers(r) && forall k :: 0 <= k < |r| ==> r[k].0 in users && r[k].1 == Occurrences(users, r[k].0)
  {
    var t := Tally(users);
    var s := SortDesc(t);
    SortDescRanked(t);
    SortDescUnique(t);
    SortedTallyCounts(users);
    PrefixKeeps(s, |Top(users)|);
    assert Top(users) == s[..|Top(users)|];
  }

  /** A user missing from the top entries counts no more than the last. */
  lemma TopCovers(users: seq<string>, u: string)
    requires u in users
    ensures (exists k :: 0 <= k < |Top(users)| && Top(users)[k].0 == u)
         || (|Top(users)| == MaxEntries && Occurrences(users, u) <= Top(users)[MaxEntries - 1].1)
  {
    var t := Tally(users);
    var s := SortDesc(t);
    var r := Top(users);
    SortDescRanked(t);
    SortedTallyCounts(users);
    var k := SortedTallyHas(users, u);
    assert s[k] in s;
    if k < |r| {
      assert r[k] == s[k];
    } else {
      assert r[MaxEntries - 1] == s[MaxEntries - 1];
    }
  }

  /** A prefix of a ranked sequence of unique users is one too. */
  lemma PrefixKeeps(s: seq<Entry>, n: nat)
    requires n <= |s| && Ranked(s) && UniqueUsers(s)
    ensures Ranked(s[..n]) && UniqueUsers(s[..n])
    ensures forall k :: 0 <= k < n ==> s[..n][k] in s
  {
  }

  /** Every entry of the sorted tally is a user with its own count. */
  lemma SortedTallyCounts(users: seq<string>)
    ensures forall x :: x in SortDesc(Tally(users)) ==> x.0 in users && x.1 == Occurrences(users, x.0)
  {
    var t := Tally(users);
    forall x | x in SortDesc(t)
      ensures x.0 in users && x.1 == Occurrences(users, x.0)
    {
      var j :| 0 <= j < |t| && t[j] == x;
    }
  }

  /** Every user has an entry in the sorted tally; its position. */
  lemma SortedTallyHas(users: seq<string>, u: string) returns (k: nat)
    requires u in users
    ensures k < |SortDesc(Tally(users))| && SortDesc(Tally(users))[k].0 == u
  {
    var t := Tally(users);
    var j :| 0 <= j < |Distinct(users)| && Distinct(users)[j] == u;
    assert t[j] in SortDesc(t);
    k :| 0 <= k < |SortDesc(t)| && SortDesc(t)[k] == t[j];
  }

  /** Without fixed revisions the board is empty and the users are never
      looked up. */
  lemma EmptyBoard(u1: seq<int> -> seq<string>, u2: seq<int> -> seq<string>)
    ensures Board([], u1) == Board([], u2) == []
  {
  }
}

=== FILE: legacy_extract.dfy ===
/** The two earlier extractors, `extract_snippets` of
    `scripts/snippet_parser.py` and of `gather.py`. Both walk the
    citation-needed templates of a paragraph in order, measure the stripped
    text of the paragraph as it stands (markers inserted so far included),
    and insert a marker before the template only when that length lies
    within the bounds. */
module LegacyExtraction {
  import opened Wrappers
  import opened Strings
  import opened Wikicode
  import opened SnippetRules
  import opened StripCode
  import opened Cleanup
  import opened LegacyRules
  import opened FastParse
  import opened SnippetExtraction

  /** The node `insert_before(t, MARKER)` adds: the marker as plain text. */
  const MarkerNode := Text(LegacyCitationNeededMarker)

  /** The default bounds of `scripts/snippet_parser.py`, and the fixed ones
      of `gather.py`. */
  const DefaultMinLength := 140
  const DefaultMaxLength := 420

  /** The parsers both extractors install: the citation-needed names are
      built in, so the configuration is empty. */
  function LegacyParser(lang: Lang, tagVisible: string -> bool): Parser {
    Parser(lang, ParserConfig([], [], [], []), tagVisible)
  }

  /** `strip_code()` under a parser, as a function of the tree. */
  function StripWith(p: Parser): seq<Node> -> Result<string, StripError> {
    (ns: seq<Node>) => StripAll(p, ns)
  }

  /** The nodes with a marker inserted before every node whose flag is
      set. */
  function Marked(ns: seq<Node>, marks: seq<bool>): (r: seq<Node>)
    requires |marks| == |ns|
    ensures |r| >= |ns|
  {
    if ns == [] then []
    else
      var n := |ns| - 1;
      Marked(ns[..n], marks[..n]) + (if marks[n] then [MarkerNode] else []) + [ns[n]]
  }

  function CountTrue(bs: seq<bool>): (n: nat)
    ensures n <= |bs|
  {
    if bs == [] then 0 else CountTrue(bs[..|bs| - 1]) + (if bs[|bs| - 1] then 1 else 0)
  }

  /** Inserting markers adds exactly one node per set flag. */
  lemma {:induction false} MarkedLength(ns: seq<Node>, marks: seq<bool>)
    requires |marks| == |ns|
    ensures |Marked(ns, marks)| == |ns| + CountTrue(marks)
    decreases |ns|
  {
    if ns != [] {
      var n := |ns| - 1;
      MarkedLength(ns[..n], marks[..n]);
      assert marks[..n] == marks[..|marks| - 1];
    }
  }

  /** Without a set flag nothing is inserted. */
  lemma {:induction false} MarkedWithoutMarks(ns: seq<Node>, marks: seq<bool>)
    requires |marks| == |ns| && forall k :: 0 <= k < |marks| ==> !marks[k]
    ensures Marked(ns, marks) == ns
    decreases |ns|
  {
    if ns != [] {
      var n := |ns| - 1;
      MarkedWithoutMarks(ns[..n], marks[..n]);
      assert ns[..n] + [ns[n]] == ns;
    }
  }

  /** The nodes of `Marked(ns, marks)` other than inserted markers are `ns`:
      dropping the node before each flagged one gives the input back. */
  function Unmarked(ms: seq<Node>, marks: seq<bool>): seq<Node>
    requires |ms| >= |marks| + CountTrue(marks)
    decreases |marks|
  {
    if marks == [] then []
    else
      var n := |marks| - 1;
      var last := ms[|ms| - 1];
      var before := if marks[n] then ms[..|ms| - 2] else ms[..|ms| - 1];
      Unmarked(before, marks[..n]) + [last]
  }

  lemma {:induction false} UnmarkedMarked(ns: seq<Node>, marks: seq<bool>)
    requires |marks| == |ns|
    ensures |Marked(ns, marks)| == |ns| + CountTrue(marks)
    ensures Unmarked(Marked(ns, marks), marks) == ns
    decreases |ns|
  {
    MarkedLength(ns, marks);
    if ns != [] {
      var n := |ns| - 1;
      var prefix := Marked(ns[..n], marks[..n]);
      UnmarkedMarked(ns[..n], marks[..n]);
      var ms := Marked(ns, marks);
      var extra := if marks[n] then [MarkerNode] else [];
      assert ms == prefix + extra + [ns[n]];
      UnmarkedSnoc(prefix, extra, ns[n], marks);
      assert ns[..n] + [ns[n]] == ns;
    }
  }

  /** Undoing the last flag drops the node it put before the last node. */
  lemma UnmarkedSnoc(prefix: seq<Node>, extra: seq<Node>, x: Node, marks: seq<bool>)
    requires marks != [] && |extra| == (if marks[|marks| - 1] then 1 else 0)
    requires |prefix| >= |marks| - 1 + CountTrue(marks[..|marks| - 1])
    ensures |prefix + extra + [x]| >= |marks| + CountTrue(marks)
    ensures Unmarked(prefix + extra + [x], marks) == Unmarked(prefix, marks[..|marks| - 1]) + [x]
  {
    var s := prefix + extra + [x];
    assert s[|s| - 1] == x;
    assert s[..|s| - 1 - |extra|] == prefix;
  }

  /** The tree at the moment template `k` is looked at: the nodes before it
      with their markers, and the untouched rest. */
  function TreeAt(ns: seq<Node>, marks: seq<bool>): seq<Node>
    requires |marks| <= |ns|
  {
    Marked(ns[..|marks|], marks) + ns[|marks|..]
  }

  /** A template whose name passes the extractor's citation-needed test
      (`IsLegacyCitationNeeded` for both). */
  predicate IsCitationNeededTemplate(n: Node, isCn: string -> bool) {
    n.Template? && isCn(n.name)
  }

  /** Template `k` gets a marker: it is a citation-needed template and the
      stripped tree measured just before has a length within the bounds. */
  predicate Qualifies(strip: seq<Node> -> Result<string, StripError>, isCn: string -> bool, ns: seq<Node>, marks: seq<bool>, minlen: int, maxlen: int)
    requires |marks| < |ns|
  {
    IsCitationNeededTemplate(ns[|marks|], isCn)
    && strip(TreeAt(ns, marks)).Ok?
    && minlen <= |strip(TreeAt(ns, marks)).value| <= maxlen
  }

  /** The template loop: one flag per top-level node, decided left to right
      on the tree as it stands; a rule that raises aborts it. `strip` is the
      parser's `strip_code`. */
  function Decide(strip: seq<Node> -> Result<string, StripError>, isCn: string -> bool, ns: seq<Node>, minlen: int, maxlen: int, marks: seq<bool>): (r: Result<seq<bool>, StripError>)
    requires |marks| <= |ns|
    ensures r.Ok? ==> |r.value| == |ns| && r.value[..|marks|] == marks
    decreases |ns| - |marks|
  {
    var k := |marks|;
    if k == |ns| then Ok(marks)
    else if !IsCitationNeededTemplate(ns[k], isCn) then Decide(strip, isCn, ns, minlen, maxlen, marks + [false])
    else
      match strip(TreeAt(ns, marks))
      case Err(e) => Err(e)
      case Ok(s) => Decide(strip, isCn, ns, minlen, maxlen, marks + [minlen <= |s| <= maxlen])
  }

  /** Each flag the loop sets or leaves is the verdict on its own template,
      taken on the tree with the earlier markers in place. */
  lemma {:induction false} DecideQualifies(strip: seq<Node> -> Result<string, StripError>, isCn: string -> bool, ns: seq<Node>, minlen: int, maxlen: int, marks: seq<bool>)
    requires |marks| <= |ns|
    requires Decide(strip, isCn, ns, minlen, maxlen, marks).Ok?
    ensures forall k :: |marks| <= k < |ns| ==>
      (Decide(strip, isCn, ns, minlen, maxlen, marks).value[k] <==> Qualifies(strip, isCn, ns, Decide(strip, isCn, ns, minlen, maxlen, marks).value[..k], minlen, maxlen))
    decreases |ns| - |marks|
  {
    var k := |marks|;
    if k < |ns| {
      var b := IsCitationNeededTemplate(ns[k], isCn) && minlen <= |strip(TreeAt(ns, marks)).value| <= maxlen;
      var next := marks + [b];
      assert Decide(strip, isCn, ns, minlen, maxlen, marks) == Decide(strip, isCn, ns, minlen, maxlen, next);
      DecideQualifies(strip, isCn, ns, minlen, maxlen, next);
      var r := Decide(strip, isCn, ns, minlen, maxlen, next).value;
      assert r[..k + 1] == next;
      assert r[..k] == next[..k] == marks;
      assert r[k] == b;
    }
  }

  /** The flags of a whole paragraph. */
  function Decisions(strip: seq<Node> -> Result<string, StripError>, isCn: string -> bool, ns: seq<Node>, minlen: int, maxlen: int): (r: Result<seq<bool>, StripError>)
    ensures r.Ok? ==> |r.value| == |ns|
    ensures r.Ok? ==> forall k :: 0 <= k < |ns| ==> (r.value[k] <==> Qualifies(strip, isCn, ns, r.value[..k], minlen, maxlen))
  {
    var r := Decide(strip, isCn, ns, minlen, maxlen, []);
    assert r.Ok? ==> (DecideQualifies(strip, isCn, ns, minlen, maxlen, []); true);
    r
  }

  /** A paragraph without citation-needed templates is left as it is. */
  lemma NoCitationNeededNoMarker(strip: seq<Node> -> Result<string, StripError>, isCn: string -> bool, ns: seq<Node>, minlen: int, maxlen: int)
    requires forall k :: 0 <= k < |ns| ==> !IsCitationNeededTemplate(ns[k], isCn)
    requires Decisions(strip, isCn, ns, minlen, maxlen).Ok?
    ensures Marked(ns, Decisions(strip, isCn, ns, minlen, maxlen).value) == ns
  {
    var marks := Decisions(strip, isCn, ns, minlen, maxlen).value;
    forall k | 0 <= k < |marks|
      ensures !marks[k]
    {
      assert !IsCitationNeededTemplate(ns[k], isCn);
    }
    MarkedWithoutMarks(ns, marks);
  }

  /** `extract_snippets` of `scripts/snippet_parser.py` for one paragraph:
      the stripped text with white space before markers removed, kept only
      when the citation-needed marker is in it. */
  function ScriptsParagraph(lib: Library, tagVisible: string -> bool, paragraph: string, minlen: int, maxlen: int): (r: Result<Option<string>, StripError>)
    ensures r.Ok? && r.value.Some? ==> Contains(r.value.value, LegacyCitationNeededMarker)
    ensures r.Ok? ==> Decisions(StripWith(LegacyParser(Scripts, tagVisible)), IsLegacyCitationNeeded, lib.parse(paragraph), minlen, maxlen).Ok?
  {
    var p := LegacyParser(Scripts, tagVisible);
    var ns := lib.parse(paragraph);
    match Decisions(StripWith(p), IsLegacyCitationNeeded, ns, minlen, maxlen)
    case Err(e) => Err(e)
    case Ok(marks) =>
      match StripAll(p, Marked(ns, marks))
      case Err(e) => Err(e)
      case Ok(s) =>
        var snippet := DropSpaceBeforeMarkers(s, LegacyCitationNeededMarker, LegacyRefMarker);
        if Contains(snippet, LegacyCitationNeededMarker) then Ok(Some(snippet)) else Ok(None)
  }

  /** The kept paragraphs of a list, in order. */
  function ScriptsParagraphs(lib: Library, tagVisible: string -> bool, paragraphs: seq<string>, minlen: int, maxlen: int): (r: Result<seq<string>, StripError>)
    ensures r.Ok? ==> |r.value| <= |paragraphs|
    ensures r.Ok? ==> forall k :: 0 <= k < |r.value| ==> Contains(r.value[k], LegacyCitationNeededMarker)
  {
    if paragraphs == [] then Ok([])
    else
      match ScriptsParagraph(lib, tagVisible, paragraphs[0], minlen, maxlen)
      case Err(e) => Err(e)
      case Ok(head) =>
        match ScriptsParagraphs(lib, tagVisible, paragraphs[1..], minlen, maxlen)
        case Err(e) => Err(e)
        case Ok(rest) => Ok(ConsSome(head, rest))
  }

  /** The snippet, when there is one, in front of marked snippets. */
  function ConsSome(head: Option<string>, rest: seq<string>): (r: seq<string>)
    requires head.Some? ==> Contains(head.value, LegacyCitationNeededMarker)
    requires forall k :: 0 <= k < |rest| ==> Contains(rest[k], LegacyCitationNeededMarker)
    ensures |r| == |rest| + (if head.Some? then 1 else 0)
    ensures r == if head.Some? then [head.value] + rest else rest
    ensures forall k :: 0 <= k < |r| ==> Contains(r[k], LegacyCitationNeededMarker)
  {
    if head.Some? then
      var r := [head.value] + rest;
      assert forall k :: 1 <= k < |r| ==> r[k] == rest[k - 1];
      r
    else rest
  }

  /** Why the legacy extractor gives no result: its assertion that the
      sections render back to the page failed, or a rule raised. */
  datatype LegacyError = AssertionFailed | LegacyRaised(error: StripError)

  /** Every snippet of every section holds the marker. */
  predicate AllMarked(entries: seq<SectionSnippets>) {
    forall k, j :: 0 <= k < |entries| && 0 <= j < |entries[k].snippets| ==>
      Contains(entries[k].snippets[j], LegacyCitationNeededMarker)
  }

  /** One entry per section, titled after it by `title`; the first is
      section number `first`. */
  predicate Titled(entries: seq<SectionSnippets>, secs: seq<seq<Node>>, first: nat, title: (seq<Node>, nat) -> string) {
    |entries| == |secs| && forall k :: 0 <= k < |secs| ==> entries[k].title == title(secs[k], first + k)
  }

  /** The `[title, snippets]` entry of section number `index`. */
  function ScriptsSection(lib: Library, tagVisible: string -> bool, sec: seq<Node>, index: nat, minlen: int, maxlen: int): (r: Result<SectionSnippets, StripError>)
    ensures r.Ok? ==> r.value.title == SectionTitle(sec, index)
    ensures r.Ok? ==> forall j :: 0 <= j < |r.value.snippets| ==> Contains(r.value.snippets[j], LegacyCitationNeededMarker)
  {
    match ScriptsParagraphs(lib, tagVisible, Split(RenderAll(sec), "\n\n"), minlen, maxlen)
    case Err(e) => Err(e)
    case Ok(snippets) => Ok(SectionSnippets(SectionTitle(sec, index), snippets))
  }

  /** An entry for the first section in front of entries for the others. */
  lemma ConsSection(e: SectionSnippets, rest: seq<SectionSnippets>, secs: seq<seq<Node>>, first: nat, title: (seq<Node>, nat) -> string)
    requires secs != [] && e.title == title(secs[0], first) && Titled(rest, secs[1..], first + 1, title)
    requires forall j :: 0 <= j < |e.snippets| ==> Contains(e.snippets[j], LegacyCitationNeededMarker)
    requires AllMarked(rest)
    ensures Titled([e] + rest, secs, first, title) && AllMarked([e] + rest)
  {
    var r := [e] + rest;
    forall k | 1 <= k < |secs|
      ensures r[k].title == title(secs[k], first + k)
    {
      assert r[k] == rest[k - 1] && secs[k] == secs[1..][k - 1];
    }
    forall k, j | 0 <= k < |r| && 0 <= j < |r[k].snippets|
      ensures Contains(r[k].snippets[j], LegacyCitationNeededMarker)
    {
      if k > 0 {
        assert r[k] == rest[k - 1];
      }
    }
  }

  function ScriptsSections(lib: Library, tagVisible: string -> bool, secs: seq<seq<Node>>, first: nat, minlen: int, maxlen: int): (r: Result<seq<SectionSnippets>, StripError>)
    ensures r.Ok? ==> Titled(r.value, secs, first, SectionTitle) && AllMarked(r.value)
  {
    if secs == [] then Ok([])
    else
      match ScriptsSection(lib, tagVisible, secs[0], first, minlen, maxlen)
      case Err(e) => Err(e)
      case Ok(entry) =>
        match ScriptsSections(lib, tagVisible, secs[1..], first + 1, minlen, maxlen)
        case Err(e) => Err(e)
        case Ok(rest) =>
          ConsSection(entry, rest, secs, first, SectionTitle);
          Ok([entry] + rest)
  }

  /** `extract_snippets(wikitext, minlen, maxlen)` of
      `scripts/snippet_parser.py`: one `[title, snippets]` entry per section,
      the lead's title empty. */
  function ScriptsExtractSnippets(lib: Library, tagVisible: string -> bool, text: string, minlen: int, maxlen: int): (r: Result<seq<SectionSnippets>, LegacyError>)
    ensures r == Err(AssertionFailed) <==> RenderAll(lib.parse(text)) != text
    ensures r.Ok? ==> |r.value| == |Sections(lib.parse(text))| && r.value[0].title == ""
    ensures r.Ok? ==> AllMarked(r.value)
  {
    var secs := Sections(lib.parse(text));
    SectionsRenderToPage(lib.parse(text));
    if Join("", RenderEach(secs)) != text then Err(AssertionFailed)
    else
      match ScriptsSections(lib, tagVisible, secs, 0, minlen, maxlen)
      case Err(e) => Err(LegacyRaised(e))
      case Ok(entries) => Ok(entries)
  }

  /** `gather.py`: one snippet per marker inserted, each taken right after
      its insertion, with every marker in it replaced by the HTML
      placeholder. */
  function GatherSnippets(p: Parser, ns: seq<Node>, marks: seq<bool>, k: nat): (r: Result<seq<string>, StripError>)
    requires |marks| == |ns| && k <= |ns|
    ensures r.Ok? ==> |r.value| == CountTrue(marks) - CountTrue(marks[..k])
    decreases |ns| - k
  {
    if k == |ns| then
      assert marks[..k] == marks;
      Ok([])
    else
      assert marks[..k + 1][..k] == marks[..k];
      match GatherSnippets(p, ns, marks, k + 1)
      case Err(e) => Err(e)
      case Ok(rest) =>
        if !marks[k] then Ok(rest)
        else
          match StripAll(p, TreeAt(ns, marks[..k + 1]))
          case Err(e) => Err(e)
          case Ok(s) => Ok([Replace(s, LegacyCitationNeededMarker, CitationNeededHtml)] + rest)
  }

  /** One paragraph of `gather.py`, with its fixed bounds. */
  function GatherParagraph(lib: Library, tagVisible: string -> bool, paragraph: string): (r: Result<seq<string>, StripError>)
    ensures r.Ok? ==> Decisions(StripWith(LegacyParser(Gather, tagVisible)), IsLegacyCitationNeeded, lib.parse(paragraph), DefaultMinLength, DefaultMaxLength).Ok?
    ensures r.Ok? ==> |r.value| == CountTrue(Decisions(StripWith(LegacyParser(Gather, tagVisible)), IsLegacyCitationNeeded, lib.parse(paragraph), DefaultMinLength, DefaultMaxLength).value)
  {
    var p := LegacyParser(Gather, tagVisible);
    var ns := lib.parse(paragraph);
    match Decisions(StripWith(p), IsLegacyCitationNeeded, ns, DefaultMinLength, DefaultMaxLength)
    case Err(e) => Err(e)
    case Ok(marks) =>
      assert marks[..0] == [];
      GatherSnippets(p, ns, marks, 0)
  }

  /** `extract_snippets(wikitext)` of `gather.py`: the page split into
      paragraphs at blank lines, the snippets of each in order. */
  function GatherExtractSnippets(lib: Library, tagVisible: string -> bool, paragraphs: seq<string>): (r: Result<seq<string>, StripError>)
    ensures paragraphs == [] ==> r == Ok([])
  {
    if paragraphs == [] then Ok([])
    else
      match GatherParagraph(lib, tagVisible, paragraphs[0])
      case Err(e) => Err(e)
      case Ok(head) =>
        match GatherExtractSnippets(lib, tagVisible, paragraphs[1..])
        case Err(e) => Err(e)
        case Ok(rest) => Ok(head + rest)
  }

  function GatherPage(lib: Library, tagVisible: string -> bool, text: string): Result<seq<string>, StripError> {
    GatherExtractSnippets(lib, tagVisible, Split(text, "\n\n"))
  }

  /** Every paragraph contributes one snippet per citation-needed template
      that qualified when its turn came. */
  lemma {:induction false} GatherCountsQualifyingTemplates(lib: Library, tagVisible: string -> bool, paragraphs: seq<string>)
    requires GatherExtractSnippets(lib, tagVisible, paragraphs).Ok?
    ensures |GatherExtractSnippets(lib, tagVisible, paragraphs).value| == QualifyingCount(lib, tagVisible, paragraphs)
  {
    if paragraphs != [] {
      GatherCountsQualifyingTemplates(lib, tagVisible, paragraphs[1..]);
    }
  }

  /** The number of markers the template loop inserts over a list of
      paragraphs (paragraphs whose loop raises count nothing). */
  function QualifyingCount(lib: Library, tagVisible: string -> bool, paragraphs: seq<string>): nat {
    if paragraphs == [] then 0
    else
      var d := Decisions(StripWith(LegacyParser(Gather, tagVisible)), IsLegacyCitationNeeded, lib.parse(paragraphs[0]), DefaultMinLength, DefaultMaxLength);
      (if d.Ok? then CountTrue(d.value) else 0) + QualifyingCount(lib, tagVisible, paragraphs[1..])
  }
}

=== FILE: legacy_rules.dfy ===
/** The strip rules of the two earlier snippet extractors, which patched
    mwparserfromhell directly: `scripts/snippet_parser.py` and `gather.py`.
    Both leave the citation-needed template itself to vanish and mark its
    place by inserting a marker before it; their markers are 32 characters
    long. */
module LegacyRules {
  import opened Wrappers
  import opened Strings
  import opened Wikicode
  import opened SnippetRules

  const LegacyRefMarker := "ec5b89dc49c433a9521a13928c032129"
  const LegacyCitationNeededMarker := "7b94863f3091b449e6ab04d44cb372a0"
  const CitationNeededHtml := "<span class=\"citation-needed\">[citation needed]</span>"

  /** Both recognise exactly the "Citation needed" and "cn" templates. */
  predicate IsLegacyCitationNeeded(name: string) {
    NameMatches(name, "Citation needed") || NameMatches(name, "cn")
  }

  /** `template_strip` of `scripts/snippet_parser.py`: `{{convert}}` keeps
      its first two parameters as written; any other template, the
      citation-needed ones included, leaves nothing. */
  function ScriptsStripTemplate(t: TemplateView): (r: Replacement)
    ensures NameMatches(t.name, "convert") ==> r == Ok(Some(FirstTwoRaw(t.params)))
    ensures !NameMatches(t.name, "convert") ==> r == Ok(None)
  {
    if NameMatches(t.name, "convert") then Ok(Some(FirstTwoRaw(t.params))) else Ok(None)
  }

  function ScriptsStripTag(t: TagView): (r: Replacement)
    ensures t.tag == "ref" ==> r == Ok(Some(LegacyRefMarker))
    ensures t.tag != "ref" ==> r == t.delegate
  {
    if t.tag == "ref" then Ok(Some(LegacyRefMarker)) else t.delegate
  }

  /** Image links (`File:`) are dropped. */
  function ScriptsStripWikilink(l: LinkView): (r: Replacement)
    ensures StartsWith(l.title, "File:") ==> r == Ok(Some(""))
    ensures !StartsWith(l.title, "File:") ==> (r.Ok? <==> l.delegate.Ok?) && (r.Ok? ==> r.value == Some(l.delegate.value))
  {
    if StartsWith(l.title, "File:") then Ok(Some(""))
    else
      match l.delegate
      case Err(e) => Err(e)
      case Ok(s) => Ok(Some(s))
  }

  /** `template_strip` of `gather.py`: the name is compared as written, so
      only a template spelled exactly `convert` keeps its parameters. */
  function GatherStripTemplate(t: TemplateView): (r: Replacement)
    ensures t.name == "convert" ==> r == Ok(Some(FirstTwoRaw(t.params)))
    ensures t.name != "convert" ==> r == Ok(None)
  {
    if t.name == "convert" then Ok(Some(FirstTwoRaw(t.params))) else Ok(None)
  }

  /** References leave nothing in `gather.py`. */
  function GatherStripTag(t: TagView): (r: Replacement)
    ensures t.tag == "ref" ==> r == Ok(None)
    ensures t.tag != "ref" ==> r == t.delegate
  {
    if t.tag == "ref" then Ok(None) else t.delegate
  }
}

=== FILE: length_stats.dfy ===
/** `snippet_parser/stats.py`: per-parser counts of snippet lengths, merged
    across parsers, and the percentile of such a distribution. A
    distribution maps a length to the number of snippets with that
    length. */
module LengthStats {
  import opened Wrappers

  type Distribution = map<int, nat>

  /** The count of `length` in a distribution, 0 when absent (the
      `defaultdict(int)` reading). */
  function CountIn(d: Distribution, length: int): nat {
    if length in d then d[length] else 0
  }

  /** Adding one parser's counts into the merged ones. */
  function MergeTwo(acc: Distribution, d: Distribution): (r: Distribution)
    ensures r.Keys == acc.Keys + d.Keys
    ensures forall l :: l in r ==> r[l] == CountIn(acc, l) + CountIn(d, l)
  {
    map l | l in acc.Keys + d.Keys :: CountIn(acc, l) + CountIn(d, l)
  }

  /** `merge_stats(stats)`: every input folded in, in order. */
  function MergeStats(ds: seq<Distribution>): Distribution {
    if ds == [] then map[] else MergeTwo(MergeStats(ds[..|ds| - 1]), ds[|ds| - 1])
  }

  /** The sum of a length's counts across the inputs: the reference the
      merge is measured against. */
  function TotalCount(ds: seq<Distribution>, length: int): nat {
    if ds == [] then 0 else TotalCount(ds[1..], length) + CountIn(ds[0], length)
  }

  /** A length recorded by some input. */
  predicate Recorded(ds: seq<Distribution>, length: int) {
    exists k :: 0 <= k < |ds| && length in ds[k]
  }

  lemma {:induction false} TotalCountSnoc(ds: seq<Distribution>, length: int)
    requires ds != []
    ensures TotalCount(ds, length) == TotalCount(ds[..|ds| - 1], length) + CountIn(ds[|ds| - 1], length)
  {
    if |ds| > 1 {
      TotalCountSnoc(ds[1..], length);
      assert ds[1..][..|ds[1..]| - 1] == ds[..|ds| - 1][1..];
    }
  }

  /** The merged statistics hold exactly the lengths some input recorded,
      each with the sum of its counts; no inputs give an empty result. */
  lemma {:induction false} MergeStatsSums(ds: seq<Distribution>)
    ensures ds == [] ==> MergeStats(ds) == map[]
    ensures forall l :: l in MergeStats(ds) <==> Recorded(ds, l)
    ensures forall l :: CountIn(MergeStats(ds), l) == TotalCount(ds, l)
  {
    if ds != [] {
      var init := ds[..|ds| - 1];
      var last := ds[|ds| - 1];
      MergeStatsSums(init);
      forall l
        ensures l in MergeStats(ds) <==> Recorded(ds, l)
      {
        if Recorded(init, l) {
          var k :| 0 <= k < |init| && l in init[k];
          assert ds[k] == init[k];
        }
        if Recorded(ds, l) {
          var k :| 0 <= k < |ds| && l in ds[k];
          if k < |init| {
            assert init[k] == ds[k];
          }
        }
        if l in last {
          assert ds[|ds| - 1] == last;
        }
      }
      forall l
        ensures CountIn(MergeStats(ds), l) == TotalCount(ds, l)
      {
        TotalCountSnoc(ds, l);
      }
    }
  }

  /** `ks` lists the lengths of `d` in ascending order, each once: what
      `sorted(distribution.items())` walks through. */
  predicate SortedKeysOf(d: Distribution, ks: seq<int>) {
    (forall i, j :: 0 <= i < j < |ks| ==> ks[i] < ks[j])
    && (forall i :: 0 <= i < |ks| ==> ks[i] in d)
    && (forall l :: l in d ==> l in ks)
  }

  /** The counts of the first `j` lengths of `ks`. */
  function PrefixSum(d: Distribution, ks: seq<int>, j: nat): nat
    requires j <= |ks|
  {
    if j == 0 then 0 else PrefixSum(d, ks, j - 1) + CountIn(d, ks[j - 1])
  }

  /** `sum(distribution.values())`, summed in key order. */
  function Total(d: Distribution, ks: seq<int>): nat {
    PrefixSum(d, ks, |ks|)
  }

  /** The threshold of `int(p / 100. * total)` for an integer `p`: the exact
      product divided by 100, truncated toward zero. The source's
      floating-point product can fall just below a whole number and give
      one less. */
  function Threshold(p: int, total: nat): (t: int)
    ensures p >= 0 ==> t == p * total / 100
    ensures 0 <= p <= 100 ==> 0 <= t <= total
  {
    if p * total >= 0 then p * total / 100 else -((-(p * total)) / 100)
  }

  /** The loop: the first length, from position `j` on, whose running count
      reaches the threshold. */
  function Scan(d: Distribution, ks: seq<int>, j: nat, accum: int, threshold: int): (r: Option<nat>)
    requires j <= |ks|
    ensures r.Some? ==> j <= r.value < |ks|
    decreases |ks| - j
  {
    if j == |ks| then None
    else if accum + CountIn(d, ks[j]) >= threshold then Some(j)
    else Scan(d, ks, j + 1, accum + CountIn(d, ks[j]), threshold)
  }

  /** The running count at position `i`: the counts up to and including
      it. */
  function Running(d: Distribution, ks: seq<int>, i: nat): nat
    requires i < |ks|
  {
    PrefixSum(d, ks, i + 1)
  }

  /** Position `j` is the first whose running count reaches `t`. */
  predicate FirstReaching(d: Distribution, ks: seq<int>, t: int, j: nat)
    requires j < |ks|
  {
    Running(d, ks, j) >= t && forall i :: 0 <= i < j ==> Running(d, ks, i) < t
  }

  /** No running count reaches `t`. */
  predicate NoneReaching(d: Distribution, ks: seq<int>, t: int) {
    forall i :: 0 <= i < |ks| ==> Running(d, ks, i) < t
  }

  /** The position the loop stops at is the first at which the running
      count (the counts up to and including it) reaches the threshold. */
  lemma {:induction false} ScanFindsFirst(d: Distribution, ks: seq<int>, j: nat, threshold: int)
    requires j <= |ks|
    requires forall i :: 0 <= i < j ==> Running(d, ks, i) < threshold
    ensures Scan(d, ks, j, PrefixSum(d, ks, j), threshold).Some? ==>
      FirstReaching(d, ks, threshold, Scan(d, ks, j, PrefixSum(d, ks, j), threshold).value)
    ensures Scan(d, ks, j, PrefixSum(d, ks, j), threshold).None? ==> NoneReaching(d, ks, threshold)
    decreases |ks| - j
  {
    if j < |ks| && PrefixSum(d, ks, j) + CountIn(d, ks[j]) < threshold {
      ScanFindsFirst(d, ks, j + 1, threshold);
    }
  }

  /** `percentile(distribution, p)`: the smallest length whose running
      count reaches `p` percent of the total, or 0 when none does. `ks` is
      the distribution's lengths in ascending order. */
  function Percentile(d: Distribution, ks: seq<int>, p: int): int
    requires SortedKeysOf(d, ks)
  {
    match Scan(d, ks, 0, 0, Threshold(p, Total(d, ks)))
    case Some(j) => ks[j]
    case None => 0
  }

  /** The result is the first length, in ascending order, at which the
      running count reaches the threshold; when no length does, the
      result is 0. */
  lemma PercentileIsFirstReaching(d: Distribution, ks: seq<int>, p: int)
    requires SortedKeysOf(d, ks)
    ensures (exists j :: 0 <= j < |ks| && FirstReaching(d, ks, Threshold(p, Total(d, ks)), j)
                          && Percentile(d, ks, p) == ks[j])
      || (NoneReaching(d, ks, Threshold(p, Total(d, ks))) && Percentile(d, ks, p) == 0)
    ensures ks == [] ==> Percentile(d, ks, p) == 0
  {
    var t := Threshold(p, Total(d, ks));
    ScanFindsFirst(d, ks, 0, t);
    var r := Scan(d, ks, 0, 0, t);
    if r.Some? {
      assert FirstReaching(d, ks, t, r.value) && Percentile(d, ks, p) == ks[r.value];
    }
  }

  /** With `p = 0` a non-empty distribution (one with a length to list)
      gives its smallest length. */
  lemma PercentileZero(d: Distribution, ks: seq<int>)
    requires SortedKeysOf(d, ks) && ks != []
    ensures Percentile(d, ks, 0) in d
    ensures forall l :: l in d ==> Percentile(d, ks, 0) <= l
  {
    forall l | l in d
      ensures ks[0] <= l
    {
      assert l in ks;
      var i :| 0 <= i < |ks| && ks[i] == l;
      if i > 0 {
        assert ks[0] < ks[i];
      }
    }
  }

  /** Running counts grow with the position. */
  lemma {:induction false} PrefixSumMonotone(d: Distribution, ks: seq<int>, i: nat, j: nat)
    requires i <= j <= |ks|
    ensures PrefixSum(d, ks, i) <= PrefixSum(d, ks, j)
    decreases j - i
  {
    if i < j {
      PrefixSumMonotone(d, ks, i, j - 1);
    }
  }

  /** For `0 <= p <= 100` a non-empty distribution gives one of its
      lengths. */
  lemma PercentileRecorded(d: Distribution, ks: seq<int>, p: int)
    requires SortedKeysOf(d, ks) && ks != [] && 0 <= p <= 100
    ensures Percentile(d, ks, p) in d
  {
    var t := Threshold(p, Total(d, ks));
    ScanFindsFirst(d, ks, 0, t);
    assert Running(d, ks, |ks| - 1) >= t;
    assert !NoneReaching(d, ks, t);
  }
}

=== FILE: lex_order.dfy ===
/** Lexicographic order on strings by code point: the order Python 2 uses
    for `sorted()` on strings and the stand-in here for `localeCompare`. */
module LexOrder {

  /** `a < b`: `a` is a proper prefix of `b`, or they first differ at a
      position where `a` has the smaller character. */
  predicate Less(a: string, b: string)
    decreases |a|
  {
    if a == [] then b != []
    else if b == [] then false
    else if a[0] != b[0] then a[0] < b[0]
    else Less(a[1..], b[1..])
  }

  predicate LessEq(a: string, b: string) {
    a == b || Less(a, b)
  }

  lemma {:induction false} LessIrreflexive(a: string)
    ensures !Less(a, a)
    decreases |a|
  {
    if a != [] {
      LessIrreflexive(a[1..]);
    }
  }

  lemma {:induction false} LessTransitive(a: string, b: string, c: string)
    requires Less(a, b) && Less(b, c)
    ensures Less(a, c)
    decreases |a|
  {
    if a != [] && a[0] == b[0] && b[0] == c[0] {
      LessTransitive(a[1..], b[1..], c[1..]);
    }
  }

  /** Any two strings are ordered one way or the other, or are equal. */
  lemma {:induction false} LessTotal(a: string, b: string)
    ensures Less(a, b) || a == b || Less(b, a)
    decreases |a|
  {
    if a != [] && b != [] && a[0] == b[0] {
      LessTotal(a[1..], b[1..]);
      if a[1..] == b[1..] {
        assert a == [a[0]] + a[1..] && b == [b[0]] + b[1..];
      }
    }
  }

  lemma LessAsymmetric(a: string, b: string)
    requires Less(a, b)
    ensures !Less(b, a)
  {
    if Less(b, a) {
      LessTransitive(a, b, a);
      LessIrreflexive(a);
    }
  }

  lemma LessEqTransitive(a: string, b: string, c: string)
    requires LessEq(a, b) && LessEq(b, c)
    ensures LessEq(a, c)
  {
    if a != b && b != c {
      LessTransitive(a, b, c);
    }
  }

  /** Not less means at least as great. */
  lemma NotLessIsGreaterEq(a: string, b: string)
    ensures !Less(a, b) <==> LessEq(b, a)
  {
    LessTotal(a, b);
    if Less(b, a) {
      LessAsymmetric(b, a);
    }
    if a == b {
      LessIrreflexive(a);
    }
  }
}

=== FILE: lxml_tree.dfy ===
/** The two edits `snippet_parser/lxml_utils.py` makes on an lxml tree. An
    element carries its own text (before its first child) and its tail (the
    text after it, up to its next sibling); either may be absent. An element
    is addressed by its parent and its position among the parent's
    children. */
module LxmlTree {
  import opened Wrappers
  import opened Strings

  datatype Element = Element(tag: string, text: Option<string>, children: seq<Element>, tail: Option<string>)

  /** Python's truth value of an optional string: present and non-empty. */
  predicate Truthy(s: Option<string>) {
    s.Some? && s.value != ""
  }

  /** Every piece of text inside an element, in document order, excluding
      its own tail (`''.join(e.itertext())` minus the tail). */
  function Inner(e: Element): string
    decreases e, 1
  {
    e.text.GetOr("") + OuterAll(e.children)
  }

  /** The text of a run of siblings, each with its tail. */
  function OuterAll(es: seq<Element>): string
    decreases es, 0
  {
    if es == [] then "" else Inner(es[0]) + es[0].tail.GetOr("") + OuterAll(es[1..])
  }

  lemma {:induction false} OuterAllAppend(a: seq<Element>, b: seq<Element>)
    ensures OuterAll(a + b) == OuterAll(a) + OuterAll(b)
  {
    if a == [] {
      assert a + b == b;
    } else {
      assert (a + b)[0] == a[0] && (a + b)[1..] == a[1..] + b;
      OuterAllAppend(a[1..], b);
    }
  }

  function WithTail(e: Element, tail: Option<string>): (r: Element)
    ensures r.tag == e.tag && r.text == e.text && r.children == e.children && r.tail == tail
  {
    e.(tail := tail)
  }

  /** `remove_element(parent[i])`: a non-empty tail moves to the previous
      sibling's tail, or to the parent's text when there is no previous
      sibling; then the element is detached. */
  function RemoveElement(parent: Element, i: nat): (r: Element)
    requires i < |parent.children|
    ensures r.tag == parent.tag && r.tail == parent.tail
    ensures |r.children| == |parent.children| - 1
    ensures forall k :: 0 <= k < i - 1 ==> r.children[k] == parent.children[k]
    ensures forall k :: i <= k < |r.children| ==> r.children[k] == parent.children[k + 1]
  {
    var c := parent.children[i];
    var rest := parent.children[..i] + parent.children[i + 1..];
    if Truthy(c.tail) && i > 0 then
      var prev := parent.children[i - 1];
      var moved := WithTail(prev, Some(prev.tail.GetOr("") + c.tail.value));
      parent.(children := parent.children[..i - 1] + [moved] + parent.children[i + 1..])
    else if Truthy(c.tail) then
      parent.(text := Some(parent.text.GetOr("") + c.tail.value), children := rest)
    else parent.(children := rest)
  }

  /** The parent's text around child `i`. */
  lemma InnerAround(parent: Element, i: nat)
    requires i < |parent.children|
    ensures Inner(parent) ==
      parent.text.GetOr("") + OuterAll(parent.children[..i]) + Inner(parent.children[i])
      + parent.children[i].tail.GetOr("") + OuterAll(parent.children[i + 1..])
  {
    var cs := parent.children;
    var after := cs[i + 1..];
    assert cs == cs[..i] + ([cs[i]] + after);
    OuterAllAppend(cs[..i], [cs[i]] + after);
    assert ([cs[i]] + after)[1..] == after;
  }

  /** Removing an element takes exactly its own inner text out of the
      parent's text; its tail stays where it was. */
  lemma RemoveElementKeepsSurroundingText(parent: Element, i: nat)
    requires i < |parent.children|
    ensures Inner(parent) ==
      parent.text.GetOr("") + OuterAll(parent.children[..i]) + Inner(parent.children[i])
      + parent.children[i].tail.GetOr("") + OuterAll(parent.children[i + 1..])
    ensures Inner(RemoveElement(parent, i)) ==
      parent.text.GetOr("") + OuterAll(parent.children[..i])
      + parent.children[i].tail.GetOr("") + OuterAll(parent.children[i + 1..])
  {
    InnerAround(parent, i);
    var c := parent.children[i];
    if Truthy(c.tail) && i > 0 {
      TailMovedToPrevious(parent, i);
    } else if Truthy(c.tail) {
      var after := parent.children[i + 1..];
      assert parent.children[..i] == [];
      assert RemoveElement(parent, i).children == after;
    } else {
      var cs := parent.children;
      assert RemoveElement(parent, i).children == cs[..i] + cs[i + 1..];
      OuterAllAppend(cs[..i], cs[i + 1..]);
    }
  }

  lemma TailMovedToPrevious(parent: Element, i: nat)
    requires 0 < i < |parent.children| && Truthy(parent.children[i].tail)
    ensures Inner(RemoveElement(parent, i)) ==
      parent.text.GetOr("") + OuterAll(parent.children[..i])
      + parent.children[i].tail.GetOr("") + OuterAll(parent.children[i + 1..])
  {
    var cs := parent.children;
    var c := cs[i];
    var after := cs[i + 1..];
    var prev := cs[i - 1];
    var moved := WithTail(prev, Some(prev.tail.GetOr("") + c.tail.value));
    var before := cs[..i - 1];
    assert cs[..i] == before + [prev];
    OuterAllAppend(before, [prev]);
    OuterAllOne(prev);
    OuterAllOne(moved);
    assert Inner(moved) == Inner(prev);
    assert RemoveElement(parent, i).children == before + [moved] + after;
    OuterAllAppend(before + [moved], after);
    OuterAllAppend(before, [moved]);
    Regroup(parent.text.GetOr(""), OuterAll(before), Inner(prev), prev.tail.GetOr(""), c.tail.value, OuterAll(after));
  }

  lemma OuterAllOne(e: Element)
    ensures OuterAll([e]) == Inner(e) + e.tail.GetOr("")
  {
    assert OuterAll([e]) == Inner(e) + e.tail.GetOr("") + OuterAll([]);
  }

  /** The text of the parent after the move, regrouped. */
  lemma Regroup(a: string, b: string, p: string, t: string, x: string, z: string)
    ensures a + ((b + (p + (t + x))) + z) == a + (b + (p + t)) + x + z
  {
  }

  /** The text right before child `i`: the previous sibling's tail, or the
      parent's text for the first child. */
  function TextBefore(parent: Element, i: nat): Option<string>
    requires i < |parent.children|
  {
    if i > 0 then parent.children[i - 1].tail else parent.text
  }

  /** `strip_space_before_element(parent[i])`: the text right before the
      element loses its trailing white space when it is non-empty; an absent
      or empty one stays as it was, and no other text changes. */
  function StripSpaceBefore(parent: Element, i: nat): (r: Element)
    requires i < |parent.children|
    ensures r.tag == parent.tag && r.tail == parent.tail && |r.children| == |parent.children|
    ensures TextBefore(r, i) ==
      (if Truthy(TextBefore(parent, i)) then Some(RStripBy(TextBefore(parent, i).value, IsUnicodeSpace)) else TextBefore(parent, i))
    ensures forall k :: 0 <= k < |r.children| && k != i - 1 ==> r.children[k] == parent.children[k]
    ensures i > 0 ==> r.text == parent.text && Inner(r.children[i - 1]) == Inner(parent.children[i - 1])
    ensures i == 0 ==> r.children == parent.children
  {
    if i > 0 then
      var prev := parent.children[i - 1];
      if Truthy(prev.tail) then
        parent.(children := parent.children[i - 1 := WithTail(prev, Some(RStripBy(prev.tail.value, IsUnicodeSpace)))])
      else parent
    else if Truthy(parent.text) then parent.(text := Some(RStripBy(parent.text.value, IsUnicodeSpace)))
    else parent
  }
}

=== FILE: mwapi.dfy ===
/** `mwapi.py`: request parameters with defaults the caller can override,
    the retry loop of `_do_request` for `Retry-After` headers and `maxlag`
    errors, and the continuation loop of `query`. Each POST's response is
    given by its attempt number; the maxlag expression and the sleeps are
    abstract (a sleep is recorded with the text of its duration). */
module MwApi {
  import opened Wrappers

  /** A request parameter value: the defaults mix strings and integers. */
  datatype Value = Str(s: string) | Num(n: int)

  type Params = map<string, Value>

  /** `MediaWikiAPIOptions`: `max_retries_maxlag` and `maxlag`. */
  datatype Options = Options(maxRetries: int, maxlag: int)

  /** A fresh options object: 3 retries, `maxlag` 5. */
  const DefaultOptions: Options := Options(3, 5)

  /** The options' own parameters. */
  function OwnParams(o: Options): Params {
    map["format" := Str("json"), "utf8" := Str(""), "maxlag" := Num(o.maxlag)]
  }

  /** `build_params(params)`: the options' parameters with the caller's on
      top. */
  function BuildParams(o: Options, params: Params): (r: Params)
    ensures r.Keys == params.Keys + {"format", "utf8", "maxlag"}
    ensures forall k :: k in params ==> r[k] == params[k]
    ensures "format" !in params ==> r["format"] == Str("json")
    ensures "utf8" !in params ==> r["utf8"] == Str("")
    ensures "maxlag" !in params ==> r["maxlag"] == Num(o.maxlag)
  {
    OwnParams(o) + params
  }

  /** The parameters of a `parse` request. */
  function ParseRequestParams(o: Options, params: Params): Params {
    BuildParams(o, params)["action" := Str("parse")]
  }

  /** The first request of a `query`. */
  function QueryRequestParams(o: Options, params: Params): Params {
    BuildParams(o, params)["action" := Str("query")]["continue" := Str("")]
  }

  /** A default options object with a caller's `pageids` sends exactly the
      request the tests expect; only `maxlag` reflects the options. */
  lemma QueryDefaults(o: Options, pageids: string)
    ensures QueryRequestParams(o, map["pageids" := Str(pageids)])
      == map["pageids" := Str(pageids), "format" := Str("json"), "continue" := Str(""),
             "maxlag" := Num(o.maxlag), "action" := Str("query"), "utf8" := Str("")]
  {
  }

  /** The `error` member of a reply. */
  datatype ApiError = ApiError(code: string, info: Option<string>)

  /** A decoded reply: its `error`, its `continue` parameters, and the rest. */
  datatype Reply = Reply(error: Option<ApiError>, cont: Option<Params>, data: string)

  /** What one POST gets: a `Retry-After` header (with its text) or a JSON
      reply. */
  datatype Response = RetryAfter(seconds: string) | Json(reply: Reply)

  /** How `_do_request` ends: a reply, `MediaWikiAPIError` with its message
      and the last reply read, or a `KeyError` for a maxlag error without
      `info`. */
  datatype Outcome = Returned(reply: Reply) | Failed(message: string, last: Option<Reply>) | MissingInfo

  const Exhausted: string := "Exhausted maxlag retries!"

  /** The whole call: the outcome, the sleeps in order, and the number of
      POSTs made. */
  datatype Run = Run(outcome: Outcome, sleeps: seq<string>, posts: nat)

  /** The loop of `_do_request` from attempt `r` on, `last` being the
      last reply read. `lagOf` is the maxlag expression's search, giving its
      first group. */
  function Attempts(retries: int, post: nat -> Response, lagOf: string -> Option<string>, r: nat, last: Option<Reply>): (run: Run)
    ensures run.posts <= if retries + 1 - r > 0 then retries + 1 - r else 0
    decreases if retries + 1 - r > 0 then retries + 1 - r else 0
  {
    if r > retries then Run(Failed(Exhausted, last), [], 0)
    else
      match post(r)
      case RetryAfter(s) =>
        var rest := Attempts(retries, post, lagOf, r + 1, last);
        Run(rest.outcome, (if r < retries then [s] else []) + rest.sleeps, rest.posts + 1)
      case Json(reply) =>
        if reply.error.None? then Run(Returned(reply), [], 1)
        else if reply.error.value.code != "maxlag" then Run(Failed(reply.error.value.info.GetOr(""), Some(reply)), [], 1)
        else if reply.error.value.info.None? then Run(MissingInfo, [], 1)
        else match lagOf(reply.error.value.info.value)
          case None => Run(Returned(reply), [], 1)
          case Some(s) =>
            var rest := Attempts(retries, post, lagOf, r + 1, Some(reply));
            Run(rest.outcome, (if r < retries then [s] else []) + rest.sleeps, rest.posts + 1)
  }

  /** `_do_request(params)` with `max_retries_maxlag = retries`. */
  function DoRequest(retries: int, post: nat -> Response, lagOf: string -> Option<string>): (run: Run)
    ensures run.posts <= if retries >= 0 then retries + 1 else 0
  {
    Attempts(retries, post, lagOf, 0, None)
  }

  /** A response after which the loop tries again: a `Retry-After` header,
      or a maxlag error whose text the expression recognises. */
  predicate Retriable(resp: Response, lagOf: string -> Option<string>) {
    resp.RetryAfter?
    || (resp.reply.error.Some? && resp.reply.error.value.code == "maxlag"
        && resp.reply.error.value.info.Some? && lagOf(resp.reply.error.value.info.value).Some?)
  }

  /** How a response that ends the loop ends it. */
  function Decide(reply: Reply, lagOf: string -> Option<string>): (r: Outcome)
    ensures r.Returned? <==> reply.error.None? || (reply.error.value.code == "maxlag" && reply.error.value.info.Some?)
    ensures r.Returned? ==> r.reply == reply
    ensures r.Failed? <==> reply.error.Some? && reply.error.value.code != "maxlag"
    ensures r.Failed? ==> r.last == Some(reply)
  {
    if reply.error.None? then Returned(reply)
    else if reply.error.value.code != "maxlag" then Failed(reply.error.value.info.GetOr(""), Some(reply))
    else if reply.error.value.info.None? then MissingInfo
    else Returned(reply)
  }

  /** The attempts from `r` up to `retries` were all retried, and each but
      the last slept. */
  lemma {:induction false} AttemptsDecidedAt(retries: int, post: nat -> Response, lagOf: string -> Option<string>,
                                             r: nat, last: Option<Reply>, d: nat)
    requires r <= d <= retries
    requires forall a :: r <= a < d ==> Retriable(post(a), lagOf)
    requires !Retriable(post(d), lagOf)
    ensures Attempts(retries, post, lagOf, r, last).outcome == Decide(post(d).reply, lagOf)
    ensures Attempts(retries, post, lagOf, r, last).posts == d - r + 1
    ensures |Attempts(retries, post, lagOf, r, last).sleeps| == d - r
    decreases d - r
  {
    if r < d {
      var next := if post(r).RetryAfter? then last else Some(post(r).reply);
      AttemptsDecidedAt(retries, post, lagOf, r + 1, next, d);
    }
  }

  lemma {:induction false} AttemptsExhausted(retries: int, post: nat -> Response, lagOf: string -> Option<string>,
                                             r: nat, last: Option<Reply>)
    requires r <= retries + 1
    requires forall a :: r <= a <= retries ==> Retriable(post(a), lagOf)
    ensures Attempts(retries, post, lagOf, r, last).outcome.Failed?
    ensures Attempts(retries, post, lagOf, r, last).outcome.message == Exhausted
    ensures Attempts(retries, post, lagOf, r, last).posts == retries + 1 - r
    ensures |Attempts(retries, post, lagOf, r, last).sleeps| == if r <= retries then retries - r else 0
    decreases retries + 1 - r
  {
    if r <= retries {
      var next := if post(r).RetryAfter? then last else Some(post(r).reply);
      AttemptsExhausted(retries, post, lagOf, r + 1, next);
    }
  }

  /** The first response that is not retried decides the call, after
      `d + 1` POSTs and `d` sleeps; when every one of the `retries + 1`
      allowed responses is retried, the call fails with "Exhausted maxlag
      retries!" after `retries` sleeps, none after the last POST. */
  lemma DoRequestDecides(retries: int, post: nat -> Response, lagOf: string -> Option<string>)
    ensures forall d :: (0 <= d <= retries && !Retriable(post(d), lagOf) && (forall a :: 0 <= a < d ==> Retriable(post(a), lagOf))
      ==> (DoRequest(retries, post, lagOf).outcome == Decide(post(d).reply, lagOf)
           && DoRequest(retries, post, lagOf).posts == d + 1
           && |DoRequest(retries, post, lagOf).sleeps| == d))
    ensures (forall a :: 0 <= a <= retries ==> Retriable(post(a), lagOf))
      ==> (DoRequest(retries, post, lagOf).outcome.Failed?
           && DoRequest(retries, post, lagOf).outcome.message == Exhausted
           && |DoRequest(retries, post, lagOf).sleeps| == (if retries >= 0 then retries else 0))
  {
    forall d | 0 <= d <= retries && !Retriable(post(d), lagOf) && (forall a :: 0 <= a < d ==> Retriable(post(a), lagOf))
      ensures DoRequest(retries, post, lagOf).outcome == Decide(post(d).reply, lagOf)
          && DoRequest(retries, post, lagOf).posts == d + 1
          && |DoRequest(retries, post, lagOf).sleeps| == d
    {
      AttemptsDecidedAt(retries, post, lagOf, 0, None, d);
    }
    if forall a :: 0 <= a <= retries ==> Retriable(post(a), lagOf) {
      if retries >= 0 {
        AttemptsExhausted(retries, post, lagOf, 0, None);
      }
    }
  }

  /** The parameters of each request `query` makes, given the replies of
      its calls in order: the first request's parameters, then each one
      merged with the previous reply's `continue`; the loop stops after a
      reply without `continue`. */
  function QueryRequests(p: Params, replies: seq<Reply>): (r: seq<Params>)
    ensures 1 <= |r| <= |replies| || (r == [] && replies == [])
    ensures r != [] ==> r[0] == p
    decreases |replies|
  {
    if replies == [] then []
    else if replies[0].cont.None? then [p]
    else [p] + QueryRequests(p + replies[0].cont.value, replies[1..])
  }

  /** The generator yields replies until the first without `continue`,
      that one included, and every later request carries every parameter
      of the first (with the server's continuation values on top). */
  lemma {:induction false} QueryStops(p: Params, replies: seq<Reply>, k: nat)
    requires k < |QueryRequests(p, replies)|
    ensures forall j :: 0 <= j < k ==> replies[j].cont.Some?
    ensures k + 1 < |QueryRequests(p, replies)|
      ==> (replies[k].cont.Some? && QueryRequests(p, replies)[k + 1] == QueryRequests(p, replies)[k] + replies[k].cont.value)
    ensures k + 1 == |QueryRequests(p, replies)| ==> replies[k].cont.None? || k + 1 == |replies|
    ensures p.Keys <= QueryRequests(p, replies)[k].Keys
    decreases k
  {
    if k > 0 {
      var p' := p + replies[0].cont.value;
      QueryStops(p', replies[1..], k - 1);
      assert forall j :: 1 <= j < k ==> replies[1..][j - 1] == replies[j];
    }
  }
}

=== FILE: parse_live.dfy ===
/** The bookkeeping of `scripts/parse_live.py` around the snippet parser:
    the per-process exception budget of `with_max_exceptions`, the database
    rows `work` builds for one batch of pages, and the batches of page ids
    `parse_live` hands to the pool. Fetching pages, converting snippets to
    HTML, hashing and the database are parameters. */
module ParseLive {
  import opened Wrappers
  import opened Strings
  import opened Utils
  import opened PercentEncoding
  import opened SectionAnchor

  // ---------------------------------------------------------------------
  // with_max_exceptions

  /** `MAX_EXCEPTIONS_PER_SUBPROCESS`. */
  const MaxExceptions: nat := 5

  /** What the wrapped function did on one call. */
  datatype Outcome<T> = Returned(value: T) | Raised

  /** What the wrapper gives back: the function's value, `None` for a
      swallowed exception, or the exception raised again. */
  datatype Guarded<T> = Value(value: T) | Swallowed | Reraised

  /** One call through the wrapper, with the process's exception count
      before and after it. */
  function Guard<T>(count: nat, o: Outcome<T>): (r: (nat, Guarded<T>))
    ensures o.Returned? ==> r.0 == count && r.1 == Value(o.value)
    ensures o.Raised? ==> r.0 == count + 1 && (r.1.Reraised? <==> count >= MaxExceptions) && !r.1.Value?
  {
    match o
    case Returned(v) => (count, Value(v))
    case Raised =>
      var n := count + 1;
      (n, if n > MaxExceptions then Reraised else Swallowed)
  }

  /** The number of calls that raised. */
  function Failures<T>(os: seq<Outcome<T>>): nat {
    if os == [] then 0 else (if os[0].Raised? then 1 else 0) + Failures(os[1..])
  }

  /** The tasks one worker process runs, in order, with its count starting
      at `count` (the initializer sets it to 0). */
  function RunWorker<T>(count: nat, os: seq<Outcome<T>>): (r: seq<Guarded<T>>)
    ensures |r| == |os|
    ensures forall k :: 0 <= k < |r| ==> (r[k].Value? <==> os[k].Returned?)
    ensures forall k :: 0 <= k < |r| && r[k].Value? ==> r[k].value == os[k].value
    decreases |os|
  {
    if os == [] then []
    else
      var g := Guard(count, os[0]);
      [g.1] + RunWorker(g.0, os[1..])
  }

  lemma FailuresAppend<T>(os: seq<Outcome<T>>, o: Outcome<T>)
    ensures Failures(os + [o]) == Failures(os) + (if o.Raised? then 1 else 0)
  {
    if os != [] {
      assert (os + [o])[1..] == os[1..] + [o];
      FailuresAppend(os[1..], o);
    }
  }

  /** A task's exception is raised again exactly when it brings the count
      past the limit: with the count starting at 0, the sixth and every
      later failing task of the process fails, the first five give `None`. */
  lemma {:induction false} ReraisedIff<T>(count: nat, os: seq<Outcome<T>>, k: nat)
    requires k < |os|
    ensures RunWorker(count, os)[k].Reraised? <==> os[k].Raised? && count + Failures(os[..k + 1]) > MaxExceptions
    decreases |os|
  {
    var g := Guard(count, os[0]);
    assert RunWorker(count, os) == [g.1] + RunWorker(g.0, os[1..]);
    if k == 0 {
      assert os[..1] == [os[0]];
      assert Failures(os[..1]) == Failures([os[0]][1..]) + (if os[0].Raised? then 1 else 0);
    } else {
      ReraisedIff(g.0, os[1..], k - 1);
      assert os[1..][..k] == os[1..k + 1];
      assert os[..k + 1][1..] == os[1..k + 1];
    }
  }

  /** Some task of the worker raised. */
  predicate Raises<T>(gs: seq<Guarded<T>>) {
    exists k :: 0 <= k < |gs| && gs[k].Reraised?
  }

  /** A worker raises some task's exception exactly when it has more
      failures in all than the limit allows. */
  lemma {:induction false} RaisesIff<T>(os: seq<Outcome<T>>)
    ensures Raises(RunWorker(0, os)) <==> Failures(os) > MaxExceptions
  {
    var gs := RunWorker(0, os);
    assert os[..|os|] == os;
    if Failures(os) > MaxExceptions {
      var k := FirstOver(os, |os|);
      ReraisedIff(0, os, k);
      assert gs[k].Reraised?;
    }
    if Raises(gs) {
      var k :| 0 <= k < |gs| && gs[k].Reraised?;
      ReraisedIff(0, os, k);
      FailuresPrefix(os, k + 1);
    }
  }

  /** The failing task that takes a prefix's failures past the limit. */
  lemma {:induction false} FirstOver<T>(os: seq<Outcome<T>>, n: nat) returns (k: nat)
    requires n <= |os| && Failures(os[..n]) > MaxExceptions
    ensures k < n && os[k].Raised? && Failures(os[..k + 1]) > MaxExceptions
    decreases n
  {
    assert os[..0] == [];
    assert Failures(os[..0]) == 0;
    assert n > 0;
    assert os[..n] == os[..n - 1] + [os[n - 1]];
    FailuresAppend(os[..n - 1], os[n - 1]);
    if Failures(os[..n - 1]) > MaxExceptions {
      k := FirstOver(os, n - 1);
    } else {
      k := n - 1;
    }
  }

  lemma {:induction false} FailuresPrefix<T>(os: seq<Outcome<T>>, n: nat)
    requires n <= |os|
    ensures Failures(os[..n]) <= Failures(os)
    decreases |os| - n
  {
    if n < |os| {
      FailuresPrefix(os, n + 1);
      assert os[..n + 1] == os[..n] + [os[n]];
      FailuresAppend(os[..n], os[n]);
    } else {
      assert os[..n] == os;
    }
  }

  /** `parse_live`'s return code once the pool has finished: `result.get()`
      raises, and the code is 1, when some task of some worker raised. Which
      worker runs which tasks is the pool's choice, given as `workers`. */
  function ExitCode<T>(workers: seq<seq<Outcome<T>>>): (code: int)
    ensures code == 0 || code == 1
  {
    if exists w :: 0 <= w < |workers| && Raises(RunWorker(0, workers[w])) then 1 else 0
  }

  /** The run fails exactly when some worker process saw more than five
      exceptions. */
  lemma ExitCodeFails<T>(workers: seq<seq<Outcome<T>>>)
    ensures ExitCode(workers) == 1 <==> exists w :: 0 <= w < |workers| && Failures(workers[w]) > MaxExceptions
  {
    forall w | 0 <= w < |workers|
      ensures Raises(RunWorker(0, workers[w])) <==> Failures(workers[w]) > MaxExceptions
    {
      RaisesIff(workers[w]);
    }
  }

  // ---------------------------------------------------------------------
  // The rows `work` builds

  /** A row of the `snippets` table: id, snippet, section anchor, page id. */
  datatype SnippetRow = SnippetRow(id: string, snippet: string, section: string, pageid: string)

  /** A row of the `articles` table: page id, URL, title. */
  datatype ArticleRow = ArticleRow(pageid: string, url: string, title: string)

  /** One page's rows, inserted together. */
  datatype PageRows = PageRows(article: ArticleRow, snippets: seq<SnippetRow>)

  /** A page as `query_pageids` yields it. */
  datatype Page = Page(pageid: string, title: string, wikitext: string)

  /** The settings `work` reads: whether snippets are HTML (`html_snippet`),
      the size bounds, and `WIKIPEDIA_WIKI_URL`. */
  datatype Settings = Settings(html: bool, minSize: int, maxSize: int, wikiUrl: string)

  /** What a snippet becomes: unchanged in wikitext mode; in HTML mode its
      conversion, kept only when its length lies strictly between the
      bounds. */
  function Converted(s: Settings, toHtml: string -> string, sni: string): (r: Option<string>)
    ensures !s.html ==> r == Some(sni)
    ensures s.html ==> (r.Some? <==> s.minSize < |toHtml(sni)| < s.maxSize)
    ensures s.html && r.Some? ==> r.value == toHtml(sni)
  {
    if !s.html then Some(sni)
    else
      var h := toHtml(sni);
      if s.minSize < |h| < s.maxSize then Some(h) else None
  }

  /** The row of one kept snippet: its id hashes the title followed by the
      snippet. */
  function RowOf(sha1: seq<Byte> -> seq<Byte>, title: string, pageid: string, anchor: string, sni: string): SnippetRow {
    SnippetRow(Mkid(sha1, title + sni), sni, anchor, pageid)
  }

  /** The rows of one section's snippets, in order. */
  function SectionRows(sha1: seq<Byte> -> seq<Byte>, s: Settings, toHtml: string -> string,
                       title: string, pageid: string, anchor: string, snips: seq<string>): (r: seq<SnippetRow>)
    ensures |r| <= |snips|
    ensures forall k :: 0 <= k < |r| ==> r[k].pageid == pageid && r[k].section == anchor
  {
    if snips == [] then []
    else
      var rest := SectionRows(sha1, s, toHtml, title, pageid, anchor, snips[1..]);
      match Converted(s, toHtml, snips[0])
      case Some(sni) => [RowOf(sha1, title, pageid, anchor, sni)] + rest
      case None => rest
  }

  /** The snippet rows of a page, section by section, each section's name
      turned into its anchor. */
  function SnippetRows(sha1: seq<Byte> -> seq<Byte>, s: Settings, toHtml: string -> string,
                       title: string, pageid: string, sections: seq<(string, seq<string>)>): (r: seq<SnippetRow>)
    ensures forall k :: 0 <= k < |r| ==> r[k].pageid == pageid
  {
    if sections == [] then []
    else
      SectionRows(sha1, s, toHtml, title, pageid, SectionNameToAnchor(sections[0].0), sections[0].1)
        + SnippetRows(sha1, s, toHtml, title, pageid, sections[1..])
  }

  /** The snippet `snips[j]` of section `sections[i]` gives `row`. */
  predicate RowFrom(sha1: seq<Byte> -> seq<Byte>, s: Settings, toHtml: string -> string, title: string, pageid: string,
                    sections: seq<(string, seq<string>)>, i: nat, j: nat, row: SnippetRow)
  {
    i < |sections| && j < |sections[i].1|
    && var c := Converted(s, toHtml, sections[i].1[j]);
    c.Some? && row == RowOf(sha1, title, pageid, SectionNameToAnchor(sections[i].0), c.value)
  }

  lemma {:induction false} SectionRowsMembers(sha1: seq<Byte> -> seq<Byte>, s: Settings, toHtml: string -> string,
                                              title: string, pageid: string, anchor: string, snips: seq<string>, row: SnippetRow)
    ensures row in SectionRows(sha1, s, toHtml, title, pageid, anchor, snips)
      <==> exists j :: 0 <= j < |snips| && Converted(s, toHtml, snips[j]).Some?
             && row == RowOf(sha1, title, pageid, anchor, Converted(s, toHtml, snips[j]).value)
  {
    if snips != [] {
      SectionRowsMembers(sha1, s, toHtml, title, pageid, anchor, snips[1..], row);
      if exists j :: 0 <= j < |snips| && Converted(s, toHtml, snips[j]).Some?
             && row == RowOf(sha1, title, pageid, anchor, Converted(s, toHtml, snips[j]).value)
      {
        var j :| 0 <= j < |snips| && Converted(s, toHtml, snips[j]).Some?
             && row == RowOf(sha1, title, pageid, anchor, Converted(s, toHtml, snips[j]).value);
        if j > 0 {
          assert snips[1..][j - 1] == snips[j];
        }
      }
      if row in SectionRows(sha1, s, toHtml, title, pageid, anchor, snips[1..]) {
        var j :| 0 <= j < |snips[1..]| && Converted(s, toHtml, snips[1..][j]).Some?
             && row == RowOf(sha1, title, pageid, anchor, Converted(s, toHtml, snips[1..][j]).value);
        assert snips[1..][j] == snips[j + 1];
      }
    }
  }

  /** Every snippet row comes from a kept snippet of some section, and
      every kept snippet gives a row. */
  lemma SnippetRowsMembers(sha1: seq<Byte> -> seq<Byte>, s: Settings, toHtml: string -> string,
                           title: string, pageid: string, sections: seq<(string, seq<string>)>, row: SnippetRow)
    ensures row in SnippetRows(sha1, s, toHtml, title, pageid, sections)
      <==> exists i: nat, j: nat :: RowFrom(sha1, s, toHtml, title, pageid, sections, i, j, row)
  {
    if row in SnippetRows(sha1, s, toHtml, title, pageid, sections) {
      SnippetRowsSound(sha1, s, toHtml, title, pageid, sections, row);
    }
    forall i: nat, j: nat | RowFrom(sha1, s, toHtml, title, pageid, sections, i, j, row)
      ensures row in SnippetRows(sha1, s, toHtml, title, pageid, sections)
    {
      SnippetRowsComplete(sha1, s, toHtml, title, pageid, sections, i, j, row);
    }
  }

  lemma {:induction false} SnippetRowsSound(sha1: seq<Byte> -> seq<Byte>, s: Settings, toHtml: string -> string,
                                            title: string, pageid: string, sections: seq<(string, seq<string>)>, row: SnippetRow)
    requires row in SnippetRows(sha1, s, toHtml, title, pageid, sections)
    ensures exists i: nat, j: nat :: RowFrom(sha1, s, toHtml, title, pageid, sections, i, j, row)
  {
    var anchor := SectionNameToAnchor(sections[0].0);
    var head := SectionRows(sha1, s, toHtml, title, pageid, anchor, sections[0].1);
    var tail := SnippetRows(sha1, s, toHtml, title, pageid, sections[1..]);
    assert SnippetRows(sha1, s, toHtml, title, pageid, sections) == head + tail;
    if row in head {
      SectionRowsMembers(sha1, s, toHtml, title, pageid, anchor, sections[0].1, row);
      var j :| 0 <= j < |sections[0].1| && Converted(s, toHtml, sections[0].1[j]).Some?
           && row == RowOf(sha1, title, pageid, anchor, Converted(s, toHtml, sections[0].1[j]).value);
      assert RowFrom(sha1, s, toHtml, title, pageid, sections, 0, j, row);
    } else {
      SnippetRowsSound(sha1, s, toHtml, title, pageid, sections[1..], row);
      var i: nat, j: nat :| RowFrom(sha1, s, toHtml, title, pageid, sections[1..], i, j, row);
      assert sections[1..][i] == sections[i + 1];
      assert RowFrom(sha1, s, toHtml, title, pageid, sections, i + 1, j, row);
    }
  }

  lemma {:induction false} SnippetRowsComplete(sha1: seq<Byte> -> seq<Byte>, s: Settings, toHtml: string -> string,
                                               title: string, pageid: string, sections: seq<(string, seq<string>)>,
                                               i: nat, j: nat, row: SnippetRow)
    requires RowFrom(sha1, s, toHtml, title, pageid, sections, i, j, row)
    ensures row in SnippetRows(sha1, s, toHtml, title, pageid, sections)
    decreases i
  {
    var anchor := SectionNameToAnchor(sections[0].0);
    var head := SectionRows(sha1, s, toHtml, title, pageid, anchor, sections[0].1);
    var tail := SnippetRows(sha1, s, toHtml, title, pageid, sections[1..]);
    assert SnippetRows(sha1, s, toHtml, title, pageid, sections) == head + tail;
    if i == 0 {
      FirstSectionRow(sha1, s, toHtml, title, pageid, sections[0], j, row);
      assert row in head;
    } else {
      RowFromRest(sha1, s, toHtml, title, pageid, sections, i, j, row);
      SnippetRowsComplete(sha1, s, toHtml, title, pageid, sections[1..], i - 1, j, row);
      assert row in tail;
    }
  }

  /** A kept snippet of a section gives a row among the section's. */
  lemma FirstSectionRow(sha1: seq<Byte> -> seq<Byte>, s: Settings, toHtml: string -> string,
                        title: string, pageid: string, section: (string, seq<string>), j: nat, row: SnippetRow)
    requires j < |section.1| && Converted(s, toHtml, section.1[j]).Some?
    requires row == RowOf(sha1, title, pageid, SectionNameToAnchor(section.0), Converted(s, toHtml, section.1[j]).value)
    ensures row in SectionRows(sha1, s, toHtml, title, pageid, SectionNameToAnchor(section.0), section.1)
  {
    SectionRowsMembers(sha1, s, toHtml, title, pageid, SectionNameToAnchor(section.0), section.1, row);
  }

  /** A row from a later section is one from the sections after the
      first. */
  lemma RowFromRest(sha1: seq<Byte> -> seq<Byte>, s: Settings, toHtml: string -> string, title: string, pageid: string,
                    sections: seq<(string, seq<string>)>, i: nat, j: nat, row: SnippetRow)
    requires i > 0 && RowFrom(sha1, s, toHtml, title, pageid, sections, i, j, row)
    ensures RowFrom(sha1, s, toHtml, title, pageid, sections[1..], i - 1, j, row)
  {
    assert sections[1..][i - 1] == sections[i];
  }

  /** In HTML mode every stored snippet lies strictly between the size
      bounds; in both modes its id is the hash of the title and the stored
      snippet, and its section is an anchor without `%`. */
  lemma SnippetRowShape(sha1: seq<Byte> -> seq<Byte>, s: Settings, toHtml: string -> string,
                        title: string, pageid: string, sections: seq<(string, seq<string>)>, row: SnippetRow)
    requires row in SnippetRows(sha1, s, toHtml, title, pageid, sections)
    ensures s.html ==> s.minSize < |row.snippet| < s.maxSize
    ensures row.id == Mkid(sha1, title + row.snippet)
    ensures forall k :: 0 <= k < |row.section| ==> row.section[k] != '%'
  {
    SnippetRowsMembers(sha1, s, toHtml, title, pageid, sections, row);
    var i: nat, j: nat :| RowFrom(sha1, s, toHtml, title, pageid, sections, i, j, row);
  }

  /** `WIKIPEDIA_WIKI_URL + title.replace(' ', '_')`. */
  function ArticleUrl(s: Settings, title: string): (r: string)
    ensures StartsWith(r, s.wikiUrl) && |r| == |s.wikiUrl| + |title|
    ensures forall k :: |s.wikiUrl| <= k < |r| ==> r[k] != ' '
  {
    var r := s.wikiUrl + ReplaceChar(title, ' ', '_');
    assert r[..|s.wikiUrl|] == s.wikiUrl;
    r
  }

  /** One page's rows: nothing when it has no snippet rows, else its
      article row with them. `extract` is the configured parser's
      `extract_sections` (HTML mode) or `extract_snippets` with the size
      bounds (wikitext mode). */
  function PageRowsOf(sha1: seq<Byte> -> seq<Byte>, s: Settings, toHtml: string -> string,
                      extract: string -> seq<(string, seq<string>)>, p: Page): (r: Option<PageRows>)
    ensures r.None? <==> SnippetRows(sha1, s, toHtml, p.title, p.pageid, extract(p.wikitext)) == []
    ensures r.Some? ==> r.value.article == ArticleRow(p.pageid, ArticleUrl(s, p.title), p.title)
    ensures r.Some? ==> r.value.snippets == SnippetRows(sha1, s, toHtml, p.title, p.pageid, extract(p.wikitext))
  {
    var rows := SnippetRows(sha1, s, toHtml, p.title, p.pageid, extract(p.wikitext));
    if rows == [] then None else Some(PageRows(ArticleRow(p.pageid, ArticleUrl(s, p.title), p.title), rows))
  }

  /** The rows of a batch, one entry per page that has snippet rows, in
      page order. */
  function WorkRows(sha1: seq<Byte> -> seq<Byte>, s: Settings, toHtml: string -> string,
                    extract: string -> seq<(string, seq<string>)>, pages: seq<Page>): (r: seq<PageRows>)
    ensures |r| <= |pages|
    ensures forall k :: 0 <= k < |r| ==> r[k].snippets != []
    ensures forall k :: 0 <= k < |r| ==> forall m :: 0 <= m < |r[k].snippets| ==> r[k].snippets[m].pageid == r[k].article.pageid
  {
    if pages == [] then []
    else
      var rest := WorkRows(sha1, s, toHtml, extract, pages[1..]);
      match PageRowsOf(sha1, s, toHtml, extract, pages[0])
      case Some(e) => [e] + rest
      case None => rest
  }

  /** A page has an entry exactly when it has a snippet row, and every
      entry belongs to one of the pages. */
  lemma {:induction false} WorkRowsMembers(sha1: seq<Byte> -> seq<Byte>, s: Settings, toHtml: string -> string,
                                           extract: string -> seq<(string, seq<string>)>, pages: seq<Page>, e: PageRows)
    ensures e in WorkRows(sha1, s, toHtml, extract, pages)
      <==> exists k :: 0 <= k < |pages| && PageRowsOf(sha1, s, toHtml, extract, pages[k]) == Some(e)
  {
    if pages != [] {
      WorkRowsMembers(sha1, s, toHtml, extract, pages[1..], e);
      var f := (p: Page) => PageRowsOf(sha1, s, toHtml, extract, p);
      var h := f(pages[0]);
      var rest := WorkRows(sha1, s, toHtml, extract, pages[1..]);
      assert WorkRows(sha1, s, toHtml, extract, pages) == (if h.Some? then [h.value] else []) + rest;
      FilterMembers(pages, f, WorkRows(sha1, s, toHtml, extract, pages), rest, e);
    }
  }

  /** Membership in a filtered map, one element at a time: `e` is in `r`
      exactly when some element of `xs` maps to it, given that this holds
      of the tail. */
  lemma FilterMembers<A, B>(xs: seq<A>, f: A -> Option<B>, r: seq<B>, rest: seq<B>, e: B)
    requires xs != []
    requires r == (if f(xs[0]).Some? then [f(xs[0]).value] else []) + rest
    requires e in rest <==> exists k :: 0 <= k < |xs[1..]| && f(xs[1..][k]) == Some(e)
    ensures e in r <==> exists k :: 0 <= k < |xs| && f(xs[k]) == Some(e)
  {
    if exists k :: 0 <= k < |xs| && f(xs[k]) == Some(e) {
      var k :| 0 <= k < |xs| && f(xs[k]) == Some(e);
      if k > 0 {
        assert xs[1..][k - 1] == xs[k];
      }
    }
    if e in rest {
      var k :| 0 <= k < |xs[1..]| && f(xs[1..][k]) == Some(e);
      assert xs[1..][k] == xs[k + 1];
    }
  }

  // ---------------------------------------------------------------------
  // Batches

  /** The API is asked for 32 page ids at a time. */
  const BatchSize: nat := 32

  /** `[ids[i:i+size] for i in range(start, len(ids), size)]`. */
  function BatchesFrom<T>(ids: seq<T>, start: nat, size: nat): (r: seq<seq<T>>)
    requires size > 0
    ensures forall k :: 0 <= k < |r| ==> 0 < |r[k]| <= size
    decreases |ids| - start
  {
    if start >= |ids| then []
    else [ids[start..Min(start + size, |ids|)]] + BatchesFrom(ids, start + size, size)
  }

  /** The batches `parse_live` makes of the page ids. */
  function Batches<T>(ids: seq<T>): seq<seq<T>> {
    BatchesFrom(ids, 0, BatchSize)
  }

  /** Stepping through the list by `size` cuts the same chunks as `ichunk`. */
  lemma {:induction false} BatchesFromAreChunks<T>(ids: seq<T>, start: nat, size: nat)
    requires size > 0 && start <= |ids|
    ensures BatchesFrom(ids, start, size) == Ichunk(ids[start..], size).value
    decreases |ids| - start
  {
    var xs := ids[start..];
    if start < |ids| {
      var n := Min(size, |xs|);
      assert ids[start..Min(start + size, |ids|)] == xs[..n];
      if start + size <= |ids| {
        BatchesFromAreChunks(ids, start + size, size);
        assert xs[n..] == ids[start + size..];
      } else {
        assert xs[n..] == [];
      }
    }
  }

  /** The batches, concatenated in order, are the id list, and each holds
      at least one and at most 32 ids, exactly 32 but for the last. */
  lemma BatchesPartition<T>(ids: seq<T>, k: nat)
    requires k < |Batches(ids)|
    ensures Concat(Batches(ids)) == ids
    ensures 0 < |Batches(ids)[k]| <= BatchSize
    ensures k < |Batches(ids)| - 1 ==> |Batches(ids)[k]| == BatchSize
  {
    BatchesFromAreChunks(ids, 0, BatchSize);
    assert ids[0..] == ids;
    IchunkConcat(ids, BatchSize);
    IchunkSizes(ids, BatchSize, k);
  }
}

=== FILE: percent_encoding.dfy ===
/** Percent-encoding (section 2.1 of RFC 3986) of text as UTF-8 (RFC 3629),
    the common ground of JavaScript's `encodeURIComponent` and Python 2's
    `urllib.quote(s.encode('utf-8'), safe='')`: a character of the "safe"
    class stands for itself, any other becomes `%XY` per UTF-8 byte, with
    upper-case hexadecimal digits. */
module PercentEncoding {
  import opened Wrappers

  type Byte = b: int | 0 <= b < 256

  /** The UTF-8 bytes of one code point. */
  function Utf8(c: char): (r: seq<Byte>)
    ensures 1 <= |r| <= 4
    ensures c as int < 128 ==> r == [c as int]
    ensures c as int >= 128 ==> forall k :: 0 <= k < |r| ==> r[k] >= 128
  {
    var n := c as int;
    if n < 0x80 then [n]
    else if n < 0x800 then [0xC0 + n / 64, 0x80 + n % 64]
    else if n < 0x10000 then [0xE0 + n / 4096, 0x80 + (n / 64) % 64, 0x80 + n % 64]
    else [0xF0 + n / 262144, 0x80 + (n / 4096) % 64, 0x80 + (n / 64) % 64, 0x80 + n % 64]
  }

  /** The UTF-8 encoding of a string. */
  function Utf8String(s: string): seq<Byte> {
    if s == [] then [] else Utf8(s[0]) + Utf8String(s[1..])
  }

  function HexDigit(d: nat): (c: char)
    requires d < 16
    ensures IsHexDigit(c) && HexValue(c) == d
  {
    if d < 10 then ('0' as int + d) as char else ('A' as int + d - 10) as char
  }

  predicate IsHexDigit(c: char) {
    '0' <= c <= '9' || 'A' <= c <= 'F' || 'a' <= c <= 'f'
  }

  function HexValue(c: char): (d: nat)
    requires IsHexDigit(c)
    ensures d < 16
  {
    if '0' <= c <= '9' then c as int - '0' as int
    else if 'A' <= c <= 'F' then c as int - 'A' as int + 10
    else c as int - 'a' as int + 10
  }

  /** `%XY` for one byte. */
  function Escape(b: Byte): (r: string)
    ensures |r| == 3 && r[0] == '%' && IsHexDigit(r[1]) && IsHexDigit(r[2])
    ensures HexValue(r[1]) * 16 + HexValue(r[2]) == b
  {
    ['%', HexDigit(b / 16), HexDigit(b % 16)]
  }

  function EscapeAll(bs: seq<Byte>): (r: string)
    ensures |r| == 3 * |bs|
    ensures forall i :: 0 <= i < |r| ==> r[i] == '%' || IsHexDigit(r[i])
  {
    if bs == [] then []
    else
      var e := Escape(bs[0]);
      var tail := EscapeAll(bs[1..]);
      assert forall i :: 0 <= i < |e| ==> e[i] == '%' || IsHexDigit(e[i]);
      e + tail
  }

  /** A class of characters left unescaped must be ASCII and exclude `%`,
      or the encoding could not be undone. */
  ghost predicate SafeClass(safe: char -> bool) {
    forall c: char :: safe(c) ==> c as int < 128 && c != '%'
  }

  /** The encoding of one character. */
  function EncodeChar(c: char, safe: char -> bool): string {
    if safe(c) then [c] else EscapeAll(Utf8(c))
  }

  function Encode(s: string, safe: char -> bool): (r: string)
    ensures forall i :: 0 <= i < |r| ==> safe(r[i]) || r[i] == '%' || IsHexDigit(r[i])
  {
    if s == [] then []
    else
      var head := EncodeChar(s[0], safe);
      var tail := Encode(s[1..], safe);
      assert forall i :: 0 <= i < |head| ==> safe(head[i]) || head[i] == '%' || IsHexDigit(head[i]);
      head + tail
  }

  /** Reads percent-encoded text back into bytes: `%XY` is one byte, an ASCII
      character is its own code; anything else is malformed. */
  function Decode(t: string): Option<seq<Byte>>
    decreases |t|
  {
    if t == [] then Some([])
    else if t[0] == '%' then
      if |t| >= 3 && IsHexDigit(t[1]) && IsHexDigit(t[2]) then
        match Decode(t[3..])
        case None => None
        case Some(rest) => Some([HexValue(t[1]) * 16 + HexValue(t[2])] + rest)
      else None
    else if t[0] as int < 128 then
      match Decode(t[1..])
      case None => None
      case Some(rest) => Some([t[0] as int] + rest)
    else None
  }

  lemma {:induction false} DecodeEscaped(bs: seq<Byte>, t: string)
    ensures Decode(t).Some? ==> Decode(EscapeAll(bs) + t) == Some(bs + Decode(t).value)
  {
    if bs != [] && Decode(t).Some? {
      var e := Escape(bs[0]);
      var x := EscapeAll(bs[1..]) + t;
      DecodeEscaped(bs[1..], t);
      assert EscapeAll(bs) + t == e + x;
      var u := e + x;
      assert u[0] == '%' && u[1] == e[1] && u[2] == e[2];
      assert u[3..] == x;
      assert Decode(u) == Some([bs[0]] + Decode(x).value);
      assert [bs[0]] + (bs[1..] + Decode(t).value) == bs + Decode(t).value;
    } else if bs == [] && Decode(t).Some? {
      assert EscapeAll(bs) + t == t;
      assert bs + Decode(t).value == Decode(t).value;
    }
  }

  /** Decoding undoes the encoding: the result is exactly the UTF-8 bytes of
      the text, so the encoding loses nothing. */
  lemma {:induction false} DecodeEncode(s: string, safe: char -> bool)
    requires SafeClass(safe)
    ensures Decode(Encode(s, safe)) == Some(Utf8String(s))
  {
    if s != [] {
      var c := s[0];
      DecodeEncode(s[1..], safe);
      var tail := Encode(s[1..], safe);
      if safe(c) {
        assert ([c] + tail)[1..] == tail;
      } else {
        DecodeEscaped(Utf8(c), tail);
      }
    }
  }

  /** The characters `encodeURIComponent` leaves alone (section 2.3 of
      RFC 3986 plus `!*'()`). */
  predicate IsUriComponentSafe(c: char) {
    ('A' <= c <= 'Z') || ('a' <= c <= 'z') || ('0' <= c <= '9')
    || c == '-' || c == '_' || c == '.' || c == '!' || c == '~' || c == '*'
    || c == '\'' || c == '(' || c == ')'
  }

  /** JavaScript's `encodeURIComponent` on a string of scalar values. */
  function EncodeURIComponent(s: string): (r: string)
    ensures Decode(r) == Some(Utf8String(s))
    ensures forall i :: 0 <= i < |r| ==> r[i] != '&' && r[i] != '#' && r[i] != '='
  {
    DecodeEncode(s, IsUriComponentSafe);
    var r := Encode(s, IsUriComponentSafe);
    forall i | 0 <= i < |r| ensures r[i] != '&' && r[i] != '#' && r[i] != '=' {
      assert IsUriComponentSafe(r[i]) || r[i] == '%' || IsHexDigit(r[i]);
    }
    r
  }

  /** The characters Python 2's `urllib.quote` always leaves alone. */
  predicate IsPyAlwaysSafe(c: char) {
    ('A' <= c <= 'Z') || ('a' <= c <= 'z') || ('0' <= c <= '9') || c == '_' || c == '.' || c == '-'
  }

  /** `urllib.quote(s.encode('utf-8'), safe='')`. */
  function Quote(s: string): (r: string)
    ensures Decode(r) == Some(Utf8String(s))
  {
    DecodeEncode(s, IsPyAlwaysSafe);
    Encode(s, IsPyAlwaysSafe)
  }
}

=== FILE: ru_parser.dfy ===
/** The Russian snippet parser (`snippet_parser/ru.py`): a citation-needed
    template keeps its first parameter unless it reads as an integer (a
    date part), then the marker; other templates follow the base class. */
module RuParser {
  import opened Wrappers
  import opened Strings
  import opened Decimal
  import opened Wikicode
  import opened SnippetRules

  /** The text kept from the first parameter: none when it is absent or
      `int()` accepts it. */
  function FirstParamText(ps: seq<ParamView>): (r: Result<string, StripError>)
    ensures ps == [] ==> r == Ok("")
    ensures ps != [] ==> (r.Ok? <==> ps[0].stripped.Ok?)
    ensures ps != [] && r.Ok? ==>
      r.value == (if PyInt(ps[0].stripped.value).Some? then "" else ps[0].stripped.value)
  {
    if ps == [] then Ok("")
    else
      match ps[0].stripped
      case Err(e) => Err(e)
      case Ok(p) => Ok(if PyInt(p).Some? then "" else p)
  }

  function StripTemplate(cfg: ParserConfig, t: TemplateView): (r: Replacement)
    ensures IsCitationNeeded(cfg, t.name) ==>
      (r.Ok? <==> FirstParamText(t.params).Ok?)
      && (r.Ok? ==> r.value == Some(FirstParamText(t.params).value + CitationNeededMarker))
    ensures !IsCitationNeeded(cfg, t.name) ==> r == BaseStripTemplate(cfg, t)
  {
    if IsCitationNeeded(cfg, t.name) then
      match FirstParamText(t.params)
      case Err(e) => Err(e)
      case Ok(text) => Ok(Some(text + CitationNeededMarker))
    else BaseStripTemplate(cfg, t)
  }

  /** `{{нет АИ|23|01|2017}}`: a numeric first parameter is a date and is
      dropped, leaving the marker alone. */
  lemma DateParamDropped(cfg: ParserConfig, t: TemplateView, day: int)
    requires IsCitationNeeded(cfg, t.name) && |t.params| > 0
    requires t.params[0].stripped == Ok(IntToString(day))
    ensures StripTemplate(cfg, t) == Ok(Some(CitationNeededMarker))
  {
    PyIntOfString(day);
    NumericParamDropped(cfg, t);
  }

  /** A first parameter that `int()` accepts is dropped. */
  lemma NumericParamDropped(cfg: ParserConfig, t: TemplateView)
    requires IsCitationNeeded(cfg, t.name) && |t.params| > 0
    requires t.params[0].stripped.Ok? && PyInt(t.params[0].stripped.value).Some?
    ensures StripTemplate(cfg, t) == Ok(Some(CitationNeededMarker))
  {
    assert FirstParamText(t.params) == Ok("");
    assert "" + CitationNeededMarker == CitationNeededMarker;
  }

  /** Only the first parameter is read: whatever follows it changes
      nothing. */
  lemma LaterParamsIgnored(cfg: ParserConfig, t: TemplateView, more: seq<ParamView>)
    requires |t.params| > 0
    ensures StripTemplate(cfg, t.(params := t.params[..1] + more)) == StripTemplate(cfg, t.(params := t.params[..1]))
  {
    assert (t.params[..1] + more)[0] == t.params[..1][0];
  }
}

=== FILE: search_bar.dfy ===
/** The incremental search controller `SearchBar` of static/js/search_bar.js:
    `_forceSearch` issues a numbered request per search and never cancels
    one; responses and the 100 ms spinner-start timers arrive as events in
    any order (single-threaded, each callback runs to completion). */
module SearchBar {
  import opened Wrappers

  const MaxResults: nat := 400
  const SpinnerStartDelayMs: nat := 100
  const SearchThrottleIntervalMs: nat := 800
  /** Awesomplete's `minChars` as configured by `SearchBar`. */
  const MinChars: nat := 1

  /** One search result: an article title, its snippets and its page id. */
  datatype Item = Item(title: string, snippets: seq<string>, pageId: nat)

  /** A request issued by `_forceSearch`: its query, whether its XHR is DONE,
      and the due time of its pending spinner-start timer, if any. */
  datatype Request = Request(query: string, done: bool, spinnerTimer: Option<int>)

  datatype Spinner = Spinner(spinning: bool)

  /** The controller's state. The request numbered `k` (the closure's
      `counter`) is `requests[k - 1]`, so `xhrCounter` is `|requests|`;
      `completed` is `xhrCompleted`; `list` and `maxItems` are Awesomplete's. */
  datatype Bar = Bar(requests: seq<Request>, completed: nat, spinner: Option<Spinner>,
                     list: seq<Item>, maxItems: nat)
  {
    function Counter(): nat {
      |requests|
    }

    /** Request `k` was issued and has not completed. */
    predicate InFlight(k: int) {
      1 <= k <= |requests| && !requests[k - 1].done
    }
  }

  function Init(): Bar {
    Bar([], 0, None, [], 0)
  }

  datatype Response = Success(results: seq<Item>) | Failure

  /** What a callback did besides changing the state: whether it called
      `awesomplete.evaluate()`, and whether it threw (`spinner.stop()` on a
      `null` spinner). */
  datatype Effect = Effect(evaluated: bool, threw: bool)

  /** `_forceSearch` at time `now` with the input's current `value`. */
  function ForceSearch(b: Bar, now: int, value: string): (r: Bar)
    // A fresh number, one above every earlier one; no earlier request is touched.
    ensures r.Counter() == b.Counter() + 1
    ensures r.requests[..b.Counter()] == b.requests
    ensures r.requests[b.Counter()].query == value && !r.requests[b.Counter()].done
    // The spinner start is scheduled 100 ms later, and only for a long enough query.
    ensures r.requests[b.Counter()].spinnerTimer ==
              (if |value| >= MinChars then Some(now + SpinnerStartDelayMs) else None)
    ensures r.completed == b.completed && r.spinner == b.spinner && r.list == b.list
  {
    var timer := if |value| >= MinChars then Some(now + SpinnerStartDelayMs) else None;
    b.(requests := b.requests + [Request(value, false, timer)])
  }

  /** The `done` callback of request `k`: stale responses are ignored,
      others raise the watermark and replace the list. */
  function OnDone(b: Bar, k: nat, results: seq<Item>, focused: bool): (Bar, bool) {
    if k < b.completed then (b, false)
    else (b.(completed := k, list := results, maxItems := |results|), focused)
  }

  /** The `always` callback of request `k`: cancels its spinner-start timer,
      and if `k` is the latest request stops the spinner, which throws when
      there is none. */
  function OnAlways(b: Bar, k: nat): (Bar, bool)
    requires 1 <= k <= b.Counter()
  {
    var rq := b.requests[k - 1].(done := true, spinnerTimer := None);
    var b1 := b.(requests := b.requests[k - 1 := rq]);
    if k == b.Counter() then
      if b1.spinner.None? then (b1, true) else (b1.(spinner := None), false)
    else (b1, false)
  }

  /** Request `k` completes with `resp` while the input does or does not have
      focus. Only an issued, still pending request can complete; any other
      `k` changes nothing. */
  function Respond(b: Bar, k: nat, resp: Response, focused: bool): (r: (Bar, Effect))
    ensures !b.InFlight(k) ==> r == (b, Effect(false, false))
    ensures b.InFlight(k) ==>
      var (n, eff) := r;
      var accepted := resp.Success? && k >= b.completed;
      // The watermark never goes down; a stale response changes neither the
      // list nor the watermark.
      && n.completed == (if accepted then k else b.completed)
      && n.completed >= b.completed
      && (accepted ==> n.list == resp.results && n.maxItems == |resp.results|)
      && (!accepted ==> n.list == b.list && n.maxItems == b.maxItems)
      && eff.evaluated == (accepted && focused)
      // The request is DONE and its spinner-start timer is cleared; no other
      // request changes.
      && n.Counter() == b.Counter()
      && n.requests[k - 1] == b.requests[k - 1].(done := true, spinnerTimer := None)
      && (forall j :: 0 <= j < b.Counter() && j != k - 1 ==> n.requests[j] == b.requests[j])
      // Only the latest request stops the spinner, and that throws when no
      // spinner was ever started.
      && (k != b.Counter() ==> n.spinner == b.spinner && !eff.threw)
      && (k == b.Counter() ==> n.spinner.None? && eff.threw == b.spinner.None?)
  {
    if !b.InFlight(k) then (b, Effect(false, false))
    else
      var (b1, evaluated) := if resp.Success? then OnDone(b, k, resp.results, focused) else (b, false);
      var (b2, threw) := OnAlways(b1, k);
      (b2, Effect(evaluated, threw))
  }

  /** The spinner-start timer of request `k` fires. If it was cleared, nothing
      happens. Otherwise an existing spinner is left alone, and a new one is
      created and spins only while the request is not DONE. */
  function SpinnerTimerFires(b: Bar, k: nat): (r: Bar)
    ensures !(1 <= k <= b.Counter() && b.requests[k - 1].spinnerTimer.Some?) ==> r == b
    ensures 1 <= k <= b.Counter() && b.requests[k - 1].spinnerTimer.Some? ==>
              && r.requests == b.requests[k - 1 := b.requests[k - 1].(spinnerTimer := None)]
              && r.spinner == (if b.spinner.Some? then b.spinner
                               else Some(Spinner(!b.requests[k - 1].done)))
              && r.completed == b.completed && r.list == b.list
  {
    if 1 <= k <= b.Counter() && b.requests[k - 1].spinnerTimer.Some? then
      var b1 := b.(requests := b.requests[k - 1 := b.requests[k - 1].(spinnerTimer := None)]);
      if b1.spinner.Some? then b1 else b1.(spinner := Some(Spinner(!b.requests[k - 1].done)))
    else b
  }

  datatype Event =
    | Search(now: int, value: string)
    | Complete(k: nat, resp: Response, focused: bool)
    | SpinnerTimer(k: nat)

  function Apply(b: Bar, e: Event): Bar {
    match e
    case Search(now, value) => ForceSearch(b, now, value)
    case Complete(k, resp, focused) => Respond(b, k, resp, focused).0
    case SpinnerTimer(k) => SpinnerTimerFires(b, k)
  }

  function Exec(b: Bar, events: seq<Event>): Bar
    decreases |events|
  {
    if events == [] then b else Exec(Apply(b, events[0]), events[1..])
  }

  /** What holds in every reachable state: the watermark names an issued,
      completed request, and a completed request has no pending timer. */
  ghost predicate Valid(b: Bar) {
    && b.completed <= b.Counter()
    && (b.completed > 0 ==> b.requests[b.completed - 1].done)
    && (forall j :: 0 <= j < b.Counter() && b.requests[j].done ==> b.requests[j].spinnerTimer.None?)
  }

  lemma ApplyKeepsValid(b: Bar, e: Event)
    requires Valid(b)
    ensures Valid(Apply(b, e))
  {
    match e
    case Search(now, value) =>
    case Complete(k, resp, focused) =>
    case SpinnerTimer(k) =>
  }

  lemma {:induction false} ExecKeepsValid(b: Bar, events: seq<Event>)
    requires Valid(b)
    ensures Valid(Exec(b, events))
    decreases |events|
  {
    if events != [] {
      ApplyKeepsValid(b, events[0]);
      ExecKeepsValid(Apply(b, events[0]), events[1..]);
    }
  }

  /** `xhrCompleted` is a watermark: no sequence of events lowers it. */
  lemma {:induction false} WatermarkIsMonotone(b: Bar, events: seq<Event>)
    ensures Exec(b, events).completed >= b.completed
    decreases |events|
  {
    if events != [] {
      WatermarkIsMonotone(Apply(b, events[0]), events[1..]);
    }
  }

  /** Once the latest request has succeeded, the list holds its results for
      good, whatever older responses and timers arrive afterwards, as long as
      no new search starts. */
  lemma {:induction false} LatestResultsStay(b: Bar, events: seq<Event>)
    requires Valid(b)
    requires b.completed == b.Counter()
    requires forall j :: 0 <= j < |events| ==> !events[j].Search?
    ensures Exec(b, events).list == b.list
    ensures Exec(b, events).completed == b.completed
    decreases |events|
  {
    if events != [] {
      var b1 := Apply(b, events[0]);
      ApplyKeepsValid(b, events[0]);
      LatestResultsStay(b1, events[1..]);
    }
  }

  /** In particular: when the most recently issued request succeeds with
      `results`, the list ends up as exactly `results`. */
  lemma LatestSuccessWins(b: Bar, results: seq<Item>, focused: bool, later: seq<Event>)
    requires Valid(b)
    requires b.InFlight(b.Counter())
    requires forall j :: 0 <= j < |later| ==> !later[j].Search?
    ensures Exec(b, [Complete(b.Counter(), Success(results), focused)] + later).list == results
  {
    var e := Complete(b.Counter(), Success(results), focused);
    var b1 := Apply(b, e);
    ApplyKeepsValid(b, e);
    assert ([e] + later)[1..] == later;
    LatestResultsStay(b1, later);
  }

  /** A request that completes before its spinner-start delay has elapsed
      never starts the spinner: its timer is cleared, so its firing is void. */
  lemma NoSpinnerAfterCompletion(b: Bar, k: nat, resp: Response, focused: bool)
    requires b.InFlight(k)
    ensures var n := Respond(b, k, resp, focused).0;
            SpinnerTimerFires(n, k) == n
  {
  }

  /** In a reachable state, a spinner started by a timer always spins: the
      DONE test in the timer callback never fails there. */
  lemma StartedSpinnerSpins(b: Bar, k: nat)
    requires Valid(b)
    requires b.spinner.None?
    requires 1 <= k <= b.Counter() && b.requests[k - 1].spinnerTimer.Some?
    ensures SpinnerTimerFires(b, k).spinner == Some(Spinner(true))
  {
  }

  /** The call `spinner.stop()` throws for the only request of a session
      when its response arrives before the 100 ms spinner delay. */
  lemma FastResponseThrows(now: int, query: string, results: seq<Item>)
    ensures var b := ForceSearch(Init(), now, query);
            Respond(b, 1, Success(results), true).1.threw
  {
  }

  /** The evidently intended `always` callback: stop the spinner only if one
      exists. */
  function OnAlwaysGuarded(b: Bar, k: nat): (r: Bar)
    requires 1 <= k <= b.Counter()
    ensures r.Counter() == b.Counter()
    ensures r.requests[k - 1].done && r.requests[k - 1].spinnerTimer.None?
    ensures k == b.Counter() ==> r.spinner.None?
    ensures k != b.Counter() ==> r.spinner == b.spinner
  {
    var rq := b.requests[k - 1].(done := true, spinnerTimer := None);
    var b1 := b.(requests := b.requests[k - 1 := rq]);
    if k == b.Counter() && b1.spinner.Some? then b1.(spinner := None) else b1
  }

  /** With the guard, completion never throws and agrees with the code as
      written whenever the latter does not throw. */
  lemma GuardedAgreesUnlessThrown(b: Bar, k: nat)
    requires 1 <= k <= b.Counter()
    ensures !OnAlways(b, k).1 ==> OnAlwaysGuarded(b, k) == OnAlways(b, k).0
    ensures OnAlways(b, k).1 ==> OnAlwaysGuarded(b, k) == OnAlways(b, k).0 && b.spinner.None?
  {
  }

  /** Listeners on the input: the three `SearchBar` installs, and any other
      (Awesomplete installs its own `input` handler). */
  datatype Listener = InputSearch | ClickSearch | HighlightScroll | Foreign(name: string)

  const Installed: set<Listener> := {InputSearch, ClickSearch, HighlightScroll}

  /** `removeEventListeners`: after it neither typing nor clicking searches
      and the highlight handler is gone; other listeners are kept, and a
      second removal changes nothing. */
  function RemoveEventListeners(ls: set<Listener>): (r: set<Listener>)
    ensures InputSearch !in r && ClickSearch !in r && HighlightScroll !in r
    ensures forall l :: l in r <==> l in ls && !(l.InputSearch? || l.ClickSearch? || l.HighlightScroll?)
    ensures RemoveEventListeners(r) == r
  {
    ls - Installed
  }
}

=== FILE: section_anchor.dfy ===
/** `section_name_to_anchor` of `scripts/parse_live.py`: the fragment
    identifier MediaWiki's `Sanitizer::escapeId` gives a section heading.
    Spaces become underscores, the UTF-8 bytes are percent-encoded with only
    the always-safe characters left alone, `%3A` goes back to `:`, and every
    remaining `%` becomes `.`. */
module SectionAnchor {
  import opened Strings
  import opened PercentEncoding

  const EscapedColon: string := "%3A"

  function SectionNameToAnchor(section: string): (r: string)
    ensures forall i :: 0 <= i < |r| ==> r[i] != '%'
  {
    var quoted := Quote(ReplaceChar(section, ' ', '_'));
    ReplaceChar(Replace(quoted, EscapedColon, ":"), '%', '.')
  }

  // The reference: the anchor written character by character.

  /** The `.XY` form of a run of bytes. */
  function Dotted(bs: seq<Byte>): (r: string)
    ensures |r| == 3 * |bs|
  {
    if bs == [] then [] else ['.', HexDigit(bs[0] / 16), HexDigit(bs[0] % 16)] + Dotted(bs[1..])
  }

  /** What one character of the heading becomes. */
  function AnchorChar(c: char): string {
    if c == ' ' then "_"
    else if c == ':' then ":"
    else if IsPyAlwaysSafe(c) then [c]
    else Dotted(Utf8(c))
  }

  /** The anchor as the concatenation of the characters' forms. */
  function AnchorOf(s: string): string {
    if s == [] then [] else AnchorChar(s[0]) + AnchorOf(s[1..])
  }

  // How the whole-string replacements act piece by piece.

  /** A replacement scan over a prefix in which no occurrence starts leaves
      that prefix alone. */
  lemma {:induction false} ReplaceSkips(x: string, tail: string, pat: string, rep: string)
    requires |pat| > 0
    requires forall i :: 0 <= i < |x| ==> !StartsWith(x[i..] + tail, pat)
    ensures Replace(x + tail, pat, rep) == x + Replace(tail, pat, rep)
    decreases |x|
  {
    if x == [] {
      assert x + tail == tail;
    } else {
      var s := x + tail;
      assert x[0..] + tail == s;
      assert s[1..] == x[1..] + tail;
      ReplaceNoMatch(s, pat, rep);
      forall i | 0 <= i < |x| - 1
        ensures !StartsWith(x[1..][i..] + tail, pat)
      {
        assert x[1..][i..] == x[i + 1..];
      }
      ReplaceSkips(x[1..], tail, pat, rep);
      assert x == [x[0]] + x[1..];
    }
  }

  /** Where no occurrence starts, the scan keeps the first character. */
  lemma ReplaceNoMatch(s: string, pat: string, rep: string)
    requires |pat| > 0 && s != [] && !StartsWith(s, pat)
    ensures Replace(s, pat, rep) == [s[0]] + Replace(s[1..], pat, rep)
  {
  }

  /** The escape of a byte other than `:`'s is no `%3A`, and no
      occurrence starts inside it. */
  lemma EscapeNotColon(b: Byte, tail: string)
    requires b != 58
    ensures Replace(Escape(b) + tail, EscapedColon, ":") == Escape(b) + Replace(tail, EscapedColon, ":")
  {
    var x := Escape(b);
    assert HexValue(x[1]) == b / 16 && HexValue(x[2]) == b % 16;
    assert (b / 16, b % 16) != (3, 10);
    assert !(x[1] == '3' && x[2] == 'A');
    forall i | 0 <= i < |x|
      ensures !StartsWith(x[i..] + tail, EscapedColon)
    {
      assert (x[i..] + tail)[0] == x[i];
      if i == 0 {
        assert (x + tail)[1] == x[1] && (x + tail)[2] == x[2];
      }
    }
    ReplaceSkips(x, tail, EscapedColon, ":");
  }

  lemma {:induction false} EscapeAllNotColon(bs: seq<Byte>, tail: string)
    requires forall k :: 0 <= k < |bs| ==> bs[k] != 58
    ensures Replace(EscapeAll(bs) + tail, EscapedColon, ":") == EscapeAll(bs) + Replace(tail, EscapedColon, ":")
  {
    if bs == [] {
      assert EscapeAll(bs) + tail == tail;
    } else {
      var rest := EscapeAll(bs[1..]) + tail;
      assert EscapeAll(bs) + tail == Escape(bs[0]) + rest;
      EscapeNotColon(bs[0], rest);
      EscapeAllNotColon(bs[1..], tail);
    }
  }

  lemma {:induction false} ReplaceCharAppend(a: string, b: string, x: char, y: char)
    ensures ReplaceChar(a + b, x, y) == ReplaceChar(a, x, y) + ReplaceChar(b, x, y)
  {
    var l := ReplaceChar(a + b, x, y);
    var r := ReplaceChar(a, x, y) + ReplaceChar(b, x, y);
    assert |l| == |r|;
    forall i | 0 <= i < |l|
      ensures l[i] == r[i]
    {
      if i >= |a| {
        assert (a + b)[i] == b[i - |a|];
      }
    }
  }

  lemma {:induction false} DottedIsEscapes(bs: seq<Byte>)
    ensures ReplaceChar(EscapeAll(bs), '%', '.') == Dotted(bs)
  {
    if bs != [] {
      DottedIsEscapes(bs[1..]);
      ReplaceCharAppend(Escape(bs[0]), EscapeAll(bs[1..]), '%', '.');
    }
  }

  /** The heading's first character, with a space made an underscore. */
  function Underscored(c: char): char {
    if c == ' ' then '_' else c
  }

  lemma QuoteStep(s: string)
    requires s != []
    ensures Quote(ReplaceChar(s, ' ', '_'))
      == EncodeChar(Underscored(s[0]), IsPyAlwaysSafe) + Quote(ReplaceChar(s[1..], ' ', '_'))
  {
    var u := ReplaceChar(s[1..], ' ', '_');
    assert ReplaceChar(s, ' ', '_') == [Underscored(s[0])] + u;
    assert ([Underscored(s[0])] + u)[1..] == u;
  }

  /** What the `%3A` replacement leaves of one character's encoding. */
  function ColonFixed(c: char): string {
    if c == ':' then ":" else EncodeChar(c, IsPyAlwaysSafe)
  }

  lemma ColonStep(c: char, e: string)
    ensures Replace(EncodeChar(c, IsPyAlwaysSafe) + e, EscapedColon, ":") == ColonFixed(c) + Replace(e, EscapedColon, ":")
  {
    var piece := EncodeChar(c, IsPyAlwaysSafe);
    if IsPyAlwaysSafe(c) {
      assert piece == [c];
      assert (piece + e)[1..] == e;
    } else if c == ':' {
      assert Utf8(c) == [58];
      assert piece == EscapedColon;
      assert (piece + e)[3..] == e;
    } else {
      assert forall k :: 0 <= k < |Utf8(c)| ==> Utf8(c)[k] != 58;
      EscapeAllNotColon(Utf8(c), e);
    }
  }

  lemma DotStep(c: char)
    ensures ReplaceChar(ColonFixed(Underscored(c)), '%', '.') == AnchorChar(c)
  {
    var d := Underscored(c);
    if !IsPyAlwaysSafe(d) && d != ':' {
      DottedIsEscapes(Utf8(d));
    }
  }

  /** One character at the front of the heading. */
  lemma AnchorStep(s: string)
    requires s != []
    ensures SectionNameToAnchor(s) == AnchorChar(s[0]) + SectionNameToAnchor(s[1..])
  {
    var d := Underscored(s[0]);
    var e := Quote(ReplaceChar(s[1..], ' ', '_'));
    QuoteStep(s);
    ColonStep(d, e);
    ReplaceCharAppend(ColonFixed(d), Replace(e, EscapedColon, ":"), '%', '.');
    DotStep(s[0]);
  }

  /** The anchor is the concatenation of the characters' forms: a space is
      `_`, a `:` stays, an always-safe character stays, and every other
      character is the `.XY` form of its UTF-8 bytes. */
  lemma {:induction false} SectionNameToAnchorPerChar(s: string)
    ensures SectionNameToAnchor(s) == AnchorOf(s)
  {
    if s != [] {
      AnchorStep(s);
      SectionNameToAnchorPerChar(s[1..]);
    }
  }

  /** A heading of always-safe characters is its own anchor. */
  lemma {:induction false} SafeHeadingUnchanged(s: string)
    requires forall i :: 0 <= i < |s| ==> IsPyAlwaysSafe(s[i])
    ensures SectionNameToAnchor(s) == s
  {
    SectionNameToAnchorPerChar(s);
    SafeAnchorOf(s);
  }

  lemma {:induction false} SafeAnchorOf(s: string)
    requires forall i :: 0 <= i < |s| ==> IsPyAlwaysSafe(s[i])
    ensures AnchorOf(s) == s
  {
    if s != [] {
      SafeAnchorOf(s[1..]);
      assert s == [s[0]] + s[1..];
    }
  }

  /** No space survives. */
  lemma {:induction false} AnchorHasNoSpace(s: string)
    ensures forall i :: 0 <= i < |SectionNameToAnchor(s)| ==> SectionNameToAnchor(s)[i] != ' '
  {
    SectionNameToAnchorPerChar(s);
    AnchorOfHasNoSpace(s);
  }

  lemma {:induction false} DottedHasNoSpace(bs: seq<Byte>)
    ensures forall i :: 0 <= i < |Dotted(bs)| ==> Dotted(bs)[i] != ' '
  {
    if bs != [] {
      DottedHasNoSpace(bs[1..]);
      var head := ['.', HexDigit(bs[0] / 16), HexDigit(bs[0] % 16)];
      assert forall i :: 3 <= i < |Dotted(bs)| ==> Dotted(bs)[i] == Dotted(bs[1..])[i - 3];
    }
  }

  lemma {:induction false} AnchorOfHasNoSpace(s: string)
    ensures forall i :: 0 <= i < |AnchorOf(s)| ==> AnchorOf(s)[i] != ' '
  {
    if s != [] {
      AnchorOfHasNoSpace(s[1..]);
      var head := AnchorChar(s[0]);
      if !IsPyAlwaysSafe(s[0]) && s[0] != ' ' && s[0] != ':' {
        DottedHasNoSpace(Utf8(s[0]));
      }
      assert forall i :: 0 <= i < |head| ==> head[i] != ' ';
      assert forall i :: |head| <= i < |AnchorOf(s)| ==> AnchorOf(s)[i] == AnchorOf(s[1..])[i - |head|];
    }
  }
}

=== FILE: snippet_rules.dfy ===
/** The default node replacement rules of `SnippetParserBase`, shared by
    `snippet_parser/core.py` and its older twin `snippet_parser/base.py`
    (which differ only in how they install themselves), together with what
    a rule gets to see of the node it replaces. */
module SnippetRules {
  import opened Wrappers
  import opened Strings
  import opened Wikicode

  const RefMarker := "ec5b89dc49c433a9521a139"
  const CitationNeededMarker := "7b94863f3091b449e6ab04d4"

  /** The fields of the localized configuration that the parsers read. */
  datatype ParserConfig = ParserConfig(
    citationNeededTemplates: seq<string>,
    wikilinkPrefixBlacklist: seq<string>,
    tagsBlacklist: seq<string>,
    templatesBlacklist: seq<string>)

  /** The one exception a rule can raise: `template.params[0]` on a
      template without parameters. */
  datatype StripError = IndexError

  /** A node's replacement: `None` when the rule returns `None`; `strip_code`
      drops it just like an empty string. */
  type Replacement = Result<Option<string>, StripError>

  /** What a rule sees of a template parameter: `unicode(param)` and the
      outcome of `param.value.strip_code()`, which only matters when the
      rule asks for it. */
  datatype ParamView = ParamView(raw: string, showkey: bool, stripped: Result<string, StripError>)

  datatype TemplateView = TemplateView(name: string, raw: string, params: seq<ParamView>)

  /** A tag with the outcome of the library's own strip of it (its stripped
      contents, or `None` when it has none or is invisible). */
  datatype TagView = TagView(tag: string, markup: Option<string>, selfClosing: bool, delegate: Result<Option<string>, StripError>)

  /** A wikilink with the outcome of the library's own strip of it (its text,
      or its title when it has none). */
  datatype LinkView = LinkView(title: string, delegate: Result<string, StripError>)

  /** `sp(params)`: one sanitized value for a single parameter, a list
      otherwise (also for none). */
  datatype SpValue = One(value: string) | Many(values: seq<string>)

  function StrippedAll(ps: seq<ParamView>): (r: Result<seq<string>, StripError>)
    ensures r.Ok? <==> forall i :: 0 <= i < |ps| ==> ps[i].stripped.Ok?
    ensures r.Ok? ==> |r.value| == |ps| && forall i :: 0 <= i < |ps| ==> r.value[i] == ps[i].stripped.value
  {
    if ps == [] then Ok([])
    else
      match ps[0].stripped
      case Err(e) => Err(e)
      case Ok(s) =>
        match StrippedAll(ps[1..])
        case Err(e) => Err(e)
        case Ok(rest) => Ok([s] + rest)
  }

  function Sp(ps: seq<ParamView>): (r: Result<SpValue, StripError>)
    ensures r.Ok? <==> forall i :: 0 <= i < |ps| ==> ps[i].stripped.Ok?
    ensures r.Ok? && |ps| == 1 ==> r.value == One(ps[0].stripped.value)
    ensures r.Ok? && |ps| != 1 ==> r.value.Many? && |r.value.values| == |ps|
  {
    match StrippedAll(ps)
    case Err(e) => Err(e)
    case Ok(vs) => Ok(if |vs| == 1 then One(vs[0]) else Many(vs))
  }

  /** `' '.join(map(unicode, params[:2]))`: the first two parameters as
      written, keys included. */
  function FirstTwoRaw(ps: seq<ParamView>): (r: string)
    ensures |ps| == 0 ==> r == ""
    ensures |ps| == 1 ==> r == ps[0].raw
    ensures |ps| >= 2 ==> r == ps[0].raw + " " + ps[1].raw
  {
    if |ps| == 0 then ""
    else if |ps| == 1 then ps[0].raw
    else
      JoinTwo(" ", ps[0].raw, ps[1].raw);
      Join(" ", [ps[0].raw, ps[1].raw])
  }

  /** The characters of a string as one-character strings: what Python's
      `str.join` iterates over when handed a string. */
  function Chars(s: string): (r: seq<string>)
    ensures |r| == |s|
    ensures forall i :: 0 <= i < |s| ==> r[i] == [s[i]]
  {
    if s == [] then [] else [[s[0]]] + Chars(s[1..])
  }

  /** `sep.join(sp(...))`. */
  function JoinSp(sep: string, v: SpValue): string {
    match v
    case One(s) => Join(sep, Chars(s))
    case Many(vs) => Join(sep, vs)
  }

  /** Joining the characters of a string with nothing gives it back, so
      `''.join(sp(param))` is the parameter's text. */
  lemma {:induction false} JoinCharsEmpty(s: string)
    ensures Join("", Chars(s)) == s
  {
    if |s| > 1 {
      JoinCharsEmpty(s[1..]);
      assert Chars(s)[1..] == Chars(s[1..]);
    }
  }

  /** `is_citation_needed(template)`. */
  predicate IsCitationNeeded(cfg: ParserConfig, name: string) {
    MatchesAny(name, cfg.citationNeededTemplates)
  }

  /** The stripped texts of the parameters written without a key, in
      order. */
  function PositionalTexts(ps: seq<ParamView>): (r: Result<string, StripError>)
    ensures r.Ok? <==> forall i :: 0 <= i < |ps| && !ps[i].showkey ==> ps[i].stripped.Ok?
  {
    if ps == [] then Ok("")
    else
      var rest := PositionalTexts(ps[1..]);
      if ps[0].showkey then rest
      else
        match ps[0].stripped
        case Err(e) => Err(e)
        case Ok(s) =>
          match rest
          case Err(e) => Err(e)
          case Ok(t) => Ok(s + t)
  }

  /** Parameters written `name=value` never reach the text. */
  lemma {:induction false} NamedParamIgnored(ps: seq<ParamView>, k: nat, q: ParamView)
    requires k <= |ps| && q.showkey
    ensures PositionalTexts(ps[..k] + [q] + ps[k..]) == PositionalTexts(ps)
    decreases k
  {
    if k > 0 {
      NamedParamIgnored(ps[1..], k - 1, q);
      assert (ps[..k] + [q] + ps[k..])[1..] == ps[1..][..k - 1] + [q] + ps[1..][k - 1..];
    } else {
      assert (ps[..k] + [q] + ps[k..])[1..] == ps;
    }
  }

  /** `strip_template` of the base class: a citation-needed template becomes
      the text of its positional parameters followed by the marker, any
      other template disappears. */
  function BaseStripTemplate(cfg: ParserConfig, t: TemplateView): (r: Replacement)
    ensures !IsCitationNeeded(cfg, t.name) ==> r == Ok(Some(""))
    ensures IsCitationNeeded(cfg, t.name) ==>
      (r.Ok? <==> PositionalTexts(t.params).Ok?)
      && (r.Ok? ==> r.value == Some(PositionalTexts(t.params).value + CitationNeededMarker))
  {
    if IsCitationNeeded(cfg, t.name) then
      match PositionalTexts(t.params)
      case Err(e) => Err(e)
      case Ok(s) => Ok(Some(s + CitationNeededMarker))
    else Ok(Some(""))
  }

  /** `strip_tag` of the base class. */
  function BaseStripTag(t: TagView): (r: Replacement)
    ensures t.tag == "ref" ==> r == Ok(Some(RefMarker))
    ensures t.tag == "dt" ==> r == Ok(Some(""))
    ensures t.tag == "dd" ==> r == Ok(Some(":"))
    ensures t.tag != "ref" && t.tag != "dt" && t.tag != "dd" ==> r == t.delegate
  {
    if t.tag == "ref" then Ok(Some(RefMarker))
    else if t.tag == "dt" then Ok(Some(""))
    else if t.tag == "dd" then Ok(Some(":"))
    else t.delegate
  }

  /** Some prefix of the blacklist starts the title. */
  predicate HasBlacklistedPrefix(title: string, prefixes: seq<string>) {
    exists i :: 0 <= i < |prefixes| && StartsWith(title, prefixes[i])
  }

  /** `strip_wikilink` of the base class. */
  function BaseStripWikilink(cfg: ParserConfig, l: LinkView): (r: Replacement)
    ensures HasBlacklistedPrefix(l.title, cfg.wikilinkPrefixBlacklist) ==> r == Ok(Some(""))
    ensures !HasBlacklistedPrefix(l.title, cfg.wikilinkPrefixBlacklist) ==>
      (r.Ok? <==> l.delegate.Ok?) && (r.Ok? ==> r.value == Some(l.delegate.value))
  {
    if HasBlacklistedPrefix(l.title, cfg.wikilinkPrefixBlacklist) then Ok(Some(""))
    else
      match l.delegate
      case Err(e) => Err(e)
      case Ok(s) => Ok(Some(s))
  }

  /** `strip_heading` of the base class: `Node.__strip__`, so a heading
      leaves nothing. */
  function BaseStripHeading(level: nat, title: string): (r: Replacement)
    ensures r == Ok(None)
  {
    Ok(None)
  }
}

=== FILE: sql_round_trip.dfy ===
/** The reference the `categorylinks` reader is checked against: tuples
    written out the way the dump writes them, and the proof that the reader
    gives their rows back. */
module SqlRoundTrip {
  import opened Wrappers
  import opened Strings
  import opened SqlValues
  import opened SqlSteps

  /** A tuple of the dump: page id, category name and the remaining
      columns, which start with a quoted sort key. */
  datatype Tuple = Tuple(pageid: string, catname: string, others: string)

  function TupleText(t: Tuple): string {
    t.pageid + ",'" + t.catname + "','" + t.others
  }

  /** The `VALUES` text of a non-empty list of tuples. */
  function Body(ts: seq<Tuple>): string
    requires ts != []
  {
    if |ts| == 1 then TupleText(ts[0]) else TupleText(ts[0]) + "),(" + Body(ts[1..])
  }

  function Written(ts: seq<Tuple>): string
    requires ts != []
  {
    "(" + Body(ts) + ");"
  }

  function RowOf(t: Tuple): Row {
    Row(t.pageid, t.catname)
  }

  function RowsOf(ts: seq<Tuple>): (r: seq<Row>)
    ensures |r| == |ts|
    ensures forall k :: 0 <= k < |ts| ==> r[k] == RowOf(ts[k])
  {
    if ts == [] then [] else [RowOf(ts[0])] + RowsOf(ts[1..])
  }

  /** The tuples the reader understands: no `)` anywhere, no `,` in the page
      id, and no quote in the category name, which must not be a lone `,`
      (that one makes the `','` search stop one character early). */
  predicate Readable(t: Tuple) {
    Avoids(t.pageid, ',') && Avoids(t.pageid, ')') && Avoids(t.catname, '\'') && Avoids(t.catname, ')')
    && t.catname != "," && Avoids(t.others, ')')
  }

  lemma TupleTextAvoids(t: Tuple)
    requires Readable(t)
    ensures Avoids(TupleText(t), ')')
  {
  }

  /** The first `,` of a tuple's text ends the page id. */
  lemma TupleTextComma(t: Tuple)
    requires Readable(t)
    ensures Find(TupleText(t), ",") == Some(|t.pageid|)
    ensures TupleText(t)[..|t.pageid|] == t.pageid
    ensures TupleText(t)[|t.pageid| + 1..] == "'" + t.catname + "','" + t.others
  {
    var s := TupleText(t);
    var p := |t.pageid|;
    assert s[p..p + 1] == ",";
    forall j | 0 <= j < p
      ensures !OccursAt(s, ",", j)
    {
      assert s[j] == t.pageid[j];
      NotAt(s, ",", j, 0);
    }
    FindFromFirst(s, ",", 0, p);
  }

  /** The first `','` after the page id closes the category name. */
  lemma CategoryEnd(catname: string, others: string)
    requires Avoids(catname, '\'') && catname != ","
    ensures Find("'" + catname + "','" + others, "','") == Some(|catname| + 1)
  {
    var rest := "'" + catname + "','" + others;
    var c := |catname|;
    assert rest[c + 1..c + 4] == "','";
    forall j | 0 <= j < c + 1
      ensures !OccursAt(rest, "','", j)
    {
      if j > 0 {
        assert rest[j] == catname[j - 1];
        NotAt(rest, "','", j, 0);
      } else if c == 0 {
        assert rest[1] == '\'';
        NotAt(rest, "','", 0, 1);
      } else if c == 1 {
        assert rest[1] == catname[0];
        assert catname == [catname[0]];
        NotAt(rest, "','", 0, 1);
      } else {
        assert rest[2] == catname[1];
        NotAt(rest, "','", 0, 2);
      }
    }
    FindFromFirst(rest, "','", 0, c + 1);
  }

  /** A readable tuple's text reads back as its row. */
  lemma ParseTupleText(t: Tuple)
    requires Readable(t)
    ensures ParseTuple(TupleText(t)) == Ok(RowOf(t))
  {
    TupleTextComma(t);
    CategoryEnd(t.catname, t.others);
    var rest := "'" + t.catname + "','" + t.others;
    var catname := "'" + t.catname + "'";
    assert rest[..|t.catname| + 2] == catname;
    assert PySlice(catname, 1, -1) == t.catname;
  }

  /** The text written for one tuple. */
  lemma WrittenOne(ts: seq<Tuple>)
    requires |ts| == 1
    ensures Written(ts) == "(" + TupleText(ts[0]) + ");"
    ensures RowsOf(ts) == [RowOf(ts[0])]
  {
  }

  /** The text written for several tuples: the first, then the rest. */
  lemma WrittenMore(ts: seq<Tuple>)
    requires |ts| > 1
    ensures Written(ts) == "(" + TupleText(ts[0]) + "),(" + Body(ts[1..]) + ");"
  {
    assert Body(ts) == TupleText(ts[0]) + "),(" + Body(ts[1..]);
  }

  /** The rows of several tuples: the first's, then the rest's. */
  lemma RowsMore(ts: seq<Tuple>)
    requires |ts| > 1
    ensures RowsOf(ts) == [RowOf(ts[0])] + RowsOf(ts[1..])
  {
  }

  lemma TailReadable(ts: seq<Tuple>)
    requires ts != [] && forall k :: 0 <= k < |ts| ==> Readable(ts[k])
    ensures forall k :: 0 <= k < |ts[1..]| ==> Readable(ts[1..][k])
  {
    forall k | 0 <= k < |ts[1..]|
      ensures Readable(ts[1..][k])
    {
      assert ts[1..][k] == ts[k + 1];
    }
  }

  /** The reader started at the `(` of written tuples somewhere inside
      `values` reads them all back. */
  lemma {:induction false} ParseFromWritten(values: string, start: nat, ts: seq<Tuple>)
    requires ts != [] && forall k :: 0 <= k < |ts| ==> Readable(ts[k])
    requires start <= |values| && values[start..] == Written(ts)
    ensures ParseFrom(values, start) == Ok(RowsOf(ts))
    decreases |ts|
  {
    var t0 := TupleText(ts[0]);
    TupleTextAvoids(ts[0]);
    ParseTupleText(ts[0]);
    if |ts| == 1 {
      WrittenOne(ts);
      ParseLast(values, start, t0, RowOf(ts[0]));
    } else {
      var tail := ts[1..];
      WrittenMore(ts);
      ParseMore(values, start, t0, RowOf(ts[0]), Body(tail));
      TailReadable(ts);
      ParseFromWritten(values, start + |t0| + 3, tail);
      RowsMore(ts);
    }
  }

  /** Reading written tuples gives one row per tuple, in order: the page id
      and the category name of each. */
  lemma ParseValuesWritten(ts: seq<Tuple>)
    requires ts != [] && forall k :: 0 <= k < |ts| ==> Readable(ts[k])
    ensures ParseValues(Written(ts)) == Ok(RowsOf(ts))
  {
    ParseFromWritten(Written(ts), 0, ts);
  }
}

=== FILE: sql_steps.dfy ===
/** The reader of the `categorylinks` dump one turn at a time: where its
    searches stop and what a turn reads, for a tuple text free of `)`. */
module SqlSteps {
  import opened Wrappers
  import opened Strings
  import opened SqlValues

  predicate Avoids(s: string, c: char) {
    forall i :: 0 <= i < |s| ==> s[i] != c
  }

  /** The leftmost occurrence: nothing at or after `start` before `pos`,
      and one at `pos`. */
  lemma FindFromFirst(s: string, pat: string, start: nat, pos: nat)
    requires start <= pos && OccursAt(s, pat, pos)
    requires forall j :: start <= j < pos ==> !OccursAt(s, pat, j)
    ensures FindFrom(s, pat, start) == Some(pos)
  {
  }

  /** A character that differs from the pattern's rules out an occurrence. */
  lemma NotAt(s: string, pat: string, j: nat, k: nat)
    requires k < |pat| && j + k < |s| && s[j + k] != pat[k]
    ensures !OccursAt(s, pat, j)
  {
    if j + |pat| <= |s| {
      assert s[j..j + |pat|][k] == s[j + k];
    }
  }

  /** A slice of a suffix is a slice of the whole. */
  lemma SliceOfSuffix(values: string, start: nat, i: nat, j: nat)
    requires start <= |values| && i <= j <= |values| - start
    ensures values[start..][i..j] == values[start + i..start + j]
    ensures values[start..][i..] == values[start + i..]
  {
  }

  /** The turn at the `(` of the last tuple: no `),(` follows, and the `);`
      closing the text ends the tuple. */
  lemma TurnAtLast(values: string, start: nat, t0: string)
    requires Avoids(t0, ')') && start <= |values|
    requires values[start..] == "(" + t0 + ");"
    ensures Turn(values, start) == Ok((t0, None))
  {
    var last := |values| - 2;
    var w := values[start..];
    assert values[start] == w[0];
    assert |values| == start + |t0| + 3;
    assert values[last..last + 2] == ");" by {
      SliceOfSuffix(values, start, |t0| + 1, |t0| + 3);
      assert w[|t0| + 1..|t0| + 3] == ");";
    }
    forall j | start + 1 <= j < last
      ensures values[j] != ')'
    {
      assert values[j] == w[j - start];
      assert w[j - start] == t0[j - start - 1];
    }
    forall j | start + 1 <= j
      ensures !OccursAt(values, "),(", j)
    {
      if j < last {
        NotAt(values, "),(", j, 0);
      }
    }
    forall j | start + 1 <= j < last
      ensures !OccursAt(values, ");", j)
    {
      NotAt(values, ");", j, 0);
    }
    FindFromFirst(values, ");", start + 1, last);
    SliceOfSuffix(values, start, 1, |t0| + 1);
    assert w[1..|t0| + 1] == t0;
    assert PySlice(values, start + 1, last) == t0;
  }

  /** The last tuple reads as its row alone. */
  lemma ParseLast(values: string, start: nat, t0: string, row: Row)
    requires Avoids(t0, ')') && ParseTuple(t0) == Ok(row) && start <= |values|
    requires values[start..] == "(" + t0 + ");"
    ensures ParseFrom(values, start) == Ok([row])
  {
    TurnAtLast(values, start, t0);
  }

  /** Where the reader's search stops when another tuple follows. */
  lemma NextTupleFinds(values: string, start: nat, t0: string)
    requires Avoids(t0, ')') && start + |t0| + 4 <= |values|
    requires values[start + 1..start + 1 + |t0|] == t0
    requires values[start + 1 + |t0|..start + 4 + |t0|] == "),("
    ensures FindFrom(values, "),(", start + 1) == Some(start + 1 + |t0|)
  {
    var tupend := start + 1 + |t0|;
    forall j | start + 1 <= j < tupend
      ensures !OccursAt(values, "),(", j)
    {
      assert values[j] == values[start + 1..tupend][j - start - 1];
      NotAt(values, "),(", j, 0);
    }
    FindFromFirst(values, "),(", start + 1, tupend);
  }

  /** One turn of the reader's loop over a tuple followed by `),(`. */
  lemma TurnBeforeNext(values: string, start: nat, t0: string)
    requires Avoids(t0, ')') && start + |t0| + 4 <= |values|
    requires values[start] == '('
    requires values[start + 1..start + 1 + |t0|] == t0
    requires values[start + 1 + |t0|..start + 4 + |t0|] == "),("
    ensures Turn(values, start) == Ok((t0, Some(start + |t0| + 3)))
  {
    NextTupleFinds(values, start, t0);
    assert PySlice(values, start + 1, start + 1 + |t0|) == t0;
  }

  /** A row put in front of what the rest of the loop reads. */
  function Then(row: Row, rest: Result<seq<Row>, SqlError>): Result<seq<Row>, SqlError> {
    if rest.Err? then rest else Ok([row] + rest.value)
  }

  /** The loop after a turn that leaves more to read. */
  lemma ParseFromAfterTurn(values: string, start: nat, t0: string, row: Row, next: nat)
    requires Turn(values, start) == Ok((t0, Some(next))) && next <= |values|
    requires ParseTuple(t0) == Ok(row)
    ensures ParseFrom(values, start) == Then(row, ParseFrom(values, next))
  {
  }

  /** The pieces of `(t0),(b);`. */
  lemma WrittenPieces(w: string, t0: string, b: string)
    requires w == "(" + t0 + "),(" + b + ");"
    ensures w[0] == '(' && w[1..1 + |t0|] == t0 && w[1 + |t0|..4 + |t0|] == "),("
    ensures w[|t0| + 3..] == "(" + b + ");"
  {
  }

  /** The reader at the `(` of a tuple followed by more: its row, then
      whatever the rest reads as, which starts at the next `(`. */
  lemma ParseMore(values: string, start: nat, t0: string, row: Row, b: string)
    requires Avoids(t0, ')') && ParseTuple(t0) == Ok(row)
    requires start <= |values| && values[start..] == "(" + t0 + "),(" + b + ");"
    ensures values[start + |t0| + 3..] == "(" + b + ");"
    ensures ParseFrom(values, start) == Then(row, ParseFrom(values, start + |t0| + 3))
  {
    var w := values[start..];
    WrittenPieces(w, t0, b);
    SliceOfSuffix(values, start, 1, 1 + |t0|);
    SliceOfSuffix(values, start, 1 + |t0|, 4 + |t0|);
    SliceOfSuffix(values, start, |t0| + 3, |t0| + 3);
    assert values[start] == w[0];
    TurnBeforeNext(values, start, t0);
    ParseFromAfterTurn(values, start, t0, row, start + |t0| + 3);
  }
}

=== FILE: sql_values.dfy ===
/** The hand-written reader of the `categorylinks` SQL dump shared by
    `scripts/parse_catlinks.py` and `scripts/extract_unsourced_pageids.py`:
    the `VALUES` part of an `INSERT` line is cut into tuples, and each tuple
    gives a page id and a category name. */
module SqlValues {
  import opened Wrappers
  import opened Strings

  /** The first two columns of a `categorylinks` tuple. */
  datatype Row = Row(pageid: string, catname: string)

  /** How the reader gives up: a failed `assert`, an index past the end of a
      string, or a tuple without a `,` to unpack around. */
  datatype SqlError = AssertionFailed | IndexOutOfRange | NotEnoughValues

  /** `UNSOURCED_STMTS_CAT_NAME_`: the category name with spaces turned
      into underscores, as the dump writes it. */
  const UnsourcedCategory: string := "All_articles_with_unsourced_statements"

  /** Python's `s[a:b]`: negative bounds count from the end, and both are
      clamped to the string. */
  function PySlice(s: string, a: int, b: int): (r: string)
    ensures 0 <= a <= b <= |s| ==> r == s[a..b]
    ensures |s| >= 2 && a == 1 && b == -1 ==> r == s[1..|s| - 1]
    ensures |s| < 2 && a == 1 && b == -1 ==> r == []
  {
    var n := |s|;
    var lo := if a < 0 then (if a + n < 0 then 0 else a + n) else (if a > n then n else a);
    var hi := if b < 0 then (if b + n < 0 then 0 else b + n) else (if b > n then n else b);
    if lo >= hi then [] else s[lo..hi]
  }

  /** The text between a tuple's parentheses: the page id is what precedes
      the first `,`; the category is the quoted text up to the first `','`
      after it, without the quotes. */
  function ParseTuple(t: string): (r: Result<Row, SqlError>)
    ensures r.Ok? ==> !Contains(r.value.pageid, ",") && StartsWith(t, r.value.pageid + ",'")
  {
    match Find(t, ",")
    case None => Err(NotEnoughValues)
    case Some(i) =>
      var pageid := t[..i];
      var rest := t[i + 1..];
      match Find(rest, "','")
      case None => Err(IndexOutOfRange)
      case Some(j) =>
        var catname := rest[..j + 1];
        if catname[0] != '\'' || catname[|catname| - 1] != '\'' then Err(AssertionFailed)
        else
          assert !Contains(pageid, ",") by {
            forall k | 0 <= k <= |pageid| && OccursAt(pageid, ",", k)
              ensures false
            {
              assert OccursAt(t, ",", k);
            }
          }
          assert t[..i + 2] == pageid + ",'" by {
            assert t[i] == ',';
            assert t[i + 1] == rest[0];
          }
          Ok(Row(pageid, PySlice(catname, 1, -1)))
  }

  /** `None` as Python's `-1`. */
  function FoundAt(r: Option<nat>): int {
    if r.Some? then r.value else -1
  }

  /** The positions one turn of the loop of `sql_val_parser` works out at
      `tupstart`: the text of the tuple, which the next `),(` ends, and the
      start of the next turn at that `(`; when there is no `),(`, the tuple
      must be the last one, closed by the `);` that ends the text, and there
      is no next turn. */
  function Turn(values: string, tupstart: nat): (r: Result<(string, Option<nat>), SqlError>)
    ensures r.Ok? && r.value.1.Some? ==> tupstart < r.value.1.value
    ensures r.Ok? && r.value.1.None? && r.value.0 != "" ==> EndsWith(values, ");")
  {
    if tupstart >= |values| then Err(IndexOutOfRange)
    else if values[tupstart] != '(' then Err(AssertionFailed)
    else
      match FindFrom(values, "),(", tupstart + 1)
      case Some(tupend) => Ok((PySlice(values, tupstart + 1, tupend), Some(tupend + 2)))
      case None =>
        var tupend := FoundAt(FindFrom(values, ");", tupstart + 1));
        if tupend != |values| - 2 then Err(AssertionFailed)
        else Ok((PySlice(values, tupstart + 1, tupend), None))
  }

  /** The loop of `sql_val_parser` from the tuple starting at `tupstart`:
      each turn's tuple is read before the next turn begins. */
  function ParseFrom(values: string, tupstart: nat): (r: Result<seq<Row>, SqlError>)
    ensures r.Ok? ==> |r.value| >= 1 && EndsWith(values, ");")
    decreases |values| - tupstart
  {
    var turn := Turn(values, tupstart);
    if turn.Err? then Err(turn.error)
    else
      var row := ParseTuple(turn.value.0);
      if row.Err? then Err(row.error)
      else if turn.value.1.None? then Ok([row.value])
      else if turn.value.1.value > |values| then Err(IndexOutOfRange)
      else
        var rest := ParseFrom(values, turn.value.1.value);
        if rest.Err? then rest else Ok([row.value] + rest.value)
  }

  /** `sql_val_parser(values)` of `scripts/parse_catlinks.py`: one row per
      tuple, in order. */
  function ParseValues(values: string): Result<seq<Row>, SqlError> {
    ParseFrom(values, 0)
  }

  /** The page ids of the rows in the unsourced-statements category, in
      order. */
  function UnsourcedIds(rows: seq<Row>): (r: seq<string>)
    ensures |r| <= |rows|
    ensures forall k :: 0 <= k < |r| ==> exists i :: 0 <= i < |rows| && rows[i] == Row(r[k], UnsourcedCategory)
  {
    if rows == [] then []
    else
      var rest := UnsourcedIds(rows[1..]);
      assert forall i :: 1 <= i < |rows| ==> rows[i] == rows[1..][i - 1];
      if rows[0].catname == UnsourcedCategory then [rows[0].pageid] + rest else rest
  }

  /** `sql_val_parser(values)` of `scripts/extract_unsourced_pageids.py`:
      the same walk over the tuples, keeping only the page ids in the
      unsourced-statements category. */
  function UnsourcedPageIds(values: string): (r: Result<seq<string>, SqlError>)
    ensures r.Ok? <==> ParseValues(values).Ok?
  {
    match ParseValues(values)
    case Err(e) => Err(e)
    case Ok(rows) => Ok(UnsourcedIds(rows))
  }

  /** A page is in the unsourced category's output as often as it has rows
      there. */
  lemma {:induction false} UnsourcedIdsExact(rows: seq<Row>, pageid: string)
    ensures multiset(UnsourcedIds(rows))[pageid] == multiset(rows)[Row(pageid, UnsourcedCategory)]
  {
    if rows != [] {
      var rest := rows[1..];
      UnsourcedIdsExact(rest, pageid);
      assert rows == [rows[0]] + rest;
      MultisetCons(rows[0], rest, Row(pageid, UnsourcedCategory));
      if rows[0].catname == UnsourcedCategory {
        assert UnsourcedIds(rows) == [rows[0].pageid] + UnsourcedIds(rest);
        MultisetCons(rows[0].pageid, UnsourcedIds(rest), pageid);
      } else {
        assert UnsourcedIds(rows) == UnsourcedIds(rest);
      }
    }
  }

  lemma MultisetCons<T>(h: T, t: seq<T>, x: T)
    ensures multiset([h] + t)[x] == (if h == x then 1 else 0) + multiset(t)[x]
  {
    assert multiset([h] + t) == multiset([h]) + multiset(t);
  }
}

=== FILE: strings.dfy ===
/** String operations with Python 2 semantics, shared by the models of the
    Python modules: whitespace stripping, `find`, `split`/`join`, `replace`,
    `count` and ASCII case folding. Strings are sequences of code points. */
module Strings {
  import opened Wrappers

  /** The characters `\s` matches in a Python 2 regular expression without
      `re.UNICODE`, which is also what `str.strip()` removes from ASCII text. */
  predicate IsSpace(c: char) {
    c == ' ' || c == '\t' || c == '\n' || c == '\r' || c == '\U{000B}' || c == '\U{000C}'
  }

  /** The characters JavaScript's `String.prototype.trim` removes: white
      space (tab, vertical tab, form feed, space, no-break space, byte order
      mark and the Unicode space separators) and line terminators. */
  predicate IsJsSpace(c: char) {
    c == '\t' || c == '\n' || c == '\U{000B}' || c == '\U{000C}' || c == '\r' || c == ' '
    || c == '\U{00A0}' || c == '\U{1680}' || ('\U{2000}' <= c <= '\U{200A}')
    || c == '\U{2028}' || c == '\U{2029}' || c == '\U{202F}' || c == '\U{205F}'
    || c == '\U{3000}' || c == '\U{FEFF}'
  }

  /** JavaScript's `s.trim()`. */
  function JsTrim(s: string): string {
    StripBy(s, IsJsSpace)
  }

  predicate IsAsciiDigit(c: char) {
    '0' <= c <= '9'
  }

  /** `s.isdigit()` on ASCII text: non-empty and all decimal digits. */
  predicate IsDigits(s: string) {
    |s| > 0 && forall i :: 0 <= i < |s| ==> IsAsciiDigit(s[i])
  }

  /** Removes the longest prefix whose characters satisfy `p`. */
  function LStripBy(s: string, p: char -> bool): (r: string)
    ensures |r| <= |s| && r == s[|s| - |r|..]
    ensures r == [] || !p(r[0])
    ensures forall i :: 0 <= i < |s| - |r| ==> p(s[i])
  {
    if s == [] || !p(s[0]) then s else LStripBy(s[1..], p)
  }

  /** Removes the longest suffix whose characters satisfy `p`. */
  function RStripBy(s: string, p: char -> bool): (r: string)
    ensures |r| <= |s| && r == s[..|r|]
    ensures r == [] || !p(r[|r| - 1])
    ensures forall i :: |r| <= i < |s| ==> p(s[i])
  {
    if s == [] || !p(s[|s| - 1]) then s else RStripBy(s[..|s| - 1], p)
  }

  /** `s.strip(chars)` for the character class `p`. */
  function StripBy(s: string, p: char -> bool): string {
    RStripBy(LStripBy(s, p), p)
  }

  /** Text whose ends are not stripped is its own strip. */
  lemma StripByKeeps(s: string, p: char -> bool)
    requires s != [] ==> !p(s[0]) && !p(s[|s| - 1])
    ensures StripBy(s, p) == s
  {
    assert LStripBy(s, p) == s;
  }

  /** Appending a character to the text: the left strip either still
      consumes everything or keeps the new character. */
  lemma {:induction false} LStripByAppend(t: string, c: char, p: char -> bool)
    ensures LStripBy(t + [c], p) == if LStripBy(t, p) == [] then LStripBy([c], p) else LStripBy(t, p) + [c]
  {
    if t != [] {
      assert (t + [c])[1..] == t[1..] + [c];
      if p(t[0]) {
        LStripByAppend(t[1..], c, p);
      }
    } else {
      assert t + [c] == [c];
    }
  }

  /** A trailing character of the class does not change the strip. */
  lemma StripByIgnoresTrailing(t: string, c: char, p: char -> bool)
    requires p(c)
    ensures StripBy(t + [c], p) == StripBy(t, p)
  {
    LStripByAppend(t, c, p);
    if LStripBy(t, p) != [] {
      var l := LStripBy(t, p) + [c];
      assert l[..|l| - 1] == LStripBy(t, p);
    }
  }

  /** `s.strip()`. */
  function Strip(s: string): string {
    StripBy(s, IsSpace)
  }

  /** `s.rstrip()`. */
  function RStrip(s: string): string {
    RStripBy(s, IsSpace)
  }

  predicate StartsWith(s: string, prefix: string) {
    |prefix| <= |s| && s[..|prefix|] == prefix
  }

  predicate EndsWith(s: string, suffix: string) {
    |suffix| <= |s| && s[|s| - |suffix|..] == suffix
  }

  /** A concatenation starts with its first part and ends with its second. */
  lemma AppendEnds(a: string, b: string)
    ensures StartsWith(a + b, a) && EndsWith(a + b, b)
  {
    assert (a + b)[..|a|] == a;
    assert (a + b)[|a + b| - |b|..] == b;
  }

  /** A text framed by a prefix and a suffix starts and ends with them, and
      cutting both off gives it back. */
  lemma Framed(pre: string, mid: string, post: string)
    ensures var r := pre + mid + post;
            StartsWith(r, pre) && EndsWith(r, post) && r[|pre|..|r| - |post|] == mid
  {
    var r := pre + mid + post;
    assert r[..|pre|] == pre;
    assert r[|r| - |post|..] == post;
    assert r[|pre|..|r| - |post|] == mid;
  }

  /** `pat` occurs in `s` at index `i`. */
  predicate OccursAt(s: string, pat: string, i: int) {
    0 <= i && i + |pat| <= |s| && s[i..i + |pat|] == pat
  }

  /** `s.find(pat, start)`: the leftmost occurrence at or after `start`,
      `None` standing for Python's `-1`. */
  function FindFrom(s: string, pat: string, start: nat): (r: Option<nat>)
    ensures r.Some? ==> start <= r.value && OccursAt(s, pat, r.value)
    ensures r.Some? ==> forall j :: start <= j < r.value ==> !OccursAt(s, pat, j)
    ensures r.None? ==> forall j :: start <= j ==> !OccursAt(s, pat, j)
    decreases |s| - start
  {
    if start + |pat| > |s| then None
    else if s[start..start + |pat|] == pat then Some(start)
    else FindFrom(s, pat, start + 1)
  }

  function Find(s: string, pat: string): Option<nat> {
    FindFrom(s, pat, 0)
  }

  /** `pat in s`. */
  predicate Contains(s: string, pat: string) {
    exists i :: 0 <= i <= |s| && OccursAt(s, pat, i)
  }

  lemma FindIffContains(s: string, pat: string)
    ensures Find(s, pat).Some? <==> Contains(s, pat)
  {
    if Find(s, pat).Some? {
      assert OccursAt(s, pat, Find(s, pat).value);
    }
  }

  /** `s.split(sep)` for a non-empty separator: the pieces between the
      leftmost non-overlapping occurrences of `sep`. */
  function Split(s: string, sep: string): (r: seq<string>)
    requires |sep| > 0
    ensures |r| >= 1
    ensures forall k :: 0 <= k < |r| ==> !Contains(r[k], sep)
    decreases |s|
  {
    match Find(s, sep)
    case None =>
      FindIffContains(s, sep);
      [s]
    case Some(i) =>
      var head := s[..i];
      assert !Contains(head, sep) by {
        forall j | OccursAt(head, sep, j) ensures false {
          assert OccursAt(s, sep, j);
        }
      }
      [head] + Split(s[i + |sep|..], sep)
  }

  /** `sep.join(parts)`. */
  function Join(sep: string, parts: seq<string>): string {
    if parts == [] then []
    else if |parts| == 1 then parts[0]
    else parts[0] + sep + Join(sep, parts[1..])
  }

  lemma JoinTwo(sep: string, a: string, b: string)
    ensures Join(sep, [a, b]) == a + sep + b
  {
    assert [a, b][1..] == [b];
  }

  /** Splitting and joining with the same separator gives the text back. */
  lemma {:induction false} JoinSplit(s: string, sep: string)
    requires |sep| > 0
    ensures Join(sep, Split(s, sep)) == s
    decreases |s|
  {
    match Find(s, sep)
    case None =>
    case Some(i) =>
      var rest := s[i + |sep|..];
      var tail := Split(rest, sep);
      assert Split(s, sep) == [s[..i]] + tail;
      JoinSplit(rest, sep);
      assert ([s[..i]] + tail)[1..] == tail;
      assert Join(sep, [s[..i]] + tail) == s[..i] + sep + Join(sep, tail);
      assert s == s[..i] + sep + rest;
  }

  /** `s.replace(pat, rep)`: leftmost non-overlapping occurrences of a
      non-empty `pat` are replaced, scanning left to right. */
  function Replace(s: string, pat: string, rep: string): string
    requires |pat| > 0
    decreases |s|
  {
    if StartsWith(s, pat) then rep + Replace(s[|pat|..], pat, rep)
    else if s == [] then []
    else [s[0]] + Replace(s[1..], pat, rep)
  }

  /** Replacing by a text no longer than the pattern never lengthens the
      string, and shortens it when the pattern occurs. */
  lemma {:induction false} ReplaceShortens(s: string, pat: string, rep: string)
    requires |pat| > 0 && |rep| < |pat|
    ensures |Replace(s, pat, rep)| <= |s|
    ensures Contains(s, pat) ==> |Replace(s, pat, rep)| < |s|
    decreases |s|
  {
    if StartsWith(s, pat) {
      ReplaceShortens(s[|pat|..], pat, rep);
    } else if s != [] {
      ReplaceShortens(s[1..], pat, rep);
      if Contains(s, pat) {
        var i :| 0 <= i <= |s| && OccursAt(s, pat, i);
        assert i != 0;
        assert s[1..][i - 1..i - 1 + |pat|] == s[i..i + |pat|];
        assert OccursAt(s[1..], pat, i - 1);
      }
    }
  }

  /** A last character that cannot end an occurrence stays last. */
  lemma {:induction false} ReplaceKeepsLast(s: string, pat: string, rep: string)
    requires |pat| > 0 && |s| > 0 && s[|s| - 1] != pat[|pat| - 1]
    ensures |Replace(s, pat, rep)| > 0
    ensures Replace(s, pat, rep)[|Replace(s, pat, rep)| - 1] == s[|s| - 1]
    decreases |s|
  {
    if StartsWith(s, pat) {
      assert |s| > |pat|;
      ReplaceKeepsLast(s[|pat|..], pat, rep);
    } else if |s| > 1 {
      ReplaceKeepsLast(s[1..], pat, rep);
    }
  }

  /** `s.count(pat)`: the number of leftmost non-overlapping occurrences. */
  function Count(s: string, pat: string): (n: nat)
    requires |pat| > 0
    ensures n * |pat| <= |s|
    decreases |s|
  {
    if StartsWith(s, pat) then 1 + Count(s[|pat|..], pat)
    else if s == [] then 0
    else Count(s[1..], pat)
  }

  /** Replaces every occurrence of the character `a` by `b`. */
  function ReplaceChar(s: string, a: char, b: char): (r: string)
    ensures |r| == |s|
    ensures forall i :: 0 <= i < |s| ==> r[i] == (if s[i] == a then b else s[i])
  {
    if s == [] then [] else [if s[0] == a then b else s[0]] + ReplaceChar(s[1..], a, b)
  }

  function LowerChar(c: char): char {
    if 'A' <= c <= 'Z' then (c as int + 32) as char else c
  }

  function UpperChar(c: char): char {
    if 'a' <= c <= 'z' then (c as int - 32) as char else c
  }

  /** The characters Python 2's `unicode.strip()` and `unicode.isspace()`
      treat as white space. */
  predicate IsUnicodeSpace(c: char) {
    ('\t' <= c <= '\r') || ('\U{001C}' <= c <= ' ') || c == '\U{0085}' || c == '\U{00A0}'
    || c == '\U{1680}' || c == '\U{180E}' || ('\U{2000}' <= c <= '\U{200A}')
    || c == '\U{2028}' || c == '\U{2029}' || c == '\U{202F}' || c == '\U{205F}' || c == '\U{3000}'
  }

  /** `s.strip()` on a Python 2 unicode string. */
  function UStrip(s: string): string {
    StripBy(s, IsUnicodeSpace)
  }

  /** `c.upper()` on one Python 2 unicode character, for the Latin (ASCII and
      Latin-1) and basic Cyrillic letters; other characters are kept. */
  function UnicodeUpper(c: char): char {
    if 'a' <= c <= 'z' then (c as int - 32) as char
    else if '\U{00E0}' <= c <= '\U{00FE}' && c != '\U{00F7}' then (c as int - 32) as char
    else if c == '\U{00FF}' then '\U{0178}'
    else if c == '\U{00B5}' then '\U{039C}'
    else if '\U{0430}' <= c <= '\U{044F}' then (c as int - 32) as char
    else if '\U{0450}' <= c <= '\U{045F}' then (c as int - 80) as char
    else c
  }

  /** `s.lower()` restricted to ASCII letters. */
  function Lower(s: string): (r: string)
    ensures |r| == |s|
    ensures forall i :: 0 <= i < |s| ==> r[i] == LowerChar(s[i])
  {
    if s == [] then [] else [LowerChar(s[0])] + Lower(s[1..])
  }
}

=== FILE: strip_code.dfy ===
/** `Wikicode.strip_code()` with a snippet parser installed: every node is
    replaced by what the parser's rule for its kind returns (the rules see
    the library's own strip of the node's parts), the replacements are
    concatenated and the newlines collapsed. Which rules apply depends on
    the language module loaded. */
module StripCode {
  import opened Wrappers
  import opened Strings
  import opened Wikicode
  import opened SnippetRules
  import EnParser
  import DeParser
  import RuParser
  import FrParser
  import JaParser
  import SvParser
  import LegacyRules

  /** The rule sets: the base class of `core.py`/`base.py` itself, the
      language modules, and the two earlier extractors. */
  datatype Lang = Base | En | De | Ru | Fr | Ja | Sv | Scripts | Gather

  /** A parser: its rules, its configuration, and the library's table of
      tags whose contents are visible text. */
  datatype Parser = Parser(lang: Lang, cfg: ParserConfig, tagVisible: string -> bool)

  function TemplateRule(p: Parser, t: TemplateView): Replacement {
    match p.lang
    case Base => BaseStripTemplate(p.cfg, t)
    case En => EnParser.StripTemplate(p.cfg, t)
    case De => DeParser.StripTemplate(p.cfg, t)
    case Ru => RuParser.StripTemplate(p.cfg, t)
    case Fr => FrParser.StripTemplate(p.cfg, t)
    case Ja => JaParser.StripTemplate(p.cfg, t)
    case Sv => SvParser.StripTemplate(p.cfg, t)
    case Scripts => LegacyRules.ScriptsStripTemplate(t)
    case Gather => LegacyRules.GatherStripTemplate(t)
  }

  function TagRule(p: Parser, t: TagView): Replacement {
    match p.lang
    case De => DeParser.StripTag(t)
    case Scripts => LegacyRules.ScriptsStripTag(t)
    case Gather => LegacyRules.GatherStripTag(t)
    case _ => BaseStripTag(t)
  }

  function LinkRule(p: Parser, l: LinkView): Replacement {
    match p.lang
    case Scripts => LegacyRules.ScriptsStripWikilink(l)
    case Gather => (
      match l.delegate
      case Err(e) => Err(e)
      case Ok(s) => Ok(Some(s)))
    case _ => BaseStripWikilink(p.cfg, l)
  }

  function HeadingRule(p: Parser, level: nat, title: string): Replacement {
    match p.lang
    case De => DeParser.StripHeading(level, title)
    case _ => BaseStripHeading(level, title)
  }

  /** `strip_code()`: the collapsed concatenation of the replacements; the
      first exception raised by a rule aborts it. */
  function StripAll(p: Parser, ns: seq<Node>): (r: Result<string, StripError>)
    ensures r.Ok? ==> !Contains(r.value, "\n\n\n")
    ensures r.Ok? && r.value != [] ==> r.value[0] != '\n' && r.value[|r.value| - 1] != '\n'
    decreases ns, 1
  {
    match Pieces(p, ns)
    case Err(e) => Err(e)
    case Ok(s) => Ok(Collapse(s))
  }

  /** The replacements concatenated, before collapsing. */
  function Pieces(p: Parser, ns: seq<Node>): Result<string, StripError>
    decreases ns, 0
  {
    if ns == [] then Ok("")
    else
      match StripNode(p, ns[0])
      case Err(e) => Err(e)
      case Ok(head) =>
        match Pieces(p, ns[1..])
        case Err(e) => Err(e)
        case Ok(tail) => Ok(head.GetOr("") + tail)
  }

  /** The library's strip of a tag: its contents stripped, when it has
      contents and is a visible tag. */
  function TagDelegate(p: Parser, tag: string, contents: seq<Node>): Result<Option<string>, StripError>
    decreases contents, 2
  {
    if RenderAll(contents) != "" && p.tagVisible(tag) then
      match StripAll(p, contents)
      case Err(e) => Err(e)
      case Ok(s) => Ok(Some(s))
    else Ok(None)
  }

  /** The library's strip of a link: its text, or its title without one. */
  function LinkDelegate(p: Parser, title: string, hasText: bool, text: seq<Node>): Result<string, StripError>
    decreases text, 2
  {
    if hasText then StripAll(p, text) else Ok(Collapse(title))
  }

  function ParamViews(p: Parser, ps: seq<Param>): (r: seq<ParamView>)
    ensures |r| == |ps|
    ensures forall i :: 0 <= i < |ps| ==> r[i].showkey == ps[i].showkey && r[i].raw == RenderParam(ps[i])
    decreases ps
  {
    if ps == [] then []
    else [ParamView(RenderParam(ps[0]), ps[0].showkey, StripAll(p, ps[0].value))] + ParamViews(p, ps[1..])
  }

  /** The replacement of one node. */
  function StripNode(p: Parser, n: Node): Replacement
    decreases n
  {
    match n
    case Text(v) => Ok(Some(v))
    case Comment(_) => Ok(None)
    case Template(name, params) => TemplateRule(p, TemplateView(name, Render(n), ParamViews(p, params)))
    case Tag(tag, contents, markup, selfClosing) =>
      TagRule(p, TagView(tag, markup, selfClosing, TagDelegate(p, tag, contents)))
    case Wikilink(title, hasText, text) => LinkRule(p, LinkView(title, LinkDelegate(p, title, hasText, text)))
    case Heading(level, title) => HeadingRule(p, level, title)
  }
}

=== FILE: sv_parser.dfy ===
/** The Swedish snippet parser (`snippet_parser/sv.py`): only templates
    are treated differently from the base class. */
module SvParser {
  import opened Wrappers
  import opened Wikicode
  import opened SnippetRules

  /** A citation-needed template becomes the bare marker, dropping its
      date and justification; anything else disappears. */
  function StripTemplate(cfg: ParserConfig, t: TemplateView): (r: Replacement)
    ensures IsCitationNeeded(cfg, t.name) <==> r == Ok(Some(CitationNeededMarker))
    ensures !IsCitationNeeded(cfg, t.name) <==> r == Ok(Some(""))
  {
    if IsCitationNeeded(cfg, t.name) then Ok(Some(CitationNeededMarker)) else Ok(Some(""))
  }

  /** Unlike the base class, no parameter text reaches the snippet. */
  lemma ParamsNeverKept(cfg: ParserConfig, t: TemplateView, ps: seq<ParamView>)
    ensures StripTemplate(cfg, t.(params := ps)) == StripTemplate(cfg, t)
  {
  }
}

=== FILE: throttle.dfy ===
/** The leading/trailing-edge rate limiter `throttle(func, wait, options)` of
    static/js/search_bar.js, as a state record driven by two kinds of event:
    a call of the throttled function at time `now`, and the firing of the
    pending trailing timer. Calling `func` is recorded as a run carrying the
    receiver/arguments it was applied to (`None` for JavaScript's `null`). */
module Throttle {
  import opened Wrappers

  /** The value of `Date.now()`: milliseconds since the epoch, so positive,
      and `!previous` holds exactly when `previous == 0`. */
  type Millis = t: int | t > 0 witness 1

  /** `leading` is `options.leading !== false`, `trailing` is
      `options.trailing !== false`; `throttle(f, w)` has both. */
  datatype Options = Options(leading: bool, trailing: bool)

  const Defaults: Options := Options(true, true)

  /** `previous`, the due time of the pending `timeout` (the trailing call of
      `later`), and the saved `context`/`args`. */
  datatype State<A> = State(previous: int, timer: Option<int>, saved: Option<A>)

  function Init<A>(): State<A> {
    State(0, None, None)
  }

  /** The state after an event and the runs of `func` it caused, in order. */
  datatype Step<A> = Step(next: State<A>, runs: seq<Option<A>>)

  /** The window start seen by a call at `now`: seeded to `now` by the first
      call when `leading` is off. */
  function WindowStart<A>(opts: Options, s: State<A>, now: Millis): int {
    if s.previous == 0 && !opts.leading then now else s.previous
  }

  function Remaining<A>(opts: Options, wait: int, s: State<A>, now: Millis): int {
    wait - (now - WindowStart(opts, s, now))
  }

  /** The throttled function is called at `now` with `a`. */
  function Call<A>(opts: Options, wait: int, s: State<A>, now: Millis, a: A): (r: Step<A>)
    // Runs at once exactly when the window is over (or the clock went backwards),
    // and then restarts the window at `now` with no timer and nothing saved.
    ensures var rem := Remaining(opts, wait, s, now);
            (rem <= 0 || rem > wait) <==> r.runs == [Some(a)]
    ensures var rem := Remaining(opts, wait, s, now);
            (rem <= 0 || rem > wait) ==> r.next == State(now, None, None)
    // Otherwise nothing runs, the arguments are remembered, and a trailing
    // timer for the end of the window is set unless one is already pending.
    ensures var rem := Remaining(opts, wait, s, now);
            !(rem <= 0 || rem > wait) ==> r.runs == []
    ensures r.runs == [] ==>
              && r.next.saved == Some(a)
              && r.next.previous == WindowStart(opts, s, now)
              && r.next.timer == (if s.timer.None? && opts.trailing
                                  then Some(WindowStart(opts, s, now) + wait) else s.timer)
    ensures |r.runs| <= 1
  {
    var previous := WindowStart(opts, s, now);
    var remaining := wait - (now - previous);
    if remaining <= 0 || remaining > wait then
      Step(State(now, None, None), [Some(a)])
    else if s.timer.None? && opts.trailing then
      Step(State(previous, Some(now + remaining), Some(a)), [])
    else
      Step(State(previous, s.timer, Some(a)), [])
  }

  /** The pending timer (if any) fires at `now` and runs `later`. */
  function Fire<A>(opts: Options, s: State<A>, now: Millis): (r: Step<A>)
    ensures s.timer.None? ==> r == Step(s, [])
    // `later` applies func to the saved arguments, restarts the window
    // (at 0 when `leading` is off) and clears the timer and the saved arguments.
    ensures s.timer.Some? ==>
              r.runs == [s.saved] &&
              r.next == State(if opts.leading then now else 0, None, None)
  {
    match s.timer
    case None => Step(s, [])
    case Some(_) => Step(State(if opts.leading then now else 0, None, None), [s.saved])
  }

  datatype Event<A> = CallAt(now: Millis, args: A) | FireAt(now: Millis) {
    function Time(): Millis {
      match this
      case CallAt(t, _) => t
      case FireAt(t) => t
    }
  }

  function Apply<A>(opts: Options, wait: int, s: State<A>, e: Event<A>): Step<A> {
    match e
    case CallAt(now, a) => Call(opts, wait, s, now, a)
    case FireAt(now) => Fire(opts, s, now)
  }

  /** A run of `func` at a time, with the arguments it received. */
  datatype Run<A> = Run(time: int, args: Option<A>)

  function Stamp<A>(t: int, runs: seq<Option<A>>): (r: seq<Run<A>>)
    ensures |r| == |runs|
    ensures forall k :: 0 <= k < |r| ==> r[k] == Run(t, runs[k])
  {
    if runs == [] then [] else [Run(t, runs[0])] + Stamp(t, runs[1..])
  }

  /** The state after a sequence of events, and every run of `func` it caused. */
  function Exec<A>(opts: Options, wait: int, s: State<A>, events: seq<Event<A>>): (State<A>, seq<Run<A>>)
    decreases |events|
  {
    if events == [] then (s, [])
    else
      var st := Apply(opts, wait, s, events[0]);
      var rest := Exec(opts, wait, st.next, events[1..]);
      (rest.0, Stamp(events[0].Time(), st.runs) + rest.1)
  }

  /** The saved arguments after `events`: those of the last call, unless a run
      consumed them since; `prior` are those saved before `events`. */
  function LastCallArgs<A>(prior: Option<A>, events: seq<Event<A>>): Option<A>
    decreases |events|
  {
    if events == [] then prior
    else
      var last := events[|events| - 1];
      if last.CallAt? then Some(last.args) else LastCallArgs(prior, events[..|events| - 1])
  }

  /** Whatever is saved is always the argument list of the most recent call,
      so a trailing run uses the latest call's arguments. */
  lemma {:induction false} SavedAreLatest<A>(opts: Options, wait: int, s: State<A>, events: seq<Event<A>>)
    ensures var f := Exec(opts, wait, s, events).0;
            f.saved.Some? ==> f.saved == LastCallArgs(s.saved, events)
    decreases |events|
  {
    if events != [] {
      var n := |events|;
      var st := Apply(opts, wait, s, events[0]);
      assert events[..1][..0] == [];
      SavedAreLatest(opts, wait, st.next, events[1..]);
      LastCallArgsCons(s.saved, st.next.saved, events);
    }
  }

  /** Peeling the first event off: after it, the saved arguments are those of
      that event if it was a call that did not run, else nothing. */
  lemma {:induction false} LastCallArgsCons<A>(prior: Option<A>, afterFirst: Option<A>, events: seq<Event<A>>)
    requires events != []
    requires afterFirst.Some? ==> afterFirst == LastCallArgs(prior, events[..1])
    ensures LastCallArgs(afterFirst, events[1..]).Some? ==>
              LastCallArgs(afterFirst, events[1..]) == LastCallArgs(prior, events)
    decreases |events|
  {
    var n := |events|;
    if n == 1 {
      assert events[1..] == [];
      assert events[..1] == events;
    } else {
      assert events[1..][..n - 2] == events[..n - 1][1..];
      assert events[..n - 1][..1] == events[..1];
      if !events[n - 1].CallAt? {
        LastCallArgsCons(prior, afterFirst, events[..n - 1]);
      }
    }
  }

  /** A pending trailing timer always has arguments to apply `func` to. */
  lemma {:induction false} TimerHasArgs<A>(opts: Options, wait: int, s: State<A>, events: seq<Event<A>>)
    requires s.timer.Some? ==> s.saved.Some?
    ensures var f := Exec(opts, wait, s, events).0;
            f.timer.Some? ==> f.saved.Some?
    decreases |events|
  {
    if events != [] {
      TimerHasArgs(opts, wait, Apply(opts, wait, s, events[0]).next, events[1..]);
    }
  }

  /** The trailing run fired after a sequence of events from the initial
      state is applied to the arguments of the last call in that sequence,
      never to `null`. */
  lemma TrailingRunUsesLatestArgs<A>(opts: Options, wait: int, events: seq<Event<A>>, now: Millis)
    ensures var s := Exec(opts, wait, Init(), events).0;
            var r := Fire(opts, s, now);
            r.runs != [] ==> r.runs == [LastCallArgs(None, events)] && r.runs[0].Some?
  {
    SavedAreLatest(opts, wait, Init(), events);
    TimerHasArgs(opts, wait, Init(), events);
  }

  /** With `leading: false` the first call only opens the window: it seeds
      `previous` with `now`, runs nothing and schedules the trailing run. */
  lemma FirstCallWithoutLeadingWaits<A>(wait: int, now: Millis, a: A)
    requires wait > 0
    ensures var r := Call(Options(false, true), wait, Init(), now, a);
            r.runs == [] && r.next == State(now, Some(now + wait), Some(a))
  {
  }

  /** The facts about a state that make runs at least `wait` apart: `t` is the
      time of the latest event, `last` the time of the latest run. */
  ghost predicate Spacing<A>(opts: Options, wait: int, s: State<A>, last: Option<int>, t: int) {
    && s.previous <= t
    && (s.timer.Some? ==> s.timer.value == s.previous + wait && (opts.leading || s.previous != 0))
    && (last.Some? ==>
          && last.value <= t
          && (if opts.leading then s.previous == last.value
              else s.previous == 0 || s.previous >= last.value))
  }

  /** The events come in clock order, none before `t`, and a timer never
      fires before it is due. */
  ghost predicate Timely<A>(opts: Options, wait: int, s: State<A>, t: int, events: seq<Event<A>>)
    decreases |events|
  {
    events == [] ||
    (&& events[0].Time() >= t
     && (events[0].FireAt? && s.timer.Some? ==> events[0].now >= s.timer.value)
     && Timely(opts, wait, Apply(opts, wait, s, events[0]).next, events[0].Time(), events[1..]))
  }

  /** Consecutive runs, the first measured from `last`, are `wait` apart. */
  ghost predicate SpacedRuns<A>(wait: int, last: Option<int>, log: seq<Run<A>>)
    decreases |log|
  {
    log == [] ||
    ((last.Some? ==> log[0].time - last.value >= wait) && SpacedRuns(wait, Some(log[0].time), log[1..]))
  }

  lemma StepKeepsSpacing<A>(opts: Options, wait: int, s: State<A>, last: Option<int>, t: int, e: Event<A>)
    requires Spacing(opts, wait, s, last, t)
    requires e.Time() >= t
    requires e.FireAt? && s.timer.Some? ==> e.now >= s.timer.value
    ensures var st := Apply(opts, wait, s, e);
            && (st.runs != [] ==> last.Some? ==> e.Time() - last.value >= wait)
            && Spacing(opts, wait, st.next, if st.runs != [] then Some(e.Time()) else last, e.Time())
  {
  }

  /** With a clock that never goes backwards and timers that never fire early,
      `func` never runs twice within `wait` milliseconds. */
  lemma {:induction false} RunsAreSpaced<A>(opts: Options, wait: int, s: State<A>, last: Option<int>, t: int, events: seq<Event<A>>)
    requires Spacing(opts, wait, s, last, t)
    requires Timely(opts, wait, s, t, events)
    ensures SpacedRuns(wait, last, Exec(opts, wait, s, events).1)
    decreases |events|
  {
    if events != [] {
      var e := events[0];
      var st := Apply(opts, wait, s, e);
      StepKeepsSpacing(opts, wait, s, last, t, e);
      var last' := if st.runs != [] then Some(e.Time()) else last;
      RunsAreSpaced(opts, wait, st.next, last', e.Time(), events[1..]);
      var tail := Exec(opts, wait, st.next, events[1..]).1;
      if st.runs != [] {
        assert Exec(opts, wait, s, events).1 == [Run(e.Time(), st.runs[0])] + tail;
        assert ([Run(e.Time(), st.runs[0])] + tail)[1..] == tail;
      } else {
        assert Exec(opts, wait, s, events).1 == tail;
      }
    }
  }

  /** From the initial state every timely trace has its runs `wait` apart. */
  lemma InitialRunsAreSpaced<A>(opts: Options, wait: int, events: seq<Event<A>>)
    requires Timely(opts, wait, Init(), 0, events)
    ensures SpacedRuns(wait, None, Exec(opts, wait, Init(), events).1)
  {
    RunsAreSpaced(opts, wait, Init<A>(), None, 0, events);
  }

  /** With `wait` = 800: "cat" typed at T,
      "cate" at T+50 and "categ" at T+900. The trailing timer of the first
      window fires at T+800, and the call at T+900 falls in the window that
      started then, so a third run follows at T+1600: three runs, not two. */
  lemma ThreeRunsAt0And50And900()
    ensures var T := 10000;
            var events := [CallAt(T, "cat"), CallAt(T + 50, "cate"), FireAt(T + 800),
                           CallAt(T + 900, "categ"), FireAt(T + 1600)];
            Exec(Defaults, 800, Init(), events).1 ==
              [Run(T, Some("cat")), Run(T + 800, Some("cate")), Run(T + 1600, Some("categ"))]
  {
    var T := 10000;
    var s0: State<string> := Init();
    var e := [CallAt(T, "cat"), CallAt(T + 50, "cate"), FireAt(T + 800),
              CallAt(T + 900, "categ"), FireAt(T + 1600)];
    var s1 := Call(Defaults, 800, s0, T, "cat").next;
    assert s1 == State(T, None, None);
    var s2 := Call(Defaults, 800, s1, T + 50, "cate").next;
    assert s2 == State(T, Some(T + 800), Some("cate"));
    var s3 := Fire(Defaults, s2, T + 800).next;
    assert s3 == State(T + 800, None, None);
    var s4 := Call(Defaults, 800, s3, T + 900, "categ").next;
    assert s4 == State(T + 800, Some(T + 1600), Some("categ"));
    var s5 := Fire(Defaults, s4, T + 1600).next;
    assert Exec(Defaults, 800, s5, []).1 == [];
    assert Exec(Defaults, 800, s4, e[4..]).1 == [Run(T + 1600, Some("categ"))];
    assert Exec(Defaults, 800, s3, e[3..]).1 == [Run(T + 1600, Some("categ"))];
    assert Exec(Defaults, 800, s2, e[2..]).1 == [Run(T + 800, Some("cate")), Run(T + 1600, Some("categ"))];
    assert Exec(Defaults, 800, s1, e[1..]).1 == [Run(T + 800, Some("cate")), Run(T + 1600, Some("categ"))];
  }
}

=== FILE: utils.dfy ===
/** The collection helpers and the identifier function of `utils.py`. */
module Utils {
  import opened Wrappers
  import opened PercentEncoding

  /** Pairs up equal-length sequences position by position (`izip`). */
  function Zip<T>(a: seq<T>, b: seq<T>): (r: seq<(T, T)>)
    requires |a| == |b|
    ensures |r| == |a|
    ensures forall k :: 0 <= k < |r| ==> r[k] == (a[k], b[k])
  {
    if a == [] then [] else [(a[0], b[0])] + Zip(a[1..], b[1..])
  }

  /** `pair_with_next(iterator)`: the input zipped with itself shifted by
      one, the first element (taken eagerly with `next`) appended at the
      end. An empty input makes that `next` raise, written `None`. */
  function PairWithNext<T>(xs: seq<T>): (r: Option<seq<(T, T)>>)
    ensures r.None? <==> xs == []
    ensures r.Some? ==> |r.value| == |xs|
  {
    if xs == [] then None else Some(Zip(xs, xs[1..] + [xs[0]]))
  }

  /** Each element is paired with its successor and the last one with the
      first; a single element is paired with itself. */
  lemma PairWithNextPairs<T>(xs: seq<T>)
    requires xs != []
    ensures forall k :: 0 <= k < |xs| ==> PairWithNext(xs).value[k] == (xs[k], xs[(k + 1) % |xs|])
    ensures |xs| == 1 ==> PairWithNext(xs).value == [(xs[0], xs[0])]
  {
    var shifted := xs[1..] + [xs[0]];
    forall k | 0 <= k < |xs|
      ensures shifted[k] == xs[(k + 1) % |xs|]
    {
      if k + 1 < |xs| {
        assert shifted[k] == xs[1..][k];
      }
    }
  }

  /** The pairs form a cycle: the second half of each pair is the first
      half of the next one, wrapping around. */
  lemma PairWithNextChains<T>(xs: seq<T>, k: nat)
    requires k < |xs|
    ensures PairWithNext(xs).value[k].1 == PairWithNext(xs).value[(k + 1) % |xs|].0
  {
    PairWithNextPairs(xs);
  }

  /** Why `ichunk` raises: `islice` refuses a negative size. */
  datatype ChunkError = NegativeSize

  function Min(a: int, b: int): int {
    if a <= b then a else b
  }

  /** `ichunk(iterable, chunk_size)` with every chunk read in full before
      the next is asked for: repeated `islice`s of `chunk_size` elements,
      stopping as soon as one comes back empty. A size of 0 therefore gives
      no chunks at all. */
  function Ichunk<T>(xs: seq<T>, size: int): (r: Result<seq<seq<T>>, ChunkError>)
    ensures r.Err? <==> size < 0
    ensures size == 0 ==> r == Ok([])
    decreases |xs|
  {
    if size < 0 then Err(NegativeSize)
    else if size == 0 || xs == [] then Ok([])
    else
      var n := Min(size, |xs|);
      match Ichunk(xs[n..], size)
      case Ok(rest) => Ok([xs[..n]] + rest)
      case Err(e) => Err(e)
  }

  /** The elements of a sequence of chunks, in order. */
  function Concat<T>(chunks: seq<seq<T>>): seq<T> {
    if chunks == [] then [] else chunks[0] + Concat(chunks[1..])
  }

  /** For a positive size the chunks concatenate back to the input. */
  lemma {:induction false} IchunkConcat<T>(xs: seq<T>, size: int)
    requires size > 0
    ensures Ichunk(xs, size).Ok?
    ensures Concat(Ichunk(xs, size).value) == xs
    decreases |xs|
  {
    if xs != [] {
      var n := Min(size, |xs|);
      IchunkConcat(xs[n..], size);
      var r := Ichunk(xs, size).value;
      assert r == [xs[..n]] + Ichunk(xs[n..], size).value;
      assert r[1..] == Ichunk(xs[n..], size).value;
      assert xs[..n] + xs[n..] == xs;
    }
  }

  /** For a positive size every chunk is non-empty and all but the last
      hold exactly `size` elements. */
  lemma {:induction false} IchunkSizes<T>(xs: seq<T>, size: int, k: nat)
    requires size > 0 && Ichunk(xs, size).Ok? && k < |Ichunk(xs, size).value|
    ensures Ichunk(xs, size).value[k] != []
    ensures k < |Ichunk(xs, size).value| - 1 ==> |Ichunk(xs, size).value[k]| == size
    decreases |xs|
  {
    var n := Min(size, |xs|);
    var rest := Ichunk(xs[n..], size);
    assert Ichunk(xs, size).value == [xs[..n]] + rest.value;
    if k > 0 {
      IchunkSizes(xs[n..], size, k - 1);
    }
  }

  /** A lower-case hexadecimal digit, as `hexdigest` writes it. */
  function LowerHexDigit(d: nat): (c: char)
    requires d < 16
    ensures IsHexDigit(c) && HexValue(c) == d
    ensures !('A' <= c <= 'F')
  {
    if d < 10 then ('0' as int + d) as char else ('a' as int + d - 10) as char
  }

  /** `hexdigest()`: two lower-case digits per byte, high nibble first. */
  function HexDigest(bs: seq<Byte>): (r: string)
    ensures |r| == 2 * |bs|
  {
    if bs == [] then [] else [LowerHexDigit(bs[0] / 16), LowerHexDigit(bs[0] % 16)] + HexDigest(bs[1..])
  }

  /** Reading the digits back in pairs gives the bytes. */
  lemma {:induction false} HexDigestDecodes(bs: seq<Byte>, k: nat)
    requires k < |bs|
    ensures IsHexDigit(HexDigest(bs)[2 * k]) && IsHexDigit(HexDigest(bs)[2 * k + 1])
    ensures HexValue(HexDigest(bs)[2 * k]) * 16 + HexValue(HexDigest(bs)[2 * k + 1]) == bs[k]
  {
    var r := HexDigest(bs);
    var head := [LowerHexDigit(bs[0] / 16), LowerHexDigit(bs[0] % 16)];
    assert r == head + HexDigest(bs[1..]);
    if k > 0 {
      HexDigestDecodes(bs[1..], k - 1);
      assert r[2 * k] == HexDigest(bs[1..])[2 * (k - 1)];
      assert r[2 * k + 1] == HexDigest(bs[1..])[2 * (k - 1) + 1];
    }
  }

  /** `mkid(s)`: the first 8 characters of the hexadecimal SHA-1 digest of
      the UTF-8 bytes of `s`; `sha1` is the digest function. */
  function Mkid(sha1: seq<Byte> -> seq<Byte>, s: string): (r: string)
    ensures |sha1(Utf8String(s))| >= 4 ==> |r| == 8
    ensures forall i :: 0 <= i < |r| ==> IsHexDigit(r[i]) && !('A' <= r[i] <= 'F')
  {
    var h := HexDigest(sha1(Utf8String(s)));
    var r := if |h| <= 8 then h else h[..8];
    assert forall i :: 0 <= i < |r| ==> r[i] == h[i];
    assert forall i :: 0 <= i < |r| ==> IsHexDigit(r[i]) && !('A' <= r[i] <= 'F') by {
      forall i | 0 <= i < |r|
        ensures IsHexDigit(r[i]) && !('A' <= r[i] <= 'F')
      {
        HexDigestDigit(sha1(Utf8String(s)), i);
      }
    }
    r
  }

  lemma {:induction false} HexDigestDigit(bs: seq<Byte>, i: nat)
    requires i < 2 * |bs|
    ensures IsHexDigit(HexDigest(bs)[i]) && !('A' <= HexDigest(bs)[i] <= 'F')
  {
    if i >= 2 {
      HexDigestDigit(bs[1..], i - 2);
      assert HexDigest(bs)[i] == HexDigest(bs[1..])[i - 2];
    }
  }

  /** The identifier spells out the first four bytes of the digest: equal
      identifiers mean equal digest prefixes. */
  lemma MkidSpellsDigest(sha1: seq<Byte> -> seq<Byte>, s: string, k: nat)
    requires |sha1(Utf8String(s))| >= 4 && k < 4
    ensures HexValue(Mkid(sha1, s)[2 * k]) * 16 + HexValue(Mkid(sha1, s)[2 * k + 1]) == sha1(Utf8String(s))[k]
  {
    HexDigestDecodes(sha1(Utf8String(s)), k);
  }
}

=== FILE: wikicode.dfy ===
/** Parsed wikitext as the snippet parsers see it through mwparserfromhell:
    a sequence of nodes, their wikitext rendering (`str(node)`), the
    newline collapsing of `strip_code`, template-name matching, the
    recursive template and tag filters, and the flat split into sections.
    Parsing itself belongs to the library and is a parameter wherever it is
    needed. */
module Wikicode {
  import opened Wrappers
  import opened Strings

  /** Template names, tag names and link and heading titles are plain text;
      template parameters, tag contents and link texts are wikicode. A tag
      written in wiki markup (`''x''`, `*`) carries that markup; a link
      without a `|text` part has `hasText` false and no text nodes. */
  datatype Node =
    | Text(value: string)
    | Template(name: string, params: seq<Param>)
    | Tag(tag: string, contents: seq<Node>, markup: Option<string>, selfClosing: bool)
    | Wikilink(title: string, hasText: bool, text: seq<Node>)
    | Heading(level: nat, title: string)
    | Comment(comment: string)

  /** A template parameter; `showkey` is set when it was written `name=value`. */
  datatype Param = Param(name: string, value: seq<Node>, showkey: bool)

  function Repeat(c: char, n: nat): (r: string)
    ensures |r| == n
    ensures forall i :: 0 <= i < n ==> r[i] == c
  {
    if n == 0 then [] else [c] + Repeat(c, n - 1)
  }

  /** A tag around already rendered contents. */
  function RenderTag(tag: string, markup: Option<string>, selfClosing: bool, body: string): string {
    match markup
    case Some(m) => if selfClosing then m else m + body + m
    case None => if selfClosing then "<" + tag + "/>" else "<" + tag + ">" + body + "</" + tag + ">"
  }

  /** `str(node)`: the node's wikitext. */
  function Render(n: Node): string
    decreases n
  {
    match n
    case Text(v) => v
    case Template(name, params) => "{{" + name + RenderParams(params) + "}}"
    case Tag(t, contents, markup, selfClosing) => RenderTag(t, markup, selfClosing, RenderAll(contents))
    case Wikilink(title, hasText, text) =>
      "[[" + title + (if hasText then "|" + RenderAll(text) else "") + "]]"
    case Heading(level, title) => Repeat('=', level) + title + Repeat('=', level)
    case Comment(c) => "<!--" + c + "-->"
  }

  /** `str(param)`: `name=value` when the key is shown, else the value. */
  function RenderParam(p: Param): string
    decreases p
  {
    (if p.showkey then p.name + "=" else "") + RenderAll(p.value)
  }

  function RenderParams(ps: seq<Param>): string
    decreases ps
  {
    if ps == [] then "" else "|" + RenderParam(ps[0]) + RenderParams(ps[1..])
  }

  /** `str(wikicode)`: the concatenated wikitext of the nodes. */
  function RenderAll(ns: seq<Node>): string
    decreases ns
  {
    if ns == [] then "" else Render(ns[0]) + RenderAll(ns[1..])
  }

  lemma {:induction false} RenderAllAppend(a: seq<Node>, b: seq<Node>)
    ensures RenderAll(a + b) == RenderAll(a) + RenderAll(b)
  {
    if a != [] {
      assert (a + b)[1..] == a[1..] + b;
      RenderAllAppend(a[1..], b);
    } else {
      assert a + b == b;
    }
  }

  predicate IsNewline(c: char) {
    c == '\n'
  }

  /** The `collapse` step of `strip_code`: newlines are stripped from both
      ends, then every run of three newlines is replaced by two until none
      is left. */
  function Collapse(s: string): (r: string)
    ensures !Contains(r, "\n\n\n")
    ensures r == [] || (r[0] != '\n' && r[|r| - 1] != '\n')
  {
    CollapseRuns(StripBy(s, IsNewline))
  }

  function CollapseRuns(s: string): (r: string)
    ensures !Contains(r, "\n\n\n")
    ensures s == [] ==> r == []
    ensures s != [] && s[0] != '\n' && s[|s| - 1] != '\n' ==> r != [] && r[0] == s[0] && r[|r| - 1] == s[|s| - 1]
    decreases |s|
  {
    if Contains(s, "\n\n\n") then
      var t := Replace(s, "\n\n\n", "\n\n");
      ReplaceShortens(s, "\n\n\n", "\n\n");
      if s != [] && s[|s| - 1] != '\n' then ReplaceKeepsLast(s, "\n\n\n", "\n\n"); CollapseRuns(t)
      else CollapseRuns(t)
    else s
  }

  /** Text that is already collapsed is left alone. */
  lemma CollapseOfCollapsed(s: string)
    requires !Contains(s, "\n\n\n") && (s == [] || (s[0] != '\n' && s[|s| - 1] != '\n'))
    ensures Collapse(s) == s
  {
    assert LStripBy(s, IsNewline) == s;
    assert RStripBy(s, IsNewline) == s;
  }

  /** Collapsing twice is collapsing once. */
  lemma CollapseIdempotent(s: string)
    ensures Collapse(Collapse(s)) == Collapse(s)
  {
    CollapseOfCollapsed(Collapse(s));
  }

  /** `Wikicode.matches` (mwparserfromhell 0.4): both names are stripped of
      white space and compared with their first characters upper-cased. */
  function NameMatches(name: string, other: string): (r: bool)
    ensures UStrip(name) == UStrip(other) ==> r
    ensures r ==> |UStrip(name)| == |UStrip(other)| && (UStrip(name) != [] ==> UStrip(name)[1..] == UStrip(other)[1..])
  {
    var a := UStrip(name);
    var b := UStrip(other);
    if a != [] && b != [] then
      var x, y := [UnicodeUpper(a[0])] + a[1..], [UnicodeUpper(b[0])] + b[1..];
      assert x[1..] == a[1..] && y[1..] == b[1..];
      x == y
    else a == b
  }

  /** `matches_any(template, names)`. */
  predicate MatchesAny(name: string, names: seq<string>) {
    exists i :: 0 <= i < |names| && NameMatches(name, names[i])
  }

  lemma NameMatchesSymmetric(a: string, b: string)
    ensures NameMatches(a, b) <==> NameMatches(b, a)
  {
  }

  /** The names of all templates, at any depth (`filter_templates()`). */
  function TemplateNames(ns: seq<Node>): (r: seq<string>)
    ensures forall i :: 0 <= i < |ns| && ns[i].Template? ==> ns[i].name in r
    decreases ns
  {
    if ns == [] then [] else TemplateNamesIn(ns[0]) + TemplateNames(ns[1..])
  }

  function TemplateNamesIn(n: Node): (r: seq<string>)
    ensures n.Template? ==> n.name in r
    decreases n
  {
    match n
    case Template(name, params) => [name] + TemplateNamesInParams(params)
    case Tag(_, contents, _, _) => TemplateNames(contents)
    case Wikilink(_, _, text) => TemplateNames(text)
    case _ => []
  }

  function TemplateNamesInParams(ps: seq<Param>): seq<string>
    decreases ps
  {
    if ps == [] then [] else TemplateNames(ps[0].value) + TemplateNamesInParams(ps[1..])
  }

  /** The names of all tags, at any depth (`filter_tags()`). */
  function TagNames(ns: seq<Node>): (r: seq<string>)
    ensures forall i :: 0 <= i < |ns| && ns[i].Tag? ==> ns[i].tag in r
    decreases ns
  {
    if ns == [] then [] else TagNamesIn(ns[0]) + TagNames(ns[1..])
  }

  function TagNamesIn(n: Node): (r: seq<string>)
    ensures n.Tag? ==> n.tag in r
    decreases n
  {
    match n
    case Template(_, params) => TagNamesInParams(params)
    case Tag(tag, contents, _, _) => [tag] + TagNames(contents)
    case Wikilink(_, _, text) => TagNames(text)
    case _ => []
  }

  function TagNamesInParams(ps: seq<Param>): seq<string>
    decreases ps
  {
    if ps == [] then [] else TagNames(ps[0].value) + TagNamesInParams(ps[1..])
  }

  /** The index of the first top-level heading at or after `from`, or the
      length when there is none. */
  function NextHeading(ns: seq<Node>, from: nat): (j: nat)
    requires from <= |ns|
    ensures from <= j <= |ns|
    ensures j < |ns| ==> ns[j].Heading?
    ensures forall k :: from <= k < j ==> !ns[k].Heading?
    decreases |ns| - from
  {
    if from == |ns| || ns[from].Heading? then from else NextHeading(ns, from + 1)
  }

  /** A section of the flat split: a heading and the nodes up to the next
      heading. */
  predicate IsHeadedSection(sec: seq<Node>) {
    |sec| > 0 && sec[0].Heading? && forall k :: 1 <= k < |sec| ==> !sec[k].Heading?
  }

  /** `get_sections(include_lead=True, include_headings=True, flat=True)`:
      the lead (the nodes before the first heading, possibly none), then one
      section per top-level heading. */
  function Sections(ns: seq<Node>): (r: seq<seq<Node>>)
    ensures |r| >= 1
    ensures forall k :: 0 <= k < |r[0]| ==> !r[0][k].Heading?
    ensures forall i :: 1 <= i < |r| ==> IsHeadedSection(r[i])
  {
    var j := NextHeading(ns, 0);
    [ns[..j]] + HeadedSections(ns[j..])
  }

  function HeadedSections(ns: seq<Node>): (r: seq<seq<Node>>)
    requires ns == [] || ns[0].Heading?
    ensures forall i :: 0 <= i < |r| ==> IsHeadedSection(r[i])
    decreases |ns|
  {
    if ns == [] then []
    else
      var j := NextHeading(ns, 1);
      [ns[..j]] + HeadedSections(ns[j..])
  }

  function Flatten<T>(xss: seq<seq<T>>): seq<T> {
    if xss == [] then [] else xss[0] + Flatten(xss[1..])
  }

  /** The sections put back together are the page: the assertion in
      `scripts/snippet_parser.py` that the rendered sections concatenate to
      the input can never fail. */
  lemma SectionsConcat(ns: seq<Node>)
    ensures Flatten(Sections(ns)) == ns
  {
    var j := NextHeading(ns, 0);
    HeadedSectionsConcat(ns[j..]);
    assert Flatten(Sections(ns)) == ns[..j] + Flatten(HeadedSections(ns[j..]));
  }

  lemma {:induction false} HeadedSectionsConcat(ns: seq<Node>)
    requires ns == [] || ns[0].Heading?
    ensures Flatten(HeadedSections(ns)) == ns
    decreases |ns|
  {
    if ns != [] {
      var j := NextHeading(ns, 1);
      HeadedSectionsConcat(ns[j..]);
      assert Flatten(HeadedSections(ns)) == ns[..j] + Flatten(HeadedSections(ns[j..]));
    }
  }

  lemma {:induction false} RenderFlatten(xss: seq<seq<Node>>)
    ensures RenderAll(Flatten(xss)) == Join("", RenderEach(xss))
  {
    if xss != [] {
      RenderFlatten(xss[1..]);
      RenderAllAppend(xss[0], Flatten(xss[1..]));
      if |xss| == 1 {
        assert Flatten(xss[1..]) == [];
      }
    }
  }

  function RenderEach(xss: seq<seq<Node>>): (r: seq<string>)
    ensures |r| == |xss|
  {
    if xss == [] then [] else [RenderAll(xss[0])] + RenderEach(xss[1..])
  }

  /** `''.join(unicode(s) for s in sections) == wikitext` for any parse of
      the page. */
  lemma SectionsRenderToPage(ns: seq<Node>)
    ensures Join("", RenderEach(Sections(ns))) == RenderAll(ns)
  {
    SectionsConcat(ns);
    RenderFlatten(Sections(ns));
  }
}

=== FILE: wizard.dfy ===
/** The custom-list wizard of static/js/custom.js: a current card, a stack
    of earlier cards for the back button, the creation request in flight,
    and the re-entrancy lock that defers (through a zero-delay timer) any
    wizard call made while another one runs. A card's `start` and `end`
    are modelled by their effect on this state; their DOM work is left
    out. A call that throws leaves the lock held, as the code does. */
module Wizard {
  import opened Wrappers
  import CustomCards

  datatype CardId = Landing | SelectArticles | ImportTitles | ImportPetScan | Progress | Created | Failed

  /** The element id each card answers to in `getId()`. */
  function Id(c: CardId): string {
    match c
    case Landing => "custom-landing-card"
    case SelectArticles => "select-articles-card"
    case ImportTitles => "import-article-titles-card"
    case ImportPetScan => "import-petscan-card"
    case Progress => "progress-card"
    case Created => "custom-card-end"
    case Failed => "custom-card-failed"
  }

  /** `this.cards.filter((c) => c.getId() == id)[0]`, `None` for
      `undefined`. */
  function CardNamed(id: string): (r: Option<CardId>)
    ensures r.Some? ==> Id(r.value) == id
  {
    if id == Id(Landing) then Some(Landing)
    else if id == Id(SelectArticles) then Some(SelectArticles)
    else if id == Id(ImportTitles) then Some(ImportTitles)
    else if id == Id(ImportPetScan) then Some(ImportPetScan)
    else if id == Id(Progress) then Some(Progress)
    else if id == Id(Created) then Some(Created)
    else if id == Id(Failed) then Some(Failed)
    else None
  }

  /** Every card is found by its own id, so the ids are distinct. */
  lemma CardNamedId(c: CardId)
    ensures CardNamed(Id(c)) == Some(c)
  {
  }

  /** The cards whose `submit` is not `null`. */
  predicate HasSubmit(c: CardId) {
    c == SelectArticles || c == ImportTitles || c == ImportPetScan
  }

  /** The extra arguments `start` receives: none, the creation request
      (`$ajax`), or the server's response. */
  datatype Args = NoArgs | WithRequest(request: nat) | WithResponse(pageCount: nat)

  /** A public wizard method, as wrapped by `r`. */
  datatype Call = AdvanceTo(id: string, args: Args) | LandAt(id: string) | Back

  /** What the cards did, in order: start and end, and the abort of a
      request. */
  datatype Lifecycle = Started(card: CardId) | Ended(card: CardId) | Aborted(request: nat)

  datatype Wizard = Wizard(
    current: Option<CardId>,
    history: seq<CardId>,
    backShown: bool,
    submitShown: bool,
    locked: bool,
    deferred: seq<Call>,
    inFlight: Option<nat>,
    requests: nat,
    log: seq<Lifecycle>)

  /** The wizard as the constructor leaves it. */
  function Init(): Wizard {
    Wizard(None, [], false, false, false, [], None, 0, [])
  }

  /** The result of a step, and whether it threw. */
  datatype Outcome = Outcome(w: Wizard, threw: bool)

  /** `card.end()`: the progress card aborts and forgets its request (whose
      `always` callback sees the abort and does nothing). */
  function EndCard(w: Wizard, c: CardId): (r: Wizard)
    ensures r.current == w.current && r.history == w.history && r.locked == w.locked
    ensures r.deferred == w.deferred && r.requests == w.requests
    ensures c == Progress ==> r.inFlight.None?
    ensures c != Progress ==> r.inFlight == w.inFlight
    ensures r.log == w.log + [Ended(c)] + (if c == Progress && w.inFlight.Some? then [Aborted(w.inFlight.value)] else [])
  {
    if c == Progress && w.inFlight.Some? then
      w.(log := w.log + [Ended(c), Aborted(w.inFlight.value)], inFlight := None)
    else
      w.(log := w.log + [Ended(c)])
  }

  /** The arguments a card's `start` cannot take: the progress card fails
      on `$ajax.always` when handed a response, and the created card reads
      `response.page_ids` of whatever it is handed, so anything but a
      response makes it throw. */
  predicate StartThrows(c: CardId, args: Args) {
    (c == Progress && args.WithResponse?) || (c == Created && !args.WithResponse?)
  }

  /** `card.start(args)`. The progress card started without a request (when
      the back button returns to it) calls `wizard.back()`, which the lock
      defers. */
  function StartCard(w: Wizard, c: CardId, args: Args): (r: Outcome)
    ensures r.w.current == w.current && r.w.history == w.history && r.w.locked == w.locked
    ensures r.w.requests == w.requests && r.w.log == w.log + [Started(c)]
    ensures r.threw <==> StartThrows(c, args)
    ensures c == Progress && args.NoArgs? ==> r.w.deferred == w.deferred + [Back]
    ensures !(c == Progress && args.NoArgs?) ==> r.w.deferred == w.deferred
    ensures c == Progress && args.WithRequest? ==> r.w.inFlight == Some(args.request)
    ensures !(c == Progress && args.WithRequest?) ==> r.w.inFlight == w.inFlight
  {
    var w1 := w.(log := w.log + [Started(c)]);
    if c == Created then Outcome(w1, !args.WithResponse?)
    else if c != Progress then Outcome(w1, false)
    else
      match args
      case NoArgs => Outcome(w1.(deferred := w1.deferred + [Back]), false)
      case WithRequest(k) => Outcome(w1.(inFlight := Some(k)), false)
      case WithResponse(_) => Outcome(w1, true)
  }

  /** `_switchToCard(id, args)`: end the current card, then start the next
      and make it current. An unknown id throws after the current card has
      ended; a `start` that throws leaves the ended card current. */
  function SwitchTo(w: Wizard, id: string, args: Args): (r: Outcome)
    ensures r.w.history == w.history && r.w.locked == w.locked && r.w.requests == w.requests
    ensures !r.threw ==> CardNamed(id).Some? && r.w.current == CardNamed(id)
    ensures r.threw <==> CardNamed(id).None? || StartThrows(CardNamed(id).value, args)
    ensures r.threw ==> r.w.current == w.current
    ensures var ended := if w.current.Some? then EndCard(w, w.current.value) else w;
            CardNamed(id).Some? ==> r.w.log == ended.log + [Started(CardNamed(id).value)]
  {
    var ended := if w.current.Some? then EndCard(w, w.current.value) else w;
    match CardNamed(id)
    case None => Outcome(ended, true)
    case Some(c) =>
      var started := StartCard(ended, c, args);
      if started.threw then started else Outcome(started.w.(current := Some(c)), false)
  }

  /** `_setUpButtons()`: back is shown iff there is history, submit iff the
      current card has a `submit`. */
  function SetUpButtons(w: Wizard): (r: Wizard)
    requires w.current.Some?
    ensures r.backShown <==> |w.history| > 0
    ensures r.submitShown <==> HasSubmit(w.current.value)
    ensures r.(backShown := w.backShown, submitShown := w.submitShown) == w
  {
    w.(backShown := |w.history| > 0, submitShown := HasSubmit(w.current.value))
  }

  /** Finishes a method body: the buttons are set up unless it threw. */
  function Finish(o: Outcome): (r: Outcome)
    ensures r.w.requests == o.w.requests
  {
    if o.threw || o.w.current.None? then o else Outcome(SetUpButtons(o.w), false)
  }

  /** The body of a public method, run with the lock held. */
  function Body(w: Wizard, call: Call): (r: Outcome)
    ensures r.w.requests == w.requests
  {
    match call
    case AdvanceTo(id, args) =>
      var pushed := if w.current.Some? then w.(history := w.history + [w.current.value]) else w;
      Finish(SwitchTo(pushed, id, args))
    case LandAt(id) =>
      Finish(SwitchTo(w.(history := []), id, NoArgs))
    case Back =>
      if w.history == [] then Outcome(w, true)  // `undefined.getId()`
      else
        var previous := w.history[|w.history| - 1];
        var popped := w.(history := w.history[..|w.history| - 1]);
        Finish(SwitchTo(popped, Id(previous), NoArgs))
  }

  /** The wrapper `r(f)`: while the lock is held the call is queued for a
      zero-delay timer; otherwise the body runs under the lock, which is
      released only if the body returns normally. */
  function Invoke(w: Wizard, call: Call): (r: Outcome)
    ensures w.locked ==> r == Outcome(w.(deferred := w.deferred + [call]), false)
    ensures !w.locked && !r.threw ==> !r.w.locked
    ensures r.threw ==> r.w.locked
    ensures r.w.requests == w.requests
  {
    if w.locked then Outcome(w.(deferred := w.deferred + [call]), false)
    else
      var o := Body(w.(locked := true), call);
      if o.threw then o else Outcome(o.w.(locked := false), false)
  }

  /** How the creation request ended, as its `always` callback sees it. */
  datatype Response = Failure | Success(hasError: bool, pageCount: nat)

  /** What reaches the wizard from outside. */
  datatype Event =
    | UserCall(call: Call)
    | SubmitClicked(payload: Option<CustomCards.Payload>)
    | RequestDone(response: Response)
    | TimerFires

  /** A response the created card can show: no `error` and some page ids. */
  predicate Good(resp: Response) {
    resp.Success? && !resp.hasError && resp.pageCount > 0
  }

  /** The `always` callback of the request in flight: forget the request,
      then go to the end card for a good response and to the failed card
      otherwise. On an idle wizard the move happens at once, pushing the
      card the wizard was on; on a busy one it is queued. */
  function Complete(w: Wizard, resp: Response): (r: Outcome)
    requires w.inFlight.Some?
    ensures !r.threw && r.w.inFlight.None?
    ensures !w.locked ==>
              !r.w.locked && r.w.current == Some(if Good(resp) then Created else Failed)
              && r.w.history == (if w.current.Some? then w.history + [w.current.value] else w.history)
    ensures w.locked ==>
              r.w.current == w.current && r.w.history == w.history
              && |r.w.deferred| == |w.deferred| + 1 && r.w.deferred[..|w.deferred|] == w.deferred
              && r.w.deferred[|w.deferred|].AdvanceTo?
              && r.w.deferred[|w.deferred|].id == Id(if Good(resp) then Created else Failed)
  {
    CardNamedId(Created);
    CardNamedId(Failed);
    var w1 := w.(inFlight := None);
    if Good(resp) then
      Invoke(w1, AdvanceTo(Id(Created), WithResponse(resp.pageCount)))
    else
      Invoke(w1, AdvanceTo(Id(Failed), NoArgs))
  }

  /** One event. The submit button calls the current card's `submit` (the
      caller computes its payload) and advances to the progress card with a
      fresh request unless it returned `null`. A request is completed only
      while it is in flight: an aborted one has already run its callback
      inside `end()`. */
  function Apply(w: Wizard, e: Event): (r: Outcome)
    ensures r.w.requests >= w.requests
    ensures r.w.requests > w.requests ==>
              e.SubmitClicked? && e.payload.Some? && w.current.Some? && HasSubmit(w.current.value)
    ensures e.SubmitClicked? && (w.current.None? || !HasSubmit(w.current.value)) ==> r.threw
    ensures e.RequestDone? ==> r.w.inFlight.None?
  {
    match e
    case UserCall(call) => Invoke(w, call)
    case SubmitClicked(payload) =>
      if w.current.None? || !HasSubmit(w.current.value) then Outcome(w, true)  // `null` is not a function
      else if payload.None? then Outcome(w, false)
      else
        var k := w.requests + 1;
        Invoke(w.(requests := k), AdvanceTo(Id(Progress), WithRequest(k)))
    case RequestDone(resp) =>
      if w.inFlight.None? then Outcome(w, false) else Complete(w, resp)
    case TimerFires =>
      if w.deferred == [] then Outcome(w, false)
      else Invoke(w.(deferred := w.deferred[1..]), w.deferred[0])
  }

  function Exec(w: Wizard, events: seq<Event>): Wizard
    decreases |events|
  {
    if events == [] then w else Exec(Apply(w, events[0]).w, events[1..])
  }

  /** `advanceToCard(id)` on an idle wizard pushes the current card, ends it,
      starts the new one and sets up the buttons. */
  lemma AdvancePushesCurrent(w: Wizard, c: CardId, args: Args)
    requires !w.locked && w.current.Some? && !StartThrows(c, args)
    ensures var r := Invoke(w, AdvanceTo(Id(c), args));
            !r.threw && !r.w.locked
            && r.w.current == Some(c) && r.w.history == w.history + [w.current.value]
            && r.w.backShown && (r.w.submitShown <==> HasSubmit(c))
            && r.w.log == EndCard(w, w.current.value).log + [Started(c)]
  {
    CardNamedId(c);
  }

  /** `landAtCard(id)` empties the history. */
  lemma LandEmptiesHistory(w: Wizard, c: CardId)
    requires !w.locked && c != Progress && c != Created
    ensures var r := Invoke(w, LandAt(Id(c)));
            !r.threw && r.w.current == Some(c) && r.w.history == [] && !r.w.backShown
            && (r.w.submitShown <==> HasSubmit(c))
  {
    CardNamedId(c);
  }

  /** `back()` pops the most recent card and switches to it (the created
      card, started without a response, would throw). */
  lemma BackPopsHistory(w: Wizard)
    requires !w.locked && w.history != [] && w.history[|w.history| - 1] != Created
    ensures var previous := w.history[|w.history| - 1];
            var r := Invoke(w, Back);
            !r.threw && r.w.current == Some(previous) && r.w.history == w.history[..|w.history| - 1]
            && (r.w.backShown <==> |w.history| > 1)
            && (previous == Progress ==> r.w.deferred == w.deferred + [Back])
  {
    CardNamedId(w.history[|w.history| - 1]);
  }

  /** `back()` with an empty history throws and leaves the lock held. */
  lemma BackOnEmptyHistoryThrows(w: Wizard)
    requires !w.locked && w.history == []
    ensures Invoke(w, Back) == Outcome(w.(locked := true), true)
  {
  }

  /** Going back right after advancing returns to the same card and the
      same history (the card left must not be the progress card, whose
      start would go back once more, nor the created card, whose start
      needs a response). */
  lemma BackUndoesAdvance(w: Wizard, c: CardId, args: Args)
    requires !w.locked && w.current.Some? && w.current.value != Progress && w.current.value != Created
    requires !StartThrows(c, args)
    ensures var a := Invoke(w, AdvanceTo(Id(c), args));
            var b := Invoke(a.w, Back);
            !b.threw && b.w.current == w.current && b.w.history == w.history
  {
    AdvancePushesCurrent(w, c, args);
    var a := Invoke(w, AdvanceTo(Id(c), args));
    BackPopsHistory(a.w);
    assert (w.history + [w.current.value])[..|w.history|] == w.history;
  }

  /** Going back from the end card lands on the progress card, whose start
      queues another `back()`; when the timer runs it, the wizard is back on
      the card the request was submitted from. */
  lemma BackFromEndSkipsProgress(w: Wizard, h: seq<CardId>, x: CardId)
    requires !w.locked && w.deferred == [] && x != Progress && x != Created
    requires w.current == Some(Created) && w.history == h + [x, Progress]
    ensures var b := Invoke(w, Back);
            var t := Apply(b.w, TimerFires);
            !b.threw && !t.threw && t.w.current == Some(x) && t.w.history == h && t.w.deferred == []
  {
    assert (h + [x, Progress])[..|h| + 1] == h + [x];
    assert (h + [x])[..|h|] == h;
    BackPopsHistory(w);
    var b := Invoke(w, Back);
    BackPopsHistory(b.w.(deferred := []));
  }

  /** Once a call has thrown, the lock is never released: every later call
      is only queued, so the cards and the history never change again. */
  lemma {:induction false} StuckLockFreezesCards(w: Wizard, events: seq<Event>)
    requires w.locked
    ensures Exec(w, events).locked
    ensures Exec(w, events).current == w.current && Exec(w, events).history == w.history
    decreases |events|
  {
    if events != [] {
      var o := Apply(w, events[0]);
      assert o.w.locked && o.w.current == w.current && o.w.history == w.history;
      StuckLockFreezesCards(o.w, events[1..]);
    }
  }

  /** A successful response with page ids leads to the end card; any other
      completion leads to the failed card; either way the request is
      forgotten. */
  lemma CompletionRoutes(w: Wizard, resp: Response)
    requires !w.locked && w.inFlight.Some? && w.current == Some(Progress)
    ensures var r := Apply(w, RequestDone(resp));
            !r.threw && r.w.inFlight.None? && !r.w.locked
            && r.w.current == Some(if Good(resp) then Created else Failed)
            && r.w.history == w.history + [Progress]
            && Ended(Progress) in r.w.log && Aborted(w.inFlight.value) !in r.w.log[|w.log|..]
  {
    assert Apply(w, RequestDone(resp)) == Complete(w, resp);
    CompletionLog(w, resp);
    var r := Complete(w, resp);
    assert r.w.log[|w.log|] == Ended(Progress);
    assert r.w.log[|w.log|..] == [Ended(Progress), Started(if Good(resp) then Created else Failed)];
  }

  /** Completion on the progress card ends it (the request is already
      forgotten, so nothing is aborted) and starts the next card. */
  lemma CompletionLog(w: Wizard, resp: Response)
    requires !w.locked && w.inFlight.Some? && w.current == Some(Progress)
    ensures Complete(w, resp).w.log == w.log + [Ended(Progress), Started(if Good(resp) then Created else Failed)]
  {
    var target := if Good(resp) then Created else Failed;
    var pushed := w.(inFlight := None, locked := true, history := w.history + [Progress]);
    assert EndCard(pushed, Progress).log == w.log + [Ended(Progress)];
    CardNamedId(target);
  }

  /** Going back to the created card throws: its `start` reads the page ids
      of a response it is not handed. */
  lemma BackToCreatedThrows(w: Wizard)
    requires !w.locked && w.history != [] && w.history[|w.history| - 1] == Created
    ensures var r := Invoke(w, Back); r.threw && r.w.locked && r.w.current == w.current
  {
    CardNamedId(Created);
  }

  /** Leaving the progress card aborts the request in flight (unless the
      call starts a new request). */
  lemma LeavingProgressAborts(w: Wizard, call: Call)
    requires !w.locked && w.current == Some(Progress) && w.inFlight.Some?
    requires !(call.AdvanceTo? && call.args.WithRequest?)
    ensures var r := Invoke(w, call);
            !r.threw ==> r.w.inFlight.None? && Aborted(w.inFlight.value) in r.w.log
  {
    var r := Invoke(w, call);
    if !r.threw {
      var k := w.inFlight.value;
      match call
      case AdvanceTo(id, args) =>
        var pushed := w.(locked := true, history := w.history + [Progress]);
        assert EndCard(pushed, Progress).log[|w.log| + 1] == Aborted(k);
      case LandAt(id) =>
        var pushed := w.(locked := true, history := []);
        assert EndCard(pushed, Progress).log[|w.log| + 1] == Aborted(k);
      case Back =>
        var popped := w.(locked := true, history := w.history[..|w.history| - 1]);
        assert EndCard(popped, Progress).log[|w.log| + 1] == Aborted(k);
    }
  }

  /** After any call that returns normally the buttons match the state. */
  lemma ButtonsFollowState(w: Wizard, call: Call)
    requires !w.locked
    ensures var r := Invoke(w, call);
            !r.threw ==> r.w.current.Some?
                         && (r.w.backShown <==> |r.w.history| > 0)
                         && (r.w.submitShown <==> HasSubmit(r.w.current.value))
  {
  }

  /** A submit that returns `null` does not advance. */
  lemma NullSubmitStays(w: Wizard)
    requires w.current.Some? && HasSubmit(w.current.value)
    ensures Apply(w, SubmitClicked(None)) == Outcome(w, false)
  {
  }

  /** A submitted payload starts a fresh request on the progress card. */
  lemma SubmitStartsRequest(w: Wizard, p: CustomCards.Payload)
    requires !w.locked && w.current.Some? && HasSubmit(w.current.value)
    ensures var r := Apply(w, SubmitClicked(Some(p)));
            !r.threw && r.w.current == Some(Progress) && r.w.inFlight == Some(w.requests + 1)
            && r.w.requests == w.requests + 1 && r.w.history == w.history + [w.current.value]
  {
    CardNamedId(Progress);
  }
}

=== FILE: wrappers.dfy ===
/** Option and Result: how the model writes down a missing value (Python `None`,
    JavaScript `null`) and an operation that raises or throws instead of returning. */
module Wrappers {

  /** A value that may be absent. */
  datatype Option<+T> = None | Some(value: T) {

    /** The value, or `default` when absent. */
    function GetOr(default: T): T {
      match this
      case Some(v) => v
      case None => default
    }
  }

  /** Either a value or the error the source raises instead of returning one. */
  datatype Result<+T, +E> = Ok(value: T) | Err(error: E) {

    predicate IsFailure() {
      Err?
    }

    function PropagateFailure<U>(): Result<U, E>
      requires Err?
    {
      Err(error)
    }

    function Extract(): T
      requires Ok?
    {
      value
    }
  }
}
